=== FILE: README.md ===
# dandy core, modelled in Dafny

This project models the sequential core of the *dandy* embedded C++ library and the editing core of its bundled
*linenoise* line editor, and proves properties about that model. The parts modelled are:

- **Block devices and NOR flash.** A device is a `seq<bv8>`. Erasing sets bytes to 0xFF. Programming ANDs the new
  bits into the old ones, as NOR flash does. A device call either succeeds or fails by the status an oracle
  hands it (`FlashMemory`).
  - `DBlockDeviceUtils::replace` is the erase-aware read/erase/program writer (`BlockDeviceUtils`).
  - `DBlockDeviceMapper` maps virtual regions to physical ones (`BlockDeviceMapper`).
  - The windowed block-device output stream and cached input stream (`BlockDeviceStreams`).
  - The stub `DNullOutputBlockDevice` (`NullBlockDevice`).
  - The decision logic of the SST26 and IS25 SPI-NOR drivers (`Sst26`, `Is25`, with the shared parts in
    `NorFlash`): JEDEC-ID lookup, erase-command selection, 256-byte program chunking, and address framing. Commands
    are byte sequences on a trace.
- **Byte streams.**
  - Memory input and output streams, the null stream, and `getc`/`putc` (`Streams`).
  - `DStreamUtils::equal` and `copy` (`StreamUtils`).
- **Calendar arithmetic** (`Chrono`):
  - leap years and month lengths;
  - date and time validity;
  - days and seconds counted from 1 January of year 1;
  - `DTimeDelta` arithmetic;
  - the midnight-wrapping `DTimeRange`.
- **Pixel formats** (`Color`). The `DRGB` channel extractors and packers, and conversions between ARGB8888,
  RGBA8888, RGB565, ARGB1555 and RGBA5551, all on `bv32`.
- **Hex codec** (`HexCodec`). `bytesToHex` emits the uppercase alphabet of RFC 4648 section 8; `hexToBytes`
  decodes either case.
- **BMP reading** (`BmpReader`):
  - little-endian header decoding at fixed offsets;
  - line sizes;
  - the palette;
  - bottom-up row addressing with 4-byte row padding.
- **Line editing** (`LineEditor`). The linenoise buffer operations are a state machine over `(text, pos, cap)`:
  - insert, delete, backspace, delete-word, transpose, kill, and cursor moves;
  - completion cycling;
  - history add and resize.
- **Object-model utilities:**
  - RTTI base-chain lookup and casts (`Rtti`);
  - reference counting (`RefCount`);
  - the name-to-object map (`ObjectStorage`);
  - integer min/max/bound/abs (`CoreUtils`);
  - ADC median filtering (`AdcUtils`).

Shared pieces live in `Common` (errno values, the `seek` rule shared by every stream) and `Arith` (C division, 32-bit
wrap, alignment facts, byte conversions). Error codes are the negated errno values of Linux (`EIO` 5, `EACCES` 13,
`ENOSPC` 28, `ERANGE` 34, `ENOSYS` 38, `ENODATA` 61). `EOF` is -1. `BD_ERROR_DEVICE_ERROR` is mbed's -4001. None of
these constants is defined in the modelled files; they come from the platform headers.

`X_ASSERT` is modelled in one of three ways:

- An assertion that a caller's data can trip becomes a `None` result. This covers the overlap check of `addMap`,
  the IS25 erase-table search, and the size checks of the block-device input stream's constructor.
- An assertion that states a duty of the caller becomes a `requires`. This covers `d_strict_rtti_cast`
  (`Rtti.StrictRttiCast`), the `DRef` destructor's zero count (`RefCount.Destroy`), and the IS25 driver's
  `is_valid_read` and `is_valid_program` range checks (`Is25.Read` and `Is25.Program` require the range to lie in
  the device).
- The block-device input stream's `write` asserts unconditionally. `BlockDeviceStreams.InWrite` models the value it
  returns after the assertion, -ENOSYS, and changes nothing.

`DBlockDeviceUtils::replace` (`DBlockDeviceUtils.cpp` lines 44-138) treats the first block and the later blocks
differently:

- For the first block it reads the whole erase block, copies the new bytes in, then erases and programs the whole
  block back. The bytes around the range survive (lines 68-91).
- For a later block the read-back is guarded by the opposite condition. It happens only when the block is replaced in
  full, where the copy overwrites all of it anyway. A final partial block is erased and only the new bytes are
  programmed, so its bytes after the range are left erased (`BlockDeviceUtils.Replace`,
  `BlockDeviceUtils.ReplaceErasesTailExample`).

`BlockDeviceUtils.ReplacePreserving` treats the last block the way the first one is treated, so every byte outside
the range keeps its value. The model of the code as written is kept beside it, and the difference is listed under
Findings.

## Model

| member | source | states |
|---|---|---|
| Common.SeekTarget | dandy/core/stream/DMemoryInputStream.cpp:75-91 | The target of SEEK_SET, SEEK_CUR and SEEK_END is the offset taken from 0, from the position and from the size; an unknown whence gives no target |
| Common.Seek | dandy/core/stream/DMemoryInputStream.cpp:73-101 | An unknown whence fails with -1, a target outside [0, size] with -ERANGE and the position kept, otherwise the position becomes the target and is returned |
| Common.SeekStaysInWindow | dandy/core/stream/DMemoryInputStream.cpp:73-101 | A seek that moves returns a non-negative position and every other outcome is negative; SEEK_CUR by 0 stays at the position and SEEK_END by 0 moves to the size |
| FlashMemory.Erase | dandy/core/utils/DBlockDeviceUtils.cpp:79-82 | Erasing sets exactly the range to 0xFF and keeps every other byte |
| FlashMemory.Program | dandy/core/utils/DBlockDeviceUtils.cpp:88-90 | Programming keeps, in each target byte, only the bits set in both the old and the new byte; bytes outside the range are kept |
| FlashMemory.ProgramAfterErase | dandy/core/utils/DBlockDeviceUtils.cpp:79-90 | Programming a freshly erased range stores the data exactly and leaves the rest of the erased range erased |
| FlashMemory.EffectOutside | dandy/core/utils/DBlockDeviceUtils.cpp:68-126 | A call whose bytes lie in [lo, hi) changes no byte outside that range |
| FlashMemory.Issue | dandy/core/utils/DBlockDeviceUtils.cpp:68-70 | A call is appended to the trace and takes its status from the oracle; it changes the device only when it succeeds |
| NullBlockDevice.Init | dandy/core/block_device/DNullOutputBlockDevice.hpp:26 | `init` succeeds |
| NullBlockDevice.Deinit | dandy/core/block_device/DNullOutputBlockDevice.hpp:27 | `deinit` succeeds |
| NullBlockDevice.Read | dandy/core/block_device/DNullOutputBlockDevice.hpp:29 | `read` returns -1 for every range and hands back the destination buffer unchanged |
| NullBlockDevice.Program | dandy/core/block_device/DNullOutputBlockDevice.hpp:30 | `program` reports success for every range |
| NullBlockDevice.ReadSize | dandy/core/block_device/DNullOutputBlockDevice.hpp:32 | The read size is 1 |
| NullBlockDevice.ProgramSize | dandy/core/block_device/DNullOutputBlockDevice.hpp:33 | The program size is 1, a multiple of the read size |
| NullBlockDevice.Size | dandy/core/block_device/DNullOutputBlockDevice.hpp:34 | The size is UINT32_MAX, a multiple of the read and program sizes |
| NullBlockDevice.ProgramIsForgotten | dandy/core/block_device/DNullOutputBlockDevice.hpp:29-34 | After any program, reading the same range still fails and hands back the caller's buffer, so nothing written can be read back; the program size is a multiple of the read size and both divide the size UINT32_MAX |
| BlockDeviceMapper.VEnd | dandy/core/DBlockDeviceMapper.cpp:84 | The end of a region's window, `vbegin + size` in 64-bit arithmetic: the plain sum when it fits, and never more than it |
| BlockDeviceMapper.PAddr | dandy/core/DBlockDeviceMapper.cpp:86-88 | The physical address of a hit, `pbegin` plus the offset into the window in 64-bit arithmetic: below 2^64, and the plain sum when it fits |
| BlockDeviceMapper.Lookup | dandy/core/DBlockDeviceMapper.cpp:43-46 | Reference lookup: the first region whose half-open window, ending at the wrapped end, holds the address, with the physical address at the same offset into the region |
| BlockDeviceMapper.FindDevice | dandy/core/DBlockDeviceMapper.cpp:79-94 | The loop returns the device of the first region holding the address and the matching physical address, or null with the out parameter left as it was |
| BlockDeviceMapper.AddMap | dandy/core/DBlockDeviceMapper.cpp:48-63 | As written: refused when the new start or its wrapped end lies inside an existing region, else the region is appended at the end |
| BlockDeviceMapper.DisjointNoCommonAddress | dandy/core/DBlockDeviceMapper.cpp:43-46 | Disjoint regions share no address |
| BlockDeviceMapper.AddMapDisjoint | dandy/core/DBlockDeviceMapper.cpp:56-62 | Corrected: refused exactly when the new region overlaps an existing one, else appended |
| BlockDeviceMapper.AddMapDisjointKeepsDisjoint | dandy/core/DBlockDeviceMapper.cpp:56-62 | The corrected check keeps a table of pairwise disjoint regions pairwise disjoint |
| BlockDeviceMapper.LookupDisjointUnique | dandy/core/DBlockDeviceMapper.cpp:79-94 | In a disjoint table the region found is the only one holding the address, so the order of the table does not matter |
| BlockDeviceMapper.RemoveMap | dandy/core/DBlockDeviceMapper.cpp:66-76 | Removal drops the first row for the device; a device the table does not mention leaves it unchanged |
| BlockDeviceMapper.RemoveMapDropsFirst | dandy/core/DBlockDeviceMapper.cpp:66-76 | The table after removal is the rows before the first match followed by the rows after it, in order |
| BlockDeviceMapper.AddThenRemove | dandy/core/DBlockDeviceMapper.cpp:48-76 | Adding a region for a device the table does not mention and then removing that device restores the table |
| BlockDeviceMapper.AddMapAcceptsEnclosing | dandy/core/DBlockDeviceMapper.cpp:58-59 | As written, a region enclosing an existing one is accepted and the table then holds overlapping regions |
| BlockDeviceMapper.WrappingRegionUnreachable | dandy/core/DBlockDeviceMapper.cpp:79-94 | A region whose window would run past 2^64 is never found: its wrapped end lies at or below its start, as for `vbegin` = 2^64 - 16 and `size` 32 |
| BlockDeviceMapper.AddMapRejectsAdjacent | dandy/core/DBlockDeviceMapper.cpp:58-59 | As written, a region ending exactly where an existing one starts is refused although they share no address |
| NorFlash.ProgramChunks | dandy/drivers/spi_flash/sst26/DSST26.cpp:126-146 | Page programs of at most 256 bytes, back to back from the address, tile the request; all but the last are exactly 256 bytes |
| NorFlash.ProgramSendsAllData | dandy/drivers/spi_flash/is25/DIS25.cpp:132-152 | The payloads of the page programs, concatenated, are exactly the data, and none exceeds 256 bytes |
| NorFlash.Frame | dandy/drivers/spi_flash/sst26/DSST26.cpp:236-250 | A command header is the opcode then the address, most significant byte first, 3 bytes for the SST26 and 4 for the IS25; the bytes encode the address reduced to the frame's width |
| NorFlash.FrameAddress | dandy/drivers/spi_flash/sst26/DSST26.cpp:236-250 | The address read back from a header fits its width |
| NorFlash.FrameExact | dandy/drivers/spi_flash/is25/DIS25.cpp:208-223 | An address within the frame's width is sent unchanged |
| NorFlash.FindId | dandy/drivers/spi_flash/sst26/DSST26.cpp:75-83 | The index found is the first table row equal to the id; none exactly when no row equals it |
| Sst26.CapacityAsWritten | dandy/drivers/spi_flash/DSST26_def.h:93-101 | As written, every capacity exceeds 0x1000000 bytes, 16 times the size the comments give |
| Sst26.Capacity | dandy/drivers/spi_flash/DSST26_def.h:93-101 | Corrected: 2, 4 and 8 MB as the comments say, whole numbers of 64K blocks addressable with 3 bytes |
| Sst26.Init | dandy/drivers/spi_flash/sst26/DSST26.cpp:62-109 | Returns 1 exactly when the id is known, recording type and capacity and unlocking protection; an unknown id returns 0 and leaves the state unchanged |
| Sst26.InitUnknownLooksLikeSuccess | dandy/drivers/spi_flash/sst26/DSST26.cpp:85-89 | An unknown chip returns 0, which is BD_ERROR_OK, although the driver keeps size 0 |
| Sst26.InitChecked | dandy/drivers/spi_flash/sst26/DSST26.cpp:62-109 | Corrected: BD_ERROR_OK exactly when the id is known, otherwise BD_ERROR_DEVICE_ERROR and no change |
| Sst26.Deinit | dandy/drivers/spi_flash/sst26/DSST26.cpp:111-115 | `deinit` sends a write disable and returns 0 |
| Sst26.ReadSize | dandy/drivers/spi_flash/sst26/DSST26.cpp:177-183 | The read size is 0 exactly before `init` records a size |
| Sst26.ProgramSize | dandy/drivers/spi_flash/sst26/DSST26.cpp:185-191 | The program size is 0 exactly before `init`, and a multiple of the read size |
| Sst26.EraseSize | dandy/drivers/spi_flash/sst26/DSST26.cpp:193-199 | The erase size is 0 exactly before `init`, a multiple of the program size, and divides 64K |
| Sst26.Size | dandy/drivers/spi_flash/sst26/DSST26.cpp:201-204 | The size is 0 exactly when the geometry getters report 0; its value after `init` is stated by `Sst26.GettersFollowInit` |
| Sst26.GettersFollowInit | dandy/drivers/spi_flash/sst26/DSST26.cpp:177-204 | Read and program size 1 and erase size 4K are reported exactly after a successful `init`, and all are 0 before; `size` is then the capacity `init` recorded for the recognised chip, and 0 for an unknown one |
| Sst26.GetBlockEraseSize | dandy/drivers/spi_flash/sst26/DSST26.cpp:307-330 | The erase block at an address is 8K, 32K or 64K |
| Sst26.BlockSizeUniform | dandy/drivers/spi_flash/sst26/DSST26.cpp:307-330 | On a device of whole 64K blocks, every address of the aligned block holding an address maps to the same block size, and that block lies inside the device |
| Sst26.ZoneBoundaries | dandy/drivers/spi_flash/sst26/DSST26.cpp:312-329 | The zone boundaries near the top of such a device are aligned to the block sizes of the zones they delimit |
| Sst26.EraseStep | dandy/drivers/spi_flash/sst26/DSST26.cpp:154-171 | A step is a block erase when the rest covers the block and the address is aligned to it, else a 4K sector erase; on a 4K-aligned request it is aligned to its own size and never overshoots |
| Sst26.StepAdvances | dandy/drivers/spi_flash/sst26/DSST26.cpp:154-171 | What a step of a 4K-aligned request leaves is again a 4K-aligned request |
| Sst26.ErasePlan | dandy/drivers/spi_flash/sst26/DSST26.cpp:148-175 | The erase loop's commands tile the request exactly and each is the choice the loop makes at its address |
| Sst26.ErasePlanAligned | dandy/drivers/spi_flash/sst26/DSST26.cpp:148-175 | Every command of the plan is aligned to its own size and erases exactly the block the memory map has there, or a 4K sector |
| Sst26.TopZonesMisplaced | dandy/drivers/spi_flash/DSST26_def.h:93-101 | With the capacity as written, the VF016's last 8K block is treated as a 64K block, and a 64K request there becomes one block erase |
| Sst26.CapacityExceedsAddressFrame | dandy/drivers/spi_flash/sst26/DSST26.cpp:236-250 | With the capacity as written, address 0x1000000 is in range yet framed as address 0; the corrected capacities fit in 3 bytes |
| Sst26.Read | dandy/drivers/spi_flash/sst26/DSST26.cpp:117-124 | `read` returns 0 after one READ frame, and the bytes clocked out are the memory from the address on |
| Sst26.Program | dandy/drivers/spi_flash/sst26/DSST26.cpp:126-146 | `program` returns 0; its page-program commands, each at most 256 bytes, tile the range from the address and their payloads concatenate to the data |
| Is25.Capacity | dandy/drivers/spi_flash/is25/DIS25_def.h:101-119 | The capacity is 0 exactly for an unknown type and never exceeds 2^32 |
| Is25.Init | dandy/drivers/spi_flash/is25/DIS25.cpp:59-115 | BD_ERROR_OK exactly when the id is one of the seven known, recording type and capacity; otherwise BD_ERROR_DEVICE_ERROR and no change |
| Is25.VariantsShareCapacity | dandy/drivers/spi_flash/is25/DIS25.cpp:92-112 | The LP and WP variants of the 256 and 512 Mbit parts are distinct types with equal capacities |
| Is25.Deinit | dandy/drivers/spi_flash/is25/DIS25.cpp:117-121 | `deinit` sends a write disable and returns BD_ERROR_OK |
| Is25.ReadSize | dandy/drivers/spi_flash/is25/DIS25.cpp:182-185 | The read size is positive |
| Is25.ProgramSize | dandy/drivers/spi_flash/is25/DIS25.cpp:187-190 | The program size is a positive multiple of the read size |
| Is25.EraseSize | dandy/drivers/spi_flash/is25/DIS25.cpp:192-195 | The erase size is a multiple of the program size, the smallest command of the erase table, and divides every other |
| Is25.GettersIgnoreInit | dandy/drivers/spi_flash/is25/DIS25.cpp:182-195 | The geometry getters answer 1, 1 and 4K in every state, including before `init` when the size is 0 |
| Is25.IsAlignedIsModulo | dandy/drivers/spi_flash/is25/DIS25.cpp:29-35 | For every erase size of the table the mask test equals the remainder test |
| Is25.IsAlignedNeedsPowerOfTwo | dandy/drivers/spi_flash/is25/DIS25.cpp:29-35 | For a size that is not a power of two the mask test differs from alignment |
| Is25.PickErase | dandy/drivers/spi_flash/is25/DIS25.cpp:158-170 | A step is the first table entry that fits the rest and the alignment, or none (the assertion) |
| Is25.PickEraseAligned | dandy/drivers/spi_flash/is25/DIS25.cpp:158-170 | The picked command is aligned to its own size and to 4K |
| Is25.PickEraseFollowsTable | dandy/drivers/spi_flash/is25/DIS25.cpp:23-27 | None exactly when no entry fits; otherwise the first fitting entry, so no larger entry would have fitted |
| Is25.Erase | dandy/drivers/spi_flash/is25/DIS25.cpp:154-180 | The loop never reports more done than requested, and when it completes everything requested is done |
| Is25.EraseGreedy | dandy/drivers/spi_flash/is25/DIS25.cpp:154-180 | Each command issued is the greedy choice at its own address for what is left |
| Is25.EraseAllGreedy | dandy/drivers/spi_flash/is25/DIS25.cpp:154-180 | The whole command list is greedy |
| Is25.EraseAligned | dandy/drivers/spi_flash/is25/DIS25.cpp:154-180 | Every command issued is aligned to its own size, hence to 4K |
| Is25.EraseCompletes | dandy/drivers/spi_flash/is25/DIS25.cpp:154-180 | The loop completes exactly for an empty request or a 4K-aligned start and size; otherwise it reaches a step where nothing fits |
| Is25.EraseTiles | dandy/drivers/spi_flash/is25/DIS25.cpp:154-180 | The commands lie back to back from the address and their sizes add up to the bytes done |
| Is25.EraseCoversRequest | dandy/drivers/spi_flash/is25/DIS25.cpp:154-180 | A 4K-aligned request is erased in full: the commands tile it exactly |
| Is25.StepPreservesAlignment | dandy/drivers/spi_flash/is25/DIS25.cpp:158-175 | No command fits only at a misaligned request, and after a command the rest is aligned exactly when the whole request was |
| Is25.Read | dandy/drivers/spi_flash/is25/DIS25.cpp:123-130 | `read` issues one 4-byte-address READ command for the requested bytes and returns BD_ERROR_OK |
| Is25.Program | dandy/drivers/spi_flash/is25/DIS25.cpp:132-152 | `program` returns 0; its 4-byte-address page-program commands, each at most 256 bytes, tile the range from the address and their payloads concatenate to the data |
| BlockDeviceUtils.BlockStart | dandy/core/utils/DBlockDeviceUtils.cpp:56-57 | The block start is the largest multiple of the erase size at or below the address, with the offset as the remainder |
| BlockDeviceUtils.EraseProgram | dandy/core/utils/DBlockDeviceUtils.cpp:120-126 | On success the erased block holds the data followed by erased bytes; on failure nothing outside the block changed |
| BlockDeviceUtils.RewriteBlock | dandy/core/utils/DBlockDeviceUtils.cpp:104-126 | An optional read, then erase and program; on success the block holds the data then erased bytes and the rest is unchanged; on failure the last call failed and nothing outside the block changed |
| BlockDeviceUtils.FirstBlock | dandy/core/utils/DBlockDeviceUtils.cpp:68-94 | The first block is read, patched from the offset with the head of the source, erased and programmed whole; on success its other bytes keep their values and nothing outside it changes |
| BlockDeviceUtils.Patch | dandy/core/utils/DBlockDeviceUtils.cpp:73-76 | The patched block keeps its bytes outside [offset, offset + length) and holds the piece inside |
| BlockDeviceUtils.LaterBlocks | dandy/core/utils/DBlockDeviceUtils.cpp:104-135 | Nothing outside the touched blocks changes; on success the bytes before the address are unchanged, the range holds the source, and the rest of the last block is erased unless the tail is preserved |
| BlockDeviceUtils.NextBlock | dandy/core/utils/DBlockDeviceUtils.cpp:104-134 | One round takes min(erase size, rest) bytes of the source and advances to the next aligned block |
| BlockDeviceUtils.ReplaceBlocks | dandy/core/utils/DBlockDeviceUtils.cpp:44-138 | A non-empty replace touches only the blocks between the aligned start and end, and on success the range holds the source |
| BlockDeviceUtils.Replace | dandy/core/utils/DBlockDeviceUtils.cpp:44-138 | As written: size 0 returns 0 with no call; on success the range holds the source, the bytes before it and outside the touched blocks are kept, and the tail of a last partial block is erased |
| BlockDeviceUtils.ReplacePreserving | dandy/core/utils/DBlockDeviceUtils.hpp:49-55 | Corrected: on success the range holds the source and every byte outside it keeps its value |
| BlockDeviceUtils.ReplaceErasesTailExample | dandy/core/utils/DBlockDeviceUtils.cpp:107-110 | Replacing 4 bytes at address 2 of a zeroed 8-byte device with 4-byte blocks leaves bytes 6 and 7 at 0xFF |
| BlockDeviceStreams.NewOutStream | dandy/core/stream/DBlockDeviceOutputStream.cpp:43-51 | A new output stream starts at position 0 |
| BlockDeviceStreams.OutWriteOp | dandy/core/stream/DBlockDeviceOutputStream.cpp:57-70 | The length is clamped to the window; a zero length makes no call and returns 0; a failed program gives -EIO with the position kept; success programs exactly those bytes at begin + pos and advances by them, staying within the size; nothing is ever erased |
| BlockDeviceStreams.ProgramConcat | dandy/core/stream/DBlockDeviceOutputStream.cpp:62-69 | Programming two adjacent pieces in turn is programming their concatenation |
| BlockDeviceStreams.OutWriteFits | dandy/core/stream/DBlockDeviceOutputStream.cpp:59-69 | A successful write that fits in the window writes all of its data |
| BlockDeviceStreams.OutWritesAppend | dandy/core/stream/DBlockDeviceOutputStream.cpp:57-70 | Two successful writes leave the device as one write of both pieces and advance the position by their total |
| BlockDeviceStreams.OutSeek | dandy/core/stream/DBlockDeviceOutputStream.cpp:72-104 | -1 for an unknown whence; -ERANGE with the position kept when the target of SEEK_SET, SEEK_CUR or SEEK_END lies outside [0, size]; otherwise the position becomes the target and is returned |
| BlockDeviceStreams.NewInStream | dandy/core/stream/DBlockDeviceInputStream.cpp:46-68 | Both sizes must be positive; the cache is clamped to the window size and starts empty at position 0 |
| BlockDeviceStreams.ResetCache | dandy/core/stream/DBlockDeviceInputStream.cpp:145-149 | The cache is marked invalid; nothing else changes |
| BlockDeviceStreams.DeviceRead | dandy/core/stream/DBlockDeviceInputStream.cpp:159-163 | A delivered read fills the buffer with the device bytes; otherwise the buffer keeps its stale content |
| BlockDeviceStreams.GetChar | dandy/core/stream/DBlockDeviceInputStream.cpp:151-169 | -ENODATA at the end of the window; otherwise one byte, refilling the cache with one read of cacheSize bytes at begin + pos when it is empty or used up, and advancing the position and cache index |
| BlockDeviceStreams.GetCharCoherent | dandy/core/stream/DBlockDeviceInputStream.cpp:151-169 | When the refill delivers, the byte handed out is the device byte at the position and the cache stays coherent with the device |
| BlockDeviceStreams.ReadStep | dandy/core/stream/DBlockDeviceInputStream.cpp:84-94 | One byte of `read` extends the bytes read so far with the next device byte and keeps the cache coherent |
| BlockDeviceStreams.Read | dandy/core/stream/DBlockDeviceInputStream.cpp:80-96 | `read` returns n clamped to what is left of the window, and when every device read delivered, the bytes are the device's from begin + pos |
| BlockDeviceStreams.InWrite | dandy/core/stream/DBlockDeviceInputStream.cpp:98-104 | `write` returns -ENOSYS and changes nothing |
| BlockDeviceStreams.InSeek | dandy/core/stream/DBlockDeviceInputStream.cpp:106-143 | The output stream's seek result, -ERANGE for every whence included; the cache is dropped exactly when the position changes and stays coherent with the device |
| Streams.Clamp | dandy/core/stream/DMemoryInputStream.cpp:56-66 | The transfer length is at most the request and at most the rest, and equals one of them |
| Streams.Attach | dandy/core/stream/DMemoryInputStream.cpp:49-54 | Attaching takes the new bytes and resets the position to 0 |
| Streams.MemInSize | dandy/core/stream/DMemoryInputStream.cpp:108-111 | The size bounds the position and is where a seek to the end by 0 lands |
| Streams.MemInRead | dandy/core/stream/DMemoryInputStream.cpp:56-66 | `read` hands out the next min(n, size - pos) bytes and advances past them; at the end it returns 0 with nothing copied |
| Streams.MemInReadsConcat | dandy/core/stream/DMemoryInputStream.cpp:56-66 | Reading n1 then n2 bytes gives the same bytes and stream as one read of n1 + n2 |
| Streams.MemInWrite | dandy/core/stream/DMemoryInputStream.cpp:68-71 | `write` on an input stream returns -EACCES and changes nothing |
| Streams.MemInSeek | dandy/core/stream/DMemoryInputStream.cpp:73-101 | -1 for an unknown whence, -ERANGE outside [0, size] with the position kept, else the new position |
| Streams.AttachOut | dandy/core/stream/DMemoryOutputStream.cpp:49-54 | Attaching takes the new array and resets the position to 0 |
| Streams.MemOutSize | dandy/core/stream/DMemoryOutputStream.cpp:108-111 | The size bounds the position and is where a seek to the end by 0 lands |
| Streams.MemOutWrite | dandy/core/stream/DMemoryOutputStream.cpp:61-71 | `write` stores min(n, size - pos) bytes of the data at the position, advances past them and leaves the rest of the array alone |
| Streams.MemOutWriteReadBack | dandy/core/stream/DMemoryOutputStream.cpp:61-71 | Reading the written array from the old position gives back exactly the bytes the write accepted |
| Streams.MemOutWritesAppend | dandy/core/stream/DMemoryOutputStream.cpp:61-71 | Two writes in a row store their data back to back |
| Streams.MemOutRead | dandy/core/stream/DMemoryOutputStream.cpp:56-59 | `read` on an output stream returns -EACCES, delivers no bytes and changes nothing |
| Streams.MemOutSeek | dandy/core/stream/DMemoryOutputStream.cpp:73-101 | The input stream's seek rules, and the position stays within the size |
| Streams.NewNullStream | dandy/core/stream/DNullStream.cpp:42-46 | Both counters start at 0 |
| Streams.NullRead | dandy/core/stream/DNullStream.cpp:48-53 | `read` delivers n zero bytes, returns n and adds n to the read counter |
| Streams.NullWrite | dandy/core/stream/DNullStream.cpp:55-59 | `write` returns n and adds n to the write counter |
| Streams.NullSeek | dandy/core/stream/DNullStream.cpp:61-64 | `seek` never fails, whatever the offset and whence, and lands where `tell` reports |
| Streams.NullSize | dandy/core/stream/DNullStream.cpp:71-74 | The null stream holds nothing: `size` is 0 |
| Streams.NullTell | dandy/core/stream/DNullStream.cpp:76-79 | `tell` reports the end of the empty content |
| Streams.Close | dandy/core/stream/DStream.hpp:51 | `close` succeeds with 0 for every stream kind |
| Streams.NullCountsTotals | dandy/core/stream/DNullStream.cpp:48-79 | After any run of reads and writes on a fresh null stream the counters hold the totals requested, and seek, size and tell report 0 |
| Streams.Read | dandy/core/stream/DStream.hpp:51-53 | A read of any stream kind returns at most the bytes asked for, delivering that many, or a negative code with no bytes and the stream unchanged; the base stream gives -ENOSYS |
| Streams.Write | dandy/core/stream/DStream.hpp:51-53 | A write of any stream kind returns at most the bytes given, or a negative code |
| Streams.GetC | dandy/core/stream/DStream.hpp:62-67 | `getc` gives EOF or a byte value 0..255 |
| Streams.GetCMemIn | dandy/core/stream/DStream.hpp:62-67 | On a memory input stream `getc` hands out the byte at the position and moves past it, and gives EOF exactly at the end |
| Streams.LowByte | dandy/core/stream/DStream.hpp:57 | The stored byte is the int modulo 256 |
| Streams.PutC | dandy/core/stream/DStream.hpp:55-60 | `putc` writes the low byte of c and returns c itself when one byte was taken, else EOF |
| Streams.PutCGetCRoundTrip | dandy/core/stream/DStream.hpp:55-67 | A character put into a memory stream comes back from `getc` at the same position as its low byte, while `putc` returned the character unchanged |
| Streams.PutCFull | dandy/core/stream/DStream.hpp:55-60 | `putc` on a full memory output stream returns EOF and changes nothing |
| StreamUtils.Equal | dandy/core/utils/DStreamUtils.cpp:67-80 | Two streams compare equal only when their first characters agree |
| StreamUtils.EqualSymmetric | dandy/core/utils/DStreamUtils.cpp:67-80 | The order of the two streams does not matter |
| StreamUtils.EqualMemInStep | dandy/core/utils/DStreamUtils.cpp:71-78 | One round decides true when both streams end, false at a one-sided end or a differing byte, and otherwise moves both on |
| StreamUtils.EqualMemIn | dandy/core/utils/DStreamUtils.cpp:67-80 | Two memory input streams compare equal exactly when their remaining bytes are the same |
| StreamUtils.EqualNullNeverEnds | dandy/core/utils/DStreamUtils.cpp:67-80 | On two null streams `equal` never returns within any bound |
| StreamUtils.Copy | dandy/core/utils/DStreamUtils.cpp:43-64 | As written: a copy that finishes returns 0 or a negative code and leaves both streams valid |
| StreamUtils.CopyWritesWholeBuffer | dandy/core/utils/DStreamUtils.cpp:55 | Copying fewer than 512 bytes succeeds but moves the output by 512 and fills it after the copied bytes with the buffer's earlier content |
| StreamUtils.CopyErrors | dandy/core/utils/DStreamUtils.cpp:52-59 | A source that fails to read passes its error on with nothing written; a full memory destination turns the first chunk into -ENOSPC |
| StreamUtils.CopyExact | dandy/core/utils/DStreamUtils.cpp:43-64 | Corrected: a copy that finishes returns 0 or a negative code and leaves both streams valid |
| StreamUtils.CopyExactStep | dandy/core/utils/DStreamUtils.cpp:48-60 | A non-empty read is written in full and the copy goes on from there; an empty read ends it with 0 |
| StreamUtils.CopyExactMemory | dandy/core/utils/DStreamUtils.cpp:43-64 | The corrected copy between memory streams stores exactly the rest of the input at the output position, changes no other byte, and moves both streams past it |
| Chrono.IsLeapYear | dandy/chrono/DDateTime.cpp:603-618 | A leap year is divisible by 4 and either not by 100 or by 400 |
| Chrono.CountLeapYears | dandy/chrono/DDateTime.cpp:620-627 | 0 up to year 0 |
| Chrono.CountLeapYearsCounts | dandy/chrono/DDateTime.cpp:620-627 | The closed form equals the number of leap years in 1 .. y |
| Chrono.LengthOfMonth | dandy/chrono/DDateTime.cpp:629-644 | -1 exactly for an invalid year or month, else 28 .. 31, with 29 exactly for February of a leap year and 28 for February of a common year |
| Chrono.DaysBeforeMonthTable | dandy/chrono/DDateTime.cpp:44 | The sum of the lengths of the earlier months is the common-year table sum plus one after February in a leap year |
| Chrono.MonthsMakeYear | dandy/chrono/DDateTime.cpp:629-644 | The twelve month lengths add up to 365, or 366 in a leap year |
| Chrono.ValidDate | dandy/chrono/DDateTime.cpp:104-121 | Valid exactly when the year is at least 1900, the month is 1 .. 12 and the day at least 1; no upper bound on the day |
| Chrono.TotalDays | dandy/chrono/DDateTime.cpp:80-94 | -1 for an invalid date |
| Chrono.YearsClosedForm | dandy/chrono/DDateTime.cpp:86-87 | (y - 1) * 365 + countLeapYears(y - 1) is the sum of the lengths of years 1 .. y - 1 |
| Chrono.TotalDaysFromYearOne | dandy/chrono/DDateTime.hpp:85-91 | A valid date's count is the days of all earlier years since year 1, plus earlier months, plus the day less one |
| Chrono.FirstValidDay | dandy/chrono/DDateTime.cpp:80-94 | 1 January 1900 is day 693595 |
| Chrono.NewYearsDays | dandy/chrono/DDateTime.cpp:80-94 | Consecutive new year's days are a year's length apart |
| Chrono.DaysBeforeYearGrows | dandy/chrono/DDateTime.cpp:80-94 | A later year starts on a larger day count |
| Chrono.MonthWithinYear | dandy/chrono/DDateTime.cpp:80-94 | A month's start plus its length reaches at most the next month's start and at most the year's length |
| Chrono.DateOrder | dandy/chrono/DDateTime.cpp:80-94 | On dates that exist in the calendar the day count is strictly increasing in calendar order |
| Chrono.DayOverflowAliases | dandy/chrono/DDateTime.cpp:104-121 | 31 February 2019 is valid and counts as 3 March 2019 |
| Chrono.TotalSeconds | dandy/chrono/DDateTime.cpp:96-102 | 0 for an invalid date, otherwise the day count times 86400 |
| Chrono.WholeDays | dandy/chrono/DDateTime.cpp:96-102 | The seconds of a valid date divide back into its day count |
| Chrono.ToSeconds | dandy/chrono/DDateTime.cpp:199-204 | A valid time has 0 <= seconds < 86400 |
| Chrono.FromSeconds | dandy/chrono/DDateTime.cpp:199-204 | A count of seconds within a day gives a valid time, the inverse of `toSeconds` |
| Chrono.TimeSecondsRoundTrip | dandy/chrono/DDateTime.cpp:182-204 | On valid times the seconds since midnight and the clock reading determine each other |
| Chrono.SameSecondsSameTime | dandy/chrono/DDateTime.cpp:199-204 | Two valid times with the same seconds since midnight are the same time |
| Chrono.ClockBeforeIsFewerSeconds | dandy/chrono/DDateTime.hpp:120-125 | On valid times, reading earlier on the clock is the same as having fewer seconds since midnight |
| Chrono.CompareTimes | dandy/chrono/DDateTime.hpp:120-125 | On valid times `<` is reading earlier on the clock and `==` is the same reading |
| Chrono.TimeComparisonIsClockOrder | dandy/chrono/DDateTime.hpp:120-125 | All six operators on valid times agree with the clock order |
| Chrono.InvalidTimesAlias | dandy/chrono/DDateTime.hpp:120-125 | Out-of-range fields compare by seconds: minute 60 of hour 0 equals 1 o'clock |
| Chrono.CompareStamps | dandy/chrono/DDateTime.hpp:186-191 | `==` and `!=` on date-times are equality of the date-times and its negation |
| Chrono.StampComparison | dandy/chrono/DDateTime.hpp:186-191 | Timestamp operators are equality and order of the timestamps, the negated ones their negations |
| Chrono.DeltaSeconds | dandy/chrono/DDateTime.cpp:245-254 | Corrected: the exact total length in seconds, without 32-bit overflow; related to the code by `Chrono.DeltaSecondsAsWritten` |
| Chrono.DeltaSecondsAsWritten | dandy/chrono/DDateTime.cpp:245-254 | As written, the total is a 32-bit value, equal to the exact total whenever that fits |
| Chrono.DeltaSecondsOverflows | dandy/chrono/DDateTime.cpp:245-254 | A delta of 24856 days comes out as -2147408896 seconds |
| Chrono.AddDelta | dandy/chrono/DDateTime.cpp:301-326 | The length of a sum is the sum of the lengths |
| Chrono.SubDelta | dandy/chrono/DDateTime.cpp:311-333 | The length of a difference is the difference of the lengths, and adding back what was subtracted restores the delta |
| Chrono.DeltaSecondsAdditive | dandy/chrono/DDateTime.cpp:301-333 | The length of a sum or difference of deltas is the sum or difference of their lengths |
| Chrono.DeltaArithmetic | dandy/chrono/DDateTime.cpp:301-333 | Subtracting what was added restores every field, zero is neutral, and addition commutes |
| Chrono.UnitDeltas | dandy/chrono/DDateTime.cpp:264-290 | `ofDays`, `ofHours`, `ofMinutes` and `ofSeconds` measure 86400, 3600, 60 and 1 seconds per unit |
| Chrono.OfDays | dandy/chrono/DDateTime.cpp:264-269 | `ofDays(n)` measures n * 86400 seconds |
| Chrono.OfHours | dandy/chrono/DDateTime.cpp:271-276 | `ofHours(n)` measures n * 3600 seconds |
| Chrono.OfMinutes | dandy/chrono/DDateTime.cpp:278-283 | `ofMinutes(n)` measures n * 60 seconds |
| Chrono.OfSeconds | dandy/chrono/DDateTime.cpp:285-290 | `ofSeconds(n)` measures n seconds |
| Chrono.OfTimeAsWritten | dandy/chrono/DDateTime.cpp:292-299 | As written, minutes stay 0 and the length is hour days plus minute hours plus second seconds |
| Chrono.OfTimeShiftsUnits | dandy/chrono/DDateTime.cpp:292-299 | One o'clock gives a delta of 86400 seconds instead of 3600 |
| Chrono.OfTime | dandy/chrono/DDateTime.cpp:292-299 | Corrected: the delta's length is the time's seconds since midnight, with no whole days |
| Chrono.Contains | dandy/chrono/DDateTime.cpp:355-387 | Only a non-empty range contains anything |
| Chrono.ContainsIsDailyWindow | dandy/chrono/DDateTime.cpp:355-387 | For valid times a range holds exactly the times less than its forward length past begin, counted around midnight |
| Chrono.ValidRange | dandy/chrono/DDateTime.cpp:412-415 | Both ends of a valid range fall within one day |
| Chrono.IsEmpty | dandy/chrono/DDateTime.cpp:417-420 | A valid range is empty exactly when begin and end are the same time |
| Chrono.EmptyIffBeginOutside | dandy/chrono/DDateTime.cpp:412-420 | A valid range is empty exactly when it does not hold its own begin; the default range is empty |
| Color.Red | dandy/color/DRGB.hpp:53-72 | Each channel extractor yields a byte |
| Color.Green | dandy/color/DRGB.hpp:59-61 | The green extractor yields a byte |
| Color.Blue | dandy/color/DRGB.hpp:64-67 | The blue extractor yields a byte |
| Color.Alpha | dandy/color/DRGB.hpp:69-72 | The alpha extractor yields a byte |
| Color.Rgba | dandy/color/DRGB.hpp:80-83 | Packing stores the low byte of each channel where the extractors read it back |
| Color.Rgb | dandy/color/DRGB.hpp:74-78 | `d_rgb` is the four-channel packing with alpha 0xFF, so it is opaque |
| Color.ChannelsRebuild | dandy/color/DRGB.hpp:53-83 | Packing a colour's four channels gives the colour back |
| Color.Gray | dandy/color/DRGB.hpp:85-88 | The weighted gray level (r*11 + g*16 + b*5) / 32; its bounds are stated by `Color.GrayIsAWeightedMean` |
| Color.GrayOf | dandy/color/DRGB.hpp:91-94 | The gray level of a colour's three channels; stated by `Color.GrayOfGray` |
| Color.IsGray | dandy/color/DRGB.hpp:97-100 | The three colour channels agree; stated by `Color.GrayOfGray` |
| Color.GrayIsAWeightedMean | dandy/color/DRGB.hpp:85-100 | For byte channels the gray level is a byte, and three equal channels give their common value |
| Color.GrayOfGray | dandy/color/DRGB.hpp:85-100 | For a gray colour the gray level is its red channel |
| Color.ToRgb565 | dandy/color/DRGB.hpp:103-110 | The packed value is below 2^16 |
| Color.Rgb565Red | dandy/color/DRGB.hpp:162-165 | The red field is five bits |
| Color.Rgb565Green | dandy/color/DRGB.hpp:168-171 | The green field is six bits |
| Color.Rgb565Blue | dandy/color/DRGB.hpp:174-177 | The blue field is five bits |
| Color.Rgb565Fields | dandy/color/DRGB.hpp:162-177 | The 565 extractors return the top 5, 6 and 5 bits of red, green and blue |
| Color.Rgb565ToArgb8888 | dandy/color/DRGB.hpp:228-237 | The widened colour is fully opaque |
| Color.Rgb565WidenNarrow | dandy/color/DRGB.hpp:228-237 | Widening a 565 value and narrowing it back gives it again |
| Color.Bits1555 | dandy/color/DRGB.hpp:113-123 | The ARGB1555 colour bits lie in bits 0-14, clear of bit 15 |
| Color.Bits5551 | dandy/color/DRGB.hpp:126-135 | The RGBA5551 colour bits lie in bits 1-15, clear of bit 0 |
| Color.ToArgb1555AsWritten | dandy/color/DRGB.hpp:113-123 | As written: the packed value is below 2^16 |
| Color.ToArgb1555 | dandy/color/DRGB.hpp:113-123 | Corrected alpha test: the packed value is below 2^16 |
| Color.ToRgba5551AsWritten | dandy/color/DRGB.hpp:126-135 | As written: the packed value is below 2^16 |
| Color.ToRgba5551 | dandy/color/DRGB.hpp:126-135 | Corrected alpha test: the packed value is below 2^16 |
| Color.Bit7 | dandy/color/DRGB.hpp:121 | Bit 7 of a byte is set exactly for values 0x80 and up |
| Color.Decimal80 | dandy/color/DRGB.hpp:122 | The literal 80 has exactly bits 4 and 6 set |
| Color.AlphaTests | dandy/color/DRGB.hpp:113-135 | Corrected: the alpha bit is set exactly for alpha 0x80 and above |
| Color.AlphaTestsAsWritten | dandy/color/DRGB.hpp:122 | As written: the alpha bit is set exactly when bit 4 or 6 of alpha is set |
| Color.AlphaTestMissesBit7 | dandy/color/DRGB.hpp:134 | As written, an opaque colour loses its alpha bit and alpha 0x10 gains it |
| Color.Packed1555Fields | dandy/color/DRGB.hpp:113-123 | The fields of the ARGB1555 colour bits are the top five bits of each channel |
| Color.Packed5551Fields | dandy/color/DRGB.hpp:126-135 | The fields of the RGBA5551 colour bits are the top five bits of each channel |
| Color.Rgba5551Fields | dandy/color/DRGB.hpp:126-135 | Corrected RGBA5551: red, green, blue in bits 11-15, 6-10, 1-5, and bit 0 set exactly for alpha 0x80 and above |
| Color.Argb1555RedAsWritten | dandy/color/DRGB.hpp:180-183 | As written: five bits, which for a 16-bit pixel are the top four bits of the red field under the alpha bit |
| Color.Argb1555Red | dandy/color/DRGB.hpp:180-183 | Corrected: the five bits 10-14 |
| Color.Argb1555Green | dandy/color/DRGB.hpp:186-189 | The green field is five bits |
| Color.Argb1555Blue | dandy/color/DRGB.hpp:192-195 | The blue field is five bits |
| Color.Argb1555AlphaAsWritten | dandy/color/DRGB.hpp:198-201 | As written: the alpha extractor reads the blue field |
| Color.Argb1555Alpha | dandy/color/DRGB.hpp:198-201 | Corrected: a single bit, bit 15 |
| Color.Argb1555HelpersMisread | dandy/color/DRGB.hpp:180-201 | With the extractors as written, a transparent full red reads as 0x0F instead of 0x1F, and a transparent pure blue pixel reads as having alpha |
| Color.Fields1555IgnoreAlpha | dandy/color/DRGB.hpp:180-201 | The colour extractors do not see bit 15 |
| Color.AlphaBit | dandy/color/DRGB.hpp:198-201 | The corrected alpha extractor is non-zero exactly when bit 15 is set |
| Color.Argb1555ColourBits | dandy/color/DRGB.hpp:113-123 | Clearing bit 15 of a packed pixel leaves exactly its colour bits |
| Color.Argb1555Fields | dandy/color/DRGB.hpp:180-201 | The corrected extractors read back every field and the alpha bit `d_to_argb1555` stored |
| Color.WideAlpha | dandy/color/DRGB.hpp:261-271 | Corrected: the widened alpha lies in the top byte only |
| Color.Argb1555ToArgb8888 | dandy/color/DRGB.hpp:261-271 | Corrected: alpha is 0xFF when bit 15 is set and 0 otherwise |
| Color.Argb1555WidenNarrow | dandy/color/DRGB.hpp:261-271 | Corrected: widening a 1555 value and narrowing it back gives it again |
| Color.Argb1555ToRgba8888 | dandy/color/DRGB.hpp:273-283 | Corrected: equal to widening to ARGB8888 then moving alpha to the low byte |
| Color.Misread1555 | dandy/color/DRGB.hpp:180-201 | How the extractors as written see a 16-bit pixel: as the pixel whose red field is the misread red and whose alpha bit is set exactly when the blue field is not 0, with green and blue kept |
| Color.Argb1555ToArgb8888AsWritten | dandy/color/DRGB.hpp:261-271 | As written: the widening of the misread pixel |
| Color.Argb1555ToRgba8888AsWritten | dandy/color/DRGB.hpp:273-283 | As written: the RGBA8888 widening of the misread pixel |
| Color.Argb1555WidenAsWrittenExample | dandy/color/DRGB.hpp:261-283 | As written, opaque black 0x8000 widens to the transparent dark red 0x00840000 (0x84000000 in RGBA8888) and narrows back to 0x4000; corrected, it widens to 0xFF000000 and narrows back to 0x8000 |
| Color.Rgb565ToArgb1555AsWritten | dandy/color/DRGB.hpp:251-258 | As written: the corrected colour bits, with 0x80 in place of the alpha bit 15 |
| Color.Rgb565ToArgb1555 | dandy/color/DRGB.hpp:251-258 | Corrected: a 16-bit value with bit 15 set, red and blue kept, and green cut to its top five bits |
| Color.Rgb565ToArgb1555MarksGreen | dandy/color/DRGB.hpp:257 | As written, black becomes a transparent dark green |
| Color.Argb1555ToRgb565TouchesBlue | dandy/color/DRGB.hpp:292 | As written, green 16 with no blue comes out with blue 1 |
| Color.Argb1555ToRgb565AsWritten | dandy/color/DRGB.hpp:286-293 | As written: a 16-bit value whose red is the misread red, whose green is the 1555 green shifted into the top five of six bits, and whose blue has the top green bit in bit 0 |
| Color.Argb1555ToRgb565 | dandy/color/DRGB.hpp:286-293 | Corrected: a 16-bit value with red and blue kept and the top five of the six green bits equal to the 1555 green |
| Color.Argb1555Through565 | dandy/color/DRGB.hpp:251-293 | Going to RGB565 and back keeps a 1555 colour's fields and marks it opaque |
| Color.ToArgb8888 | dandy/color/DRGB.hpp:138-147 | The conversion from ARGB8888 is the identity |
| Color.ToRgba8888 | dandy/color/DRGB.hpp:150-159 | Red, green, blue, alpha from the top byte down; read back by `Color.Rgba8888Fields` |
| Color.Rgba8888Alpha | dandy/color/DRGB.hpp:204-207 | The alpha channel is a byte |
| Color.Rgba8888Red | dandy/color/DRGB.hpp:210-213 | The red channel is a byte |
| Color.Rgba8888Green | dandy/color/DRGB.hpp:216-219 | The green channel is a byte |
| Color.Rgba8888BlueAsWritten | dandy/color/DRGB.hpp:222-225 | As written: only the low five bits of the blue byte |
| Color.Rgba8888Blue | dandy/color/DRGB.hpp:222-225 | Corrected: the blue channel is a byte |
| Color.Rgba8888BlueTruncates | dandy/color/DRGB.hpp:224 | As written, full blue reads back as 0x1F |
| Color.Rgba8888Fields | dandy/color/DRGB.hpp:204-225 | With blue corrected, the RGBA8888 extractors read back every channel of `d_to_rgba8888` |
| Color.Argb8888Rgba8888RoundTrip | dandy/color/DRGB.hpp:314-318 | ARGB8888 and RGBA8888 convert into each other without loss, both ways |
| Color.Rgba8888ToArgb8888 | dandy/color/DRGB.hpp:314-318 | Moves alpha from the low byte to the top; stated by `Color.Argb8888Rgba8888RoundTrip` and `Color.Rgba8888Channels` |
| Color.Rgb565ToRgba8888 | dandy/color/DRGB.hpp:239-248 | Equal to widening to ARGB8888 then moving alpha to the low byte |
| Color.Rgba8888ToRgb565 | dandy/color/DRGB.hpp:321-328 | Corrected: equal to moving alpha back to the top byte then narrowing to 565 |
| Color.MisreadRgba8888 | dandy/color/DRGB.hpp:222-225 | How the blue extractor as written sees a value: red, green and alpha kept, blue cut to its low five bits |
| Color.Rgba8888ToRgb565AsWritten | dandy/color/DRGB.hpp:321-328 | As written: the 565 narrowing of the misread value |
| Color.Rgba8888ToArgb1555AsWritten | dandy/color/DRGB.hpp:331-339 | As written: the 1555 narrowing of the misread value |
| Color.Rgba8888NarrowAsWrittenExample | dandy/color/DRGB.hpp:239-339 | As written, pure blue 0x001F widened to RGBA8888 0xFFFF narrows back to 3 instead of 0x001F, and to 0x8003 instead of 0x801F in ARGB1555 |
| Color.Rgba8888Channels | dandy/color/DRGB.hpp:314-318 | Moving alpha back to the top byte keeps every channel |
| Color.Rgba8888ToArgb1555Agrees | dandy/color/DRGB.hpp:331-339 | Corrected: narrowing RGBA8888 straight to 1555 equals converting through ARGB8888 |
| Color.Rgba8888ToArgb1555 | dandy/color/DRGB.hpp:331-339 | Corrected blue: the packed value is below 2^16 |
| Color.Rgb565ThroughRgba8888 | dandy/color/DRGB.hpp:239-248 | Corrected: a 565 value comes back unchanged through RGBA8888 |
| HexCodec.NibbleFromChar | dandy/core/utils/DStringUtils.cpp:44-51 | Digits give 0-9, letters of either case a-f give 10-15, anything else 255 |
| HexCodec.BytesToHex | dandy/core/utils/DStringUtils.cpp:89-111 | Two characters per byte, each taken from the digit table, equal to the reference encoding `Hex`; empty input gives the empty string |
| HexCodec.HexIsUppercase | dandy/core/utils/DStringUtils.cpp:97-104 | Every character of an encoding is an uppercase hex digit |
| HexCodec.StrLen | dandy/core/utils/DStringUtils.cpp:116 | `strlen` counts the characters before the first NUL, all of them when there is none |
| HexCodec.PairToByte | dandy/core/utils/DStringUtils.cpp:120 | For two hex digits the byte's high and low nibbles are their values; a low character that is not a hex digit gives 0xFF |
| HexCodec.HexToBytes | dandy/core/utils/DStringUtils.cpp:114-125 | The first strlen/2 bytes of the destination are overwritten one per character pair; the rest is kept |
| HexCodec.DigitValues | dandy/core/utils/DStringUtils.cpp:44-51 | Decoding a digit of the encoder's table gives its position |
| HexCodec.DigitsDecode | dandy/core/utils/DStringUtils.cpp:89-125 | A byte's two digits decode to the byte |
| HexCodec.HexStrLen | dandy/core/utils/DStringUtils.cpp:114-116 | No encoding contains a NUL, so `strlen` sees all of it |
| HexCodec.RoundTrip | dandy/core/utils/DStringUtils.cpp:89-125 | Decoding an encoding into a buffer at least as long writes exactly the bytes at its start |
| HexCodec.CaseInsensitive | dandy/core/utils/DStringUtils.cpp:44-51 | Lowercase digits decode like uppercase ones |
| HexCodec.OddAndNul | dandy/core/utils/DStringUtils.cpp:114-125 | A trailing odd character is ignored, and nothing after a NUL is read |
| BmpReader.LoadU16 | dandy/image/DBMPReader.cpp:43-60 | A 16-bit field is below 2^16 |
| BmpReader.LoadU32 | dandy/image/DBMPReader.cpp:43-60 | A 32-bit field is below 2^32 |
| BmpReader.LoadStoreU16 | dandy/image/DBMPReader.cpp:43-60 | Loading a stored 16-bit value gives it back |
| BmpReader.LoadStoreU32 | dandy/image/DBMPReader.cpp:43-60 | Loading a stored 32-bit value gives it back |
| BmpReader.Field16 | dandy/image/DBMPReader.cpp:100-118 | A 16-bit load reads only the two bytes it covers |
| BmpReader.Field32 | dandy/image/DBMPReader.cpp:100-118 | A 32-bit load reads only the four bytes it covers |
| BmpReader.DecodeHeader | dandy/image/DBMPReader.cpp:89-119 | Every field is in range for its declared type, the signed ones as 32-bit two's complement |
| BmpReader.EncodeHeader | dandy/image/DBMPReader.hpp:61-90 | The written header is 54 bytes |
| BmpReader.SignedPattern | dandy/image/DBMPReader.hpp:71-74 | A signed 32-bit field survives its two's-complement pattern |
| BmpReader.HeaderRoundTrip | dandy/image/DBMPReader.cpp:43-60 | Decoding the bytes of an encoded header gives back every field |
| BmpReader.IsValidType | dandy/image/DBMPReader.cpp:175-178 | For a header in range, valid exactly when the encoded file starts with 'B', 'M' |
| BmpReader.IsNoCompression | dandy/image/DBMPReader.cpp:180-183 | For a header in range, exactly when the compression word at offset 30 reads 0 |
| BmpReader.HasPalette | dandy/image/DBMPReader.cpp:185-188 | A header has a palette exactly when its depth is 8 bits or fewer, and such a palette has at most 256 colours |
| BmpReader.RoundUpMultiple | dandy/image/DBMPReader.hpp:53-58 | Rounding up gives the least multiple of m at or above x, for non-negative x |
| BmpReader.LineSize | dandy/image/DBMPReader.cpp:190-215 | -1 for every unsupported depth, 24 included; positive for a supported depth and a positive width |
| BmpReader.LineSizeHoldsRow | dandy/image/DBMPReader.hpp:53-58 | For a supported depth and positive width the row holds every pixel's bits with less than 32 bits to spare |
| BmpReader.NumberOfColors | dandy/image/DBMPReader.cpp:217-220 | There is at least one colour |
| BmpReader.NumberOfColorsDoubles | dandy/image/DBMPReader.cpp:217-220 | Depth 0 has one colour and each further bit of depth doubles the number, so the count is two to the depth |
| BmpReader.Quads | dandy/image/DBMPReader.hpp:92-98 | Palette entries are read four bytes each, blue, green, red, reserved |
| BmpReader.NewReader | dandy/image/DBMPReader.cpp:62-67 | A new reader has no previous row |
| BmpReader.ReadHeader | dandy/image/DBMPReader.cpp:89-119 | The header is produced exactly when at least 54 bytes arrive from position 0, and is then the decoding of the first 54; the stream is at 54 and the previous row is forgotten |
| BmpReader.ReadPalette | dandy/image/DBMPReader.cpp:121-135 | The palette is read from offset 54, four bytes per colour, and the previous row is forgotten |
| BmpReader.PaddedLineSize | dandy/image/DBMPReader.cpp:149 | The padded row length is the least multiple of 4 at or above the row length |
| BmpReader.SkipRulesAgree | dandy/image/DBMPReader.cpp:150-159 | `rounded % lineSize` equals the true padding exactly for rows of three bytes or more |
| BmpReader.RowStart | dandy/image/DBMPReader.cpp:162 | A row inside the image starts at or after the data offset |
| BmpReader.RowPositionExact | dandy/image/DBMPReader.cpp:160-165 | Where the 32-bit arithmetic does not wrap, the computed seek offset is the exact row start |
| BmpReader.ReadRowBy | dandy/image/DBMPReader.cpp:137-173 | On success the row buffer holds line-size bytes and the row number is kept; a failure keeps the previous row number; a row at or past the height or an unsupported depth fails without touching the stream |
| BmpReader.ReadRowAsWritten | dandy/image/DBMPReader.cpp:137-173 | As written: a success yields a whole line and remembers the row; a failure keeps the previous row number; a row at or past the height fails without touching the stream |
| BmpReader.ReadRow | dandy/image/DBMPReader.cpp:137-173 | Corrected skip: a success yields a whole line and remembers the row; a failure keeps the previous row number; a row at or past the height fails without touching the stream |
| BmpReader.RandomAccessRow | dandy/image/DBMPReader.cpp:160-168 | Off the sequential path a row is read exactly when it lies wholly in the file, and the read yields its bytes |
| BmpReader.SequentialRead | dandy/image/DBMPReader.cpp:150-159 | On the sequential path the row is read from just after the row below it, plus the skip |
| BmpReader.RowStartStep | dandy/image/DBMPReader.cpp:160-165 | Consecutive rows are one padded row apart |
| BmpReader.ReadRowInSync | dandy/image/DBMPReader.cpp:137-173 | Corrected skip: a row is read exactly when it lies in the file, from its own position by either path, and the reader stays in step |
| BmpReader.SequentialSkipMisreads | dandy/image/DBMPReader.cpp:150-159 | As written, for rows of one or two bytes the sequential path reads from 4 - lineSize bytes before the row |
| BmpReader.SequentialSkipExample | dandy/image/DBMPReader.cpp:150-159 | In a bitmap of two one-byte rows, reading row 0 after row 1 returns a padding byte instead of the pixel |
| LineEditor.NewLine | dandy_external/linenoise/linenoise.c:705-726 | An edit starts with an empty line, the cursor at 0, and room for one character less than the buffer |
| LineEditor.Insert | dandy_external/linenoise/linenoise.c:575-599 | With room, the character goes in at the cursor, the tail moves right and the cursor moves past it; a full line is left alone |
| LineEditor.MoveLeft | dandy_external/linenoise/linenoise.c:602-608 | Moving left only moves the cursor back by one, and not past 0 |
| LineEditor.MoveRight | dandy_external/linenoise/linenoise.c:610-616 | Moving right only moves the cursor forward by one, and not past the end |
| LineEditor.MoveHome | dandy_external/linenoise/linenoise.c:618-624 | Home puts the cursor at 0 and keeps the text |
| LineEditor.MoveEnd | dandy_external/linenoise/linenoise.c:626-632 | End puts the cursor at the end and keeps the text |
| LineEditor.Delete | dandy_external/linenoise/linenoise.c:661-668 | The character under the cursor goes and the cursor stays; at the end nothing happens |
| LineEditor.Backspace | dandy_external/linenoise/linenoise.c:671-679 | The character before the cursor goes and the cursor moves back; at the start nothing happens |
| LineEditor.InsertThenBackspace | dandy_external/linenoise/linenoise.c:575-679 | Inserting a character and then backspacing restores the line |
| LineEditor.InsertThenDelete | dandy_external/linenoise/linenoise.c:575-668 | Inserting, moving left and deleting restores the text |
| LineEditor.MoveRightThenLeft | dandy_external/linenoise/linenoise.c:602-616 | Right then left returns to the same position, away from the end |
| LineEditor.Transpose | dandy_external/linenoise/linenoise.c:783-791 | Inside the line the characters either side of the cursor swap and the cursor advances unless on the last character |
| LineEditor.TransposePermutes | dandy_external/linenoise/linenoise.c:783-791 | Ctrl-T only reorders the line's characters |
| LineEditor.TransposeTwiceAtEnd | dandy_external/linenoise/linenoise.c:783-791 | On the last character a second Ctrl-T undoes the first |
| LineEditor.KillLine | dandy_external/linenoise/linenoise.c:862-866 | Ctrl-U empties the line and puts the cursor at 0 |
| LineEditor.KillToEnd | dandy_external/linenoise/linenoise.c:867-871 | Ctrl-K keeps the text before the cursor and the cursor |
| LineEditor.KillProperties | dandy_external/linenoise/linenoise.c:862-871 | Ctrl-K at the start of the line is Ctrl-U, and Ctrl-K twice is Ctrl-K once |
| LineEditor.WordStart | dandy_external/linenoise/linenoise.c:683-695 | The word start lies at or before the cursor |
| LineEditor.WordStartCharacterized | dandy_external/linenoise/linenoise.c:683-695 | Any split into non-spaces then spaces bounded by a space or the start is the one the two backward scans find |
| LineEditor.DeletePrevWord | dandy_external/linenoise/linenoise.c:683-695 | The scans stop at the word start, and the characters between it and the old cursor are removed with the cursor at the word start |
| LineEditor.DeleteTypedWord | dandy_external/linenoise/linenoise.c:683-695 | Ctrl-W after typing a word at the end of a line after a space removes exactly that word |
| LineEditor.EditKey | dandy_external/linenoise/linenoise.c:742-885 | Every key keeps the line well formed and its capacity. No edit happens exactly for keys 3, 10, 14, 16 and 27, for Tab when a completion callback is set, and for Ctrl-D on an empty line. A carriage return and Ctrl-L leave the line unchanged. Without a callback Tab inserts a tab. Each editing key performs its own operation (Ctrl-B moves left, Ctrl-W deletes the previous word, and so on), and any other key is inserted |
| LineEditor.EscapeEdit | dandy_external/linenoise/linenoise.c:804-858 | After ESC, `[3~` deletes under the cursor, `[C`/`[D` move right and left, `[H`/`OH` go home and `[F`/`OF` to the end; `[A`/`[B` are history browsing; every other sequence, and one cut short by a failed read, leaves the line unchanged |
| LineEditor.EscapeAgreesWithKeys | dandy_external/linenoise/linenoise.c:773-877 | The arrow, Home, End and Delete sequences act like Ctrl-F, Ctrl-B, Ctrl-A, Ctrl-E and (on a non-empty line) Ctrl-D; on an empty line Delete changes nothing while Ctrl-D ends the input |
| LineEditor.TypeKeys | dandy_external/linenoise/linenoise.c:575-599 | Typing keeps the line well formed and its capacity |
| LineEditor.TypedAtEnd | dandy_external/linenoise/linenoise.c:575-581 | Typing at the end of the line appends as many of the keys as fit in the capacity, with the cursor after them |
| LineEditor.NextCandidate | dandy_external/linenoise/linenoise.c:317-319 | The next index stays within 0 .. n |
| LineEditor.CycleIsModular | dandy_external/linenoise/linenoise.c:317-319 | After k presses of Tab from 0 the index is k modulo n + 1 |
| LineEditor.CycleVisitsAll | dandy_external/linenoise/linenoise.c:309-333 | n + 1 presses of Tab from the first candidate return to it, having shown every candidate and the original once |
| LineEditor.AcceptAsWritten | dandy_external/linenoise/linenoise.c:328-331 | As written: the buffer holds what the corrected accept stores, but `len` and `pos` are the whole candidate's length |
| LineEditor.AcceptAsWrittenOverruns | dandy_external/linenoise/linenoise.c:328-331 | As written, a candidate longer than the buffer leaves `len` past the characters stored and past the capacity |
| LineEditor.Accept | dandy_external/linenoise/linenoise.c:328-331 | Corrected: the line becomes a prefix of the candidate, the whole candidate or as much as snprintf has room for, with the cursor at its end |
| LineEditor.Complete | dandy_external/linenoise/linenoise.c:284-340 | No candidates gives 0 with the line unchanged; -1 exactly when every key read is Tab; a result of -1 or Escape leaves the line unchanged |
| LineEditor.CompleteFrom | dandy_external/linenoise/linenoise.c:309-333 | From candidate i: -1 exactly when every key is Tab; -1 or Escape leave the line unchanged; any other changed line is one of the candidates accepted |
| LineEditor.NewHistory | dandy_external/linenoise/linenoise.c:905-918 | A fresh state has an empty history of maximum length 0 |
| LineEditor.HistoryAdd | dandy_external/linenoise/linenoise.c:981-1008 | Nothing happens when the history is disabled or the line repeats the newest entry; otherwise the line is appended and the oldest dropped when full; the length never exceeds the maximum |
| LineEditor.HistoryAddIdempotent | dandy_external/linenoise/linenoise.c:981-1008 | Adding the same line twice is adding it once |
| LineEditor.HistorySetMaxLen | dandy_external/linenoise/linenoise.c:1014-1040 | A length below 1 is refused; otherwise the newest min(len, history_len) entries are kept in order |
| LineEditor.SetMaxLenTwice | dandy_external/linenoise/linenoise.c:1014-1040 | Resizing to a then to b equals one resize to min(a, b) with the limit b |
| LineEditor.SetMaxLenGrowKeepsAll | dandy_external/linenoise/linenoise.c:1014-1040 | Growing the limit keeps every entry |
| Rtti.IsExactly | dandy/core/DRTTI.hpp:69-72 | Identity of records; that it implies `derives_from` is `Rtti.ExactlyDerives` |
| Rtti.DerivesFrom | dandy/core/DRTTI.hpp:75-85 | The record itself or, through its base, one of its ancestors; stated by `Rtti.DerivesFromChain` and `Rtti.DerivesFromLoop` |
| Rtti.Chain | dandy/core/DRTTI.hpp:50-60 | The chain starts at the record, follows base links, and ends at a record without a base |
| Rtti.DerivesFromChain | dandy/core/DRTTI.hpp:75-85 | `derives_from` holds exactly for the records on the chain |
| Rtti.DerivesFromLoop | dandy/core/DRTTI.hpp:75-85 | The base-following loop answers exactly the chain membership |
| Rtti.ExactlyDerives | dandy/core/DRTTI.hpp:69-85 | `is_exactly` implies `derives_from`, which is reflexive |
| Rtti.DerivesFromTransitive | dandy/core/DRTTI.hpp:75-85 | `derives_from` is transitive |
| Rtti.DerivesFromOrder | dandy/core/DRTTI.hpp:75-85 | A record derives only from records numbered no higher than itself, bases being declared first |
| Rtti.DerivesFromAntisymmetric | dandy/core/DRTTI.hpp:75-85 | Two records that derive from each other are the same |
| Rtti.RttiCast | dandy/core/DRTTI.hpp:97-115 | Null stays null; an object is returned unchanged when its class derives from the target, null otherwise |
| Rtti.Cast | dandy/core/DRTTI.hpp:110-114 | A non-null object comes back unchanged exactly when the target is on its class's base chain, and null otherwise |
| Rtti.CastProperties | dandy/core/DRTTI.hpp:97-115 | A cast to the object's own class or to a class above a successful cast succeeds, and casting twice is casting once |
| Rtti.StrictRttiCast | dandy/core/DRTTI.hpp:120-126 | Called only when the class derives from the target, and then gives the object itself |
| RefCount.NewRef | dandy/core/DRef.cpp:46-51 | A new object has tag -1, no references and no name |
| RefCount.Retain | dandy/core/DRef.cpp:61-64 | Within the 32-bit range `retain` adds one reference; tag and name stay |
| RefCount.Release | dandy/core/DRef.cpp:67-72 | Within the 32-bit range `release` removes one reference and deletes the object exactly when the count was 1; a surviving object keeps its tag and name and a non-zero count |
| RefCount.Destroy | dandy/core/DRef.cpp:54-58 | Destroying an object with no reference left deletes it |
| RefCount.RetainCounts | dandy/core/DRef.cpp:61-64 | k retains from a non-negative count add exactly k, short of overflow |
| RefCount.ReleaseCounts | dandy/core/DRef.cpp:67-72 | Fewer than n releases from a count of n leave the object alive with the count lowered by their number |
| RefCount.Balanced | dandy/core/DRef.cpp:61-72 | A new object retained k times survives k - 1 releases and is deleted by the k-th |
| RefCount.UnmatchedRelease | dandy/core/DRef.cpp:67-72 | A release without a retain takes a new object's count to -1 without deleting it |
| RefCount.SetName | dandy/core/DRef.cpp:75-97 | The same name changes nothing; null clears the name; otherwise the name becomes a copy equal to the argument |
| RefCount.SetNameIdempotent | dandy/core/DRef.cpp:75-97 | Setting a name twice is setting it once |
| ObjectStorage.Put | dandy/core/DObjectStorage.cpp:51-54 | `put` binds an absent name and leaves an existing binding and every other name alone |
| ObjectStorage.Has | dandy/core/DObjectStorage.cpp:56-59 | A name is present exactly when a `put` of it would leave the names as they are |
| ObjectStorage.Get | dandy/core/DObjectStorage.cpp:61-67 | `get` gives the bound object, or null for an unbound name |
| ObjectStorage.Remove | dandy/core/DObjectStorage.cpp:69-75 | `remove` unbinds the name and keeps every other binding |
| ObjectStorage.LessIrreflexive | dandy/core/DObjectStorage.cpp:77-81 | No name is before itself in the name order |
| ObjectStorage.LessTransitive | dandy/core/DObjectStorage.cpp:77-81 | The name order is transitive |
| ObjectStorage.PutProperties | dandy/core/DObjectStorage.cpp:51-75 | The first `put` of a name wins, and removing it makes room for a new one |
| ObjectStorage.LessTotal | dandy/core/DObjectStorage.cpp:77-81 | The name order is total |
| ObjectStorage.LeastExists | dandy/core/DObjectStorage.cpp:77-81 | Every non-empty set of names has a least element |
| ObjectStorage.Walk | dandy/core/DObjectStorage.cpp:77-81 | `walk` visits every entry exactly once, in strictly ascending name order |
| CoreUtils.DMin | dandy/core/utils/DCoreUtils.hpp:46-47 | The result is one of the arguments and at most both; a tie returns b |
| CoreUtils.DMax | dandy/core/utils/DCoreUtils.hpp:49-50 | The result is one of the arguments and at least both; a tie returns a |
| CoreUtils.DBound | dandy/core/utils/DCoreUtils.hpp:52-54 | With min at most max the result is in [min, max] and is the value when inside; with min above max it is min |
| CoreUtils.MinMaxPair | dandy/core/utils/DCoreUtils.hpp:46-50 | `d_min` and `d_max` together return both arguments |
| CoreUtils.BoundIdempotent | dandy/core/utils/DCoreUtils.hpp:52-54 | Bounding twice by the same range is bounding once |
| CoreUtils.DAbs | dandy/core/utils/DCoreUtils.hpp:56-57 | The result is non-negative and is t or -t |
| CoreUtils.DAbsInt32 | dandy/core/utils/DCoreUtils.hpp:56-57 | On 32-bit ints the negation wraps: the most negative value is its own absolute value |
| CoreUtils.BoundClamps | dandy/core/utils/DCoreUtils.hpp:52-54 | On integers `d_bound` clamps into the range |
| AdcUtils.ReadU12 | dandy/drivers/adc/DADCUtils.hpp:46-50 | The sample is at most 4095 |
| AdcUtils.ReadU12IsTopBits | dandy/drivers/adc/DADCUtils.hpp:46-50 | On a 16-bit reading the sample is its top twelve bits |
| AdcUtils.Sort | dandy/drivers/adc/DADCUtils.hpp:59 | The sorted readings are ascending and a permutation of the readings |
| AdcUtils.CountPermutation | dandy/drivers/adc/DADCUtils.hpp:59 | Counts do not depend on the order of the readings |
| AdcUtils.Median | dandy/drivers/adc/DADCUtils.hpp:52-62 | The median is one of the readings |
| AdcUtils.MedianRanks | dandy/drivers/adc/DADCUtils.hpp:52-62 | At least N/2 + 1 readings are at most the median and at least N - N/2 at least it |
| AdcUtils.MedianFilteredReadU16 | dandy/drivers/adc/DADCUtils.hpp:52-62 | The result is one of the 16-bit readings |
| AdcUtils.MedianFilteredReadU12 | dandy/drivers/adc/DADCUtils.hpp:64-74 | The result is one of the 12-bit samples, so at most 4095 |
| AdcUtils.ConstantReadings | dandy/drivers/adc/DADCUtils.hpp:52-74 | A reading repeated N times is its own median |

## Left out

- SPI transport: chip-select, `SPIExchange`, busy polling (`WaitForCommandCompletion`), `chipErase` and
  `UnlockGlobalBlockProtection` in both drivers are hardware I/O. Commands are byte sequences on a trace. The unlock
  is a flag of the SST26 state.
- `WriteEnable`/`WriteDisable` assert that the WEL status bit changed. That status comes from hardware and is not
  modelled.
- The mbed `BlockDevice` base class is not part of this model. Its `is_valid_erase` check (4K-aligned address and
  size) appears as the condition `Sst26.ErasePlan` needs and `Is25.EraseCompletes` characterises.
- Device failures are not simulated; an oracle of statuses decides each call, and a failed call changes nothing.
- The picox helpers `x_is_uwithin`, `X_LOAD_U16_LIT`/`X_LOAD_U32_LIT` and `X_ROUNDUP_MULTIPLE` are not part of this
  model. They are taken by their evident meaning: a half-open range, a little-endian load, and a round-up to a
  multiple.
- Pointers are natural numbers and allocation never fails (`malloc`/`strdup` in linenoise and `DRef::set_name`).
- The `sync` call at the end of `DStreamUtils::copy` is not modelled; it does not change the bytes.
- StreamUtils.Equal: the loop is given a fuel bound, because on two null streams it never ends
  (`StreamUtils.EqualNullNeverEnds`). The result is only stated when the fuel exceeds the shorter remainder.
- StreamUtils.Copy: also runs on fuel; a copy that would run longer than the fuel is cut off. Its own contract states only the
  result range; the error rules and the whole-buffer write are stated by `StreamUtils.CopyErrors` and `StreamUtils.CopyWritesWholeBuffer`.
- `DFILEStream`, `DFileHandleStream` and `DFILEUtils` delegate to stdio and are not modelled. Neither are the
  printf/gets/getline helpers of `DStream.cpp`.
- `off_t`, `ssize_t` and `size_t` are unbounded integers in the streams; their widths only matter past 2^31 bytes.
- Date and time operations built on `mktime`, `localtime`, `strftime`, `strptime` and `time` depend on the C library
  and the time zone. This covers the `DDateTime` constructors, `date()`, `time()`, `addDelta`, `format`, `toString`,
  `now`, `fromCString` and `DTimeRange::after`.
- Signed 32-bit overflow is undefined in C++. Where the source can overflow an `int`, the model takes the
  two's-complement wrap that compiled code gives: `Chrono.DeltaSecondsAsWritten` (and the `DDateTime.cpp:245-254`
  finding that rests on it), `RefCount.Retain`, `RefCount.Release` and `CoreUtils.DAbsInt32` at `INT32_MIN`.
- Chrono.TotalDays: the day count uses unbounded integers; only `DTimeDelta::totalSeconds` has its 32-bit
  arithmetic modelled.
- Floating point: `d_round*`, `d_fuzzy_*` and `d_is_null` in `DCoreUtils.hpp`, and `medianFilteredRead` in
  `DADCUtils.hpp`.
- The ARGB8888 aliases of `DRGB.hpp` (lines 296-311) rename functions that are modelled, and are not repeated.
- BmpReader.NumberOfColors: stated for bit counts below 31 only. Larger shifts overflow the `int` result or are
  undefined in C.
- BmpReader.LineSize: widths are mathematical integers; the 32-bit products of the macros do not wrap in the model.
- `DStringUtils::format`/`vformat` wrap `vsnprintf` and are not modelled.
- linenoise terminal I/O is not modelled. This covers refresh, hints, `getColumns`, cursor queries, clearing the
  screen, and `linenoiseHistorySave`/`Load`.
- The bookkeeping of Enter, Ctrl-C and Ctrl-D that drops the temporary history entry is not modelled. Those keys end
  the edit, and `LineEditor.EditKey` reports no edit for them.
- LineEditor.EditKey: history browsing is not modelled. Ctrl-P and Ctrl-N (14, 16) report no edit, and so do
  Up and Down in `LineEditor.EscapeEdit`, although the source loads a history entry into the line through
  `linenoiseEditHistoryNext`, whose index and temporary entry are not part of the model. ESC (27) is `None` because
  its effect depends on the bytes after it, which `LineEditor.EscapeEdit` decodes. Ctrl-L only clears the screen.
  Tab with a completion callback is handed to `LineEditor.Complete`, which models it.
- Characters are `char`s; the signed `char` that `completeLine` returns for bytes above 127 is not modelled.
- LineEditor.HistoryAdd: the line is compared by contents, as `strcmp` does; allocation failures returning 0 are not
  modelled.
- Rtti: base chains are assumed acyclic. The source's static base pointers make them so; the model states it as
  `Rtti.Valid`.
- `DRef::tag`/`set_tag` are plain field accessors and are not modelled.
- `DIS25::size` and `DSST26::size` return the `memorySize` field; the IS25 model reads that field directly.
- `DObjectStorage::shared` is a process-wide singleton and is not modelled.
- `std::sort` is modelled as producing the ascending permutation of the readings, not as its algorithm.
- AdcUtils.MedianFilteredReadU16: the N readings are a parameter; reading the ADC is I/O.
- `DUSBSerial`, the RTOS wrappers, `DTimeUtils`, the I2C wrappers and the shell involve concurrency, hardware or
  foreign code, and are not part of this model.

## Findings

| source | as written | input that shows it | evidently intended | confidence | as-written member | corrected member |
|---|---|---|---|---|---|---|
| dandy/core/utils/DBlockDeviceUtils.cpp:107-110 | a final partial block is erased and only the new bytes are programmed | 4 bytes at address 2 of an 8-byte device with 4-byte blocks | the bytes of that block after the range are preserved | high, not executed | BlockDeviceUtils.ReplaceErasesTailExample | BlockDeviceUtils.ReplacePreserving |
| dandy/core/DBlockDeviceMapper.cpp:58-59 | only the new region's two endpoints are tested against each existing region | existing [10, 15), new [0, 100) is accepted; new [0, 10) is refused | regions may be added exactly when they do not overlap | high, not executed | BlockDeviceMapper.AddMapAcceptsEnclosing | BlockDeviceMapper.AddMapDisjointKeepsDisjoint |
| dandy/drivers/spi_flash/sst26/DSST26.cpp:85-89 | an unknown JEDEC id returns `false`, which is 0 | any id not in the table | a block-device error code | medium, not executed | Sst26.InitUnknownLooksLikeSuccess | Sst26.InitChecked |
| dandy/drivers/spi_flash/DSST26_def.h:93-101 | capacities 0x2000000, 0x4000000, 0x8000000 | the VF016, erase at 0x1F0000 of 64K | 2, 4 and 8 MB as the comments say | high, not executed | Sst26.TopZonesMisplaced | Sst26.Capacity |
| dandy/core/utils/DStreamUtils.cpp:55 | every write is of the whole 512-byte buffer | copying 3 bytes into an output with room for 512 | write only the bytes just read | high, not executed | StreamUtils.CopyWritesWholeBuffer | StreamUtils.CopyExactMemory |
| dandy/chrono/DDateTime.cpp:245-254 | the seconds are summed in 32-bit `int` | a delta of 24856 days | the 64-bit total of the return type | medium, not executed | Chrono.DeltaSecondsOverflows | Chrono.DeltaSecondsAdditive |
| dandy/chrono/DDateTime.cpp:292-299 | hour stored as days, minute as hours | 01:00:00 gives one day | each field in its own unit | high, not executed | Chrono.OfTimeShiftsUnits | Chrono.OfTime |
| dandy/color/DRGB.hpp:122 | alpha test `a & 80` (decimal) | alpha 0xFF gives no alpha bit, alpha 0x10 gives one | test bit 7 (`a & 0x80`) | high, not executed | Color.AlphaTestMissesBit7 | Color.AlphaTests |
| dandy/color/DRGB.hpp:180-201 | red shifts by 11; alpha masks 0x1F | transparent full red 0x7C00 reads red 0x0F; transparent pure blue 0x001F reads as having alpha; so opaque black 0x8000 widens to 0x00840000 (`Color.Argb1555WidenAsWrittenExample`) | red `>> 10 & 0x1F`, alpha bit 15 | high, not executed | Color.Argb1555HelpersMisread | Color.Argb1555Fields |
| dandy/color/DRGB.hpp:224 | blue masked with 0x1F | blue 0xFF reads back as 0x1F; so RGBA8888 0xFFFF narrows to RGB565 3 (`Color.Rgba8888NarrowAsWrittenExample`) | mask 0xFF | high, not executed | Color.Rgba8888BlueTruncates | Color.Rgba8888Fields |
| dandy/color/DRGB.hpp:257 | ORs 0x80 into the 1555 value | RGB565 black | set the alpha bit, 0x8000 | high, not executed | Color.Rgb565ToArgb1555MarksGreen | Color.Argb1555Through565 |
| dandy/color/DRGB.hpp:292 | the repeated green bit goes to bit 0, in the blue field | green 16, blue 0 | bit 5, the low bit of the six-bit green | medium, not executed | Color.Argb1555ToRgb565TouchesBlue | Color.Argb1555ToRgb565 |
| dandy/image/DBMPReader.cpp:150-159 | the sequential path skips `roundedLineSize % lineSize` bytes | two one-byte rows, reading row 0 after row 1 | skip the padding, `roundedLineSize - lineSize` | high, not executed | BmpReader.SequentialSkipExample | BmpReader.ReadRowInSync |
| dandy_external/linenoise/linenoise.c:328-331 | `len` is set to `snprintf`'s result, the length it wanted to write | a candidate longer than the buffer | the length actually stored | medium, not executed | LineEditor.AcceptAsWrittenOverruns | LineEditor.Accept |

=== FILE: adc_utils.dfy ===
/**
 * `DADCUtils`: reading a 12-bit sample out of a left-aligned 16-bit ADC
 * value, and the median filter that takes `N` readings, sorts them and
 * returns the middle one. The readings are supplied as a sequence in place
 * of the ADC.
 */
module AdcUtils {

  /** `readU12` on one 16-bit reading: `(v >> 4) & 0x0FFF`. */
  function ReadU12(v: bv16): (r: bv16)
    ensures r as int <= 4095
  {
    (v >> 4) & 0x0FFF
  }

  /** On a 16-bit reading the mask keeps every bit the shift leaves: the
      sample is the top twelve bits. */
  lemma ReadU12IsTopBits(v: bv16)
    ensures ReadU12(v) == v >> 4
  {
  }

  // ---------------------------------------------------------------------------
  // Sorting

  predicate Sorted(s: seq<int>)
  {
    forall i, j :: 0 <= i < j < |s| ==> s[i] <= s[j]
  }

  /** Insertion into a sorted sequence. */
  function InsertSorted(x: int, s: seq<int>): (r: seq<int>)
    requires Sorted(s)
    ensures Sorted(r) && multiset(r) == multiset(s) + multiset{x}
    ensures |r| == |s| + 1 && (r[0] == x || (s != [] && r[0] == s[0]))
  {
    if s == [] || x <= s[0] then [x] + s
    else
      var rest := InsertSorted(x, s[1..]);
      assert s == [s[0]] + s[1..];
      assert s[0] <= rest[0];
      [s[0]] + rest
  }

  /** The ascending arrangement of the readings: what `std::sort` leaves in
      the array. */
  function Sort(s: seq<int>): (r: seq<int>)
    ensures Sorted(r) && multiset(r) == multiset(s) && |r| == |s|
  {
    if s == [] then []
    else
      assert s == [s[0]] + s[1..];
      InsertSorted(s[0], Sort(s[1..]))
  }

  // ---------------------------------------------------------------------------
  // Counting

  datatype Side = AtMost | AtLeast

  predicate OnSide(x: int, m: int, side: Side)
  {
    match side
    case AtMost => x <= m
    case AtLeast => x >= m
  }

  /** How many elements of `s` are at most (at least) `m`. */
  function Count(s: seq<int>, m: int, side: Side): (n: nat)
    ensures n <= |s|
  {
    if s == [] then 0 else (if OnSide(s[0], m, side) then 1 else 0) + Count(s[1..], m, side)
  }

  lemma {:induction false} CountAppend(a: seq<int>, b: seq<int>, m: int, side: Side)
    ensures Count(a + b, m, side) == Count(a, m, side) + Count(b, m, side)
  {
    if a == [] {
      assert a + b == b;
    } else {
      assert (a + b)[0] == a[0];
      assert (a + b)[1..] == a[1..] + b;
      CountAppend(a[1..], b, m, side);
    }
  }

  /** Counting does not depend on the order of the elements. */
  lemma {:induction false} CountPermutation(a: seq<int>, b: seq<int>, m: int, side: Side)
    requires multiset(a) == multiset(b)
    ensures Count(a, m, side) == Count(b, m, side)
    decreases |a|
  {
    if a == [] {
      assert |b| == |multiset(b)| == 0;
    } else {
      var x := a[0];
      assert x in multiset(b);
      var j :| 0 <= j < |b| && b[j] == x;
      MultisetRemove(b, j);
      assert a == [x] + a[1..];
      CountPermutation(a[1..], b[..j] + b[j + 1..], m, side);
      CountRemove(b, j, m, side);
      CountRemove(a, 0, m, side);
      assert a[..0] + a[1..] == a[1..];
    }
  }

  lemma MultisetRemove(b: seq<int>, j: nat)
    requires j < |b|
    ensures multiset(b[..j] + b[j + 1..]) == multiset(b) - multiset{b[j]}
  {
    assert b == b[..j] + [b[j]] + b[j + 1..];
  }

  /** Taking element `j` out of `b` takes its contribution out of the count. */
  lemma CountRemove(b: seq<int>, j: nat, m: int, side: Side)
    requires j < |b|
    ensures Count(b, m, side) == Count(b[..j] + b[j + 1..], m, side) + Count([b[j]], m, side)
  {
    assert b == b[..j] + [b[j]] + b[j + 1..];
    CountAppend(b[..j] + [b[j]], b[j + 1..], m, side);
    CountAppend(b[..j], [b[j]], m, side);
    CountAppend(b[..j], b[j + 1..], m, side);
  }

  /** A run whose elements all lie on the side counts in full. */
  lemma {:induction false} CountAll(s: seq<int>, m: int, side: Side)
    requires forall i :: 0 <= i < |s| ==> OnSide(s[i], m, side)
    ensures Count(s, m, side) == |s|
  {
    if s != [] {
      CountAll(s[1..], m, side);
    }
  }

  // ---------------------------------------------------------------------------
  // The median filter

  /** `medianFilteredReadU16<T, N>` on the readings: sort, take index
      `N / 2`. `N > 0` is a static assertion of the source. */
  function Median(readings: seq<int>): (m: int)
    requires |readings| > 0
    ensures m in multiset(readings)
  {
    var t := Sort(readings);
    assert t[|t| / 2] in multiset(t);
    t[|readings| / 2]
  }

  /** The median splits the readings: at least `N / 2 + 1` of them are at
      most it and at least `N - N / 2` at least it. */
  lemma MedianRanks(readings: seq<int>)
    requires |readings| > 0
    ensures var m, n := Median(readings), |readings|;
            Count(readings, m, AtMost) >= n / 2 + 1 && Count(readings, m, AtLeast) >= n - n / 2
  {
    var t := Sort(readings);
    var m := t[|t| / 2];
    SortedRanks(t, |t| / 2);
    CountPermutation(readings, t, m, AtMost);
    CountPermutation(readings, t, m, AtLeast);
  }

  /** In a sorted sequence, the element at index `k` has `k + 1` elements at
      most it and `|t| - k` at least it. */
  lemma SortedRanks(t: seq<int>, k: nat)
    requires Sorted(t) && k < |t|
    ensures Count(t, t[k], AtMost) >= k + 1 && Count(t, t[k], AtLeast) >= |t| - k
  {
    var m := t[k];
    forall i | 0 <= i < k + 1
      ensures OnSide(t[i], m, AtMost)
    {
      assert i < k ==> t[i] <= t[k];
    }
    CountPart(t, 0, k + 1, m, AtMost);
    forall i | k <= i < |t|
      ensures OnSide(t[i], m, AtLeast)
    {
      assert k < i ==> t[k] <= t[i];
    }
    CountPart(t, k, |t|, m, AtLeast);
  }

  /** A sequence whose elements from `lo` up to `hi` lie on the side counts
      at least `hi - lo`. */
  lemma CountPart(t: seq<int>, lo: nat, hi: nat, m: int, side: Side)
    requires lo <= hi <= |t| && forall i :: lo <= i < hi ==> OnSide(t[i], m, side)
    ensures Count(t, m, side) >= hi - lo
  {
    assert t == t[..lo] + t[lo..hi] + t[hi..];
    CountAll(t[lo..hi], m, side);
    CountAppend(t[..lo] + t[lo..hi], t[hi..], m, side);
    CountAppend(t[..lo], t[lo..hi], m, side);
  }

  function AsInts(vs: seq<bv16>): (r: seq<int>)
    ensures |r| == |vs| && forall i :: 0 <= i < |vs| ==> r[i] == vs[i] as int
  {
    if vs == [] then [] else [vs[0] as int] + AsInts(vs[1..])
  }

  /** `medianFilteredReadU16`: the median of `N` raw readings. */
  function MedianFilteredReadU16(samples: seq<bv16>): (m: int)
    requires |samples| > 0
    ensures 0 <= m < 0x1_0000
    ensures m in multiset(AsInts(samples))
  {
    var xs := AsInts(samples);
    var m := Median(xs);
    assert exists i :: 0 <= i < |xs| && xs[i] == m;
    m
  }

  function MapU12(samples: seq<bv16>): (r: seq<bv16>)
    ensures |r| == |samples| && forall i :: 0 <= i < |samples| ==> r[i] == ReadU12(samples[i])
  {
    if samples == [] then [] else [ReadU12(samples[0])] + MapU12(samples[1..])
  }

  /** `medianFilteredReadU12`: the median of the `N` 12-bit samples, which
      is itself a 12-bit sample. */
  function MedianFilteredReadU12(samples: seq<bv16>): (m: int)
    requires |samples| > 0
    ensures 0 <= m <= 4095
    ensures m in multiset(AsInts(MapU12(samples)))
  {
    var xs := AsInts(MapU12(samples));
    var m := Median(xs);
    assert exists i :: 0 <= i < |xs| && xs[i] == m;
    m
  }

  /** A reading repeated `N` times is its own median. */
  lemma ConstantReadings(v: int, n: nat)
    requires n > 0
    ensures Median(seq(n, _ => v)) == v
  {
    var s := seq(n, _ => v);
    assert Median(s) in multiset(s);
  }
}

=== FILE: arith.dfy ===
/**
 * The C integer conversions the library's arithmetic goes through, and facts
 * about Euclidean division by a positive number that the block-aligned
 * arithmetic of the flash layer relies on.
 */
module Arith {

  const INT32_MODULUS: int := 0x1_0000_0000
  const INT32_MIN: int := -0x8000_0000

  /** Two's-complement wrap of an integer into 32 bits: the conversion to
      `int32_t`, and the result of 32-bit `int` arithmetic on the targets the
      library runs on. */
  function Int32(x: int): (w: int)
    ensures INT32_MIN <= w < -INT32_MIN && (w - x) % INT32_MODULUS == 0
    ensures INT32_MIN <= x < -INT32_MIN ==> w == x
  {
    (x - INT32_MIN) % INT32_MODULUS + INT32_MIN
  }

  /** The conversion to `uint32_t`, and `unsigned int` arithmetic. */
  function U32(x: int): (w: nat)
    ensures w < INT32_MODULUS && (w - x) % INT32_MODULUS == 0
    ensures 0 <= x < INT32_MODULUS ==> w == x
  {
    x % INT32_MODULUS
  }

  const UINT64_RANGE: nat := 0x1_0000_0000_0000_0000

  /** The conversion to `uint64_t`: the arithmetic of `bd_addr_t` and
      `bd_size_t`, which wraps modulo 2^64. */
  function U64(x: int): (w: nat)
    ensures w < UINT64_RANGE && (w - x) % UINT64_RANGE == 0
    ensures 0 <= x < UINT64_RANGE ==> w == x
    ensures 0 <= x ==> w <= x
  {
    x % UINT64_RANGE
  }

  /** C's `/` on `int`, which truncates toward zero. */
  function CDiv(a: int, b: int): (q: int)
    requires b > 0
    ensures a >= 0 ==> q == a / b
    ensures a < 0 ==> q == -((-a) / b)
  {
    if a >= 0 then a / b else -((-a) / b)
  }

  /** Euclidean division is unique: a quotient and remainder that rebuild `x`
      are the ones `/` and `%` give. */
  lemma {:induction false} DivModUnique(x: nat, e: nat, q: nat, r: nat)
    requires e > 0 && r < e && x == q * e + r
    ensures x / e == q && x % e == r
  {
    var d := x / e;
    assert x == d * e + x % e;
    MulMono(q + 1, d, e);
    MulMono(d + 1, q, e);
  }

  lemma MulMono(a: nat, b: nat, e: nat)
    ensures a <= b ==> a * e <= b * e
  {
  }

  /** Distinct multiples of `eraseSize` are at least `eraseSize` apart. */
  lemma {:induction false} AlignedGap(a: nat, b: nat, eraseSize: nat)
    requires eraseSize > 0 && a % eraseSize == 0 && b % eraseSize == 0
    ensures a < b ==> a + eraseSize <= b
  {
    var e, qa, qb := eraseSize, a / eraseSize, b / eraseSize;
    assert a == qa * e && b == qb * e;
    if a < b {
      MulMono(qb, qa, e);
      assert qa + 1 <= qb;
      MulMono(qa + 1, qb, e);
      assert (qa + 1) * e == qa * e + e;
    }
  }

  /** The next multiple after a multiple. */
  lemma AlignedNext(a: nat, eraseSize: nat)
    requires eraseSize > 0 && a % eraseSize == 0
    ensures (a + eraseSize) % eraseSize == 0
  {
    DivModUnique(a + eraseSize, eraseSize, a / eraseSize + 1, 0);
  }

  /** Sums and differences of multiples are multiples. */
  lemma AlignedSumDiff(a: nat, b: nat, m: nat)
    requires m > 0 && a % m == 0 && b % m == 0
    ensures (a + b) % m == 0
    ensures b <= a ==> (a - b) % m == 0
  {
    var qa, qb := a / m, b / m;
    assert a == qa * m && b == qb * m;
    DivModUnique(a + b, m, qa + qb, 0);
    if b <= a {
      MulMono(qa, qb, m);
      DivModUnique(a - b, m, qa - qb, 0);
    }
  }

  /** A multiple of a multiple of `small` is a multiple of `small`. */
  lemma {:induction false} MultipleOfMultiple(a: nat, big: nat, small: nat)
    requires small > 0 && big > 0 && big % small == 0 && a % big == 0
    ensures a % small == 0
  {
    var q, p := a / big, big / small;
    assert a == q * big && big == p * small;
    assert a == (q * p) * small;
    DivModUnique(a, small, q * p, 0);
  }

  // ---------------------------------------------------------------------------
  // Bytes

  /** Doubling a byte below 128 and setting its low bit, on the byte's value. */
  lemma ShiftInBit(h: bv8, bit: bv8)
    ensures h < 128 && bit < 2 ==> ((h << 1) | bit) as int == 2 * (h as int) + bit as int
  {
  }

  /** The byte of value `x`, built bit by bit. */
  function ByteOf(x: nat): (b: bv8)
    requires x < 0x100
    ensures b as int == x
  {
    if x == 0 then 0
    else
      var h, bit: bv8 := ByteOf(x / 2), if x % 2 == 1 then 1 else 0;
      ShiftInBit(h, bit);
      (h << 1) | bit
  }

  /** A value below 256 survives the conversion to a byte and back. */
  lemma ByteOfSmall(x: nat)
    ensures x < 0x100 ==> (x as bv8) as nat == x
  {
    if x < 0x100 {
      var b := ByteOf(x);
      assert (b as int) as bv8 == b;
    }
  }
}

=== FILE: bd_streams.dfy ===
/**
 * Streams over a window [begin, begin + size) of a block device.
 * `DBlockDeviceOutputStream` programs what it is given, clamped to the window;
 * `DBlockDeviceInputStream` reads through a read-ahead cache of `cacheSize`
 * bytes that it refills with one device read whenever it runs dry.
 */
module BlockDeviceStreams {
  import opened Common
  import opened FlashMemory

  // ---------------------------------------------------------------------------
  // Output stream

  /** `DBlockDeviceOutputStream`: window start, window size and position. */
  datatype OutStream = OutStream(begin: nat, size: nat, pos: nat)

  /** The constructor: position 0. */
  function NewOutStream(begin: nat, size: nat): (s: OutStream)
    ensures s.begin == begin && s.size == size && s.pos == 0
  {
    OutStream(begin, size, 0)
  }

  /** What a `write` returns and leaves behind. */
  datatype OutWrite = OutWrite(ret: int, stream: OutStream, mem: seq<bv8>, calls: seq<Call>)

  /** `write(data, |data|)` on a device holding `mem`; `st` is the status the
      `program` call returns if one is made. The length is clamped to what is
      left of the window; a nonzero status gives -EIO and moves nothing. */
  function OutWriteOp(s: OutStream, mem: seq<bv8>, data: seq<bv8>, st: int): (o: OutWrite)
    requires s.pos <= s.size && s.begin + s.size <= |mem|
    ensures o.stream.begin == s.begin && o.stream.size == s.size && o.stream.pos <= s.size
    ensures o.ret == -EIO || 0 <= o.ret
    ensures o.ret >= 0 ==> o.ret <= |data| && s.pos + o.ret <= s.size && (o.ret == |data| || s.pos + o.ret == s.size)
    ensures o.ret >= 0 ==> o.stream.pos == s.pos + o.ret
    ensures o.ret >= 0 ==> o.mem == Program(mem, s.begin + s.pos, data[..o.ret])
    ensures o.ret == -EIO ==> o.stream == s && o.mem == mem && st != 0
    ensures o.ret == 0 && |data| > 0 && s.pos < s.size ==> false
    ensures forall k :: 0 <= k < |o.calls| ==> o.calls[k].ProgramCall?
    ensures |o.calls| <= 1
    ensures o.calls == [] <==> (|data| == 0 || s.pos == s.size)
    ensures o.calls != [] ==>
              && o.calls[0].addr == s.begin + s.pos && s.pos < s.size
              && o.calls[0].data == data[..if s.pos + |data| <= s.size then |data| else s.size - s.pos]
  {
    var toWrite := if s.pos + |data| <= s.size then |data| else s.size - s.pos;
    if toWrite == 0 then
      OutWrite(0, s, mem, [])
    else
      var c := ProgramCall(s.begin + s.pos, data[..toWrite]);
      if st != 0 then OutWrite(-EIO, s, mem, [c])
      else OutWrite(toWrite, s.(pos := s.pos + toWrite), Program(mem, s.begin + s.pos, data[..toWrite]), [c])
  }

  /** Programming two adjacent pieces one after the other is programming their
      concatenation: two successful writes append. */
  lemma ProgramConcat(mem: seq<bv8>, addr: nat, a: seq<bv8>, b: seq<bv8>)
    requires addr + |a| + |b| <= |mem|
    ensures Program(Program(mem, addr, a), addr + |a|, b) == Program(mem, addr, a + b)
  {
    var l := Program(Program(mem, addr, a), addr + |a|, b);
    var r := Program(mem, addr, a + b);
    forall i | 0 <= i < |mem|
      ensures l[i] == r[i]
    {
      if addr <= i < addr + |a| {
        assert (a + b)[i - addr] == a[i - addr];
      } else if addr + |a| <= i < addr + |a| + |b| {
        assert (a + b)[i - addr] == b[i - addr - |a|];
      }
    }
  }

  /** A successful write that fits in what is left of the window writes all of
      its data. */
  lemma OutWriteFits(s: OutStream, mem: seq<bv8>, data: seq<bv8>)
    requires s.pos + |data| <= s.size && s.begin + s.size <= |mem|
    ensures OutWriteOp(s, mem, data, 0).ret == |data|
    ensures OutWriteOp(s, mem, data, 0).stream == s.(pos := s.pos + |data|)
    ensures OutWriteOp(s, mem, data, 0).mem == Program(mem, s.begin + s.pos, data)
  {
    var o := OutWriteOp(s, mem, data, 0);
    assert o.ret >= 0;
    assert data[..o.ret] == data;
  }

  /** Two successful writes in a row leave the device as one write of both
      pieces would, and move the position by their total length. */
  lemma OutWritesAppend(s: OutStream, mem: seq<bv8>, a: seq<bv8>, b: seq<bv8>)
    requires s.pos + |a| + |b| <= s.size && s.begin + s.size <= |mem|
    ensures var o1 := OutWriteOp(s, mem, a, 0);
            var o2 := OutWriteOp(o1.stream, o1.mem, b, 0);
            o2.stream.pos == s.pos + |a| + |b| &&
            o2.mem == Program(mem, s.begin + s.pos, a + b)
  {
    hide *;
    var addr := s.begin + s.pos;
    var o1 := OutWriteOp(s, mem, a, 0);
    assert o1.stream == s.(pos := s.pos + |a|) && o1.mem == Program(mem, addr, a) by {
      OutWriteFits(s, mem, a);
    }
    var o2 := OutWriteOp(o1.stream, o1.mem, b, 0);
    assert o2.stream.pos == s.pos + |a| + |b| && o2.mem == Program(o1.mem, addr + |a|, b) by {
      OutWriteFits(o1.stream, o1.mem, b);
    }
    assert Program(Program(mem, addr, a), addr + |a|, b) == Program(mem, addr, a + b) by {
      ProgramConcat(mem, addr, a, b);
    }
  }

  /** `seek` on the output stream: -1 for an unknown whence, -ERANGE for a
      target outside [0, size], otherwise the new position. */
  function OutSeek(s: OutStream, offset: int, whence: int): (r: (int, OutStream))
    requires s.pos <= s.size
    ensures r.1.begin == s.begin && r.1.size == s.size && r.1.pos <= s.size
    ensures r.0 < 0 ==> r.1 == s
    ensures r.0 >= 0 ==> r.0 == r.1.pos
    ensures whence == SEEK_SET && 0 <= offset <= s.size ==> r.0 == offset
    ensures whence == SEEK_CUR && 0 <= s.pos + offset <= s.size ==> r.0 == s.pos + offset
    ensures whence == SEEK_END && 0 <= s.size + offset <= s.size ==> r.0 == s.size + offset
    ensures whence != SEEK_SET && whence != SEEK_CUR && whence != SEEK_END ==> r.0 == -1
    ensures whence == SEEK_SET && !(0 <= offset <= s.size) ==> r.0 == -ERANGE
    ensures whence == SEEK_CUR && !(0 <= s.pos + offset <= s.size) ==> r.0 == -ERANGE
    ensures whence == SEEK_END && !(0 <= s.size + offset <= s.size) ==> r.0 == -ERANGE
  {
    match Seek(s.pos, s.size, offset, whence)
    case Moved(p) => (p, s.(pos := p))
    case o => (SeekReturn(o), s)
  }

  // ---------------------------------------------------------------------------
  // Input stream

  /** `DBlockDeviceInputStream`: window, position, and the read-ahead cache
      (`buffer` of `cacheSize` bytes, the next one to hand out at `cacheIndex`,
      and whether it has been filled). */
  datatype InStream = InStream(begin: nat, size: nat, pos: nat,
                               cacheSize: nat, cacheIndex: nat, cached: bool, buffer: seq<bv8>)

  /** What the constructor establishes and every operation keeps. */
  predicate Valid(s: InStream)
  {
    && 0 < s.cacheSize <= s.size
    && s.pos <= s.size
    && s.cacheIndex <= s.cacheSize
    && |s.buffer| == s.cacheSize
    && (!s.cached ==> s.cacheIndex == 0)
  }

  /** A filled cache holds the device bytes from `begin + pos - cacheIndex` on:
      the byte the stream hands out next is the device byte at its position. */
  predicate Coherent(s: InStream, mem: seq<bv8>)
  {
    s.cached ==>
      && s.cacheIndex <= s.pos
      && s.begin + s.pos - s.cacheIndex + |s.buffer| <= |mem|
      && s.buffer == mem[s.begin + s.pos - s.cacheIndex..s.begin + s.pos - s.cacheIndex + |s.buffer|]
  }

  /** The constructor: both sizes must be positive (an `X_ASSERT`, modelled as
      None) and the cache is clamped to the window. */
  function NewInStream(begin: nat, size: nat, cacheSize: nat): (s: Option<InStream>)
    ensures s.Some? <==> size > 0 && cacheSize > 0
    ensures s.Some? ==> Valid(s.value) && s.value.pos == 0 && !s.value.cached
    ensures s.Some? ==> s.value.begin == begin && s.value.size == size
    ensures s.Some? ==> s.value.cacheSize <= cacheSize && (s.value.cacheSize == cacheSize || s.value.cacheSize == size)
  {
    if size == 0 || cacheSize == 0 then None
    else
      var c := if cacheSize > size then size else cacheSize;
      Some(InStream(begin, size, 0, c, 0, false, seq(c, _ => 0)))
  }

  /** `ResetCache`: forget the cache. */
  function ResetCache(s: InStream): (s': InStream)
    ensures !s'.cached && s'.cacheIndex == 0
    ensures s' == s.(cached := false, cacheIndex := 0)
  {
    s.(cached := false, cacheIndex := 0)
  }

  /** The next `GetChar` must read the device. */
  predicate NeedsFill(s: InStream)
  {
    !s.cached || s.cacheIndex >= s.cacheSize
  }

  /** `read(buffer, addr, len)` into a buffer holding `stale`: with `ok` and a
      range on the device, the device bytes; otherwise the buffer is left as it
      was. */
  function DeviceRead(mem: seq<bv8>, addr: nat, len: nat, ok: bool, stale: seq<bv8>): (b: seq<bv8>)
    ensures ok && addr + len <= |mem| ==> b == mem[addr..addr + len]
    ensures !(ok && addr + len <= |mem|) ==> b == stale
  {
    if ok && addr + len <= |mem| then mem[addr..addr + len] else stale
  }

  /** What `GetChar` returns and leaves behind. */
  datatype Got = Got(c: int, stream: InStream, calls: seq<Call>)

  /** `GetChar`: -ENODATA at the end of the window; otherwise the next byte,
      refilling the cache first with one device read of `cacheSize` bytes at the
      current position when it is empty or used up. The read's status is
      ignored, as in the source; `ok` says whether it delivered. */
  function GetChar(s: InStream, mem: seq<bv8>, ok: bool): (g: Got)
    requires Valid(s)
    ensures Valid(g.stream)
    ensures g.stream.begin == s.begin && g.stream.size == s.size && g.stream.cacheSize == s.cacheSize
    ensures s.pos >= s.size ==> g == Got(-ENODATA, s, [])
    ensures s.pos < s.size ==> 0 <= g.c < 256 && g.stream.pos == s.pos + 1
    ensures s.pos < s.size ==>
              g.calls == if NeedsFill(s) then [ReadCall(s.begin + s.pos, s.cacheSize)] else []
  {
    if s.pos >= s.size then Got(-ENODATA, s, [])
    else
      var s1 := if s.cacheIndex >= s.cacheSize then ResetCache(s) else s;
      var fill := !s1.cached;
      var buffer := if fill then DeviceRead(mem, s.begin + s.pos, s.cacheSize, ok, s.buffer) else s.buffer;
      var s2 := s1.(cached := true, buffer := buffer);
      var c := s2.buffer[s2.cacheIndex];
      Got(c as int, s2.(cacheIndex := s2.cacheIndex + 1, pos := s2.pos + 1),
          if fill then [ReadCall(s.begin + s.pos, s.cacheSize)] else [])
  }

  /** On a coherent stream, when a refill (if one is needed) delivers the device
      bytes, `GetChar` hands out the device byte at the position and leaves the
      cache coherent. */
  lemma GetCharCoherent(s: InStream, mem: seq<bv8>, ok: bool)
    requires Valid(s) && s.pos < s.size && Coherent(s, mem)
    requires NeedsFill(s) ==> ok && s.begin + s.pos + s.cacheSize <= |mem|
    ensures GetChar(s, mem, ok).c == mem[s.begin + s.pos] as int
    ensures Coherent(GetChar(s, mem, ok).stream, mem)
  {
  }

  /** Every one of `calls` succeeded and addressed only bytes of the device. */
  predicate Delivered(status: seq<int>, calls: seq<Call>, n: nat)
  {
    AllOk(status, |calls|) && forall k :: 0 <= k < |calls| ==> Fits(calls[k], n)
  }

  /** The calls of a delivered trace delivered one by one: each prefix did, and
      the call after a prefix succeeded and fits. */
  lemma DeliveredPrefix(status: seq<int>, calls: seq<Call>, more: seq<Call>, n: nat)
    requires Delivered(status, calls + more, n)
    ensures Delivered(status, calls, n)
    ensures more != [] ==> Status(status, |calls|) == 0 && Fits(more[0], n)
  {
    assert forall k :: 0 <= k < |calls| ==> (calls + more)[k] == calls[k];
    if more != [] {
      assert (calls + more)[|calls|] == more[0];
    }
  }

  /** A byte read back from its `int` value is the byte. */
  lemma ByteRoundTrip(b: bv8)
    ensures (b as int) as bv8 == b
  {
  }

  /** `bytes` are the device bytes from `start` on (nothing read is vacuously
      so). */
  predicate ReadBack(mem: seq<bv8>, start: nat, bytes: seq<bv8>)
  {
    bytes == [] || (start + |bytes| <= |mem| && bytes == mem[start..start + |bytes|])
  }

  lemma ReadBackExtend(mem: seq<bv8>, start: nat, bytes: seq<bv8>, b: bv8)
    requires ReadBack(mem, start, bytes) && start + |bytes| < |mem| && b == mem[start + |bytes|]
    ensures ReadBack(mem, start, bytes + [b])
  {
    if bytes != [] {
      assert mem[start..start + |bytes| + 1] == mem[start..start + |bytes|] + [b];
    }
  }

  /** One byte of `read`: when the device read `GetChar` may issue delivers,
      the byte it hands out extends the bytes read so far with the next device
      byte, and the cache stays coherent. */
  lemma ReadStep(start: nat, s: InStream, mem: seq<bv8>, status: seq<int>, calls: seq<Call>, bytes: seq<bv8>)
    requires Valid(s) && s.pos < s.size && start + |bytes| == s.begin + s.pos
    requires Coherent(s, mem) && ReadBack(mem, start, bytes)
    requires var g := GetChar(s, mem, Status(status, |calls|) == 0);
             g.calls != [] ==> Status(status, |calls|) == 0 && Fits(g.calls[0], |mem|)
    ensures var g := GetChar(s, mem, Status(status, |calls|) == 0);
            Coherent(g.stream, mem) && ReadBack(mem, start, bytes + [g.c as bv8])
  {
    var g := GetChar(s, mem, Status(status, |calls|) == 0);
    GetCharCoherent(s, mem, Status(status, |calls|) == 0);
    ByteRoundTrip(mem[s.begin + s.pos]);
    ReadBackExtend(mem, start, bytes, g.c as bv8);
  }

  /** `read(p, n)`: `GetChar` up to n times. Returns how many bytes it got,
      which is n clamped to what is left of the window, the bytes themselves and
      the device reads it issued; the k-th read delivers iff `status` says 0.
      When every read delivered, the bytes are those of the device. */
  method Read(s: InStream, mem: seq<bv8>, n: nat, status: seq<int>)
    returns (r: int, s': InStream, bytes: seq<bv8>, calls: seq<Call>)
    requires Valid(s)
    ensures Valid(s') && s'.begin == s.begin && s'.size == s.size && s'.cacheSize == s.cacheSize
    ensures 0 <= r <= n && s.pos + r <= s.size && (r == n || s.pos + r == s.size)
    ensures |bytes| == r && s'.pos == s.pos + r
    ensures forall k :: 0 <= k < |calls| ==> calls[k].ReadCall? && calls[k].len == s.cacheSize
    ensures Coherent(s, mem) && Delivered(status, calls, |mem|) ==>
              Coherent(s', mem) && ReadBack(mem, s.begin + s.pos, bytes)
  {
    assert ReadBack(mem, s.begin + s.pos, []);
    hide GetChar, Coherent, ReadBack, Delivered;
    s', bytes, calls := s, [], [];
    while |bytes| < n
      invariant Valid(s') && s'.begin == s.begin && s'.size == s.size && s'.cacheSize == s.cacheSize
      invariant |bytes| <= n && s'.pos == s.pos + |bytes|
      invariant forall k :: 0 <= k < |calls| ==> calls[k].ReadCall? && calls[k].len == s.cacheSize
      invariant Coherent(s, mem) && Delivered(status, calls, |mem|) ==>
                  Coherent(s', mem) && ReadBack(mem, s.begin + s.pos, bytes)
      decreases n - |bytes|
    {
      var g := GetChar(s', mem, Status(status, |calls|) == 0);
      if g.c < 0 {
        break;
      }
      var b := g.c as bv8;
      if Coherent(s, mem) && Delivered(status, calls + g.calls, |mem|) {
        DeliveredPrefix(status, calls, g.calls, |mem|);
        ReadStep(s.begin + s.pos, s', mem, status, calls, bytes);
      }
      bytes, calls := bytes + [b], calls + g.calls;
      s' := g.stream;
    }
    r := |bytes|;
  }

  /** `write` on the input stream is unsupported: -ENOSYS, nothing changes.
      The source's unconditional `X_ASSERT` before the return is a
      debugging stop; the model keeps the value the function returns. */
  function InWrite(s: InStream, data: seq<bv8>): (r: (int, InStream))
    ensures r.0 == -ENOSYS && r.1 == s
  {
    (-ENOSYS, s)
  }

  /** `seek` on the input stream: the output stream's rules, and the cache is
      dropped only when the position actually changes. */
  function InSeek(s: InStream, offset: int, whence: int): (r: (int, InStream))
    requires Valid(s)
    ensures Valid(r.1) && r.1.begin == s.begin && r.1.size == s.size && r.1.cacheSize == s.cacheSize
    ensures r.0 < 0 ==> r.1 == s
    ensures r.0 >= 0 ==> r.0 == r.1.pos
    ensures r.0 == OutSeek(OutStream(s.begin, s.size, s.pos), offset, whence).0
    ensures r.1.pos == s.pos ==> r.1 == s
    ensures r.1.pos != s.pos ==> !r.1.cached && r.1.cacheIndex == 0
    ensures forall mem :: Coherent(s, mem) ==> Coherent(r.1, mem)
  {
    match Seek(s.pos, s.size, offset, whence)
    case Moved(p) => (p, if p != s.pos then ResetCache(s).(pos := p) else s)
    case o => (SeekReturn(o), s)
  }
}

=== FILE: bmp_reader.dfy ===
/**
 * `DBMPReader` and `DBMPHeader`: the 54-byte Windows bitmap header decoded
 * from fixed little-endian offsets, the palette that follows it, and the
 * addressing of the bottom-up rows, read through a seekable input stream
 * (here a memory input stream over the file's bytes).
 */
module BmpReader {
  import opened Common
  import opened Arith
  import opened Streams

  // ---------------------------------------------------------------------------
  // Little-endian fields

  /** Size of the file header plus the info header. */
  const HEADER_SIZE: nat := 54

  /** Byte offsets of the header fields. */
  const OFF_BF_TYPE: nat := 0
  const OFF_BF_SIZE: nat := 2
  const OFF_BF_RESERVED1: nat := 6
  const OFF_BF_RESERVED2: nat := 8
  const OFF_BF_OFFBITS: nat := 10
  const OFF_BI_SIZE: nat := 14
  const OFF_BI_WIDTH: nat := 18
  const OFF_BI_HEIGHT: nat := 22
  const OFF_BI_PLANES: nat := 26
  const OFF_BI_BITCOUNT: nat := 28
  const OFF_BI_COMPRESSION: nat := 30
  const OFF_BI_SIZEIMAGE: nat := 34
  const OFF_BI_XPIXPERMETER: nat := 38
  const OFF_BI_YPIXPERMETER: nat := 42
  const OFF_BI_CLRUSED: nat := 46
  const OFF_BI_CLRIMPORTANT: nat := 50

  /** `X_LOAD_U16_LIT`: two bytes, least significant first. */
  function LoadU16(b: seq<bv8>, off: nat): (v: nat)
    requires off + 2 <= |b|
    ensures v < 0x1_0000
  {
    b[off] as nat + 0x100 * b[off + 1] as nat
  }

  /** `X_LOAD_U32_LIT`: four bytes, least significant first. */
  function LoadU32(b: seq<bv8>, off: nat): (v: nat)
    requires off + 4 <= |b|
    ensures v < 0x1_0000_0000
  {
    LoadU16(b, off) + 0x1_0000 * LoadU16(b, off + 2)
  }

  /** The inverse encodings, a byte at a time. */
  function StoreU16(v: nat): (b: seq<bv8>)
    requires v < 0x1_0000
    ensures |b| == 2
  {
    [(v % 0x100) as bv8, (v / 0x100) as bv8]
  }

  function StoreU32(v: nat): (b: seq<bv8>)
    requires v < 0x1_0000_0000
    ensures |b| == 4
  {
    StoreU16(v % 0x1_0000) + StoreU16(v / 0x1_0000)
  }

  lemma LoadStoreU16(v: nat)
    requires v < 0x1_0000
    ensures LoadU16(StoreU16(v), 0) == v
  {
    ByteOfSmall(v % 0x100);
    ByteOfSmall(v / 0x100);
  }

  lemma LoadStoreU32(v: nat)
    requires v < 0x1_0000_0000
    ensures LoadU32(StoreU32(v), 0) == v
  {
    var lo, hi := v % 0x1_0000, v / 0x1_0000;
    LoadStoreU16(lo);
    LoadStoreU16(hi);
    assert LoadU16(StoreU32(v), 2) == LoadU16(StoreU16(hi), 0);
  }

  /** A load only looks at the bytes it covers. */
  lemma Field16(b: seq<bv8>, off: nat, v: nat)
    requires v < 0x1_0000 && off + 2 <= |b| && b[off..off + 2] == StoreU16(v)
    ensures LoadU16(b, off) == v
  {
    LoadStoreU16(v);
    assert b[off] == StoreU16(v)[0] && b[off + 1] == StoreU16(v)[1];
  }

  lemma Field32(b: seq<bv8>, off: nat, v: nat)
    requires v < 0x1_0000_0000 && off + 4 <= |b| && b[off..off + 4] == StoreU32(v)
    ensures LoadU32(b, off) == v
  {
    LoadStoreU32(v);
    var s := StoreU32(v);
    assert b[off] == s[0] && b[off + 1] == s[1] && b[off + 2] == s[2] && b[off + 3] == s[3];
  }

  // ---------------------------------------------------------------------------
  // DBMPHeader

  /** `DBMPHeader`, with the widths of its fields: `biWidth`, `biHeight` and
      the resolutions are `int32_t`, the rest unsigned 16 or 32 bits. */
  datatype Header = Header(
    bfType: (bv8, bv8),
    bfSize: nat, bfReserved1: nat, bfReserved2: nat, bfOffBits: nat,
    biSize: nat, biWidth: int, biHeight: int, biPlanes: nat, biBitCount: nat,
    biCompression: nat, biSizeImage: nat, biXPixPerMeter: int, biYPixPerMeter: int,
    biClrUsed: nat, biClrImportant: nat)
  {
    predicate Valid()
    {
      && IsU32(bfSize) && bfReserved1 < 0x1_0000 && bfReserved2 < 0x1_0000 && IsU32(bfOffBits)
      && IsU32(biSize) && IsI32(biWidth) && IsI32(biHeight) && biPlanes < 0x1_0000 && biBitCount < 0x1_0000
      && IsU32(biCompression) && IsU32(biSizeImage) && IsI32(biXPixPerMeter) && IsI32(biYPixPerMeter)
      && IsU32(biClrUsed) && IsU32(biClrImportant)
    }
  }

  predicate IsU32(v: nat) { v < INT32_MODULUS }
  predicate IsI32(v: int) { INT32_MIN <= v < -INT32_MIN }

  /** The unpacking of `readHeader`: each field from its offset, the signed
      ones reinterpreted as two's complement. */
  function DecodeHeader(b: seq<bv8>): (h: Header)
    requires |b| == HEADER_SIZE
    ensures h.Valid()
  {
    Header(
      (b[OFF_BF_TYPE], b[OFF_BF_TYPE + 1]),
      LoadU32(b, OFF_BF_SIZE), LoadU16(b, OFF_BF_RESERVED1), LoadU16(b, OFF_BF_RESERVED2),
      LoadU32(b, OFF_BF_OFFBITS),
      LoadU32(b, OFF_BI_SIZE), Int32(LoadU32(b, OFF_BI_WIDTH)), Int32(LoadU32(b, OFF_BI_HEIGHT)),
      LoadU16(b, OFF_BI_PLANES), LoadU16(b, OFF_BI_BITCOUNT),
      LoadU32(b, OFF_BI_COMPRESSION), LoadU32(b, OFF_BI_SIZEIMAGE),
      Int32(LoadU32(b, OFF_BI_XPIXPERMETER)), Int32(LoadU32(b, OFF_BI_YPIXPERMETER)),
      LoadU32(b, OFF_BI_CLRUSED), LoadU32(b, OFF_BI_CLRIMPORTANT))
  }

  /** The layout a writer of the header would produce: the 14-byte file
      header, then the 40-byte info header, each field little-endian, the
      signed ones as their 32-bit pattern. */
  function EncodeHeader(h: Header): (b: seq<bv8>)
    requires h.Valid()
    ensures |b| == HEADER_SIZE
  {
    FileHeaderBytes(h) + InfoHeaderBytes(h)
  }

  function FileHeaderBytes(h: Header): (b: seq<bv8>)
    requires h.Valid()
    ensures |b| == 14
  {
    [h.bfType.0, h.bfType.1]
    + StoreU32(h.bfSize) + StoreU16(h.bfReserved1) + StoreU16(h.bfReserved2)
    + StoreU32(h.bfOffBits)
  }

  function InfoHeaderBytes(h: Header): (b: seq<bv8>)
    requires h.Valid()
    ensures |b| == 40
  {
    InfoSizeBytes(h) + InfoFormatBytes(h) + InfoColourBytes(h)
  }

  function InfoSizeBytes(h: Header): (b: seq<bv8>)
    requires h.Valid()
    ensures |b| == 16
  {
    StoreU32(h.biSize) + StoreU32(U32(h.biWidth)) + StoreU32(U32(h.biHeight))
    + StoreU16(h.biPlanes) + StoreU16(h.biBitCount)
  }

  function InfoFormatBytes(h: Header): (b: seq<bv8>)
    requires h.Valid()
    ensures |b| == 16
  {
    StoreU32(h.biCompression) + StoreU32(h.biSizeImage)
    + StoreU32(U32(h.biXPixPerMeter)) + StoreU32(U32(h.biYPixPerMeter))
  }

  function InfoColourBytes(h: Header): (b: seq<bv8>)
    requires h.Valid()
    ensures |b| == 8
  {
    StoreU32(h.biClrUsed) + StoreU32(h.biClrImportant)
  }

  /** A signed field survives its 32-bit pattern. */
  lemma SignedPattern(v: int)
    requires IsI32(v)
    ensures Int32(U32(v)) == v
  {
    var u := U32(v);
    assert (u - v) % INT32_MODULUS == 0;
    if v < 0 {
      assert u == v + INT32_MODULUS;
    }
  }

  lemma FileHeaderFields(h: Header)
    requires h.Valid()
    ensures var b := EncodeHeader(h);
            && (b[OFF_BF_TYPE], b[OFF_BF_TYPE + 1]) == h.bfType
            && LoadU32(b, OFF_BF_SIZE) == h.bfSize
            && LoadU16(b, OFF_BF_RESERVED1) == h.bfReserved1
            && LoadU16(b, OFF_BF_RESERVED2) == h.bfReserved2
            && LoadU32(b, OFF_BF_OFFBITS) == h.bfOffBits
  {
    hide StoreU16, StoreU32, LoadU16, LoadU32, U32;
    var b := EncodeHeader(h);
    var f := FileHeaderBytes(h);
    assert b[..14] == f;
    assert b[2..6] == f[2..6] == StoreU32(h.bfSize);
    assert b[6..8] == f[6..8] == StoreU16(h.bfReserved1);
    assert b[8..10] == f[8..10] == StoreU16(h.bfReserved2);
    assert b[10..14] == f[10..14] == StoreU32(h.bfOffBits);
    Field32(b, 2, h.bfSize);
    Field16(b, 6, h.bfReserved1);
    Field16(b, 8, h.bfReserved2);
    Field32(b, 10, h.bfOffBits);
  }

  lemma InfoSizeFields(h: Header)
    requires h.Valid()
    ensures var b := EncodeHeader(h);
            && LoadU32(b, OFF_BI_SIZE) == h.biSize
            && LoadU32(b, OFF_BI_WIDTH) == U32(h.biWidth)
            && LoadU32(b, OFF_BI_HEIGHT) == U32(h.biHeight)
            && LoadU16(b, OFF_BI_PLANES) == h.biPlanes
            && LoadU16(b, OFF_BI_BITCOUNT) == h.biBitCount
  {
    hide StoreU16, StoreU32, LoadU16, LoadU32, U32;
    var b := EncodeHeader(h);
    var f := InfoSizeBytes(h);
    assert b[14..30] == f;
    assert b[14..18] == f[0..4] == StoreU32(h.biSize);
    assert b[18..22] == f[4..8] == StoreU32(U32(h.biWidth));
    assert b[22..26] == f[8..12] == StoreU32(U32(h.biHeight));
    assert b[26..28] == f[12..14] == StoreU16(h.biPlanes);
    assert b[28..30] == f[14..16] == StoreU16(h.biBitCount);
    Field32(b, 14, h.biSize);
    Field32(b, 18, U32(h.biWidth));
    Field32(b, 22, U32(h.biHeight));
    Field16(b, 26, h.biPlanes);
    Field16(b, 28, h.biBitCount);
  }

  lemma InfoFormatFields(h: Header)
    requires h.Valid()
    ensures var b := EncodeHeader(h);
            && LoadU32(b, OFF_BI_COMPRESSION) == h.biCompression
            && LoadU32(b, OFF_BI_SIZEIMAGE) == h.biSizeImage
            && LoadU32(b, OFF_BI_XPIXPERMETER) == U32(h.biXPixPerMeter)
            && LoadU32(b, OFF_BI_YPIXPERMETER) == U32(h.biYPixPerMeter)
  {
    hide StoreU16, StoreU32, LoadU16, LoadU32, U32;
    var b := EncodeHeader(h);
    var f := InfoFormatBytes(h);
    assert b[30..46] == f;
    assert b[30..34] == f[0..4] == StoreU32(h.biCompression);
    assert b[34..38] == f[4..8] == StoreU32(h.biSizeImage);
    assert b[38..42] == f[8..12] == StoreU32(U32(h.biXPixPerMeter));
    assert b[42..46] == f[12..16] == StoreU32(U32(h.biYPixPerMeter));
    Field32(b, 30, h.biCompression);
    Field32(b, 34, h.biSizeImage);
    Field32(b, 38, U32(h.biXPixPerMeter));
    Field32(b, 42, U32(h.biYPixPerMeter));
  }

  lemma InfoColourFields(h: Header)
    requires h.Valid()
    ensures var b := EncodeHeader(h);
            && LoadU32(b, OFF_BI_CLRUSED) == h.biClrUsed
            && LoadU32(b, OFF_BI_CLRIMPORTANT) == h.biClrImportant
  {
    hide StoreU16, StoreU32, LoadU16, LoadU32, U32;
    var b := EncodeHeader(h);
    var f := InfoColourBytes(h);
    assert b[46..54] == f;
    assert b[46..50] == f[0..4] == StoreU32(h.biClrUsed);
    assert b[50..54] == f[4..8] == StoreU32(h.biClrImportant);
    Field32(b, 46, h.biClrUsed);
    Field32(b, 50, h.biClrImportant);
  }

  /** Every field of the header is read back from the offset `readHeader`
      takes it from. */
  lemma HeaderRoundTrip(h: Header)
    requires h.Valid()
    ensures DecodeHeader(EncodeHeader(h)) == h
  {
    FileHeaderFields(h);
    InfoSizeFields(h);
    InfoFormatFields(h);
    InfoColourFields(h);
    SignedPattern(h.biWidth);
    SignedPattern(h.biHeight);
    SignedPattern(h.biXPixPerMeter);
    SignedPattern(h.biYPixPerMeter);
  }

  /** `isValidType`: the file starts with 'B', 'M'. */
  function IsValidType(h: Header): (v: bool)
    ensures h.Valid() ==> (v <==> EncodeHeader(h)[0] == 'B' as bv8 && EncodeHeader(h)[1] == 'M' as bv8)
  {
    h.bfType == ('B' as bv8, 'M' as bv8)
  }

  /** `isNoCompression`: the compression word at offset 30 of the header is
      0. */
  function IsNoCompression(h: Header): (v: bool)
    ensures h.Valid() ==> (v <==> LoadU32(EncodeHeader(h), OFF_BI_COMPRESSION) == 0)
  {
    if h.Valid() then
      HeaderRoundTrip(h);
      h.biCompression == 0
    else
      h.biCompression == 0
  }

  /** `hasPalette`: exactly the depths of eight bits per pixel or fewer, whose
      palette has at most 256 colours. */
  function HasPalette(h: Header): (v: bool)
    ensures v <==> h.biBitCount <= 8
    ensures v ==> h.biBitCount < 31 && NumberOfColors(h) <= 256
  {
    if h.biBitCount <= 8 then
      Pow2Monotone(h.biBitCount, 8);
      true
    else
      false
  }

  /** `X_ROUNDUP_MULTIPLE(x, m)`, taken as `(x + m - 1) / m * m` with C's
      truncating division. */
  function RoundUpMultiple(x: int, m: int): (r: int)
    requires m > 0
    ensures x >= 0 ==> x <= r < x + m && r % m == 0
  {
    if x >= 0 then RoundUpBounds(x, m); CDiv(x + m - 1, m) * m
    else CDiv(x + m - 1, m) * m
  }

  lemma RoundUpBounds(x: nat, m: nat)
    requires m > 0
    ensures var r := (x + m - 1) / m * m; x <= r < x + m && r % m == 0
  {
    var q, rem := (x + m - 1) / m, (x + m - 1) % m;
    assert x + m - 1 == q * m + rem;
    DivModUnique(q * m, m, q, 0);
  }

  /** `getLineSize`: the bytes of one row before padding, from the macros for
      depths 1, 4, 8, 16 and 32; -1 for any other depth, 24 included. */
  function LineSize(h: Header): (n: int)
    ensures h.biBitCount !in {1, 4, 8, 16, 32} ==> n == -1
    ensures h.biBitCount in {1, 4, 8, 16, 32} && h.biWidth > 0 ==> n > 0
  {
    var w := h.biWidth;
    if h.biBitCount == 1 then RoundUpMultiple(w, 8) / 8
    else if h.biBitCount == 4 then RoundUpMultiple(w, 8) / 2
    else if h.biBitCount == 8 then w
    else if h.biBitCount == 16 then w * 2
    else if h.biBitCount == 32 then w * 4
    else -1
  }

  /** For a supported depth and a positive width the row holds every pixel's
      bits, wasting less than 32 bits (the 4-bit macro rounds to 8 pixels). */
  lemma LineSizeHoldsRow(h: Header)
    requires h.biBitCount in {1, 4, 8, 16, 32} && h.biWidth > 0
    ensures h.biWidth * h.biBitCount <= LineSize(h) * 8 < h.biWidth * h.biBitCount + 32
  {
    var w, n := h.biWidth, LineSize(h);
    if h.biBitCount == 1 {
      var r := RoundUpMultiple(w, 8);
      ExactDivision(r, 8);
      assert n * 8 == r;
      assert w * h.biBitCount == w;
    } else if h.biBitCount == 4 {
      var r := RoundUpMultiple(w, 8);
      ExactDivision(r, 2);
      assert n * 8 == 4 * r;
      assert w * h.biBitCount == 4 * w;
    } else if h.biBitCount == 8 {
      assert w * h.biBitCount == 8 * w;
    } else if h.biBitCount == 16 {
      assert w * h.biBitCount == 16 * w;
    } else {
      assert w * h.biBitCount == 32 * w;
    }
  }

  /** A multiple of 8 divides exactly by any divisor of 8. */
  lemma ExactDivision(r: nat, m: nat)
    requires m > 0 && 8 % m == 0 && r % 8 == 0
    ensures r / m * m == r
  {
    MultipleOfMultiple(r, 8, m);
  }

  /** `getNumberOfColors`: `1U << biBitCount`, for the shifts C defines on a
      32-bit `unsigned` that also fit the `int` result. */
  function NumberOfColors(h: Header): (n: nat)
    requires h.biBitCount < 31
    ensures n >= 1
  {
    Pow2(h.biBitCount)
  }

  /** A palette of depth 0 has one colour, and each further bit of depth
      doubles the number of colours. */
  lemma NumberOfColorsDoubles(h: Header)
    requires h.biBitCount < 31
    ensures h.biBitCount == 0 ==> NumberOfColors(h) == 1
    ensures h.biBitCount > 0 ==> NumberOfColors(h) == 2 * NumberOfColors(h.(biBitCount := h.biBitCount - 1))
  {
  }

  function Pow2(k: nat): (p: nat)
    ensures p >= 1
  {
    if k == 0 then 1 else 2 * Pow2(k - 1)
  }

  lemma {:induction false} Pow2Monotone(k: nat, m: nat)
    requires k <= m
    ensures Pow2(k) <= Pow2(m)
    decreases m
  {
    if k < m {
      Pow2Monotone(k, m - 1);
    }
  }

  /** A palette entry, `DBMPRGBQuad`: blue, green, red, reserved. */
  datatype Quad = Quad(blue: bv8, green: bv8, red: bv8, reserved: bv8)

  /** The entries of a run of palette bytes, four bytes each. */
  function Quads(b: seq<bv8>): (q: seq<Quad>)
    requires |b| % 4 == 0
    ensures |q| == |b| / 4
    ensures forall i :: 0 <= i < |q| ==> q[i] == Quad(b[4 * i], b[4 * i + 1], b[4 * i + 2], b[4 * i + 3])
  {
    if b == [] then []
    else
      var rest := Quads(b[4..]);
      [Quad(b[0], b[1], b[2], b[3])] + rest
  }

  // ---------------------------------------------------------------------------
  // DBMPReader

  /** The reader: its input stream and `m_prevRowNumber` (-1 when the last
      operation was not a successful row read). */
  datatype Reader = Reader(input: MemIn, prev: int)
  {
    predicate Valid() { input.Valid() }
  }

  function NewReader(input: MemIn): (r: Reader)
    requires input.Valid()
    ensures r.Valid() && r.prev == -1
  {
    Reader(input, -1)
  }

  datatype HeaderRead = HeaderRead(ok: bool, reader: Reader, header: Option<Header>)

  /** `readHeader`: seek to 0, forget the previous row, read 54 bytes and
      decode them. The header is only produced when all 54 bytes arrive. */
  function ReadHeader(r: Reader): (res: HeaderRead)
    requires r.Valid()
    ensures res.reader.Valid() && res.reader.input.src == r.input.src
    ensures res.ok <==> |r.input.src| >= HEADER_SIZE
    ensures res.ok <==> res.header.Some?
    ensures res.ok ==> res.header == Some(DecodeHeader(r.input.src[..HEADER_SIZE]))
    ensures res.ok ==> res.reader.input.pos == HEADER_SIZE
    ensures res.reader.prev == -1
  {
    var sk := MemInSeek(r.input, 0, SEEK_SET);
    if sk.0 < 0 then HeaderRead(false, r, None)
    else
      var rd := MemInRead(sk.1, HEADER_SIZE);
      var r1 := Reader(rd.stream, -1);
      if rd.ret != HEADER_SIZE then HeaderRead(false, r1, None)
      else HeaderRead(true, r1, Some(DecodeHeader(rd.bytes)))
  }

  datatype PaletteRead = PaletteRead(ok: bool, reader: Reader, palette: Option<seq<Quad>>)

  /** `readPalette`: seek past the header, forget the previous row and read
      four bytes per colour. */
  function ReadPalette(r: Reader, h: Header): (res: PaletteRead)
    requires r.Valid() && h.biBitCount < 31
    ensures res.reader.Valid() && res.reader.input.src == r.input.src
    ensures res.ok <==> |r.input.src| >= HEADER_SIZE + 4 * NumberOfColors(h)
    ensures res.ok <==> res.palette.Some?
    ensures res.ok ==> |res.palette.value| == NumberOfColors(h)
    ensures res.ok ==> forall i :: 0 <= i < NumberOfColors(h) ==>
      var at := HEADER_SIZE + 4 * i;
      var src := r.input.src;
      res.palette.value[i] == Quad(src[at], src[at + 1], src[at + 2], src[at + 3])
    ensures |r.input.src| >= HEADER_SIZE ==> res.reader.prev == -1
  {
    var sk := MemInSeek(r.input, HEADER_SIZE, SEEK_SET);
    if sk.0 < 0 then PaletteRead(false, r, None)
    else
      var n := 4 * NumberOfColors(h);
      var rd := MemInRead(sk.1, n);
      var r1 := Reader(rd.stream, -1);
      if rd.ret != n then PaletteRead(false, r1, None)
      else PaletteRead(true, r1, Some(Quads(rd.bytes)))
  }

  /** How the sequential path of `readRow` decides how many bytes to skip
      between two rows: as written (`roundedLineSize % lineSize`) or the row
      padding (`roundedLineSize - lineSize`). */
  datatype SkipRule = SkipAsWritten | SkipPadding

  /** A row's length rounded up to the four-byte boundary rows are stored
      on. */
  function PaddedLineSize(lineSize: int): (n: int)
    requires lineSize > 0
    ensures lineSize <= n < lineSize + 4 && n % 4 == 0
  {
    RoundUpMultiple(lineSize, 4)
  }

  function Skip(rule: SkipRule, lineSize: int): (k: nat)
    requires lineSize > 0
  {
    match rule
    case SkipAsWritten => PaddedLineSize(lineSize) % lineSize
    case SkipPadding => PaddedLineSize(lineSize) - lineSize
  }

  /** The two rules agree exactly when the padding is shorter than the row,
      that is for rows of three bytes or more. */
  lemma SkipRulesAgree(lineSize: int)
    requires lineSize > 0
    ensures Skip(SkipAsWritten, lineSize) == Skip(SkipPadding, lineSize) <==> lineSize >= 3
  {
    var n := PaddedLineSize(lineSize);
    if lineSize >= 4 {
      DivModUnique(n, lineSize, 1, n - lineSize);
    } else if lineSize == 3 {
      assert n == 4;
    } else {
      assert n == 4;
    }
  }

  /** Where the random-access path of `readRow` seeks: rows are stored bottom
      up, each padded to a multiple of four bytes. The offset is formed in
      32-bit unsigned arithmetic, as the operand types make it. */
  function RowPosition(h: Header, row: nat): nat
    requires LineSize(h) > 0
  {
    U32(h.bfOffBits + U32(PaddedLineSize(LineSize(h)) * U32(h.biHeight - 1 - row)))
  }

  /** The exact offset of a row, for headers small enough that the 32-bit
      arithmetic does not wrap. */
  function RowStart(h: Header, row: nat): (s: int)
    requires LineSize(h) > 0
    ensures row < h.biHeight ==> s >= h.bfOffBits
  {
    var p, k := PaddedLineSize(LineSize(h)), h.biHeight - 1 - row;
    if k >= 0 then MulMono(0, k, p); h.bfOffBits + p * k
    else h.bfOffBits + p * k
  }

  predicate NoWrap(h: Header)
    requires LineSize(h) > 0
  {
    0 < h.biHeight && h.bfOffBits + PaddedLineSize(LineSize(h)) * h.biHeight < INT32_MODULUS
  }

  lemma RowPositionExact(h: Header, row: nat)
    requires LineSize(h) > 0 && NoWrap(h) && row < h.biHeight
    ensures RowPosition(h, row) == RowStart(h, row)
  {
    var p, k := PaddedLineSize(LineSize(h)), h.biHeight - 1 - row;
    OffsetNoWrap(h.bfOffBits, p, k, h.biHeight);
    assert RowPosition(h, row) == U32(h.bfOffBits + U32(p * U32(k)));
    assert RowStart(h, row) == h.bfOffBits + p * k;
    hide U32, PaddedLineSize, LineSize, RowPosition, RowStart;
  }

  /** The 32-bit offset of row `k` from the top, below the wrap point. */
  lemma OffsetNoWrap(off: nat, p: nat, k: nat, n: nat)
    requires k < n && off + p * n < INT32_MODULUS
    ensures U32(off + U32(p * U32(k))) == off + p * k
  {
    MulMono(k, n, p);
  }

  /** True when `readRow(row)` takes the sequential path: the row read last
      is the one below it in the file. */
  predicate Sequential(r: Reader, row: nat)
  {
    r.prev >= 0 && U32(r.prev - 1) == row
  }

  datatype RowRead = RowRead(ok: bool, reader: Reader, bytes: seq<bv8>)

  /** `readRow(rowNumber, buffer)` under a skip rule. A row at or past
      `biHeight` (compared as unsigned) and an unsupported depth fail without
      touching the stream. The row just above the one read last (the next in
      the file, which stores rows bottom up) is reached by skipping forward;
      any other row by a seek. The row number is remembered, as an `int`,
      only on success. */
  function ReadRowBy(rule: SkipRule, r: Reader, h: Header, row: nat): (res: RowRead)
    requires r.Valid() && row < INT32_MODULUS
    ensures res.reader.Valid() && res.reader.input.src == r.input.src
    ensures res.ok ==> |res.bytes| == LineSize(h) && res.reader.prev == Int32(row)
    ensures !res.ok ==> res.reader.prev == r.prev
    ensures row >= U32(h.biHeight) || LineSize(h) <= 0 ==> res == RowRead(false, r, [])
  {
    if row >= U32(h.biHeight) then RowRead(false, r, [])
    else
      var lineSize := LineSize(h);
      if lineSize <= 0 then RowRead(false, r, [])
      else
        var moved: (bool, MemIn) :=
          if Sequential(r, row) then
            var remain := Skip(rule, lineSize);
            if remain == 0 then (true, r.input)
            else
              var sk := MemInRead(r.input, remain);
              (sk.ret == remain, sk.stream)
          else
            var sk := MemInSeek(r.input, RowPosition(h, row), SEEK_SET);
            (sk.0 >= 0, sk.1);
        if !moved.0 then RowRead(false, r.(input := moved.1), [])
        else
          var rd := MemInRead(moved.1, lineSize);
          if rd.ret != lineSize then RowRead(false, r.(input := rd.stream), [])
          else RowRead(true, Reader(rd.stream, Int32(row)), rd.bytes)
  }

  /** `readRow` as written: a row read is a whole line or a failure that
      keeps the previous row number. */
  function ReadRowAsWritten(r: Reader, h: Header, row: nat): (res: RowRead)
    requires r.Valid() && row < INT32_MODULUS
    ensures res.reader.Valid() && res.reader.input.src == r.input.src
    ensures res.ok ==> |res.bytes| == LineSize(h) && res.reader.prev == Int32(row)
    ensures !res.ok ==> res.reader.prev == r.prev
    ensures row >= U32(h.biHeight) ==> res == RowRead(false, r, [])
  {
    ReadRowBy(SkipAsWritten, r, h, row)
  }

  /** `readRow` skipping the row padding on the sequential path: a row read
      is a whole line or a failure that keeps the previous row number. */
  function ReadRow(r: Reader, h: Header, row: nat): (res: RowRead)
    requires r.Valid() && row < INT32_MODULUS
    ensures res.reader.Valid() && res.reader.input.src == r.input.src
    ensures res.ok ==> |res.bytes| == LineSize(h) && res.reader.prev == Int32(row)
    ensures !res.ok ==> res.reader.prev == r.prev
    ensures row >= U32(h.biHeight) ==> res == RowRead(false, r, [])
  {
    ReadRowBy(SkipPadding, r, h, row)
  }

  /** Off the sequential path a row is read by seeking to its position: it
      succeeds exactly when the whole row lies in the file, and then yields
      the row's bytes and leaves the stream just after them. */
  lemma RandomAccessRow(rule: SkipRule, r: Reader, h: Header, row: nat)
    requires r.Valid() && row < INT32_MODULUS && !Sequential(r, row)
    requires row < U32(h.biHeight) && LineSize(h) > 0
    ensures var res := ReadRowBy(rule, r, h, row);
            var at, n := RowPosition(h, row), LineSize(h);
            && (res.ok <==> at + n <= |r.input.src|)
            && (res.ok ==> res.bytes == r.input.src[at..at + n] && res.reader.input.pos == at + n)
  {
  }

  /** The reader is in step with the file: after a successful row read the
      stream sits right after that row. Every reader whose last operation was
      not a row read (`prev == -1`) is in step. */
  predicate InSync(r: Reader, h: Header)
    requires LineSize(h) > 0
  {
    r.prev >= 0 ==> r.prev < h.biHeight && r.input.pos == RowStart(h, r.prev) + LineSize(h)
  }

  /** On the sequential path of an in-step reader the row is read from just
      after the row below it plus the skip. */
  lemma SequentialRead(rule: SkipRule, r: Reader, h: Header, row: nat)
    requires r.Valid() && h.Valid() && LineSize(h) > 0 && NoWrap(h) && row < h.biHeight
    requires InSync(r, h) && Sequential(r, row)
    ensures r.prev == row + 1
    ensures var res := ReadRowBy(rule, r, h, row);
            var n := LineSize(h);
            var at := RowStart(h, row + 1) + n + Skip(rule, n);
            && (res.ok <==> at + n <= |r.input.src|)
            && (res.ok ==> res.bytes == r.input.src[at..at + n] && res.reader.input.pos == at + n)
  {
    hide ReadRowBy, RowStart, LineSize, Skip, PaddedLineSize, U32, Int32;
    PreviousRow(r.prev, row, h.biHeight);
    SequentialSteps(rule, r, h, row);
  }

  /** The sequential path is only taken from the row just below. */
  lemma PreviousRow(prev: int, row: nat, height: int)
    requires 0 <= prev < height < INT32_MODULUS && row < height && U32(prev - 1) == row
    ensures prev == row + 1
  {
  }

  /** The sequential path of `readRow`, spelled out: a read of the skip,
      then a read of the row. */
  lemma SequentialSteps(rule: SkipRule, r: Reader, h: Header, row: nat)
    requires r.Valid() && row < INT32_MODULUS && Sequential(r, row)
    requires row < U32(h.biHeight) && LineSize(h) > 0
    ensures var n, k := LineSize(h), Skip(rule, LineSize(h));
            var sk := MemInRead(r.input, k);
            var rd := MemInRead(sk.stream, n);
            ReadRowBy(rule, r, h, row) ==
              if sk.ret != k then RowRead(false, r.(input := sk.stream), [])
              else if rd.ret != n then RowRead(false, r.(input := rd.stream), [])
              else RowRead(true, Reader(rd.stream, Int32(row)), rd.bytes)
  {
    assert MemInRead(r.input, 0).stream == r.input;
  }

  /** Two rows apart in the file by exactly one padded row. */
  lemma RowStartStep(h: Header, row: nat)
    requires LineSize(h) > 0
    ensures RowStart(h, row + 1) + PaddedLineSize(LineSize(h)) == RowStart(h, row)
  {
    var p, k := PaddedLineSize(LineSize(h)), h.biHeight - 1 - row;
    assert p * (k - 1) + p == p * k;
  }

  /** `readRow` with the padding skipped, on an in-step reader: a row is
      read exactly when it lies wholly in the file, it is read from the
      row's own position whichever path is taken, and the reader stays in
      step. */
  lemma ReadRowInSync(r: Reader, h: Header, row: nat)
    requires r.Valid() && h.Valid() && LineSize(h) > 0 && NoWrap(h) && row < h.biHeight
    requires InSync(r, h)
    ensures var res := ReadRow(r, h, row);
            var at, n := RowStart(h, row), LineSize(h);
            && (res.ok <==> at + n <= |r.input.src|)
            && (res.ok ==> res.bytes == r.input.src[at..at + n] && InSync(res.reader, h))
  {
    hide ReadRowBy, RowStart, RowPosition, LineSize, PaddedLineSize, U32, Int32;
    if Sequential(r, row) {
      SequentialRead(SkipPadding, r, h, row);
      RowStartStep(h, row);
    } else {
      RowPositionExact(h, row);
      RandomAccessRow(SkipPadding, r, h, row);
    }
  }

  /** `readRow` as written, on the sequential path of an in-step reader,
      for rows of one or two bytes: `roundedLineSize % lineSize` is 0, so
      the padding is not skipped and the bytes read start `4 - lineSize`
      bytes before the row. */
  lemma SequentialSkipMisreads(r: Reader, h: Header, row: nat)
    requires r.Valid() && h.Valid() && LineSize(h) in {1, 2} && NoWrap(h) && row < h.biHeight
    requires InSync(r, h) && Sequential(r, row)
    ensures var res := ReadRowAsWritten(r, h, row);
            var n := LineSize(h);
            var at := RowStart(h, row) - (4 - n);
            && at != RowStart(h, row)
            && (res.ok <==> at + n <= |r.input.src|)
            && (res.ok ==> res.bytes == r.input.src[at..at + n])
  {
    hide ReadRowBy, RowStart, RowPosition, U32, Int32;
    var n := LineSize(h);
    SequentialRead(SkipAsWritten, r, h, row);
    RowStartStep(h, row);
    assert PaddedLineSize(n) == 4;
  }

  /** A bitmap of two one-byte rows (8 bits per pixel, one pixel wide): after
      row 1, the bottom row (stored first), the as-written `readRow(0)`
      returns the first padding byte of row 1 instead of the top row's
      pixel. */
  lemma SequentialSkipExample()
    ensures var h := Header(('B' as bv8, 'M' as bv8), 62, 0, 0, 54, 40, 1, 2, 1, 8, 0, 8, 0, 0, 0, 0);
            var src := seq(54, _ => 0 as bv8) + [1, 0, 0, 0, 2, 0, 0, 0];
            var r := Reader(MemIn(src, 55), 1);
            && ReadRowAsWritten(r, h, 0) == RowRead(true, Reader(MemIn(src, 56), 0), [0])
            && ReadRow(r, h, 0) == RowRead(true, Reader(MemIn(src, 59), 0), [2])
  {
    var h := Header(('B' as bv8, 'M' as bv8), 62, 0, 0, 54, 40, 1, 2, 1, 8, 0, 8, 0, 0, 0, 0);
    assert LineSize(h) == 1 && PaddedLineSize(1) == 4;
  }
}

=== FILE: color.dfy ===
/**
 * `DRGB`: a colour packed in 32 bits with alpha in bits 24-31, red in
 * 16-23, green in 8-15 and blue in 0-7, and its conversions to and from the
 * 16-bit RGB565, ARGB1555 and RGBA5551 formats and the byte-swapped RGBA8888
 * layout. All values are `uint32_t`; the 16-bit intermediates of the source
 * never hold more than 16 significant bits, so `bv32` models them exactly.
 *
 * Where a helper disagrees with the packer it is meant to undo, the helper
 * as written is kept under an `AsWritten` name next to the corrected one,
 * and every conversion below is built on the corrected helpers.
 */
module Color {

  // ---------------------------------------------------------------------
  // ARGB8888 channels
  // ---------------------------------------------------------------------

  function Red(c: bv32): (r: bv32)
    ensures r <= 0xFF
  {
    (c >> 16) & 0xFF
  }

  function Green(c: bv32): (g: bv32)
    ensures g <= 0xFF
  {
    (c >> 8) & 0xFF
  }

  function Blue(c: bv32): (b: bv32)
    ensures b <= 0xFF
  {
    c & 0xFF
  }

  function Alpha(c: bv32): (a: bv32)
    ensures a <= 0xFF
  {
    (c >> 24) & 0xFF
  }

  /** `d_rgba`: packs the low byte of each channel. */
  function Rgba(r: bv32, g: bv32, b: bv32, a: bv32): (c: bv32)
    ensures Red(c) == r & 0xFF && Green(c) == g & 0xFF && Blue(c) == b & 0xFF && Alpha(c) == a & 0xFF
  {
    ((a & 0xFF) << 24) | ((r & 0xFF) << 16) | ((g & 0xFF) << 8) | (b & 0xFF)
  }

  /** `d_rgb`: an opaque colour. */
  function Rgb(r: bv32, g: bv32, b: bv32): (c: bv32)
    ensures c == Rgba(r, g, b, 0xFF)
    ensures Alpha(c) == 0xFF
  {
    (0xFF << 24) | ((r & 0xFF) << 16) | ((g & 0xFF) << 8) | (b & 0xFF)
  }

  /** A colour is nothing but its four channels. */
  lemma ChannelsRebuild(c: bv32)
    ensures Rgba(Red(c), Green(c), Blue(c), Alpha(c)) == c
  {
  }

  // ---------------------------------------------------------------------
  // Gray
  // ---------------------------------------------------------------------

  /** `d_gray(r, g, b)`: the weighted mean (11 r + 16 g + 5 b) / 32, in
      wrapping 32-bit arithmetic. */
  function Gray(r: bv32, g: bv32, b: bv32): bv32
  {
    (r * 11 + g * 16 + b * 5) / 32
  }

  /** `d_gray(rgb)`: the gray level of a colour's channels. */
  function GrayOf(c: bv32): bv32
  {
    Gray(Red(c), Green(c), Blue(c))
  }

  /** `d_is_gray`: the three colour channels agree. */
  predicate IsGray(c: bv32)
  {
    Red(c) == Green(c) && Red(c) == Blue(c)
  }

  /** For byte channels the weights add up to 32, so the level stays a
      byte and three equal channels give their common value. */
  lemma GrayIsAWeightedMean(r: bv32, g: bv32, b: bv32)
    requires r <= 0xFF && g <= 0xFF && b <= 0xFF
    ensures Gray(r, g, b) <= 0xFF
    ensures Gray(r, r, r) == r
  {
  }

  lemma GrayOfGray(c: bv32)
    ensures IsGray(c) ==> GrayOf(c) == Red(c)
  {
    GrayIsAWeightedMean(Red(c), Green(c), Blue(c));
  }

  // ---------------------------------------------------------------------
  // RGB565
  // ---------------------------------------------------------------------

  function Rgb565Red(p: bv32): (r: bv32)
    ensures r <= 0x1F
  {
    (p >> 11) & 0x1F
  }

  function Rgb565Green(p: bv32): (g: bv32)
    ensures g <= 0x3F
  {
    (p >> 5) & 0x3F
  }

  function Rgb565Blue(p: bv32): (b: bv32)
    ensures b <= 0x1F
  {
    p & 0x1F
  }

  /** `d_to_rgb565`: the top 5, 6 and 5 bits of red, green and blue. */
  function ToRgb565(c: bv32): (p: bv32)
    ensures p < 0x1_0000
  {
    ((Red(c) >> 3) << 11) | ((Green(c) >> 2) << 5) | (Blue(c) >> 3)
  }

  /** The 565 extractors read back what the packer stored. */
  lemma Rgb565Fields(c: bv32)
    ensures Rgb565Red(ToRgb565(c)) == Red(c) >> 3
    ensures Rgb565Green(ToRgb565(c)) == Green(c) >> 2
    ensures Rgb565Blue(ToRgb565(c)) == Blue(c) >> 3
  {
  }

  /** `d_rgb565_to_argb8888`: each field widened to a byte by repeating its
      top bits below it, fully opaque. */
  function Rgb565ToArgb8888(p: bv32): (c: bv32)
    ensures Alpha(c) == 0xFF
  {
    var r, g, b := Rgb565Red(p), Rgb565Green(p), Rgb565Blue(p);
    (r << 19) | ((r << 14) & 0x0007_0000) |
    (g << 10) | ((g << 4) & 0x0000_0300) |
    (b << 3) | ((b >> 2) & 0x0000_0007) | 0xFF00_0000
  }

  /** Widening a 565 colour and narrowing it again gives it back. */
  lemma Rgb565WidenNarrow(p: bv32)
    requires p < 0x1_0000
    ensures ToRgb565(Rgb565ToArgb8888(p)) == p
  {
  }

  // ---------------------------------------------------------------------
  // ARGB1555 and RGBA5551
  // ---------------------------------------------------------------------

  /** The colour bits of ARGB1555: the top five bits of red, green and blue
      in bits 10-14, 5-9 and 0-4, clear of the alpha bit 15. */
  function Bits1555(c: bv32): (bits: bv32)
    ensures bits & 0x7FFF == bits && bits & 0x8000 == 0
  {
    ((Red(c) >> 3) << 10) | ((Green(c) >> 3) << 5) | (Blue(c) >> 3)
  }

  /** The colour bits of RGBA5551: the same fields one bit higher, in bits
      11-15, 6-10 and 1-5, clear of the alpha bit 0. */
  function Bits5551(c: bv32): (bits: bv32)
    ensures bits & 0xFFFE == bits && bits & 1 == 0
  {
    ((Red(c) >> 3) << 11) | ((Green(c) >> 3) << 6) | ((Blue(c) >> 3) << 1)
  }

  /** The 16-bit packers' `test ? mark | bits : bits`. */
  function MarkIf(test: bool, mark: bv32, bits: bv32): bv32
  {
    if test then mark | bits else bits
  }

  lemma MarkedKeeps(mark: bv32, colours: bv32, bits: bv32)
    ensures bits & colours == bits && mark & colours == 0 ==> (mark | bits) & colours == bits
  {
  }

  lemma MarkedFlag(mark: bv32, bits: bv32)
    ensures mark != 0 ==> (mark | bits) & mark != 0
  {
  }

  /** A mark outside the colour bits leaves them readable. */
  lemma MarkIfKeeps(test: bool, mark: bv32, colours: bv32, bits: bv32)
    ensures bits & colours == bits && mark & colours == 0 ==> MarkIf(test, mark, bits) & colours == bits
  {
    if test {
      MarkedKeeps(mark, colours, bits);
    }
  }

  /** A mark the colour bits do not overlap is present exactly when the test
      held. */
  lemma MarkIfFlag(test: bool, mark: bv32, bits: bv32)
    ensures bits & mark == 0 && mark != 0 ==> ((MarkIf(test, mark, bits) & mark != 0) <==> test)
  {
    if test {
      MarkedFlag(mark, bits);
    }
  }

  /** `d_to_argb1555` as written: the alpha bit is set when `a & 80` is not
      zero; 80 is decimal, which tests bits 4 and 6 of alpha rather than
      bit 7. */
  function ToArgb1555AsWritten(c: bv32): (p: bv32)
    ensures p < 0x1_0000
  {
    MarkIf(Alpha(c) & 80 != 0, 0x8000, Bits1555(c))
  }

  /** `d_to_argb1555` with the alpha test on bit 7 (`0x80`), as its comment
      and `d_rgba8888_to_argb1555` have it. */
  function ToArgb1555(c: bv32): (p: bv32)
    ensures p < 0x1_0000
  {
    MarkIf(Alpha(c) & 0x80 != 0, 0x8000, Bits1555(c))
  }

  /** `d_to_rgba5551` as written, with the same decimal 80 alpha test. */
  function ToRgba5551AsWritten(c: bv32): (p: bv32)
    ensures p < 0x1_0000
  {
    MarkIf(Alpha(c) & 80 != 0, 1, Bits5551(c))
  }

  /** `d_to_rgba5551` with the alpha test on bit 7. */
  function ToRgba5551(c: bv32): (p: bv32)
    ensures p < 0x1_0000
  {
    MarkIf(Alpha(c) & 0x80 != 0, 1, Bits5551(c))
  }

  /** The packers in terms of `MarkIf`, for proofs that keep every body
      hidden. */
  lemma PackersUnfold(c: bv32)
    ensures ToArgb1555AsWritten(c) == MarkIf(Alpha(c) & 80 != 0, 0x8000, Bits1555(c))
    ensures ToArgb1555(c) == MarkIf(Alpha(c) & 0x80 != 0, 0x8000, Bits1555(c))
    ensures ToRgba5551AsWritten(c) == MarkIf(Alpha(c) & 80 != 0, 1, Bits5551(c))
    ensures ToRgba5551(c) == MarkIf(Alpha(c) & 0x80 != 0, 1, Bits5551(c))
  {
  }

  /** Bit 7 of a byte is set exactly for the values 0x80 and above. */
  lemma Bit7(a: bv32)
    ensures a <= 0xFF ==> ((a & 0x80 != 0) <==> a >= 0x80)
  {
  }

  /** Decimal 80 is 0x50: bits 4 and 6. */
  lemma Decimal80(a: bv32)
    ensures (a & 80 != 0) <==> (a & 0x10 != 0 || a & 0x40 != 0)
  {
  }

  /** The alpha test, as written or corrected, leaves the ARGB1555 colour
      bits alone. */
  lemma Argb1555KeepsColours(c: bv32, test: bool)
    ensures MarkIf(test, 0x8000, Bits1555(c)) & 0x7FFF == Bits1555(c)
  {
    MarkIfKeeps(test, 0x8000, 0x7FFF, Bits1555(c));
  }

  /** Likewise for the RGBA5551 colour bits. */
  lemma Rgba5551KeepsColours(c: bv32, test: bool)
    ensures MarkIf(test, 1, Bits5551(c)) & 0xFFFE == Bits5551(c)
  {
    MarkIfKeeps(test, 1, 0xFFFE, Bits5551(c));
  }

  /** The corrected packers mark exactly the colours with alpha 0x80 or
      more. */
  lemma AlphaTests(c: bv32)
    ensures (ToArgb1555(c) & 0x8000 != 0) <==> Alpha(c) >= 0x80
    ensures (ToRgba5551(c) & 1 != 0) <==> Alpha(c) >= 0x80
  {
    PackersUnfold(c);
    Bit7(Alpha(c));
    MarkIfFlag(Alpha(c) & 0x80 != 0, 0x8000, Bits1555(c));
    MarkIfFlag(Alpha(c) & 0x80 != 0, 1, Bits5551(c));
  }

  /** The packers as written mark exactly the colours with bit 4 or bit 6 of
      alpha set. */
  lemma AlphaTestsAsWritten(c: bv32)
    ensures (ToArgb1555AsWritten(c) & 0x8000 != 0) <==> (Alpha(c) & 0x10 != 0 || Alpha(c) & 0x40 != 0)
    ensures (ToRgba5551AsWritten(c) & 1 != 0) <==> (Alpha(c) & 0x10 != 0 || Alpha(c) & 0x40 != 0)
  {
    PackersUnfold(c);
    Decimal80(Alpha(c));
    MarkIfFlag(Alpha(c) & 80 != 0, 0x8000, Bits1555(c));
    MarkIfFlag(Alpha(c) & 80 != 0, 1, Bits5551(c));
  }

  /** An opaque colour loses its alpha bit and a nearly transparent one gains
      it. */
  lemma AlphaTestMissesBit7()
    ensures ToArgb1555AsWritten(0x8000_0000) & 0x8000 == 0
    ensures ToArgb1555AsWritten(0x1000_0000) & 0x8000 != 0
    ensures ToArgb1555(0x8000_0000) & 0x8000 != 0
    ensures ToArgb1555(0x1000_0000) & 0x8000 == 0
  {
    AlphaTests(0x8000_0000);
    AlphaTests(0x1000_0000);
    AlphaTestsAsWritten(0x8000_0000);
    AlphaTestsAsWritten(0x1000_0000);
  }

  /** The fields of the ARGB1555 colour bits. */
  lemma Packed1555Fields(c: bv32)
    ensures Argb1555Red(Bits1555(c)) == Red(c) >> 3
    ensures Argb1555Green(Bits1555(c)) == Green(c) >> 3
    ensures Argb1555Blue(Bits1555(c)) == Blue(c) >> 3
  {
  }

  /** The fields of the RGBA5551 colour bits. */
  lemma Packed5551Fields(c: bv32)
    ensures (Bits5551(c) >> 11) & 0x1F == Red(c) >> 3
    ensures (Bits5551(c) >> 6) & 0x1F == Green(c) >> 3
    ensures (Bits5551(c) >> 1) & 0x1F == Blue(c) >> 3
  {
  }

  /** The 5551 colour fields do not see bit 0. */
  lemma Fields5551IgnoreBit0(p: bv32)
    ensures (p >> 11) & 0x1F == ((p & 0xFFFE) >> 11) & 0x1F
    ensures (p >> 6) & 0x1F == ((p & 0xFFFE) >> 6) & 0x1F
    ensures (p >> 1) & 0x1F == ((p & 0xFFFE) >> 1) & 0x1F
  {
  }

  /** The 5551 layout: red in bits 11-15, green 6-10, blue 1-5, and the
      alpha bit 0 set exactly for alpha 0x80 and above. */
  lemma Rgba5551Fields(c: bv32)
    ensures (ToRgba5551(c) >> 11) & 0x1F == Red(c) >> 3
    ensures (ToRgba5551(c) >> 6) & 0x1F == Green(c) >> 3
    ensures (ToRgba5551(c) >> 1) & 0x1F == Blue(c) >> 3
    ensures (ToRgba5551(c) & 1 != 0) <==> Alpha(c) >= 0x80
  {
    PackersUnfold(c);
    Rgba5551KeepsColours(c, Alpha(c) & 0x80 != 0);
    AlphaTests(c);
    Packed5551Fields(c);
    Fields5551IgnoreBit0(ToRgba5551(c));
    hide ToRgba5551, Bits5551, Red, Green, Blue, Alpha, MarkIf;
  }

  /** `d_argb1555_red` as written shifts by 11, one more than the packer's
      10. */
  function Argb1555RedAsWritten(p: bv32): (r: bv32)
    ensures r <= 0x1F
    ensures p < 0x1_0000 ==> r == (Argb1555Red(p) >> 1) | (Argb1555Alpha(p) << 4)
  {
    (p >> 11) & 0x1F
  }

  /** The red field of ARGB1555, bits 10-14. */
  function Argb1555Red(p: bv32): (r: bv32)
    ensures r <= 0x1F
  {
    (p >> 10) & 0x1F
  }

  function Argb1555Green(p: bv32): (g: bv32)
    ensures g <= 0x1F
  {
    (p >> 5) & 0x1F
  }

  function Argb1555Blue(p: bv32): (b: bv32)
    ensures b <= 0x1F
  {
    p & 0x1F
  }

  /** `d_argb1555_alpha` as written masks 0x1F, which is the blue field. */
  function Argb1555AlphaAsWritten(p: bv32): (a: bv32)
    ensures a == Argb1555Blue(p)
  {
    p & 0x1F
  }

  /** The alpha bit of ARGB1555, bit 15. */
  function Argb1555Alpha(p: bv32): (a: bv32)
    ensures a <= 1
  {
    (p >> 15) & 1
  }

  /** Reading packed pixels with the helpers as written: opaque full red
      reads 0x1F only because the alpha bit lands in the top of red, a
      transparent full red reads 0x0F, and a transparent pure blue pixel
      reads as having alpha. */
  lemma Argb1555HelpersMisread()
    ensures ToArgb1555(0xFFFF_0000) == 0xFC00
    ensures Argb1555RedAsWritten(0xFC00) == 0x1F && Argb1555Red(0xFC00) == 0x1F
    ensures ToArgb1555(0x00FF_0000) == 0x7C00
    ensures Argb1555RedAsWritten(0x7C00) == 0x0F && Argb1555Red(0x7C00) == 0x1F
    ensures ToArgb1555(0x0000_00FF) == 0x001F
    ensures Argb1555AlphaAsWritten(0x001F) != 0 && Argb1555Alpha(0x001F) == 0
  {
  }

  /** The 1555 colour extractors do not see the alpha bit. */
  lemma Fields1555IgnoreAlpha(p: bv32)
    ensures Argb1555Red(p) == Argb1555Red(p & 0x7FFF)
    ensures Argb1555Green(p) == Argb1555Green(p & 0x7FFF)
    ensures Argb1555Blue(p) == Argb1555Blue(p & 0x7FFF)
  {
  }

  /** The alpha extractor reads bit 15. */
  lemma AlphaBit(p: bv32)
    ensures Argb1555Alpha(p) != 0 <==> p & 0x8000 != 0
  {
  }

  /** Masking off the alpha bit of a corrected 1555 pixel leaves its colour
      bits. */
  lemma Argb1555ColourBits(c: bv32)
    ensures ToArgb1555(c) & 0x7FFF == Bits1555(c)
  {
    PackersUnfold(c);
    Argb1555KeepsColours(c, Alpha(c) & 0x80 != 0);
    hide *;
  }

  lemma Argb1555RedReadBack(c: bv32)
    ensures Argb1555Red(ToArgb1555(c)) == Red(c) >> 3
  {
    Argb1555ColourBits(c);
    Packed1555Fields(c);
    Fields1555IgnoreAlpha(ToArgb1555(c));
    hide *;
  }

  lemma Argb1555GreenReadBack(c: bv32)
    ensures Argb1555Green(ToArgb1555(c)) == Green(c) >> 3
  {
    Argb1555ColourBits(c);
    Packed1555Fields(c);
    Fields1555IgnoreAlpha(ToArgb1555(c));
    hide *;
  }

  lemma Argb1555BlueReadBack(c: bv32)
    ensures Argb1555Blue(ToArgb1555(c)) == Blue(c) >> 3
  {
    Argb1555ColourBits(c);
    Packed1555Fields(c);
    Fields1555IgnoreAlpha(ToArgb1555(c));
    hide *;
  }

  lemma Argb1555AlphaReadBack(c: bv32)
    ensures Argb1555Alpha(ToArgb1555(c)) != 0 <==> Alpha(c) >= 0x80
  {
    AlphaTests(c);
    AlphaBit(ToArgb1555(c));
    hide *;
  }

  /** The corrected extractors read back what `d_to_argb1555` stored. */
  lemma Argb1555Fields(c: bv32)
    ensures Argb1555Red(ToArgb1555(c)) == Red(c) >> 3
    ensures Argb1555Green(ToArgb1555(c)) == Green(c) >> 3
    ensures Argb1555Blue(ToArgb1555(c)) == Blue(c) >> 3
    ensures Argb1555Alpha(ToArgb1555(c)) != 0 <==> Alpha(c) >= 0x80
  {
    Argb1555RedReadBack(c);
    Argb1555GreenReadBack(c);
    Argb1555BlueReadBack(c);
    Argb1555AlphaReadBack(c);
  }

  /** The colour part of `d_argb1555_to_argb8888` for fields `r`, `g`, `b`:
      each five-bit field widened to eight bits by repeating its top three
      bits. */
  function WidenFields(r: bv32, g: bv32, b: bv32): bv32
  {
    (r << 19) | ((r << 14) & 0x0007_0000) |
    (g << 11) | ((g << 6) & 0x0000_0700) |
    (b << 3) | ((b >> 2) & 0x0000_0007)
  }

  /** The colour part of `d_argb1555_to_argb8888` on the corrected fields. */
  function Widen1555(p: bv32): bv32
  {
    WidenFields(Argb1555Red(p), Argb1555Green(p), Argb1555Blue(p))
  }

  /** The alpha byte of `d_argb1555_to_argb8888`: 0xFF when the alpha bit is
      set, 0 otherwise. */
  function WideAlpha(p: bv32): (a: bv32)
    ensures a & 0x00FF_FFFF == 0
  {
    if Argb1555Alpha(p) != 0 then 0xFF00_0000 else 0
  }

  /** `d_argb1555_to_argb8888` on the corrected extractors. */
  function Argb1555ToArgb8888(p: bv32): (c: bv32)
    ensures Alpha(c) == (if Argb1555Alpha(p) != 0 then 0xFF else 0)
  {
    Widen1555(p) | WideAlpha(p)
  }

  lemma Argb1555ToArgb8888Unfold(p: bv32)
    ensures Argb1555ToArgb8888(p) == Widen1555(p) | WideAlpha(p)
  {
  }

  /** Setting only the alpha byte leaves the colour channels alone. */
  lemma ChannelsIgnoreAlpha(x: bv32, a: bv32)
    ensures a & 0x00FF_FFFF == 0 ==> Red(x | a) == Red(x) && Green(x | a) == Green(x) && Blue(x | a) == Blue(x)
  {
  }

  /** Narrowing the widened colour keeps the five top bits of each field. */
  lemma WidenedBits(p: bv32)
    ensures Bits1555(Widen1555(p)) == p & 0x7FFF
  {
  }

  /** A 16-bit value is its alpha bit marked on its colour bits. */
  lemma MarkedOpaque(p: bv32)
    ensures p < 0x1_0000 && p & 0x8000 != 0 ==> MarkIf(true, 0x8000, p & 0x7FFF) == p
  {
  }

  lemma UnmarkedTransparent(p: bv32)
    ensures p < 0x1_0000 && p & 0x8000 == 0 ==> MarkIf(false, 0x8000, p & 0x7FFF) == p
  {
  }

  lemma Reassemble1555(p: bv32)
    ensures p < 0x1_0000 ==> MarkIf(p & 0x8000 != 0, 0x8000, p & 0x7FFF) == p
  {
    MarkedOpaque(p);
    UnmarkedTransparent(p);
  }

  /** The 1555 colour bits depend on the colour channels only. */
  lemma SameChannelsSameBits(x: bv32, y: bv32)
    ensures Red(x) == Red(y) && Green(x) == Green(y) && Blue(x) == Blue(y) ==> Bits1555(x) == Bits1555(y)
  {
  }

  /** The widened colour narrows back to the colour bits it came from. */
  lemma WidenedColours(p: bv32)
    ensures Bits1555(Argb1555ToArgb8888(p)) == p & 0x7FFF
  {
    Argb1555ToArgb8888Unfold(p);
    ChannelsIgnoreAlpha(Widen1555(p), WideAlpha(p));
    SameChannelsSameBits(Argb1555ToArgb8888(p), Widen1555(p));
    WidenedBits(p);
  }

  /** The widened alpha passes the bit-7 test exactly when bit 15 was set. */
  lemma WidenedAlphaTest(p: bv32)
    ensures (Alpha(Argb1555ToArgb8888(p)) & 0x80 != 0) <==> p & 0x8000 != 0
  {
    AlphaBit(p);
  }

  /** Widening a 1555 colour and narrowing it again gives it back. */
  lemma Argb1555WidenNarrow(p: bv32)
    requires p < 0x1_0000
    ensures ToArgb1555(Argb1555ToArgb8888(p)) == p
  {
    PackersUnfold(Argb1555ToArgb8888(p));
    WidenedColours(p);
    WidenedAlphaTest(p);
    Reassemble1555(p);
    hide ToArgb1555, Argb1555ToArgb8888, Bits1555, Alpha, MarkIf;
  }

  /** `d_argb1555_to_rgba8888` on the corrected extractors: the same
      widening in the RGBA8888 layout. */
  function Argb1555ToRgba8888(p: bv32): (c: bv32)
    ensures c == ToRgba8888(Argb1555ToArgb8888(p))
  {
    var a: bv32 := if Argb1555Alpha(p) != 0 then 0xFF else 0;
    var r, g, b := Argb1555Red(p), Argb1555Green(p), Argb1555Blue(p);
    (r << 27) | ((r << 22) & 0x0700_0000) |
    (g << 19) | ((g << 14) & 0x0007_0000) |
    (b << 11) | ((b << 6) & 0x0000_0700) | a
  }

  // The 1555 conversions as the source writes them, calling the extractors
  // `d_argb1555_red` (shift 11) and `d_argb1555_alpha` (mask 0x1F).

  /** The pixel the extractors as written see in `p`: red taken one bit too
      high, green and blue as they are, and the alpha bit set exactly when
      the blue field is non-zero. */
  function Misread1555(p: bv32): (q: bv32)
    ensures q < 0x1_0000
    ensures Argb1555Red(q) == Argb1555RedAsWritten(p)
    ensures Argb1555Green(q) == Argb1555Green(p) && Argb1555Blue(q) == Argb1555Blue(p)
    ensures (Argb1555Alpha(q) != 0) <==> (Argb1555AlphaAsWritten(p) != 0)
  {
    var bits := (Argb1555RedAsWritten(p) << 10) | (p & 0x3FF);
    if Argb1555AlphaAsWritten(p) != 0 then 0x8000 | bits else bits
  }

  /** `d_argb1555_to_argb8888` as written: the corrected widening of the
      misread pixel. */
  function Argb1555ToArgb8888AsWritten(p: bv32): (c: bv32)
    ensures c == Argb1555ToArgb8888(Misread1555(p))
  {
    var a: bv32 := if Argb1555AlphaAsWritten(p) != 0 then 0xFF00_0000 else 0;
    WidenFields(Argb1555RedAsWritten(p), Argb1555Green(p), Argb1555Blue(p)) | a
  }

  /** `d_argb1555_to_rgba8888` as written: the corrected widening of the
      misread pixel. */
  function Argb1555ToRgba8888AsWritten(p: bv32): (c: bv32)
    ensures c == Argb1555ToRgba8888(Misread1555(p))
  {
    var a: bv32 := if Argb1555AlphaAsWritten(p) != 0 then 0xFF else 0;
    var r, g, b := Argb1555RedAsWritten(p), Argb1555Green(p), Argb1555Blue(p);
    (r << 27) | ((r << 22) & 0x0700_0000) |
    (g << 19) | ((g << 14) & 0x0007_0000) |
    (b << 11) | ((b << 6) & 0x0000_0700) | a
  }

  /** An opaque pixel with no colour widens to a transparent dark red, and
      does not come back from ARGB8888 as it went in. */
  lemma Argb1555WidenAsWrittenExample()
    ensures Argb1555ToArgb8888AsWritten(0x8000) == 0x0084_0000
    ensures ToArgb1555(Argb1555ToArgb8888AsWritten(0x8000)) == 0x4000
    ensures Argb1555ToRgba8888AsWritten(0x8000) == 0x8400_0000
    ensures Argb1555ToArgb8888(0x8000) == 0xFF00_0000
    ensures ToArgb1555(Argb1555ToArgb8888(0x8000)) == 0x8000
  {
  }

  /** `d_rgb565_to_argb1555` as written: green drops its lowest bit, and the
      constant 0x80 that should mark the pixel opaque lands in bit 7, inside
      the green field. */
  function Rgb565ToArgb1555AsWritten(p: bv32): (q: bv32)
    ensures q == (Rgb565ToArgb1555(p) & 0x7FFF) | 0x80
  {
    0x80 | (Rgb565Red(p) << 10) | ((Rgb565Green(p) >> 1) << 5) | Rgb565Blue(p)
  }

  /** `d_rgb565_to_argb1555` with the alpha bit, bit 15, set. */
  function Rgb565ToArgb1555(p: bv32): (q: bv32)
    ensures q < 0x1_0000
    ensures Argb1555Alpha(q) == 1
    ensures Argb1555Red(q) == Rgb565Red(p) && Argb1555Blue(q) == Rgb565Blue(p)
    ensures Argb1555Green(q) == Rgb565Green(p) >> 1
  {
    0x8000 | (Rgb565Red(p) << 10) | ((Rgb565Green(p) >> 1) << 5) | Rgb565Blue(p)
  }

  /** Black in RGB565 becomes a transparent dark green. */
  lemma Rgb565ToArgb1555MarksGreen()
    ensures Rgb565ToArgb1555AsWritten(0) == 0x80
    ensures Argb1555Alpha(0x80) == 0 && Argb1555Green(0x80) == 4
    ensures Rgb565ToArgb1555(0) == 0x8000
  {
  }

  /** `d_argb1555_to_rgb565` as written: red comes from the extractor as
      written, and widening green to six bits ORs its top bit into bit 0,
      the lowest blue bit, instead of bit 5. */
  function Argb1555ToRgb565AsWritten(p: bv32): (q: bv32)
    ensures q < 0x1_0000
    ensures Rgb565Red(q) == Argb1555RedAsWritten(p)
    ensures Rgb565Green(q) == Argb1555Green(p) << 1
    ensures Rgb565Blue(q) == Argb1555Blue(p) | (Argb1555Green(p) >> 4)
  {
    var r, g, b := Argb1555RedAsWritten(p), Argb1555Green(p), Argb1555Blue(p);
    (r << 11) | ((g << 6) | ((g >> 4) & 0x01)) | b
  }

  /** A pixel with green 16 and no blue comes out with blue 1. */
  lemma Argb1555ToRgb565TouchesBlue()
    ensures Argb1555Blue(0x0200) == 0 && Argb1555Green(0x0200) == 16
    ensures Rgb565Blue(Argb1555ToRgb565AsWritten(0x0200)) == 1
    ensures Rgb565Blue(Argb1555ToRgb565(0x0200)) == 0
  {
  }

  /** `d_argb1555_to_rgb565` with the repeated green bit in bit 5. */
  function Argb1555ToRgb565(p: bv32): (q: bv32)
    ensures q < 0x1_0000
    ensures Rgb565Red(q) == Argb1555Red(p) && Rgb565Blue(q) == Argb1555Blue(p)
    ensures Rgb565Green(q) >> 1 == Argb1555Green(p)
  {
    var r, g, b := Argb1555Red(p), Argb1555Green(p), Argb1555Blue(p);
    (r << 11) | (((g << 1) | ((g >> 4) & 0x01)) << 5) | b
  }

  /** Going to RGB565 and back restores a 1555 colour's fields and marks it
      opaque. */
  lemma Argb1555Through565(p: bv32)
    requires p < 0x1_0000
    ensures Rgb565ToArgb1555(Argb1555ToRgb565(p)) == p | 0x8000
  {
  }

  // ---------------------------------------------------------------------
  // RGBA8888
  // ---------------------------------------------------------------------

  /** `d_to_argb8888`: rebuilding from the four channels leaves the value as
      it was. */
  function ToArgb8888(c: bv32): (d: bv32)
    ensures d == c
  {
    (Alpha(c) << 24) | (Red(c) << 16) | (Green(c) << 8) | (Blue(c) << 0)
  }

  /** `d_to_rgba8888` (also `d_argb8888_to_rgba8888`): alpha moves to the
      low byte and the colour channels up by one byte. */
  function ToRgba8888(c: bv32): bv32
  {
    (Red(c) << 24) | (Green(c) << 16) | (Blue(c) << 8) | (Alpha(c) << 0)
  }

  function Rgba8888Alpha(q: bv32): (a: bv32)
    ensures a <= 0xFF
  {
    q & 0xFF
  }

  function Rgba8888Red(q: bv32): (r: bv32)
    ensures r <= 0xFF
  {
    (q >> 24) & 0xFF
  }

  function Rgba8888Green(q: bv32): (g: bv32)
    ensures g <= 0xFF
  {
    (q >> 16) & 0xFF
  }

  /** `d_rgba8888_blue` as written keeps only the low five bits of the blue
      byte. */
  function Rgba8888BlueAsWritten(q: bv32): (b: bv32)
    ensures b == Rgba8888Blue(q) & 0x1F
  {
    (q >> 8) & 0x1F
  }

  /** The blue byte of RGBA8888. */
  function Rgba8888Blue(q: bv32): (b: bv32)
    ensures b <= 0xFF
  {
    (q >> 8) & 0xFF
  }

  /** Full blue reads back as 0x1F. */
  lemma Rgba8888BlueTruncates()
    ensures ToRgba8888(0x0000_00FF) == 0xFF00
    ensures Rgba8888BlueAsWritten(0xFF00) == 0x1F && Rgba8888Blue(0xFF00) == 0xFF
  {
  }

  /** The RGBA8888 extractors read back every channel of `d_to_rgba8888`. */
  lemma Rgba8888Fields(c: bv32)
    ensures Rgba8888Red(ToRgba8888(c)) == Red(c)
    ensures Rgba8888Green(ToRgba8888(c)) == Green(c)
    ensures Rgba8888Blue(ToRgba8888(c)) == Blue(c)
    ensures Rgba8888Alpha(ToRgba8888(c)) == Alpha(c)
  {
  }

  /** `d_rgba8888_to_argb8888`: the low byte goes back to the top. */
  function Rgba8888ToArgb8888(q: bv32): bv32
  {
    ((q >> 8) & 0x00FF_FFFF) | ((q << 24) & 0xFF00_0000)
  }

  /** The two byte orders convert into each other without loss, both ways. */
  lemma Argb8888Rgba8888RoundTrip(c: bv32, q: bv32)
    ensures Rgba8888ToArgb8888(ToRgba8888(c)) == c
    ensures ToRgba8888(Rgba8888ToArgb8888(q)) == q
  {
  }

  /** `d_rgb565_to_rgba8888`: the 565 widening in the RGBA8888 layout. */
  function Rgb565ToRgba8888(p: bv32): (q: bv32)
    ensures q == ToRgba8888(Rgb565ToArgb8888(p))
  {
    var r, g, b := Rgb565Red(p), Rgb565Green(p), Rgb565Blue(p);
    (r << 27) | ((r << 22) & 0x0700_0000) |
    (g << 18) | ((g << 12) & 0x0003_0000) |
    (b << 11) | ((b << 6) & 0x0000_0700) | 0xFF
  }

  /** `d_rgba8888_to_rgb565`, on the corrected blue extractor. */
  function Rgba8888ToRgb565(q: bv32): (p: bv32)
    ensures p == ToRgb565(Rgba8888ToArgb8888(q))
  {
    ((Rgba8888Red(q) >> 3) << 11) | ((Rgba8888Green(q) >> 2) << 5) | (Rgba8888Blue(q) >> 3)
  }

  /** `d_rgba8888_to_argb1555`, on the corrected blue extractor; its alpha
      test is on bit 7 in the source already. */
  function Rgba8888ToArgb1555(q: bv32): (p: bv32)
    ensures p < 0x1_0000
  {
    var bits := ((Rgba8888Red(q) >> 3) << 10) | ((Rgba8888Green(q) >> 3) << 5) | (Rgba8888Blue(q) >> 3);
    MarkIf(Rgba8888Alpha(q) & 0x80 != 0, 0x8000, bits)
  }

  // The RGBA8888 narrowings as the source writes them, calling
  // `d_rgba8888_blue`, which keeps only the low five bits of blue.

  /** The colour the blue extractor as written sees in `q`: the top three
      bits of the blue byte cleared. */
  function MisreadRgba8888(q: bv32): (m: bv32)
    ensures Rgba8888Red(m) == Rgba8888Red(q) && Rgba8888Green(m) == Rgba8888Green(q)
    ensures Rgba8888Blue(m) == Rgba8888BlueAsWritten(q) && Rgba8888Alpha(m) == Rgba8888Alpha(q)
  {
    q & 0xFFFF_1FFF
  }

  /** `d_rgba8888_to_rgb565` as written: the corrected narrowing of the
      misread colour. */
  function Rgba8888ToRgb565AsWritten(q: bv32): (p: bv32)
    ensures p == Rgba8888ToRgb565(MisreadRgba8888(q))
  {
    ((Rgba8888Red(q) >> 3) << 11) | ((Rgba8888Green(q) >> 2) << 5) | (Rgba8888BlueAsWritten(q) >> 3)
  }

  /** `d_rgba8888_to_argb1555` as written: the corrected narrowing of the
      misread colour. */
  function Rgba8888ToArgb1555AsWritten(q: bv32): (p: bv32)
    ensures p == Rgba8888ToArgb1555(MisreadRgba8888(q))
  {
    var bits := ((Rgba8888Red(q) >> 3) << 10) | ((Rgba8888Green(q) >> 3) << 5) | (Rgba8888BlueAsWritten(q) >> 3);
    MarkIf(Rgba8888Alpha(q) & 0x80 != 0, 0x8000, bits)
  }

  /** Full 565 blue does not survive a trip through RGBA8888 as written: it
      comes back as 3; and opaque full blue narrows to 1555 blue 3. */
  lemma Rgba8888NarrowAsWrittenExample()
    ensures Rgb565ToRgba8888(0x001F) == 0xFFFF
    ensures Rgba8888ToRgb565AsWritten(0xFFFF) == 3
    ensures Rgba8888ToRgb565(0xFFFF) == 0x001F
    ensures Rgba8888ToArgb1555AsWritten(0xFFFF) == 0x8003
    ensures Rgba8888ToArgb1555(0xFFFF) == 0x801F
  {
  }

  /** Moving alpha back to the top byte keeps every channel. */
  lemma Rgba8888Channels(q: bv32)
    ensures Red(Rgba8888ToArgb8888(q)) == Rgba8888Red(q)
    ensures Green(Rgba8888ToArgb8888(q)) == Rgba8888Green(q)
    ensures Blue(Rgba8888ToArgb8888(q)) == Rgba8888Blue(q)
    ensures Alpha(Rgba8888ToArgb8888(q)) == Rgba8888Alpha(q)
  {
  }

  /** Narrowing an RGBA8888 colour straight to 1555 is the same as going
      through ARGB8888. */
  lemma Rgba8888ToArgb1555Agrees(q: bv32)
    ensures Rgba8888ToArgb1555(q) == ToArgb1555(Rgba8888ToArgb8888(q))
  {
    Rgba8888Channels(q);
  }

  /** Through RGBA8888, a 565 colour still comes back unchanged. */
  lemma Rgb565ThroughRgba8888(p: bv32)
    requires p < 0x1_0000
    ensures Rgba8888ToRgb565(Rgb565ToRgba8888(p)) == p
  {
    Argb8888Rgba8888RoundTrip(Rgb565ToArgb8888(p), 0);
    Rgb565WidenNarrow(p);
  }
}

=== FILE: common.dfy ===
/**
 * Shared vocabulary of the dandy library model: the POSIX error numbers the
 * streams and block-device layer return (negated), EOF, the whence codes of
 * `seek`, and the target computation every seekable stream repeats.
 */
module Common {

  /** Error numbers as negated by the library (`return -EIO;`). The values follow
      the Linux `errno.h` numbering; the model only relies on them being
      positive and pairwise distinct. */
  const EIO: int := 5
  const EACCES: int := 13
  const ENOSPC: int := 28
  const ERANGE: int := 34
  const ENOSYS: int := 38
  const ENODATA: int := 61

  /** mbed `BlockDevice` result codes. */
  const BD_ERROR_OK: int := 0
  const BD_ERROR_DEVICE_ERROR: int := -4001

  /** `EOF` of `<cstdio>`. */
  const EOF: int := -1

  /** `whence` codes of `seek`. */
  const SEEK_SET: int := 0
  const SEEK_CUR: int := 1
  const SEEK_END: int := 2

  /** The three ways a `seek` on a bounded stream can end. */
  datatype SeekOutcome = BadWhence | OutOfRange | Moved(pos: nat)

  /** The absolute position `seek` aims at, or None for an unknown whence. */
  function SeekTarget(pos: nat, size: nat, offset: int, whence: int): (t: Option<int>)
    ensures whence == SEEK_SET ==> t == Some(offset)
    ensures whence == SEEK_CUR ==> t == Some(pos + offset)
    ensures whence == SEEK_END ==> t == Some(size + offset)
    ensures t.None? <==> whence != SEEK_SET && whence != SEEK_CUR && whence != SEEK_END
  {
    if whence == SEEK_SET then Some(offset)
    else if whence == SEEK_CUR then Some(pos + offset)
    else if whence == SEEK_END then Some(size + offset)
    else None
  }

  /** Seek on a stream whose positions range over [0, size]: an unknown whence is
      refused first, then a target below 0 or beyond `size`. */
  function Seek(pos: nat, size: nat, offset: int, whence: int): (o: SeekOutcome)
    ensures o.BadWhence? <==> SeekTarget(pos, size, offset, whence).None?
    ensures o.Moved? <==> (SeekTarget(pos, size, offset, whence).Some? &&
                           0 <= SeekTarget(pos, size, offset, whence).value <= size)
    ensures o.Moved? ==> o.pos <= size && o.pos == SeekTarget(pos, size, offset, whence).value
  {
    match SeekTarget(pos, size, offset, whence)
    case None => BadWhence
    case Some(t) => if t < 0 || t > size then OutOfRange else Moved(t)
  }

  /** The `off_t` a `seek` returns: -1, -ERANGE or the new position. */
  function SeekReturn(o: SeekOutcome): int
  {
    match o
    case BadWhence => -1
    case OutOfRange => -ERANGE
    case Moved(p) => p
  }

  /** Whatever the whence, a seek either fails without a position or lands
      inside [0, size]; seeking by 0 from the current position is the identity,
      and seeking to the end lands on `size`. */
  lemma SeekStaysInWindow(pos: nat, size: nat, offset: int, whence: int)
    requires pos <= size
    ensures Seek(pos, size, 0, SEEK_CUR) == Moved(pos)
    ensures Seek(pos, size, 0, SEEK_END) == Moved(size)
    ensures Seek(pos, size, offset, whence).Moved? ==> SeekReturn(Seek(pos, size, offset, whence)) >= 0
    ensures !Seek(pos, size, offset, whence).Moved? ==> SeekReturn(Seek(pos, size, offset, whence)) < 0
  {
  }

  datatype Option<+T> = None | Some(value: T)
}

=== FILE: core_utils.dfy ===
/**
 * `DCoreUtils.hpp`: the integer helpers `d_min`, `d_max`, `d_bound` and
 * `d_abs`. The first three return one of their arguments by reference and
 * only use `<`; they are modelled over any type ordered by an integer key,
 * so that which argument a tie returns is visible.
 */
module CoreUtils {
  import opened Arith

  /** `d_min(a, b)`: `a < b ? a : b`. */
  function DMin<T>(key: T -> int, a: T, b: T): (r: T)
    ensures r == a || r == b
    ensures key(r) <= key(a) && key(r) <= key(b)
    ensures key(a) == key(b) ==> r == b
  {
    if key(a) < key(b) then a else b
  }

  /** `d_max(a, b)`: `a < b ? b : a`. */
  function DMax<T>(key: T -> int, a: T, b: T): (r: T)
    ensures r == a || r == b
    ensures key(r) >= key(a) && key(r) >= key(b)
    ensures key(a) == key(b) ==> r == a
  {
    if key(a) < key(b) then b else a
  }

  /** `d_bound(min, val, max)`: `d_max(min, d_min(max, val))`. */
  function DBound<T>(key: T -> int, lo: T, v: T, hi: T): (r: T)
    ensures r == lo || r == v || r == hi
    ensures key(lo) <= key(hi) ==> key(lo) <= key(r) <= key(hi)
    ensures key(lo) <= key(v) <= key(hi) ==> key(r) == key(v)
    ensures key(lo) < key(v) <= key(hi) ==> r == v
    ensures key(lo) > key(hi) ==> r == lo
    ensures key(v) < key(lo) <= key(hi) ==> r == lo
    ensures key(lo) <= key(hi) < key(v) ==> key(r) == key(hi)
    ensures key(lo) < key(hi) < key(v) ==> r == hi
  {
    DMax(key, lo, DMin(key, hi, v))
  }

  /** `d_min` and `d_max` split a pair: between them they return both
      arguments, and swapping the arguments only matters on a tie. */
  lemma MinMaxPair<T>(key: T -> int, a: T, b: T)
    ensures key(a) != key(b) ==> {DMin(key, a, b), DMax(key, a, b)} == {a, b}
    ensures key(a) != key(b) ==> DMin(key, a, b) == DMin(key, b, a) && DMax(key, a, b) == DMax(key, b, a)
    ensures DMin(key, a, b) == b || DMax(key, a, b) == b
  {
  }

  /** Bounding twice by the same range is bounding once. */
  lemma BoundIdempotent<T>(key: T -> int, lo: T, v: T, hi: T)
    requires key(lo) <= key(hi)
    ensures key(DBound(key, lo, DBound(key, lo, v, hi), hi)) == key(DBound(key, lo, v, hi))
  {
  }

  /** `d_abs(t)` on a mathematical integer. */
  function DAbs(t: int): (r: int)
    ensures r >= 0 && (r == t || r == -t)
  {
    if t >= 0 then t else -t
  }

  /** `d_abs` on a 32-bit `int`: the negation wraps, so the most negative
      value is its own absolute value. */
  function DAbsInt32(t: int): (r: int)
    requires INT32_MIN <= t < -INT32_MIN
    ensures t != INT32_MIN ==> r == DAbs(t)
    ensures t == INT32_MIN ==> r == INT32_MIN
  {
    if t >= 0 then t else Int32(-t)
  }

  /** The identity key, for the helpers on plain integers. */
  function Id(x: int): int { x }

  /** On integers `d_bound` clamps into the range. */
  lemma BoundClamps(lo: int, v: int, hi: int)
    requires lo <= hi
    ensures DBound(Id, lo, v, hi) == if v < lo then lo else if v > hi then hi else v
  {
  }
}

=== FILE: date_time.dfy ===
/**
 * The calendar and clock arithmetic of `dandy/chrono`: the Gregorian leap
 * rule, month lengths, day counting from 1 January of year 1, wall-clock
 * times and their ordering, time deltas, and daily time ranges that may wrap
 * past midnight. Whatever goes through the C library's local-time conversion
 * (`mktime`, `localtime`, `strftime`, `strptime`, `time`) is outside the
 * model; a date-time value is kept only as its raw timestamp.
 */
module Chrono {
  import opened Arith

  const SECONDS_PER_DAY: int := 86400

  /** Days of the months of a common year, January first. */
  const MONTH_LENGTHS: seq<int> := [31, 28, 31, 30, 31, 30, 31, 31, 30, 31, 30, 31]

  /** Days of a common year before the first of each month; the last entry
      is the length of the whole year. */
  const DAYS_BEFORE_MONTH: seq<int> := [0, 31, 59, 90, 120, 151, 181, 212, 243, 273, 304, 334, 365]

  /** Days from 1 January of year 1 to 1 January 1900, the first day the
      date type accepts. */
  const DAYS_BEFORE_1900: int := 693595

  // ---------------------------------------------------------------------
  // Calendar utilities
  // ---------------------------------------------------------------------

  /** `isLeapYear`: nested divisibility tests by 4, 100 and 400. C's `%`
      truncates where Dafny's is Euclidean, but the two agree on whether the
      remainder is zero, which is all the tests ask. */
  function IsLeapYear(year: int): (leap: bool)
    ensures leap <==> year % 4 == 0 && (year % 100 != 0 || year % 400 == 0)
  {
    if year % 4 == 0 then
      if year % 100 == 0 then year % 400 == 0 else true
    else false
  }

  /** Length of a whole year. */
  function YearLength(year: int): int
  {
    if IsLeapYear(year) then 366 else 365
  }

  /** `countLeapYears`: the closed form `y/4 - y/100 + y/400`, and 0 for
      years up to 0. */
  function CountLeapYears(year: int): (n: int)
    ensures year <= 0 ==> n == 0
  {
    if year <= 0 then 0 else year / 4 - year / 100 + year / 400
  }

  /** The leap years among 1 .. year, counted one year at a time. */
  function LeapYearsThrough(year: int): nat
    decreases year
  {
    if year <= 0 then 0 else LeapYearsThrough(year - 1) + (if IsLeapYear(year) then 1 else 0)
  }

  /** Going from `y - 1` to `y` raises `y / d` by one exactly when `d`
      divides `y`. */
  lemma DivStep(y: int, d: int)
    requires y >= 1 && d > 0
    ensures y / d == (y - 1) / d + (if y % d == 0 then 1 else 0)
  {
    var q, r := (y - 1) / d, (y - 1) % d;
    if r == d - 1 {
      Arith.DivModUnique(y, d, q + 1, 0);
    } else {
      Arith.DivModUnique(y, d, q, r + 1);
    }
  }

  /** The closed form counts the leap years of 1 .. year. */
  lemma {:induction false} CountLeapYearsCounts(year: int)
    ensures CountLeapYears(year) == LeapYearsThrough(year)
    decreases year
  {
    if year > 0 {
      CountLeapYearsCounts(year - 1);
      DivStep(year, 4);
      DivStep(year, 100);
      DivStep(year, 400);
      if year % 400 == 0 {
        Arith.MultipleOfMultiple(year, 400, 100);
      }
      if year % 100 == 0 {
        Arith.MultipleOfMultiple(year, 100, 4);
      }
    }
  }

  /** `lengthOfMonth`: -1 for a negative year or a month outside 1 .. 12,
      otherwise the table entry with one more day for February of a leap
      year. */
  function LengthOfMonth(year: int, month: int): (len: int)
    ensures len == -1 <==> year < 0 || month < 1 || month > 12
    ensures len != -1 ==> 28 <= len <= 31
    ensures len == 29 <==> (year >= 0 && month == 2 && IsLeapYear(year))
    ensures len == 28 <==> (year >= 0 && month == 2 && !IsLeapYear(year))
  {
    if year < 0 || month <= 0 || month > 12 then -1
    else if month == 2 && IsLeapYear(year) then MONTH_LENGTHS[month - 1] + 1
    else MONTH_LENGTHS[month - 1]
  }

  /** Days of the months before `month`, added up one month at a time as
      `totalDays` does. */
  function DaysBeforeMonth(year: int, month: int): int
    decreases month
  {
    if month <= 1 then 0 else DaysBeforeMonth(year, month - 1) + LengthOfMonth(year, month - 1)
  }

  /** The month-by-month sum agrees with the table of a common year, shifted
      by the leap day after February. */
  lemma {:induction false} DaysBeforeMonthTable(year: int, month: int)
    requires year >= 0 && 1 <= month <= 13
    ensures DaysBeforeMonth(year, month) ==
            DAYS_BEFORE_MONTH[month - 1] + (if month > 2 && IsLeapYear(year) then 1 else 0)
    decreases month
  {
    if month > 1 {
      DaysBeforeMonthTable(year, month - 1);
    }
  }

  /** The twelve months make up the year: 365 days, or 366 in a leap year. */
  lemma MonthsMakeYear(year: int)
    requires year >= 0
    ensures DaysBeforeMonth(year, 13) == YearLength(year)
  {
    DaysBeforeMonthTable(year, 13);
  }

  // ---------------------------------------------------------------------
  // DDate
  // ---------------------------------------------------------------------

  /** A calendar date; the default constructor gives year, month and day -1. */
  datatype Date = Date(year: int, month: int, day: int)

  const NO_DATE: Date := Date(-1, -1, -1)

  /** `DDate::isValid`: year 1900 or later, month 1 .. 12, day at least 1.
      The final month-length test can never fail once those hold, and the
      day is not compared with the month's length at all. */
  function ValidDate(d: Date): (ok: bool)
    ensures ok <==> d.year >= 1900 && 1 <= d.month <= 12 && d.day >= 1
  {
    if d.year < 1900 then false
    else if d.month <= 0 then false
    else if d.month > 12 then false
    else if d.day <= 0 then false
    else LengthOfMonth(d.year, d.month) >= 0
  }

  /** A valid date whose day also exists in its month. */
  predicate ProperDate(d: Date)
  {
    ValidDate(d) && d.day <= LengthOfMonth(d.year, d.month)
  }

  /** `DDate::totalDays`: -1 for an invalid date, otherwise the days of the
      whole years before it, its whole months, and its day less one. */
  function TotalDays(d: Date): (n: int)
    ensures !ValidDate(d) ==> n == -1
  {
    if !ValidDate(d) then -1
    else (d.year - 1) * 365 + CountLeapYears(d.year - 1) + DaysBeforeMonth(d.year, d.month) + d.day - 1
  }

  /** Days of the years 1 .. year - 1, one year at a time. */
  function DaysBeforeYear(year: int): nat
    decreases year
  {
    if year <= 1 then 0 else DaysBeforeYear(year - 1) + YearLength(year - 1)
  }

  /** The closed form for the whole years before a year. */
  lemma {:induction false} YearsClosedForm(year: int)
    requires year >= 1
    ensures (year - 1) * 365 + CountLeapYears(year - 1) == DaysBeforeYear(year)
    decreases year
  {
    CountLeapYearsCounts(year - 1);
    if year > 1 {
      YearsClosedForm(year - 1);
      CountLeapYearsCounts(year - 2);
    }
  }

  /** A valid date's day count is the days of all earlier years since year
      1, counted year by year, plus the earlier months of its year and its
      day less one: the count starts at 1 January of year 1. */
  lemma TotalDaysFromYearOne(d: Date)
    requires ValidDate(d)
    ensures TotalDays(d) == DaysBeforeYear(d.year) + DaysBeforeMonth(d.year, d.month) + d.day - 1
  {
    YearsClosedForm(d.year);
  }

  /** 1 January 1900 is day 693595. */
  lemma FirstValidDay()
    ensures TotalDays(Date(1900, 1, 1)) == DAYS_BEFORE_1900
  {
  }

  /** Consecutive new year's days are a year length apart. */
  lemma NewYearsDays(year: int)
    requires year >= 1900
    ensures TotalDays(Date(year + 1, 1, 1)) == TotalDays(Date(year, 1, 1)) + YearLength(year)
  {
    hide TotalDays, CountLeapYears;
    TotalDaysFromYearOne(Date(year + 1, 1, 1));
    TotalDaysFromYearOne(Date(year, 1, 1));
  }

  /** Whole years later means more days. */
  lemma {:induction false} DaysBeforeYearGrows(a: int, b: int)
    requires 1 <= a < b
    ensures DaysBeforeYear(a) + YearLength(a) <= DaysBeforeYear(b)
    decreases b - a
  {
    if a + 1 < b {
      DaysBeforeYearGrows(a + 1, b);
    }
  }

  /** Within a year, the earlier months of a month plus its length do not
      pass the next month's start, nor the year's length. */
  lemma {:induction false} MonthWithinYear(year: int, m: int, n: int)
    requires year >= 0 && 1 <= m < n <= 13
    ensures DaysBeforeMonth(year, m) + LengthOfMonth(year, m) <= DaysBeforeMonth(year, n)
    decreases n
  {
    if m + 1 < n {
      MonthWithinYear(year, m, n - 1);
    }
  }

  /** Dates that exist in the calendar count in calendar order: a date
      earlier by year, then month, then day has fewer days. Together with
      equality this makes the count one-to-one on such dates. */
  lemma DateOrder(a: Date, b: Date)
    requires ProperDate(a) && ProperDate(b)
    requires a.year < b.year || (a.year == b.year && (a.month < b.month || (a.month == b.month && a.day < b.day)))
    ensures TotalDays(a) < TotalDays(b)
  {
    TotalDaysFromYearOne(a);
    TotalDaysFromYearOne(b);
    hide TotalDays, CountLeapYears, DaysBeforeYear, YearLength;
    if b.month > 1 {
      MonthWithinYear(b.year, 1, b.month);
    }
    if a.year < b.year {
      MonthWithinYear(a.year, a.month, 13);
      MonthsMakeYear(a.year);
      DaysBeforeYearGrows(a.year, b.year);
    } else if a.month < b.month {
      MonthWithinYear(a.year, a.month, b.month);
    }
  }

  /** A day past the month's end is not rejected: it counts as the matching
      day of the next month, so 31 February 2019 and 3 March 2019 give the
      same count. */
  lemma DayOverflowAliases()
    ensures ValidDate(Date(2019, 2, 31))
    ensures TotalDays(Date(2019, 2, 31)) == TotalDays(Date(2019, 3, 3))
  {
  }

  /** `DDate::totalSeconds`: 0 for an invalid date, otherwise the day count
      in seconds. */
  function TotalSeconds(d: Date): (s: int)
    ensures s % SECONDS_PER_DAY == 0
    ensures ValidDate(d) ==> s / SECONDS_PER_DAY == TotalDays(d)
    ensures !ValidDate(d) ==> s == 0
  {
    if !ValidDate(d) then 0
    else
      var days := TotalDays(d);
      WholeDays(days);
      days * SECONDS_PER_DAY
  }

  /** A whole number of days in seconds divides back into the days. */
  lemma WholeDays(days: int)
    ensures (days * SECONDS_PER_DAY) % SECONDS_PER_DAY == 0
    ensures (days * SECONDS_PER_DAY) / SECONDS_PER_DAY == days
  {
  }

  // ---------------------------------------------------------------------
  // DTime and the comparison operators
  // ---------------------------------------------------------------------

  /** A wall-clock time; the default constructor gives midnight. */
  datatype Time = Time(hour: int, minute: int, second: int)

  const MIDNIGHT: Time := Time(0, 0, 0)

  /** `DTime::isValid`: hour below 24, minute and second below 60, none
      negative. */
  predicate ValidTime(t: Time)
  {
    0 <= t.second < 60 && 0 <= t.minute < 60 && 0 <= t.hour < 24
  }

  /** `DTime::toSeconds`: seconds since midnight. */
  function ToSeconds(t: Time): (s: int)
    ensures ValidTime(t) ==> 0 <= s < SECONDS_PER_DAY
  {
    t.hour * 60 * 60 + t.minute * 60 + t.second
  }

  /** The time of day a number of seconds after midnight falls on. */
  function FromSeconds(s: int): (t: Time)
    requires 0 <= s < SECONDS_PER_DAY
    ensures ValidTime(t)
  {
    Time(s / 3600, (s / 60) % 60, s % 60)
  }

  /** For valid times, seconds since midnight and the clock reading
      determine each other. */
  lemma TimeSecondsRoundTrip(t: Time, s: int)
    ensures ValidTime(t) ==> FromSeconds(ToSeconds(t)) == t
    ensures 0 <= s < SECONDS_PER_DAY ==> ToSeconds(FromSeconds(s)) == s
  {
    if ValidTime(t) {
      var n := ToSeconds(t);
      Arith.DivModUnique(n, 3600, t.hour, t.minute * 60 + t.second);
      Arith.DivModUnique(n, 60, t.hour * 60 + t.minute, t.second);
      Arith.DivModUnique(t.hour * 60 + t.minute, 60, t.hour, t.minute);
    }
    if 0 <= s < SECONDS_PER_DAY {
      var m := s / 60;
      Arith.DivModUnique(m, 60, s / 3600, m % 60);
    }
  }

  /** The six comparison operators of the header, each returning 1 or 0. */
  datatype Relation = Eq | Ne | Le | Ge | Lt | Gt

  function Holds(rel: Relation, x: int, y: int): bool
  {
    match rel
    case Eq => x == y
    case Ne => x != y
    case Le => x <= y
    case Ge => x >= y
    case Lt => x < y
    case Gt => x > y
  }

  /** `DTime`'s operators compare seconds since midnight; on valid times `<`
      is reading earlier on the clock and `==` is the same reading. */
  function CompareTimes(rel: Relation, a: Time, b: Time): (r: bool)
    ensures ValidTime(a) && ValidTime(b) && rel == Lt ==> (r <==> ClockBefore(a, b))
    ensures ValidTime(a) && ValidTime(b) && rel == Eq ==> (r <==> a == b)
  {
    if ValidTime(a) && ValidTime(b) then
      ClockBeforeIsFewerSeconds(a, b);
      ClockBeforeIsFewerSeconds(b, a);
      Holds(rel, ToSeconds(a), ToSeconds(b))
    else
      Holds(rel, ToSeconds(a), ToSeconds(b))
  }

  /** Whether `a` reads earlier on the clock than `b`: by hour, then minute,
      then second. */
  predicate ClockBefore(a: Time, b: Time)
  {
    a.hour < b.hour || (a.hour == b.hour && (a.minute < b.minute || (a.minute == b.minute && a.second < b.second)))
  }

  /** On valid times the operators are the clock order: `<` is reading
      earlier, `==` is the same reading, and the other four follow from
      those two. */
  lemma ClockBeforeIsFewerSeconds(a: Time, b: Time)
    requires ValidTime(a) && ValidTime(b)
    ensures ClockBefore(a, b) <==> ToSeconds(a) < ToSeconds(b)
  {
    if a.hour < b.hour {
      assert ToSeconds(a) < (a.hour + 1) * 3600 <= ToSeconds(b);
    } else if a.hour > b.hour {
      assert ToSeconds(b) < (b.hour + 1) * 3600 <= ToSeconds(a);
    }
  }

  lemma TimeComparisonIsClockOrder(a: Time, b: Time)
    requires ValidTime(a) && ValidTime(b)
    ensures CompareTimes(Lt, a, b) <==> ClockBefore(a, b)
    ensures CompareTimes(Eq, a, b) <==> a == b
    ensures CompareTimes(Gt, a, b) <==> ClockBefore(b, a)
    ensures CompareTimes(Le, a, b) <==> !ClockBefore(b, a)
    ensures CompareTimes(Ge, a, b) <==> !ClockBefore(a, b)
    ensures CompareTimes(Ne, a, b) <==> a != b
  {
    ClockBeforeIsFewerSeconds(a, b);
    ClockBeforeIsFewerSeconds(b, a);
  }

  /** Out of range fields are not normalised but still compare by seconds:
      minute 60 of hour 0 equals 1 o'clock. */
  lemma InvalidTimesAlias()
    ensures !ValidTime(Time(0, 60, 0)) && CompareTimes(Eq, Time(0, 60, 0), Time(1, 0, 0))
  {
  }

  /** A date-time is kept as its raw timestamp; how it is obtained from a
      date and a time goes through the local-time conversion and is not
      modelled. */
  datatype Stamp = Stamp(timestamp: int)

  /** `DDateTime`'s operators compare raw timestamps: `==` and `!=` are
      equality of date-times and its negation. */
  function CompareStamps(rel: Relation, a: Stamp, b: Stamp): (r: bool)
    ensures rel == Eq ==> (r <==> a == b)
    ensures rel == Ne ==> (r <==> a != b)
  {
    Holds(rel, a.timestamp, b.timestamp)
  }

  /** Timestamp comparison is equality of values and the order of the
      timestamps, with the negated operators the negations. */
  lemma StampComparison(a: Stamp, b: Stamp)
    ensures CompareStamps(Eq, a, b) <==> a == b
    ensures CompareStamps(Ne, a, b) <==> !CompareStamps(Eq, a, b)
    ensures CompareStamps(Lt, a, b) <==> !CompareStamps(Ge, a, b)
    ensures CompareStamps(Gt, a, b) <==> CompareStamps(Lt, b, a)
    ensures CompareStamps(Le, a, b) <==> (CompareStamps(Lt, a, b) || a == b)
  {
  }

  // ---------------------------------------------------------------------
  // DTimeDelta
  // ---------------------------------------------------------------------

  /** A span of time as four independent signed fields; nothing carries
      from one field into the next. */
  datatype TimeDelta = TimeDelta(days: int, hours: int, minutes: int, seconds: int)

  const ZERO_DELTA: TimeDelta := TimeDelta(0, 0, 0, 0)

  /** `ofDays`, `ofHours`, `ofMinutes` and `ofSeconds`: n of one unit, which
      measures n times that unit's seconds. */
  function OfDays(n: int): (d: TimeDelta)
    ensures DeltaSeconds(d) == n * SECONDS_PER_DAY
  {
    ZERO_DELTA.(days := n)
  }

  function OfHours(n: int): (d: TimeDelta)
    ensures DeltaSeconds(d) == n * 3600
  {
    ZERO_DELTA.(hours := n)
  }

  function OfMinutes(n: int): (d: TimeDelta)
    ensures DeltaSeconds(d) == n * 60
  {
    ZERO_DELTA.(minutes := n)
  }

  function OfSeconds(n: int): (d: TimeDelta)
    ensures DeltaSeconds(d) == n
  {
    ZERO_DELTA.(seconds := n)
  }

  /** The total length in seconds, computed without overflow. */
  function DeltaSeconds(d: TimeDelta): int
  {
    d.days * 86400 + d.hours * 3600 + d.minutes * 60 + d.seconds
  }

  /** `DTimeDelta::totalSeconds` as written: the sum is formed in 32-bit
      `int` arithmetic and only then widened to 64 bits. Signed overflow is
      undefined in C++; it is modelled as the wrap common targets perform,
      which for a chain of additions and multiplications is the wrap of the
      exact result. */
  function DeltaSecondsAsWritten(d: TimeDelta): (s: int)
    ensures INT32_MIN <= s < -INT32_MIN
    ensures INT32_MIN <= DeltaSeconds(d) < -INT32_MIN ==> s == DeltaSeconds(d)
  {
    Int32(DeltaSeconds(d))
  }

  /** 24856 days, about 68 years, already overflow the 32-bit sum and come
      out negative. */
  lemma DeltaSecondsOverflows()
    ensures DeltaSeconds(OfDays(24856)) == 2147558400
    ensures DeltaSecondsAsWritten(OfDays(24856)) == -2147408896
  {
  }

  /** `+=`, `-=` and the binary operators: field by field. */
  function AddDelta(a: TimeDelta, b: TimeDelta): (r: TimeDelta)
    ensures DeltaSeconds(r) == DeltaSeconds(a) + DeltaSeconds(b)
  {
    TimeDelta(a.days + b.days, a.hours + b.hours, a.minutes + b.minutes, a.seconds + b.seconds)
  }

  function SubDelta(a: TimeDelta, b: TimeDelta): (r: TimeDelta)
    ensures DeltaSeconds(r) == DeltaSeconds(a) - DeltaSeconds(b)
    ensures AddDelta(r, b) == a
  {
    TimeDelta(a.days - b.days, a.hours - b.hours, a.minutes - b.minutes, a.seconds - b.seconds)
  }

  /** The length of a sum or difference is the sum or difference of the
      lengths. */
  lemma DeltaSecondsAdditive(a: TimeDelta, b: TimeDelta)
    ensures DeltaSeconds(AddDelta(a, b)) == DeltaSeconds(a) + DeltaSeconds(b)
    ensures DeltaSeconds(SubDelta(a, b)) == DeltaSeconds(a) - DeltaSeconds(b)
  {
  }

  /** Subtracting what was added restores every field; the zero delta is
      neutral; addition commutes. */
  lemma DeltaArithmetic(a: TimeDelta, b: TimeDelta)
    ensures SubDelta(AddDelta(a, b), b) == a
    ensures AddDelta(SubDelta(a, b), b) == a
    ensures AddDelta(a, ZERO_DELTA) == a
    ensures AddDelta(a, b) == AddDelta(b, a)
  {
  }

  /** Each single-unit constructor measures its unit. */
  lemma UnitDeltas(n: int)
    ensures DeltaSeconds(OfDays(n)) == n * SECONDS_PER_DAY
    ensures DeltaSeconds(OfHours(n)) == n * 3600
    ensures DeltaSeconds(OfMinutes(n)) == n * 60
    ensures DeltaSeconds(OfSeconds(n)) == n
  {
  }

  /** `DTimeDelta::ofTime` as written: the hour lands in `days`, the minute
      in `hours`, the second in `seconds`, and `minutes` stays 0. */
  function OfTimeAsWritten(t: Time): (r: TimeDelta)
    ensures r.minutes == 0
    ensures DeltaSeconds(r) == t.hour * SECONDS_PER_DAY + t.minute * 3600 + t.second
  {
    TimeDelta(t.hour, t.minute, 0, t.second)
  }

  /** One o'clock becomes a delta of a day instead of an hour. */
  lemma OfTimeShiftsUnits()
    ensures DeltaSeconds(OfTimeAsWritten(Time(1, 0, 0))) == SECONDS_PER_DAY
    ensures ToSeconds(Time(1, 0, 0)) == 3600
  {
  }

  /** The delta from midnight to a time of day, each field in its own
      unit. */
  function OfTime(t: Time): (r: TimeDelta)
    ensures DeltaSeconds(r) == ToSeconds(t)
    ensures r.days == 0
  {
    TimeDelta(0, t.hour, t.minute, t.second)
  }

  // ---------------------------------------------------------------------
  // DTimeRange
  // ---------------------------------------------------------------------

  /** A daily range from `begin` to `end`; when `end` is earlier it runs
      past midnight. The default constructor gives midnight to midnight. */
  datatype TimeRange = TimeRange(begin: Time, end: Time)

  const DEFAULT_RANGE: TimeRange := TimeRange(MIDNIGHT, MIDNIGHT)

  /** `DTimeRange::isEmpty`: begin and end fall on the same second, which for
      a valid range means they are the same time. */
  function IsEmpty(r: TimeRange): (e: bool)
    ensures ValidRange(r) ==> (e <==> r.begin == r.end)
  {
    if ValidRange(r) then
      SameSecondsSameTime(r.begin, r.end);
      ToSeconds(r.begin) == ToSeconds(r.end)
    else
      ToSeconds(r.begin) == ToSeconds(r.end)
  }

  /** Two valid times with the same seconds since midnight are the same
      time. */
  lemma SameSecondsSameTime(a: Time, b: Time)
    requires ValidTime(a) && ValidTime(b)
    ensures ToSeconds(a) == ToSeconds(b) <==> a == b
  {
    TimeSecondsRoundTrip(a, 0);
    TimeSecondsRoundTrip(b, 0);
    hide ToSeconds, FromSeconds;
    if ToSeconds(a) == ToSeconds(b) {
      assert a == FromSeconds(ToSeconds(a)) == FromSeconds(ToSeconds(b)) == b;
    }
  }

  /** `DTimeRange::isValid`: both ends are valid times, so both fall within
      one day. */
  function ValidRange(r: TimeRange): (v: bool)
    ensures v ==> 0 <= ToSeconds(r.begin) < SECONDS_PER_DAY && 0 <= ToSeconds(r.end) < SECONDS_PER_DAY
  {
    ValidTime(r.begin) && ValidTime(r.end)
  }

  /** `DTimeRange::contains`, on the second counts cast to 32 bits: nothing
      when begin equals end, `[begin, end)` when begin is earlier, and
      everything outside `[end, begin)` when the range wraps. Whatever the
      fields, a time is only ever contained in a range that is not empty. */
  function Contains(r: TimeRange, t: Time): (c: bool)
    ensures c ==> !IsEmpty(r)
  {
    var begin, end, now := U32(ToSeconds(r.begin)), U32(ToSeconds(r.end)), U32(ToSeconds(t));
    if begin == end then false
    else if begin > end then !(end <= now && now < begin)
    else begin <= now && now < end
  }

  /** For valid times, a range holds exactly the seconds reached from
      `begin` by going forward around the clock by less than the range's
      length, where the length is counted forward from `begin` to `end`
      modulo a day. */
  lemma ContainsIsDailyWindow(r: TimeRange, t: Time)
    requires ValidRange(r) && ValidTime(t)
    ensures Contains(r, t) <==>
            (ToSeconds(t) - ToSeconds(r.begin)) % SECONDS_PER_DAY <
            (ToSeconds(r.end) - ToSeconds(r.begin)) % SECONDS_PER_DAY
  {
    var b, e, n := ToSeconds(r.begin), ToSeconds(r.end), ToSeconds(t);
    U32Small(b);
    U32Small(e);
    U32Small(n);
    ModDay(n - b);
    ModDay(e - b);
    hide U32, ToSeconds;
  }

  /** Second counts of valid times survive the 32-bit cast. */
  lemma U32Small(x: int)
    requires 0 <= x < SECONDS_PER_DAY
    ensures U32(x) == x
  {
  }

  /** A difference of two times of day, taken modulo a day. */
  lemma ModDay(x: int)
    requires -SECONDS_PER_DAY < x < SECONDS_PER_DAY
    ensures x % SECONDS_PER_DAY == if x >= 0 then x else x + SECONDS_PER_DAY
  {
    if x < 0 {
      Arith.DivModUnique(x + SECONDS_PER_DAY, SECONDS_PER_DAY, 0, x + SECONDS_PER_DAY);
    }
  }

  /** A valid range is empty exactly when it does not even hold its own
      beginning; the default range is empty. */
  lemma EmptyIffBeginOutside(r: TimeRange)
    requires ValidRange(r)
    ensures IsEmpty(r) <==> !Contains(r, r.begin)
    ensures IsEmpty(DEFAULT_RANGE)
  {
    U32Small(ToSeconds(r.begin));
    U32Small(ToSeconds(r.end));
    hide U32, ToSeconds;
  }
}

=== FILE: flash_memory.dfy ===
/**
 * The byte contents of a NOR-flash block device and the three primitives the
 * mbed `BlockDevice` interface offers on it. Erasing sets bytes to 0xFF;
 * programming can only clear bits, so a programmed byte is the AND of the old
 * byte and the new one. A device call is recorded as a `Call`, and whether the
 * k-th call of an operation succeeds is decided by a status oracle.
 */
module FlashMemory {

  /** Value of an erased NOR byte. */
  const ERASED: bv8 := 0xFF

  /** `erase(addr, len)`: the range becomes 0xFF, everything else is kept. */
  function Erase(mem: seq<bv8>, addr: nat, len: nat): (m: seq<bv8>)
    requires addr + len <= |mem|
    ensures |m| == |mem|
    ensures forall i :: 0 <= i < |mem| ==> m[i] == (if addr <= i < addr + len then ERASED else mem[i])
  {
    mem[..addr] + seq(len, _ => ERASED) + mem[addr + len..]
  }

  /** `program(data, addr, |data|)`: each target byte keeps only the bits set in
      both the old and the new value. */
  function Program(mem: seq<bv8>, addr: nat, data: seq<bv8>): (m: seq<bv8>)
    requires addr + |data| <= |mem|
    ensures |m| == |mem|
    ensures forall i :: 0 <= i < |mem| ==>
              m[i] == (if addr <= i < addr + |data| then mem[i] & data[i - addr] else mem[i])
  {
    mem[..addr] + seq(|data|, k requires 0 <= k < |data| => mem[addr + k] & data[k]) + mem[addr + |data|..]
  }

  /** Programming a freshly erased range stores the data exactly; the part of the
      erased range the data does not reach stays erased. */
  lemma ProgramAfterErase(mem: seq<bv8>, addr: nat, len: nat, data: seq<bv8>)
    requires |data| <= len && addr + len <= |mem|
    ensures var m := Program(Erase(mem, addr, len), addr, data);
            forall i :: 0 <= i < |mem| ==>
              m[i] == (if addr <= i < addr + |data| then data[i - addr]
                       else if addr <= i < addr + len then ERASED
                       else mem[i])
  {
    var e := Erase(mem, addr, len);
    var m := Program(e, addr, data);
    forall i | addr <= i < addr + |data|
      ensures m[i] == data[i - addr]
    {
      assert e[i] == ERASED;
      assert ERASED & data[i - addr] == data[i - addr];
    }
  }

  /** One call into a block device, as issued by the code above it. */
  datatype Call =
    | ReadCall(addr: nat, len: nat)
    | EraseCall(addr: nat, len: nat)
    | ProgramCall(addr: nat, data: seq<bv8>)

  /** The call addresses only bytes of a device of `n` bytes. */
  predicate Fits(c: Call, n: nat)
  {
    match c
    case ReadCall(a, l) => a + l <= n
    case EraseCall(a, l) => a + l <= n
    case ProgramCall(a, d) => a + |d| <= n
  }

  /** The bytes a call touches lie in [lo, hi). */
  predicate Inside(c: Call, lo: nat, hi: nat)
  {
    match c
    case ReadCall(a, l) => lo <= a && a + l <= hi
    case EraseCall(a, l) => lo <= a && a + l <= hi
    case ProgramCall(a, d) => lo <= a && a + |d| <= hi
  }

  /** What a successful call does to the device; reads change nothing. */
  function Effect(mem: seq<bv8>, c: Call): (m: seq<bv8>)
    requires Fits(c, |mem|)
    ensures |m| == |mem|
  {
    match c
    case ReadCall(_, _) => mem
    case EraseCall(a, l) => Erase(mem, a, l)
    case ProgramCall(a, d) => Program(mem, a, d)
  }

  /** The device after a sequence of successful calls, in order. */
  function ApplyAll(mem: seq<bv8>, cs: seq<Call>): (m: seq<bv8>)
    requires forall k :: 0 <= k < |cs| ==> Fits(cs[k], |mem|)
    ensures |m| == |mem|
  {
    if cs == [] then mem
    else
      var prev := ApplyAll(mem, cs[..|cs| - 1]);
      Effect(prev, cs[|cs| - 1])
  }

  /** A call whose bytes lie in [lo, hi) leaves every byte outside that range alone. */
  lemma EffectOutside(mem: seq<bv8>, c: Call, lo: nat, hi: nat)
    requires Fits(c, |mem|) && Inside(c, lo, hi)
    ensures forall i :: 0 <= i < |mem| && !(lo <= i < hi) ==> Effect(mem, c)[i] == mem[i]
  {
  }

  /** Status the k-th device call of an operation returns: the oracle's entry, or
      0 (success) beyond its end. */
  function Status(status: seq<int>, k: nat): int
  {
    if k < |status| then status[k] else 0
  }

  /** The first n device calls all succeed. */
  predicate AllOk(status: seq<int>, n: nat)
  {
    forall k :: 0 <= k < n ==> Status(status, k) == 0
  }

  /** Every one of `calls` succeeded, and together they took the device from
      `dev` to `mem`. */
  predicate Succeeded(dev: seq<bv8>, status: seq<int>, calls: seq<Call>, mem: seq<bv8>)
  {
    && (forall k :: 0 <= k < |calls| ==> Fits(calls[k], |dev|))
    && AllOk(status, |calls|)
    && mem == ApplyAll(dev, calls)
  }

  /** The last of `calls` failed with status `st` after every earlier one
      succeeded; the failed call changed nothing. */
  predicate FailedLast(dev: seq<bv8>, status: seq<int>, calls: seq<Call>, mem: seq<bv8>, st: int)
  {
    && |calls| > 0
    && (forall k :: 0 <= k < |calls| ==> Fits(calls[k], |dev|))
    && st != 0 && st == Status(status, |calls| - 1)
    && AllOk(status, |calls| - 1)
    && mem == ApplyAll(dev, calls[..|calls| - 1])
  }

  /** Issue one more device call after a run of successful ones: it is recorded,
      its status comes from the oracle, and it changes the device only when it
      succeeds. */
  method Issue(dev: seq<bv8>, status: seq<int>, mem: seq<bv8>, calls: seq<Call>, c: Call)
    returns (st: int, mem': seq<bv8>, calls': seq<Call>)
    requires Succeeded(dev, status, calls, mem) && Fits(c, |dev|)
    ensures calls' == calls + [c]
    ensures st == Status(status, |calls|)
    ensures st == 0 ==> Succeeded(dev, status, calls', mem') && mem' == Effect(mem, c)
    ensures st != 0 ==> FailedLast(dev, status, calls', mem', st) && mem' == mem
  {
    calls' := calls + [c];
    st := Status(status, |calls|);
    mem' := if st == 0 then Effect(mem, c) else mem;
    assert calls'[..|calls'| - 1] == calls;
  }
}

=== FILE: hex_codec.dfy ===
/**
 * `DStringUtils::bytesToHex` and `DStringUtils::hexToBytes`: bytes to the
 * uppercase Base16 alphabet of section 8 of RFC 4648 and back. The decoder
 * accepts both letter cases, raises no error on other characters (their
 * nibble reads as 255 and is truncated into the byte) and ignores a trailing
 * odd character.
 */
module HexCodec {

  /** `D__HexMap`. */
  const HEX_DIGITS: seq<char> := "0123456789ABCDEF"

  /** What `D__NibbleFromChar` returns for a character that is not a hex
      digit. */
  const BAD_NIBBLE: int := 255

  predicate IsDecimalDigit(c: char) { '0' <= c <= '9' }
  predicate IsLowerHexLetter(c: char) { 'a' <= c <= 'f' }
  predicate IsUpperHexLetter(c: char) { 'A' <= c <= 'F' }

  predicate IsHexChar(c: char)
  {
    IsDecimalDigit(c) || IsLowerHexLetter(c) || IsUpperHexLetter(c)
  }

  /** `D__NibbleFromChar`: the value of a hex digit of either case, 255 for
      anything else. */
  function NibbleFromChar(c: char): (n: int)
    ensures IsHexChar(c) <==> 0 <= n < 16
    ensures !IsHexChar(c) <==> n == BAD_NIBBLE
    ensures IsDecimalDigit(c) ==> n == c as int - '0' as int
    ensures IsLowerHexLetter(c) ==> n == c as int - 'a' as int + 10
    ensures IsUpperHexLetter(c) ==> n == c as int - 'A' as int + 10
  {
    if '0' <= c <= '9' then c as int - '0' as int
    else if 'a' <= c <= 'f' then c as int - 'a' as int + 10
    else if 'A' <= c <= 'F' then c as int - 'A' as int + 10
    else BAD_NIBBLE
  }

  /** The digit for the high and for the low nibble of a byte. */
  function HighDigit(b: bv8): char { HEX_DIGITS[((b >> 4) & 0x0F) as int] }
  function LowDigit(b: bv8): char { HEX_DIGITS[(b & 0x0F) as int] }

  /** A reference definition of the encoding: two digits per byte, high
      nibble first. */
  function Hex(bytes: seq<bv8>): seq<char>
  {
    if bytes == [] then [] else [HighDigit(bytes[0]), LowDigit(bytes[0])] + Hex(bytes[1..])
  }

  lemma {:induction false} HexLength(bytes: seq<bv8>)
    ensures |Hex(bytes)| == 2 * |bytes|
  {
    if bytes != [] {
      HexLength(bytes[1..]);
    }
  }

  lemma {:induction false} HexDigitsAt(bytes: seq<bv8>, i: nat)
    requires i < |bytes|
    ensures |Hex(bytes)| == 2 * |bytes|
    ensures Hex(bytes)[2 * i] == HighDigit(bytes[i])
    ensures Hex(bytes)[2 * i + 1] == LowDigit(bytes[i])
  {
    HexLength(bytes);
    if i > 0 {
      HexDigitsAt(bytes[1..], i - 1);
    }
  }

  lemma {:induction false} HexAppend(bytes: seq<bv8>, b: bv8)
    ensures Hex(bytes + [b]) == Hex(bytes) + [HighDigit(b), LowDigit(b)]
  {
    if bytes != [] {
      assert (bytes + [b])[1..] == bytes[1..] + [b];
      HexAppend(bytes[1..], b);
    } else {
      assert bytes + [b] == [b];
    }
  }

  /** `bytesToHex`: the loop of the source, filling two characters per
      byte. */
  method BytesToHex(bytes: seq<bv8>) returns (s: seq<char>)
    ensures |s| == 2 * |bytes|
    ensures forall i :: 0 <= i < |bytes| ==> s[2 * i] == HighDigit(bytes[i]) && s[2 * i + 1] == LowDigit(bytes[i])
    ensures s == Hex(bytes)
  {
    HexLength(bytes);
    s := [];
    if |bytes| == 0 {
      return;
    }
    var i := 0;
    while i < |bytes|
      invariant 0 <= i <= |bytes|
      invariant s == Hex(bytes[..i])
    {
      HexAppend(bytes[..i], bytes[i]);
      assert bytes[..i + 1] == bytes[..i] + [bytes[i]];
      s := s + [HEX_DIGITS[((bytes[i] >> 4) & 0x0F) as int], HEX_DIGITS[(bytes[i] & 0x0F) as int]];
      i := i + 1;
    }
    assert bytes[..i] == bytes;
    forall k | 0 <= k < |bytes|
      ensures s[2 * k] == HighDigit(bytes[k]) && s[2 * k + 1] == LowDigit(bytes[k])
    {
      HexDigitsAt(bytes, k);
    }
  }

  /** Every character of an encoding is an uppercase hex digit. */
  lemma HexIsUppercase(bytes: seq<bv8>)
    ensures forall c :: c in Hex(bytes) ==> c in HEX_DIGITS
    ensures forall c :: c in Hex(bytes) ==> IsDecimalDigit(c) || IsUpperHexLetter(c)
  {
    HexLength(bytes);
    forall c | c in Hex(bytes)
      ensures c in HEX_DIGITS
    {
      var j :| 0 <= j < |Hex(bytes)| && Hex(bytes)[j] == c;
      HexDigitsAt(bytes, j / 2);
      assert j == 2 * (j / 2) || j == 2 * (j / 2) + 1;
    }
  }

  /** `strlen`: the characters before the first NUL. */
  function StrLen(hex: seq<char>): (n: nat)
    ensures n <= |hex|
    ensures forall i :: 0 <= i < n ==> hex[i] != '\0'
    ensures n < |hex| ==> hex[n] == '\0'
  {
    if hex == [] || hex[0] == '\0' then 0 else 1 + StrLen(hex[1..])
  }

  /** The byte `hexToBytes` stores for a pair of characters: the high nibble
      shifted into the top four bits, ORed with the low nibble, truncated to
      eight bits (so a bad low character sets every bit). */
  function PairToByte(hi: char, lo: char): (b: bv8)
    ensures IsHexChar(hi) && IsHexChar(lo) ==>
      b >> 4 == NibbleFromChar(hi) as bv8 && b & 0x0F == NibbleFromChar(lo) as bv8
    ensures !IsHexChar(lo) ==> b == 0xFF
  {
    var h, l := NibbleFromChar(hi) as bv8, NibbleFromChar(lo) as bv8;
    PairBits(h, l);
    (h << 4) | l
  }

  lemma PairBits(h: bv8, l: bv8)
    ensures h < 16 && l < 16 ==> ((h << 4) | l) >> 4 == h && ((h << 4) | l) & 0x0F == l
    ensures l == 0xFF ==> (h << 4) | l == 0xFF
  {
  }

  /** `hexToBytes(hex, dst)`: the first `strlen(hex) / 2` bytes of `dst` are
      overwritten, one per pair of characters; the rest of `dst` is kept. The
      caller must supply a buffer of that many bytes. */
  method HexToBytes(hex: seq<char>, dst: seq<bv8>) returns (r: seq<bv8>)
    requires StrLen(hex) / 2 <= |dst|
    ensures |r| == |dst|
    ensures forall i :: 0 <= i < StrLen(hex) / 2 ==> r[i] == PairToByte(hex[2 * i], hex[2 * i + 1])
    ensures r[StrLen(hex) / 2..] == dst[StrLen(hex) / 2..]
  {
    var len := StrLen(hex) / 2;
    r := dst;
    var i := 0;
    while i < len
      invariant 0 <= i <= len
      invariant |r| == |dst|
      invariant forall k :: 0 <= k < i ==> r[k] == PairToByte(hex[2 * k], hex[2 * k + 1])
      invariant r[i..] == dst[i..]
    {
      r := r[i := PairToByte(hex[2 * i], hex[2 * i + 1])];
      i := i + 1;
    }
  }

  /** Decoding a digit of the table gives back its position. */
  lemma DigitValues(n: nat)
    requires n < 16
    ensures NibbleFromChar(HEX_DIGITS[n]) == n
  {
  }

  lemma NibblesRebuild(b: bv8)
    ensures ((((b >> 4) & 0x0F) << 4) | (b & 0x0F)) == b
  {
  }

  lemma ByteAsInt(x: bv8)
    ensures (x as int) as bv8 == x
  {
  }

  /** A pair of characters whose nibbles are `h` and `l` packs to
      `h << 4 | l`. */
  lemma PairOfNibbles(hi: char, lo: char, h: bv8, l: bv8)
    requires NibbleFromChar(hi) == h as int && NibbleFromChar(lo) == l as int
    ensures PairToByte(hi, lo) == (h << 4) | l
  {
    ByteAsInt(h);
    ByteAsInt(l);
  }

  /** A byte's two digits decode to the byte. */
  lemma DigitsDecode(b: bv8)
    ensures PairToByte(HighDigit(b), LowDigit(b)) == b
  {
    var h, l := (b >> 4) & 0x0F, b & 0x0F;
    DigitValues(h as int);
    DigitValues(l as int);
    PairOfNibbles(HighDigit(b), LowDigit(b), h, l);
    NibblesRebuild(b);
    hide *;
  }

  /** No encoding contains a NUL, so `strlen` sees all of it. */
  lemma HexStrLen(bytes: seq<bv8>)
    ensures StrLen(Hex(bytes)) == 2 * |bytes|
  {
    HexIsUppercase(bytes);
    HexLength(bytes);
    NoNulStrLen(Hex(bytes));
  }

  lemma {:induction false} NoNulStrLen(s: seq<char>)
    requires forall c :: c in s ==> c != '\0'
    ensures StrLen(s) == |s|
  {
    if s != [] {
      assert s[0] in s;
      assert forall c :: c in s[1..] ==> c in s;
      NoNulStrLen(s[1..]);
    }
  }

  /** Round trip: decoding the encoding of `bytes` into a buffer at least as
      long writes exactly `bytes` at its start. */
  method RoundTrip(bytes: seq<bv8>, dst: seq<bv8>) returns (r: seq<bv8>)
    requires |bytes| <= |dst|
    ensures r == bytes + dst[|bytes|..]
  {
    var s := BytesToHex(bytes);
    HexStrLen(bytes);
    r := HexToBytes(s, dst);
    forall i | 0 <= i < |bytes|
      ensures r[i] == bytes[i]
    {
      DigitsDecode(bytes[i]);
    }
    assert r == r[..|bytes|] + r[|bytes|..];
  }

  /** Lowercase digits decode like uppercase ones. */
  lemma CaseInsensitive(hi: char, lo: char)
    requires IsUpperHexLetter(hi) && IsUpperHexLetter(lo)
    ensures PairToByte((hi as int + 32) as char, (lo as int + 32) as char) == PairToByte(hi, lo)
  {
  }

  /** A trailing odd character is ignored, and characters after a NUL are
      never read. */
  lemma OddAndNul()
    ensures StrLen("ABC") / 2 == 1
    ensures StrLen("AB\0CD") / 2 == 1
    ensures PairToByte('G', '1') == 0xF1 && PairToByte('1', 'G') == 0xFF
  {
    assert StrLen("ABC") == 3;
    assert StrLen("AB\0CD") == 2;
  }
}

=== FILE: is25.dfy ===
/**
 * Decision logic of the `DIS25` SPI-NOR driver (IS25LP/WP 032A to 512M):
 * JEDEC-ID recognition in `init`, the greedy choice of the largest aligned
 * erase command in `erase`, the mask-based alignment test, reads framed with
 * a 4-byte address, and the size getters.
 */
module Is25 {
  import opened Common
  import opened NorFlash
  import opened Arith

  const CMD_4NORD: bv8 := 0x13
  const CMD_4PP: bv8 := 0x12
  const CMD_WREN: bv8 := 0x06
  const CMD_WRDI: bv8 := 0x04
  const CMD_RDSR: bv8 := 0x05
  const CMD_4SER: bv8 := 0x21
  const CMD_4BER32: bv8 := 0x5C
  const CMD_4BER64: bv8 := 0xDC
  const CMD_RDJDID: bv8 := 0x9F

  /** Status-register bits: write in progress; writes are enabled. */
  const SR_WIP: bv8 := 0x01
  const SR_WEL: bv8 := 0x02

  const ERASE_4K: nat := 4 * 1024
  const ERASE_32K: nat := 32 * 1024
  const ERASE_64K: nat := 64 * 1024

  const SIZE_32: nat := 0x0040_0000
  const SIZE_64: nat := 0x0080_0000
  const SIZE_128: nat := 0x0100_0000
  const SIZE_256: nat := 0x0200_0000
  const SIZE_512: nat := 0x0400_0000

  datatype DeviceType = LP032A | LP064A | LP128A | LP256D | WP256D | LP512M | WP512M | Unknown

  /** The recognised JEDEC IDs, in the order of the device-type enumeration. */
  const IDS: seq<seq<bv8>> := [
    [0x9D, 0x60, 0x16], [0x9D, 0x60, 0x17], [0x9D, 0x60, 0x18], [0x9D, 0x60, 0x19],
    [0x9D, 0x70, 0x19], [0x9D, 0x60, 0x1A], [0x9D, 0x70, 0x1A]]
  const TYPES: seq<DeviceType> := [LP032A, LP064A, LP128A, LP256D, WP256D, LP512M, WP512M]

  /** The capacity `init` stores for a type. */
  function Capacity(t: DeviceType): (c: nat)
    ensures c == 0 <==> t == Unknown
    ensures c <= 0x1_0000_0000
  {
    match t
    case LP032A => SIZE_32
    case LP064A => SIZE_64
    case LP128A => SIZE_128
    case LP256D | WP256D => SIZE_256
    case LP512M | WP512M => SIZE_512
    case Unknown => 0
  }

  /** Driver state: `m_memorySize` and `m_deviceType`. */
  datatype Driver = Driver(memorySize: nat, deviceType: DeviceType)

  /** State after construction. */
  const UNINITIALISED: Driver := Driver(0, Unknown)

  /** `init`: read the JEDEC ID; an unknown ID returns `BD_ERROR_DEVICE_ERROR`
      and changes nothing; a known one records its type and capacity and
      returns `BD_ERROR_OK`. */
  function Init(d: Driver, id: seq<bv8>): (r: (int, Driver))
    ensures r.0 == BD_ERROR_OK <==> id in IDS
    ensures id !in IDS ==> r.0 == BD_ERROR_DEVICE_ERROR && r.1 == d
    ensures forall i :: 0 <= i < |IDS| && IDS[i] == id ==>
              r.1 == Driver(Capacity(TYPES[i]), TYPES[i]) && r.1.memorySize > 0
  {
    match FindId(IDS, id)
    case None => (BD_ERROR_DEVICE_ERROR, d)
    case Some(i) => (BD_ERROR_OK, Driver(Capacity(TYPES[i]), TYPES[i]))
  }

  /** The LP and WP variants of the 256 Mbit and 512 Mbit parts are told apart
      but get the same capacity. */
  lemma VariantsShareCapacity(d: Driver, id: seq<bv8>)
    ensures id == IDS[3] || id == IDS[4] ==> Init(d, id).1.memorySize == SIZE_256
    ensures id == IDS[5] || id == IDS[6] ==> Init(d, id).1.memorySize == SIZE_512
    ensures id == IDS[3] ==> Init(d, id).1.deviceType == LP256D
    ensures id == IDS[4] ==> Init(d, id).1.deviceType == WP256D
  {
  }

  /** `deinit`: write-disable, return `BD_ERROR_OK`. */
  function Deinit(d: Driver): (r: (int, seq<bv8>))
    ensures r.0 == BD_ERROR_OK && r.1 == [CMD_WRDI]
  {
    (BD_ERROR_OK, [CMD_WRDI])
  }

  /** `get_read_size`, `get_program_size` and `get_erase_size`: fixed
      whatever the state, so even an uninitialised driver reports an erase
      size while its size is 0. Each is a multiple of the one before; the
      erase size is the smallest command of the erase table and divides every
      other. */
  function ReadSize(d: Driver): (n: nat)
    ensures n > 0
  {
    1
  }

  function ProgramSize(d: Driver): (n: nat)
    ensures n > 0 && n % ReadSize(d) == 0
  {
    1
  }

  function EraseSize(d: Driver): (n: nat)
    ensures n % ProgramSize(d) == 0
    ensures n == ERASE_TABLE[|ERASE_TABLE| - 1].len
    ensures forall i :: 0 <= i < |ERASE_TABLE| ==> ERASE_TABLE[i].len % n == 0
  {
    ERASE_4K
  }

  lemma GettersIgnoreInit(d: Driver)
    ensures ReadSize(d) == 1 && ProgramSize(d) == 1 && EraseSize(d) == ERASE_4K
    ensures UNINITIALISED.memorySize == 0 && EraseSize(UNINITIALISED) == ERASE_4K
  {
  }

  /** `D__IsAligned(address, align)` as written: the low bits under `align`
      are clear. */
  predicate IsAligned(address: bv64, align: bv64)
    requires align > 0
  {
    address & (align - 1) == 0
  }

  /** For each size of the erase table the mask test is the remainder test. */
  lemma IsAlignedIsModulo(address: bv64)
    ensures IsAligned(address, 0x1000) <==> address % 0x1000 == 0
    ensures IsAligned(address, 0x8000) <==> address % 0x8000 == 0
    ensures IsAligned(address, 0x1_0000) <==> address % 0x1_0000 == 0
  {
  }

  /** For a size that is not a power of two the mask test is not alignment. */
  lemma IsAlignedNeedsPowerOfTwo()
    ensures !IsAligned(6, 3) && 6 % 3 == 0
    ensures IsAligned(4, 3) && 4 % 3 != 0
  {
  }

  /** The erase table: commands from the largest block down to a sector. */
  const ERASE_TABLE: seq<Command> := [
    Command(CMD_4BER64, 0, ERASE_64K), Command(CMD_4BER32, 0, ERASE_32K), Command(CMD_4SER, 0, ERASE_4K)]

  /** A command erasing `len` bytes may be used at `address` with `remaining`
      bytes left: it fits, and the address is aligned to it. */
  predicate Fits(len: nat, address: nat, remaining: nat)
    requires len > 0
  {
    remaining >= len && address % len == 0
  }

  /** Table entry i fits. */
  predicate EntryFits(i: nat, address: nat, remaining: nat)
    requires i < |ERASE_TABLE|
  {
    Fits(ERASE_TABLE[i].len, address, remaining)
  }

  /** One step of `erase`'s loop: the first table entry that fits, applied at
      `address`, or None (the `X_ASSERT(info)`) when none does. */
  function PickErase(address: nat, remaining: nat): (c: Option<Command>)
    ensures c.None? <==> !Fits(ERASE_64K, address, remaining) && !Fits(ERASE_32K, address, remaining) &&
                         !Fits(ERASE_4K, address, remaining)
    ensures c.Some? ==> c.value.addr == address && c.value.len in {ERASE_4K, ERASE_32K, ERASE_64K} &&
                        c.value.len <= remaining
  {
    if Fits(ERASE_64K, address, remaining) then Some(Command(CMD_4BER64, address, ERASE_64K))
    else if Fits(ERASE_32K, address, remaining) then Some(Command(CMD_4BER32, address, ERASE_32K))
    else if Fits(ERASE_4K, address, remaining) then Some(Command(CMD_4SER, address, ERASE_4K))
    else None
  }

  /** The command picked is aligned to its own size, hence to 4K. */
  lemma PickEraseAligned(address: nat, remaining: nat)
    requires PickErase(address, remaining).Some?
    ensures address % PickErase(address, remaining).value.len == 0 && address % ERASE_4K == 0
  {
    var c := PickErase(address, remaining).value;
    assert Fits(c.len, address, remaining);
    AlignedTo4K(address, c.len);
  }

  /** The step is the inner loop over the table: None exactly when no entry
      fits, otherwise the first entry that fits, placed at `address`, so no
      larger entry would have fitted. */
  lemma PickEraseFollowsTable(address: nat, remaining: nat)
    ensures PickErase(address, remaining).None? <==>
              forall i :: 0 <= i < |ERASE_TABLE| ==> !EntryFits(i, address, remaining)
    ensures PickErase(address, remaining).Some? ==>
              exists i :: 0 <= i < |ERASE_TABLE| && EntryFits(i, address, remaining) &&
                          PickErase(address, remaining).value == ERASE_TABLE[i].(addr := address) &&
                          forall j :: 0 <= j < i ==> !EntryFits(j, address, remaining)
  {
    var c := PickErase(address, remaining);
    if c.Some? {
      var i := if Fits(ERASE_64K, address, remaining) then 0 else if Fits(ERASE_32K, address, remaining) then 1 else 2;
      assert EntryFits(i, address, remaining);
      assert c.value == ERASE_TABLE[i].(addr := address);
    }
  }

  /** The step `erase` takes at a command's address when the request ends at
      `end`: the largest table entry that is aligned there and fits. */
  predicate Greedy(c: Command, end: nat)
  {
    c.addr <= end && PickErase(c.addr, end - c.addr) == Some(c)
  }

  /** Every command of the list is the greedy choice for a request ending at
      `end`. */
  predicate AllGreedy(cmds: seq<Command>, end: nat)
    decreases |cmds|
  {
    cmds == [] || (Greedy(cmds[0], end) && AllGreedy(cmds[1..], end))
  }

  /** What `erase` issues: the commands sent, the bytes they cover, and
      whether the loop ran to the end rather than stopping at its
      `X_ASSERT(info)`. */
  datatype EraseRun = EraseRun(cmds: seq<Command>, done: nat, completed: bool)

  /** `erase`'s loop: pick a command, issue it, advance by its size, until
      nothing is left or no command fits. The commands issued before a stop
      have already erased their blocks. */
  function Erase(address: nat, size: nat): (r: EraseRun)
    ensures r.done <= size
    ensures r.completed ==> r.done == size
    decreases size
  {
    if size == 0 then EraseRun([], 0, true)
    else
      match PickErase(address, size)
      case None => EraseRun([], 0, false)
      case Some(c) =>
        var rest := Erase(address + c.len, size - c.len);
        var cmds := [c] + rest.cmds;
        assert cmds[1..] == rest.cmds;
        EraseRun(cmds, c.len + rest.done, rest.completed)
  }

  /** Each command `erase` issues is the greedy choice at its own address for
      what is left of the request there. */
  lemma EraseGreedy(address: nat, size: nat, k: nat)
    requires k < |Erase(address, size).cmds|
    ensures Greedy(Erase(address, size).cmds[k], address + size)
  {
    EraseAllGreedy(address, size);
    AllGreedyAt(Erase(address, size).cmds, address + size, k);
  }

  /** The whole command list of `erase` is greedy. */
  lemma {:induction false} EraseAllGreedy(address: nat, size: nat)
    ensures AllGreedy(Erase(address, size).cmds, address + size)
    decreases size
  {
    var cmds := Erase(address, size).cmds;
    EraseUnfold(address, size);
    if size > 0 && PickErase(address, size).Some? {
      var c := PickErase(address, size).value;
      var rest := Erase(address + c.len, size - c.len);
      assert cmds[0] == c && cmds[1..] == rest.cmds;
      EraseAllGreedy(address + c.len, size - c.len);
      assert address + c.len + (size - c.len) == address + size;
      assert PickErase(c.addr, address + size - c.addr) == Some(c);
    }
  }

  /** Every command of an all-greedy list is greedy. */
  lemma {:induction false} AllGreedyAt(cmds: seq<Command>, end: nat, k: nat)
    requires AllGreedy(cmds, end) && k < |cmds|
    ensures Greedy(cmds[k], end)
    decreases k
  {
    if k > 0 {
      AllGreedyAt(cmds[1..], end, k - 1);
    }
  }

  /** Every command `erase` issues is aligned to its own size, in particular to 4K. */
  lemma EraseAligned(address: nat, size: nat, k: nat)
    requires k < |Erase(address, size).cmds|
    ensures var c := Erase(address, size).cmds[k];
            c.len in {ERASE_4K, ERASE_32K, ERASE_64K} && c.addr % c.len == 0 && c.addr % ERASE_4K == 0
  {
    var c := Erase(address, size).cmds[k];
    EraseGreedy(address, size, k);
    PickEraseAligned(c.addr, address + size - c.addr);
  }

  /** An address aligned to a table size is 4K-aligned. */
  lemma AlignedTo4K(a: nat, n: nat)
    requires n in {ERASE_4K, ERASE_32K, ERASE_64K} && a % n == 0
    ensures a % ERASE_4K == 0
  {
    if n == ERASE_64K {
      MultipleOfMultiple(a, ERASE_64K, ERASE_4K);
    } else if n == ERASE_32K {
      MultipleOfMultiple(a, ERASE_32K, ERASE_4K);
    }
  }

  /** One turn of `erase`'s loop: a run that issues a command goes on from
      the next address with what is left, and stops or completes as that does. */
  lemma EraseUnfold(address: nat, size: nat)
    ensures size == 0 ==> Erase(address, size) == EraseRun([], 0, true)
    ensures size > 0 && PickErase(address, size).None? ==> Erase(address, size) == EraseRun([], 0, false)
    ensures size > 0 && PickErase(address, size).Some? ==>
              var c := PickErase(address, size).value;
              var rest := Erase(address + c.len, size - c.len);
              Erase(address, size) == EraseRun([c] + rest.cmds, c.len + rest.done, rest.completed)
  {
  }

  /** `erase` completes exactly on the requests the block-device interface
      accepts: an empty one, or a 4K-aligned start with a 4K-multiple size;
      any other request reaches a step where no command fits. A completed run
      covers the whole request (see `EraseCoversRequest`). */
  lemma {:induction false} EraseCompletes(address: nat, size: nat)
    ensures Erase(address, size).completed <==> size == 0 || (address % ERASE_4K == 0 && size % ERASE_4K == 0)
    decreases size
  {
    var run := Erase(address, size);
    if size > 0 {
      var pick := PickErase(address, size);
      if pick.None? {
        assert !run.completed;
        StepPreservesAlignment(address, size);
      } else {
        var c := pick.value;
        var next := Erase(address + c.len, size - c.len);
        EraseUnfold(address, size);
        assert run.completed == next.completed;
        StepPreservesAlignment(address, size);
        EraseCompletes(address + c.len, size - c.len);
      }
    }
  }

  /** The commands `erase` issues lie back to back from `address`, covering
      the bytes it reports done. */
  lemma {:induction false} EraseTiles(address: nat, size: nat)
    ensures Tiles(Erase(address, size).cmds, address, Erase(address, size).done)
    decreases size
  {
    EraseUnfold(address, size);
    if size > 0 && PickErase(address, size).Some? {
      var c := PickErase(address, size).value;
      var rest := Erase(address + c.len, size - c.len);
      EraseTiles(address + c.len, size - c.len);
      assert ([c] + rest.cmds)[1..] == rest.cmds;
    }
  }

  /** A 4K-aligned request is erased in full: the commands tile it. */
  lemma EraseCoversRequest(address: nat, size: nat)
    requires address % ERASE_4K == 0 && size % ERASE_4K == 0
    ensures Tiles(Erase(address, size).cmds, address, size)
  {
    EraseCompletes(address, size);
    EraseTiles(address, size);
  }

  /** One step in terms of alignment: no command fits only at a misaligned
      request, and after a command the rest of the request is aligned exactly
      when the whole one was. */
  lemma StepPreservesAlignment(address: nat, size: nat)
    requires size > 0
    ensures PickErase(address, size).None? ==> !(address % ERASE_4K == 0 && size % ERASE_4K == 0)
    ensures PickErase(address, size).Some? ==>
              var n := PickErase(address, size).value.len;
              && address % ERASE_4K == 0
              && ((size - n == 0 || ((address + n) % ERASE_4K == 0 && (size - n) % ERASE_4K == 0)) <==> size % ERASE_4K == 0)
  {
    var pick := PickErase(address, size);
    if pick.None? {
      assert !Fits(ERASE_4K, address, size);
      if size % ERASE_4K == 0 {
        AlignedGap(0, size, ERASE_4K);
      }
    } else {
      PickEraseAligned(address, size);
      StepKeepsAlignment(address, size, pick.value.len);
    }
  }

  /** Removing a 4K multiple keeps (or keeps lacking) 4K alignment. */
  lemma StepKeepsAlignment(address: nat, size: nat, n: nat)
    requires n in {ERASE_4K, ERASE_32K, ERASE_64K} && n <= size && address % ERASE_4K == 0
    ensures (address + n) % ERASE_4K == 0
    ensures (size - n) % ERASE_4K == 0 <==> size % ERASE_4K == 0
    ensures (size - n == 0 || ((address + n) % ERASE_4K == 0 && (size - n) % ERASE_4K == 0)) <==> size % ERASE_4K == 0
  {
    var m := n / ERASE_4K;
    assert n == m * ERASE_4K;
    DivModUnique(address + n, ERASE_4K, address / ERASE_4K + m, 0);
    var q, r := (size - n) / ERASE_4K, (size - n) % ERASE_4K;
    DivModUnique(size, ERASE_4K, q + m, r);
  }

  /** `read`: one 4-byte-address READ command clocking out the requested
      bytes; always returns `BD_ERROR_OK`. */
  function Read(d: Driver, mem: seq<bv8>, address: nat, size: nat): (r: (int, seq<bv8>, seq<bv8>))
    requires |mem| == d.memorySize && address + size <= d.memorySize <= 0x1_0000_0000
    ensures r.0 == BD_ERROR_OK && |r.2| == size
    ensures r.1 == Frame(CMD_4NORD, address as bv64, FourBytes)
    ensures forall i :: 0 <= i < size ==> r.2[i] == mem[address + i]
  {
    (BD_ERROR_OK, Frame(CMD_4NORD, address as bv64, FourBytes), mem[address..address + size])
  }

  /** `program`: page-program commands of at most 256 bytes, back to back
      from `address`, each preceded by a write enable and followed by a busy
      wait (not modelled); the payloads put together are exactly `data`. */
  function Program(d: Driver, address: nat, data: seq<bv8>): (r: (int, seq<Command>))
    requires address + |data| <= d.memorySize && d.memorySize <= 0x1_0000_0000
    ensures r.0 == BD_ERROR_OK
    ensures Tiles(r.1, address, |data|)
    ensures forall k :: 0 <= k < |r.1| ==> r.1[k].opcode == CMD_4PP && r.1[k].len <= PAGE_PROGRAM_MAX
    ensures TotalLength(r.1) == |data| && Concat(Payloads(r.1, data)) == data
  {
    ProgramSendsAllData(CMD_4PP, address, data);
    (BD_ERROR_OK, ProgramChunks(CMD_4PP, address, |data|))
  }
}

=== FILE: line_editor.dfy ===
/**
 * The buffer and history operations of the linenoise line editor: the line
 * being edited is a bounded character buffer with a cursor, the history a
 * bounded list of lines, oldest first. Terminal output (refreshes, beeps)
 * is not modelled; each operation is the change it makes to the state.
 */
module LineEditor {
  import opened Common
  import opened Arith

  // ---------------------------------------------------------------------------
  // The edited line

  /** The edited line: `buf[0..len)` as `text`, the cursor `pos`, and `cap`,
      the `buflen` of the state after `linenoiseEdit` took one byte off the
      caller's buffer for the terminating NUL: at most `cap` characters fit. */
  datatype Line = Line(text: seq<char>, pos: nat, cap: nat)
  {
    predicate Valid() { |text| <= cap && pos <= |text| }
  }

  /** The state `linenoiseEdit` starts from, for a caller's buffer of
      `buflen` bytes (`linenoiseRaw` refuses 0). */
  function NewLine(buflen: nat): (l: Line)
    requires buflen > 0
    ensures l.Valid() && l.text == [] && l.pos == 0 && l.cap == buflen - 1
  {
    Line([], 0, buflen - 1)
  }

  /** `linenoiseEditInsert`: while there is room the character goes in at
      the cursor, the tail moving right, and the cursor moves past it; a
      full buffer is left alone. */
  function Insert(l: Line, c: char): (r: Line)
    requires l.Valid()
    ensures r.Valid() && r.cap == l.cap
    ensures |l.text| < l.cap ==> |r.text| == |l.text| + 1 && r.pos == l.pos + 1
    ensures |l.text| < l.cap ==> r.text[l.pos] == c
    ensures |l.text| < l.cap ==> r.text[..l.pos] == l.text[..l.pos] && r.text[l.pos + 1..] == l.text[l.pos..]
    ensures |l.text| == l.cap ==> r == l
  {
    if |l.text| < l.cap then Line(l.text[..l.pos] + [c] + l.text[l.pos..], l.pos + 1, l.cap)
    else l
  }

  /** `linenoiseEditMoveLeft`, `MoveRight`, `MoveHome` and `MoveEnd`: only
      the cursor changes, and it stays within the line. */
  function MoveLeft(l: Line): (r: Line)
    requires l.Valid()
    ensures r.Valid() && r.text == l.text && r.cap == l.cap
    ensures r.pos == if l.pos > 0 then l.pos - 1 else 0
  {
    if l.pos > 0 then l.(pos := l.pos - 1) else l
  }

  function MoveRight(l: Line): (r: Line)
    requires l.Valid()
    ensures r.Valid() && r.text == l.text && r.cap == l.cap
    ensures r.pos == if l.pos < |l.text| then l.pos + 1 else |l.text|
  {
    if l.pos != |l.text| then l.(pos := l.pos + 1) else l
  }

  function MoveHome(l: Line): (r: Line)
    requires l.Valid()
    ensures r.Valid() && r.text == l.text && r.cap == l.cap && r.pos == 0
  {
    if l.pos != 0 then l.(pos := 0) else l
  }

  function MoveEnd(l: Line): (r: Line)
    requires l.Valid()
    ensures r.Valid() && r.text == l.text && r.cap == l.cap && r.pos == |r.text|
  {
    if l.pos != |l.text| then l.(pos := |l.text|) else l
  }

  /** `linenoiseEditDelete`: the character under the cursor goes, the cursor
      stays; at the end of the line nothing happens. */
  function Delete(l: Line): (r: Line)
    requires l.Valid()
    ensures r.Valid() && r.cap == l.cap && r.pos == l.pos
    ensures l.pos < |l.text| ==> |r.text| == |l.text| - 1
    ensures l.pos < |l.text| ==> r.text[..l.pos] == l.text[..l.pos] && r.text[l.pos..] == l.text[l.pos + 1..]
    ensures l.pos == |l.text| ==> r == l
  {
    if |l.text| > 0 && l.pos < |l.text| then l.(text := l.text[..l.pos] + l.text[l.pos + 1..])
    else l
  }

  /** `linenoiseEditBackspace`: the character before the cursor goes and the
      cursor moves back over it; at the start of the line nothing happens. */
  function Backspace(l: Line): (r: Line)
    requires l.Valid()
    ensures r.Valid() && r.cap == l.cap
    ensures l.pos > 0 ==> |r.text| == |l.text| - 1 && r.pos == l.pos - 1
    ensures l.pos > 0 ==> r.text[..l.pos - 1] == l.text[..l.pos - 1] && r.text[l.pos - 1..] == l.text[l.pos..]
    ensures l.pos == 0 ==> r == l
  {
    if l.pos > 0 && |l.text| > 0 then Line(l.text[..l.pos - 1] + l.text[l.pos..], l.pos - 1, l.cap)
    else l
  }

  /** Inserting a character and erasing it again restores the line. */
  lemma InsertThenBackspace(l: Line, c: char)
    requires l.Valid() && |l.text| < l.cap
    ensures Backspace(Insert(l, c)) == l
  {
    var r := Insert(l, c);
    assert r.text[..l.pos] + r.text[l.pos + 1..] == l.text;
  }

  /** Inserting a character, stepping back onto it and deleting it restores
      the line. */
  lemma InsertThenDelete(l: Line, c: char)
    requires l.Valid() && |l.text| < l.cap
    ensures Delete(MoveLeft(Insert(l, c))) == l
  {
    var r := Insert(l, c);
    assert r.text[..l.pos] + r.text[l.pos + 1..] == l.text;
  }

  /** Moving right and back left returns to the same place, away from the
      end of the line. */
  lemma MoveRightThenLeft(l: Line)
    requires l.Valid() && l.pos < |l.text|
    ensures MoveLeft(MoveRight(l)) == l
  {
  }

  /** Ctrl-T: inside the line the characters either side of the cursor swap
      places and the cursor advances, except on the last character, where it
      stays. */
  function Transpose(l: Line): (r: Line)
    requires l.Valid()
    ensures r.Valid() && r.cap == l.cap && |r.text| == |l.text|
    ensures 0 < l.pos < |l.text| ==>
      && r.text[l.pos - 1] == l.text[l.pos] && r.text[l.pos] == l.text[l.pos - 1]
      && (forall i :: 0 <= i < |l.text| && i != l.pos - 1 && i != l.pos ==> r.text[i] == l.text[i])
      && r.pos == (if l.pos == |l.text| - 1 then l.pos else l.pos + 1)
    ensures !(0 < l.pos < |l.text|) ==> r == l
  {
    if 0 < l.pos < |l.text| then
      var p := l.pos;
      Line(l.text[p - 1 := l.text[p]][p := l.text[p - 1]], if p != |l.text| - 1 then p + 1 else p, l.cap)
    else l
  }

  /** Ctrl-T only reorders the line's characters. */
  lemma TransposePermutes(l: Line)
    requires l.Valid()
    ensures multiset(Transpose(l).text) == multiset(l.text)
  {
    if 0 < l.pos < |l.text| {
      SwapMultiset(l.text, l.pos - 1, l.pos);
    }
  }

  lemma SwapMultiset(s: seq<char>, i: nat, j: nat)
    requires i < j < |s|
    ensures multiset(s[i := s[j]][j := s[i]]) == multiset(s)
  {
    var t := s[i := s[j]];
    assert multiset(t) == multiset(s) - multiset{s[i]} + multiset{s[j]};
    assert t[j] == s[j];
  }

  /** On the last character of the line the cursor stays put, so a second
      Ctrl-T undoes the first. */
  lemma TransposeTwiceAtEnd(l: Line)
    requires l.Valid() && 0 < l.pos == |l.text| - 1
    ensures Transpose(Transpose(l)) == l
  {
    assert Transpose(Transpose(l)).text == l.text;
  }

  /** Ctrl-U empties the line; Ctrl-K cuts it at the cursor. */
  function KillLine(l: Line): (r: Line)
    requires l.Valid()
    ensures r.Valid() && r.cap == l.cap && r.text == [] && r.pos == 0
  {
    Line([], 0, l.cap)
  }

  function KillToEnd(l: Line): (r: Line)
    requires l.Valid()
    ensures r.Valid() && r.cap == l.cap && r.pos == l.pos == |r.text|
    ensures l.text == r.text + l.text[l.pos..]
  {
    l.(text := l.text[..l.pos])
  }

  /** Ctrl-K at the start of the line is Ctrl-U; a second Ctrl-K changes
      nothing. */
  lemma KillProperties(l: Line)
    requires l.Valid()
    ensures KillToEnd(MoveHome(l)) == KillLine(l)
    ensures KillToEnd(KillToEnd(l)) == KillToEnd(l)
  {
  }

  // ---------------------------------------------------------------------------
  // Deleting the previous word

  /** Where the run of spaces that ends at `pos` starts. */
  function SpacesStart(t: seq<char>, pos: nat): (q: nat)
    requires pos <= |t|
    ensures q <= pos
    ensures forall i :: q <= i < pos ==> t[i] == ' '
    ensures q == 0 || t[q - 1] != ' '
  {
    if pos > 0 && t[pos - 1] == ' ' then SpacesStart(t, pos - 1) else pos
  }

  /** Where the run of non-spaces that ends at `q` starts. */
  function WordRunStart(t: seq<char>, q: nat): (p: nat)
    requires q <= |t|
    ensures p <= q
    ensures forall i :: p <= i < q ==> t[i] != ' '
    ensures p == 0 || t[p - 1] == ' '
  {
    if q > 0 && t[q - 1] != ' ' then WordRunStart(t, q - 1) else q
  }

  /** Where Ctrl-W leaves the cursor: back over spaces, then over the word
      before them. */
  function WordStart(t: seq<char>, pos: nat): (p: nat)
    requires pos <= |t|
    ensures p <= pos
  {
    WordRunStart(t, SpacesStart(t, pos))
  }

  /** The two runs are determined by their shape: any split of `t[p..pos)`
      into non-spaces then spaces, with a space (or the start) before `p` and
      a non-space (or the start) before the spaces, is the one Ctrl-W finds. */
  lemma {:induction false} WordStartCharacterized(t: seq<char>, pos: nat, p: nat, q: nat)
    requires p <= q <= pos <= |t|
    requires forall i :: q <= i < pos ==> t[i] == ' '
    requires forall i :: p <= i < q ==> t[i] != ' '
    requires q == 0 || t[q - 1] != ' '
    requires p == 0 || t[p - 1] == ' '
    ensures SpacesStart(t, pos) == q && WordStart(t, pos) == p
  {
    SpacesRun(t, pos, q);
    WordRun(t, q, p);
  }

  lemma {:induction false} SpacesRun(t: seq<char>, pos: nat, q: nat)
    requires q <= pos <= |t|
    requires forall i :: q <= i < pos ==> t[i] == ' '
    requires q == 0 || t[q - 1] != ' '
    ensures SpacesStart(t, pos) == q
  {
    if pos > q {
      SpacesRun(t, pos - 1, q);
    }
  }

  lemma {:induction false} WordRun(t: seq<char>, q: nat, p: nat)
    requires p <= q <= |t|
    requires forall i :: p <= i < q ==> t[i] != ' '
    requires p == 0 || t[p - 1] == ' '
    ensures WordRunStart(t, q) == p
  {
    if q > p {
      WordRun(t, q - 1, p);
    }
  }

  /** `linenoiseEditDeletePrevWord` (Ctrl-W): the two backward scans of the
      source, then the characters between the new and the old cursor are
      removed. */
  method DeletePrevWord(l: Line) returns (r: Line)
    requires l.Valid()
    ensures r.Valid() && r.cap == l.cap
    ensures r.pos == WordStart(l.text, l.pos)
    ensures r.text == l.text[..r.pos] + l.text[l.pos..]
  {
    var t := l.text;
    var p := l.pos;
    while p > 0 && t[p - 1] == ' '
      invariant 0 <= p <= l.pos
      invariant SpacesStart(t, p) == SpacesStart(t, l.pos)
    {
      p := p - 1;
    }
    while p > 0 && t[p - 1] != ' '
      invariant 0 <= p <= SpacesStart(t, l.pos)
      invariant WordRunStart(t, p) == WordStart(t, l.pos)
    {
      p := p - 1;
    }
    r := Line(t[..p] + t[l.pos..], p, l.cap);
  }

  /** Ctrl-W after typing a word at the end of a line removes exactly that
      word. */
  lemma DeleteTypedWord(before: seq<char>, word: seq<char>)
    requires before == [] || before[|before| - 1] == ' '
    requires word != [] && forall i :: 0 <= i < |word| ==> word[i] != ' '
    ensures var t := before + word;
            WordStart(t, |t|) == |before|
  {
    var t := before + word;
    WordStartCharacterized(t, |t|, |before|, |t|);
  }

  // ---------------------------------------------------------------------------
  // Key dispatch

  /** The keys of `linenoiseEdit` and the operation each performs on the
      buffer. Keys that end the edit (Enter, Ctrl-C, Ctrl-D on an empty
      line), browse the history or start an escape sequence are `None`, and
      so is Tab when a completion callback is set (`completeLine` takes
      over); without one, Tab is inserted like any other character. What ESC
      does depends on the bytes after it, which `EscapeEdit` decodes. A
      carriage return is skipped and Ctrl-L only clears the screen: both
      leave the line as it is. */
  function EditKey(l: Line, c: int, hasCompletion: bool): (r: Option<Line>)
    requires l.Valid() && 0 <= c < 256
    ensures r.Some? ==> r.value.Valid() && r.value.cap == l.cap
    ensures r.None? <==> c in {3, 10, 14, 16, 27} || (c == 9 && hasCompletion) || (c == 4 && |l.text| == 0)
    ensures c == 12 || c == 13 ==> r == Some(l)
    ensures c == 9 && !hasCompletion ==> r == Some(Insert(l, '\t'))
    ensures c == 127 || c == 8 ==> r == Some(Backspace(l))
    ensures c == 4 && |l.text| > 0 ==> r == Some(Delete(l))
    ensures c == 20 ==> r == Some(Transpose(l))
    ensures c == 2 ==> r == Some(MoveLeft(l))
    ensures c == 6 ==> r == Some(MoveRight(l))
    ensures c == 21 ==> r == Some(KillLine(l))
    ensures c == 11 ==> r == Some(KillToEnd(l))
    ensures c == 1 ==> r == Some(MoveHome(l))
    ensures c == 5 ==> r == Some(MoveEnd(l))
    ensures c == 23 ==> r.Some? && r.value.pos == WordStart(l.text, l.pos) &&
                        r.value.text == l.text[..r.value.pos] + l.text[l.pos..]
    ensures c !in {1, 2, 3, 4, 5, 6, 8, 9, 10, 11, 12, 13, 14, 16, 20, 21, 23, 27, 127} ==>
              r == Some(Insert(l, c as char))
  {
    if c in {3, 10, 14, 16, 27} then None
    else if c == 12 || c == 13 then Some(l)
    else if c == 9 then (if hasCompletion then None else Some(Insert(l, '\t')))
    else if c == 127 || c == 8 then Some(Backspace(l))
    else if c == 4 then (if |l.text| > 0 then Some(Delete(l)) else None)
    else if c == 20 then Some(Transpose(l))
    else if c == 2 then Some(MoveLeft(l))
    else if c == 6 then Some(MoveRight(l))
    else if c == 21 then Some(KillLine(l))
    else if c == 11 then Some(KillToEnd(l))
    else if c == 1 then Some(MoveHome(l))
    else if c == 5 then Some(MoveEnd(l))
    else if c == 23 then Some(Line(l.text[..WordStart(l.text, l.pos)] + l.text[l.pos..], WordStart(l.text, l.pos), l.cap))
    else Some(Insert(l, c as char))
  }

  /** The bytes `linenoiseEdit` reads after ESC. `ESC [ 3 ~` deletes under
      the cursor; `ESC [ C` and `ESC [ D` move right and left; `ESC [ H`,
      `ESC O H`, `ESC [ F` and `ESC O F` go home and to the end. `ESC [ A`
      and `ESC [ B` browse the history and are `None`. Any other sequence, or
      one cut short because a read failed (fewer bytes than it needs), leaves
      the line as it is. */
  function EscapeEdit(l: Line, s: seq<char>): (r: Option<Line>)
    requires l.Valid()
    ensures r.Some? ==> r.value.Valid() && r.value.cap == l.cap
    ensures r.None? <==> |s| >= 2 && s[0] == '[' && (s[1] == 'A' || s[1] == 'B')
    ensures |s| >= 3 && s[..3] == "[3~" ==> r == Some(Delete(l))
    ensures |s| >= 2 && s[..2] == "[C" ==> r == Some(MoveRight(l))
    ensures |s| >= 2 && s[..2] == "[D" ==> r == Some(MoveLeft(l))
    ensures |s| >= 2 && (s[..2] == "[H" || s[..2] == "OH") ==> r == Some(MoveHome(l))
    ensures |s| >= 2 && (s[..2] == "[F" || s[..2] == "OF") ==> r == Some(MoveEnd(l))
    ensures r.Some? && r.value != l ==>
              (|s| >= 3 && s[..3] == "[3~") || (|s| >= 2 && s[..2] in {"[C", "[D", "[H", "[F", "OH", "OF"})
  {
    if |s| < 2 then Some(l)
    else
      assert s[..2] == [s[0], s[1]];
      assert |s| >= 3 ==> s[..3] == [s[0], s[1], s[2]];
      if s[0] == '[' then
        if '0' <= s[1] <= '9' then
          (if |s| >= 3 && s[1] == '3' && s[2] == '~' then Some(Delete(l)) else Some(l))
        else if s[1] == 'A' || s[1] == 'B' then None
        else if s[1] == 'C' then Some(MoveRight(l))
        else if s[1] == 'D' then Some(MoveLeft(l))
        else if s[1] == 'H' then Some(MoveHome(l))
        else if s[1] == 'F' then Some(MoveEnd(l))
        else Some(l)
      else if s[0] == 'O' then
        (if s[1] == 'H' then Some(MoveHome(l)) else if s[1] == 'F' then Some(MoveEnd(l)) else Some(l))
      else Some(l)
  }

  /** The cursor keys do what their control-key counterparts do: Right is
      Ctrl-F, Left is Ctrl-B, Home is Ctrl-A, End is Ctrl-E, and Delete is
      Ctrl-D on a non-empty line. On an empty line Delete changes nothing,
      while Ctrl-D ends the input. */
  lemma EscapeAgreesWithKeys(l: Line, hasCompletion: bool)
    requires l.Valid()
    ensures EscapeEdit(l, "[C") == EditKey(l, 6, hasCompletion)
    ensures EscapeEdit(l, "[D") == EditKey(l, 2, hasCompletion)
    ensures EscapeEdit(l, "[H") == EscapeEdit(l, "OH") == EditKey(l, 1, hasCompletion)
    ensures EscapeEdit(l, "[F") == EscapeEdit(l, "OF") == EditKey(l, 5, hasCompletion)
    ensures |l.text| > 0 ==> EscapeEdit(l, "[3~") == EditKey(l, 4, hasCompletion)
    ensures |l.text| == 0 ==> EscapeEdit(l, "[3~") == Some(l) && EditKey(l, 4, hasCompletion).None?
  {
  }

  /** Printable characters typed one after another. */
  function TypeKeys(l: Line, keys: seq<char>): (r: Line)
    requires l.Valid()
    ensures r.Valid() && r.cap == l.cap
    decreases |keys|
  {
    if keys == [] then l else TypeKeys(Insert(l, keys[0]), keys[1..])
  }

  /** Typing at the end of the line appends as many of the keys as the
      capacity leaves room for, and puts the cursor after them. */
  lemma {:induction false} TypedAtEnd(l: Line, keys: seq<char>)
    requires l.Valid() && l.pos == |l.text|
    ensures var n := if |l.text| + |keys| <= l.cap then |keys| else l.cap - |l.text|;
            TypeKeys(l, keys) == Line(l.text + keys[..n], |l.text| + n, l.cap)
    decreases |keys|
  {
    if keys != [] && |l.text| < l.cap {
      var l1 := Insert(l, keys[0]);
      assert l1.text == l.text + [keys[0]];
      TypedAtEnd(l1, keys[1..]);
      var n := if |l.text| + |keys| <= l.cap then |keys| else l.cap - |l.text|;
      assert [keys[0]] + keys[1..][..n - 1] == keys[..n];
    } else if keys != [] {
      TypedAtEnd(l, keys[1..]);
    }
  }

  // ---------------------------------------------------------------------------
  // Completion

  /** The Tab step of `completeLine`: candidates are shown in turn, and the
      index `n` stands for the original buffer. */
  function NextCandidate(i: nat, n: nat): (j: nat)
    ensures j <= n
  {
    (i + 1) % (n + 1)
  }

  /** The index after `k` presses of Tab. */
  function Cycle(i: nat, n: nat, k: nat): (j: nat)
    ensures j <= n || (k == 0 && j == i)
  {
    if k == 0 then i else NextCandidate(Cycle(i, n, k - 1), n)
  }

  lemma {:induction false} CycleIsModular(i: nat, n: nat, k: nat)
    requires i <= n
    ensures Cycle(i, n, k) == (i + k) % (n + 1)
  {
    if k > 0 {
      CycleIsModular(i, n, k - 1);
      var m := n + 1;
      DivModStep(i + k - 1, m);
    }
  }

  lemma DivModStep(x: nat, m: nat)
    requires m > 0
    ensures (x % m + 1) % m == (x + 1) % m
  {
    var q, r := x / m, x % m;
    if r + 1 < m {
      DivModUnique(x + 1, m, q, r + 1);
    } else {
      DivModUnique(x + 1, m, q + 1, 0);
    }
  }

  /** Starting from the first candidate, `n + 1` presses of Tab come back to
      it, having shown every candidate and the original buffer once. */
  lemma CycleVisitsAll(n: nat)
    ensures Cycle(0, n, n + 1) == 0
    ensures forall j :: 0 <= j <= n ==> Cycle(0, n, j) == j
  {
    CycleIsModular(0, n, n + 1);
    DivModUnique(n + 1, n + 1, 1, 0);
    forall j | 0 <= j <= n
      ensures Cycle(0, n, j) == j
    {
      CycleIsModular(0, n, j);
      DivModUnique(j, n + 1, 0, j);
    }
  }

  /** How many characters `snprintf(buf, buflen, "%s", s)` stores for a
      buffer of `buflen` bytes: one is kept for the NUL, none at all fit in
      an empty buffer. */
  function SnprintfRoom(buflen: nat): nat
  {
    if buflen == 0 then 0 else buflen - 1
  }

  function Truncate(s: seq<char>, n: nat): (t: seq<char>)
    ensures |t| <= n && |t| <= |s| && t == s[..|t|]
    ensures |s| <= n ==> t == s
  {
    if |s| <= n then s else s[..n]
  }

  /** Accepting candidate `s` as written: the buffer receives what
      `snprintf` stores, but `len` and `pos` are set to its return value,
      the length of the whole candidate. */
  datatype Accepted = Accepted(text: seq<char>, len: nat, pos: nat)

  function AcceptAsWritten(l: Line, s: seq<char>): (a: Accepted)
    requires l.Valid()
    ensures a.text == Accept(l, s).text
    ensures a.len == |s| && a.pos == |s|
  {
    Accepted(Truncate(s, SnprintfRoom(l.cap)), |s|, |s|)
  }

  /** A candidate that does not fit leaves `len` beyond the characters in
      the buffer, and beyond its capacity when longer than it. */
  lemma AcceptAsWrittenOverruns(l: Line, s: seq<char>)
    requires l.Valid() && |s| > SnprintfRoom(l.cap)
    ensures var a := AcceptAsWritten(l, s);
            a.len > |a.text| && (|s| > l.cap ==> a.len > l.cap)
  {
  }

  /** Accepting candidate `s` with the length of what was stored. */
  function Accept(l: Line, s: seq<char>): (r: Line)
    requires l.Valid()
    ensures r.Valid() && r.cap == l.cap && r.pos == |r.text|
    ensures |r.text| <= |s| && r.text == s[..|r.text|]
    ensures r.text == s || |r.text| == SnprintfRoom(l.cap)
  {
    var t := Truncate(s, SnprintfRoom(l.cap));
    Line(t, |t|, l.cap)
  }

  /** `completeLine` for a list of candidates and the keys typed: Tab cycles,
      Escape keeps the original line, any other key accepts the candidate
      shown (none when the original is shown) and is handed back to the
      editor. Running out of input yields -1 with the line unchanged. With
      no candidates it returns 0 at once. */
  function Complete(l: Line, cands: seq<seq<char>>, keys: seq<int>): (r: (int, Line))
    requires l.Valid() && forall k :: 0 <= k < |keys| ==> 0 <= keys[k] < 256
    ensures r.1.Valid() && r.1.cap == l.cap
    ensures cands == [] ==> r == (0, l)
    ensures cands != [] ==> (r.0 == -1 <==> forall k :: 0 <= k < |keys| ==> keys[k] == 9)
    ensures r.0 == -1 || r.0 == 27 ==> r.1 == l
  {
    if cands == [] then (0, l) else CompleteFrom(l, cands, keys, 0)
  }

  function CompleteFrom(l: Line, cands: seq<seq<char>>, keys: seq<int>, i: nat): (r: (int, Line))
    requires l.Valid() && i <= |cands|
    requires forall k :: 0 <= k < |keys| ==> 0 <= keys[k] < 256
    ensures r.1.Valid() && r.1.cap == l.cap
    ensures r.0 == -1 <==> forall k :: 0 <= k < |keys| ==> keys[k] == 9
    ensures r.0 == -1 || r.0 == 27 ==> r.1 == l
    ensures r.0 != -1 && r.0 != 27 && r.1 != l ==> exists j :: 0 <= j < |cands| && r.1 == Accept(l, cands[j])
    decreases |keys|
  {
    if keys == [] then (-1, l)
    else if keys[0] == 9 then CompleteFrom(l, cands, keys[1..], NextCandidate(i, |cands|))
    else if keys[0] == 27 then (27, l)
    else if i < |cands| then (keys[0], Accept(l, cands[i]))
    else (keys[0], l)
  }

  // ---------------------------------------------------------------------------
  // History

  /** The history, oldest entry first, and `history_max_len`. */
  datatype History = History(entries: seq<seq<char>>, maxLen: int)
  {
    predicate Valid() { 0 <= maxLen && |entries| <= maxLen }
  }

  /** `linenoiseInit` leaves the history empty and disabled. */
  function NewHistory(): (h: History)
    ensures h.Valid() && h.entries == [] && h.maxLen == 0
  {
    History([], 0)
  }

  /** `a` is the last `|a|` elements of `b`. */
  predicate IsSuffix<T(==)>(a: seq<T>, b: seq<T>)
  {
    |a| <= |b| && a == b[|b| - |a|..]
  }

  function Min(a: int, b: int): int { if a <= b then a else b }

  /** `linenoiseHistoryAdd`, allocation assumed to succeed: nothing happens
      while the history is disabled or when the line repeats the newest
      entry; otherwise the line is appended, the oldest entry dropped first
      when the history is full. Returns 1 when the line was added. */
  function HistoryAdd(h: History, line: seq<char>): (r: (int, History))
    requires h.Valid()
    ensures r.1.Valid() && r.1.maxLen == h.maxLen
    ensures r.0 == 0 || r.0 == 1
    ensures r.0 == 1 <==> h.maxLen > 0 && (h.entries == [] || h.entries[|h.entries| - 1] != line)
    ensures r.0 == 0 ==> r.1 == h
    ensures h.maxLen > 0 ==> r.1.entries != [] && r.1.entries[|r.1.entries| - 1] == line
    ensures r.0 == 1 ==> |r.1.entries| == Min(|h.entries| + 1, h.maxLen)
    ensures r.0 == 1 ==> IsSuffix(r.1.entries[..|r.1.entries| - 1], h.entries)
  {
    if h.maxLen == 0 then (0, h)
    else if |h.entries| > 0 && h.entries[|h.entries| - 1] == line then (0, h)
    else
      var kept := if |h.entries| == h.maxLen then h.entries[1..] else h.entries;
      (1, History(kept + [line], h.maxLen))
  }

  /** Adding the same line twice adds it once. */
  lemma HistoryAddIdempotent(h: History, line: seq<char>)
    requires h.Valid()
    ensures HistoryAdd(HistoryAdd(h, line).1, line).1 == HistoryAdd(h, line).1
    ensures HistoryAdd(HistoryAdd(h, line).1, line).0 == 0
  {
  }

  /** `linenoiseHistorySetMaxLen`: a length below 1 is refused; otherwise
      the newest `min(len, history_len)` entries are kept, in order. */
  function HistorySetMaxLen(h: History, len: int): (r: (int, History))
    requires h.Valid()
    ensures len < 1 ==> r == (0, h)
    ensures len >= 1 ==> r.0 == 1 && r.1.Valid() && r.1.maxLen == len
    ensures len >= 1 ==> |r.1.entries| == Min(len, |h.entries|) && IsSuffix(r.1.entries, h.entries)
  {
    if len < 1 then (0, h)
    else
      var tocopy := if len < |h.entries| then len else |h.entries|;
      (1, History(h.entries[|h.entries| - tocopy..], len))
  }

  /** Resizing twice keeps what resizing once to the smaller size keeps. */
  lemma SetMaxLenTwice(h: History, a: int, b: int)
    requires h.Valid() && a >= 1 && b >= 1
    ensures var twice := HistorySetMaxLen(HistorySetMaxLen(h, a).1, b).1;
            twice == History(HistorySetMaxLen(h, Min(a, b)).1.entries, b)
  {
    var once := HistorySetMaxLen(h, a).1;
    var twice := HistorySetMaxLen(once, b).1;
    var direct := HistorySetMaxLen(h, Min(a, b)).1;
    SuffixOfSuffix(twice.entries, once.entries, h.entries);
    SuffixUnique(twice.entries, direct.entries, h.entries);
  }

  lemma SuffixOfSuffix<T>(a: seq<T>, b: seq<T>, c: seq<T>)
    requires IsSuffix(a, b) && IsSuffix(b, c)
    ensures IsSuffix(a, c)
  {
    assert c[|c| - |a|..] == c[|c| - |b|..][|b| - |a|..];
  }

  lemma SuffixUnique<T>(a: seq<T>, b: seq<T>, c: seq<T>)
    requires IsSuffix(a, c) && IsSuffix(b, c) && |a| == |b|
    ensures a == b
  {
  }

  /** Growing the limit keeps every entry. */
  lemma SetMaxLenGrowKeepsAll(h: History, len: int)
    requires h.Valid() && len >= h.maxLen && len >= 1
    ensures HistorySetMaxLen(h, len).1 == History(h.entries, len)
  {
  }
}

=== FILE: mapper.dfy ===
/**
 * `DBlockDeviceMapper`: a table of regions, each mapping a window of the
 * virtual address space onto a physical address of a block device. A lookup
 * takes the first region, in table order, whose half-open window holds the
 * address. Devices are identified by a number standing for the pointer.
 * Addresses and sizes are `bd_addr_t`/`bd_size_t`, 64 bits wide: the window's
 * end and the physical address are sums that wrap modulo 2^64.
 */
module BlockDeviceMapper {
  import opened Common
  import opened Arith

  /** One row of the mapping table (`DBlockDeviceMapper::Map`). */
  datatype Region = Region(device: nat, vbegin: nat, pbegin: nat, size: nat)

  /** `D__IsWithIn`: x lies in the half-open range [begin, end). */
  predicate IsWithin(x: nat, begin: nat, end: nat)
  {
    begin <= x < end
  }

  /** `vbegin + size` in 64-bit arithmetic: the end of the region's window. */
  function VEnd(r: Region): (e: nat)
    ensures e <= r.vbegin + r.size
    ensures r.vbegin + r.size < UINT64_RANGE ==> e == r.vbegin + r.size
  {
    U64(r.vbegin + r.size)
  }

  /** The region's virtual window holds `va`. */
  predicate Contains(r: Region, va: nat)
  {
    IsWithin(va, r.vbegin, VEnd(r))
  }

  /** `pbegin + offset` in 64-bit arithmetic: the physical address a hit on
      region r yields for `va`. */
  function PAddr(r: Region, va: nat): (p: nat)
    requires r.vbegin <= va
    ensures p < UINT64_RANGE
    ensures r.pbegin + (va - r.vbegin) < UINT64_RANGE ==> p == r.pbegin + (va - r.vbegin)
  {
    U64(r.pbegin + (va - r.vbegin))
  }

  /** Region k is the first one in table order whose window holds `va`. */
  predicate FirstHitAt(table: seq<Region>, va: nat, k: int)
  {
    && 0 <= k < |table|
    && Contains(table[k], va)
    && forall j :: 0 <= j < k ==> !Contains(table[j], va)
  }

  /** The device and physical address a hit on region r yields. */
  datatype Hit = Hit(device: nat, paddr: nat)

  /** Reference lookup over the table, front to back. */
  function Lookup(table: seq<Region>, va: nat): (h: Option<Hit>)
    ensures h.None? <==> forall k :: 0 <= k < |table| ==> !Contains(table[k], va)
    ensures h.Some? ==>
              exists k :: FirstHitAt(table, va, k) &&
                          h.value == Hit(table[k].device, PAddr(table[k], va))
  {
    if table == [] then None
    else if Contains(table[0], va) then
      assert FirstHitAt(table, va, 0);
      Some(Hit(table[0].device, PAddr(table[0], va)))
    else
      var h := Lookup(table[1..], va);
      if h.Some? then
        var k :| FirstHitAt(table[1..], va, k) &&
                 h.value == Hit(table[1..][k].device, PAddr(table[1..][k], va));
        assert FirstHitAt(table, va, k + 1);
        h
      else
        assert forall k :: 1 <= k < |table| ==> table[k] == table[1..][k - 1];
        h
  }

  /** `findDevice(va, &out)`: the device of the first region holding `va`, with
      `out` set to the matching physical address; on a miss no device (a null
      pointer) and `out` keeps whatever it held. */
  method FindDevice(table: seq<Region>, va: nat, out: nat) returns (device: Option<nat>, out': nat)
    ensures device.None? <==> forall k :: 0 <= k < |table| ==> !Contains(table[k], va)
    ensures device.None? ==> out' == out
    ensures device.Some? ==>
              exists k :: FirstHitAt(table, va, k) && device.value == table[k].device &&
                          out' == PAddr(table[k], va)
  {
    device, out' := None, out;
    var i := 0;
    while i < |table|
      invariant 0 <= i <= |table|
      invariant forall j :: 0 <= j < i ==> !Contains(table[j], va)
    {
      if IsWithin(va, table[i].vbegin, U64(table[i].vbegin + table[i].size)) {
        var offset := va - table[i].vbegin;
        assert FirstHitAt(table, va, i);
        return Some(table[i].device), U64(table[i].pbegin + offset);
      }
      i := i + 1;
    }
  }

  /** `addMap` as written: for every existing region, neither the new region's
      start nor its end address may lie inside it (an `X_ASSERT`, modelled as
      None); the region is then appended. */
  function AddMap(table: seq<Region>, r: Region): (t: Option<seq<Region>>)
    ensures t.Some? <==> forall k :: 0 <= k < |table| ==>
              !Contains(table[k], r.vbegin) && !Contains(table[k], VEnd(r))
    ensures t.Some? ==> |t.value| == |table| + 1 && t.value[..|table|] == table && t.value[|table|] == r
  {
    if forall k :: 0 <= k < |table| ==>
         !IsWithin(r.vbegin, table[k].vbegin, U64(table[k].vbegin + table[k].size)) &&
         !IsWithin(U64(r.vbegin + r.size), table[k].vbegin, U64(table[k].vbegin + table[k].size))
    then Some(table + [r])
    else None
  }

  /** No virtual address lies in both regions. */
  predicate Disjoint(a: Region, b: Region)
  {
    a.size == 0 || b.size == 0 || a.vbegin + a.size <= b.vbegin || b.vbegin + b.size <= a.vbegin
  }

  /** Every pair of distinct rows is disjoint. */
  predicate PairwiseDisjoint(table: seq<Region>)
  {
    forall i, j :: 0 <= i < j < |table| ==> Disjoint(table[i], table[j])
  }

  /** Disjoint regions share no address. */
  lemma DisjointNoCommonAddress(a: Region, b: Region, va: nat)
    requires Disjoint(a, b)
    ensures !(Contains(a, va) && Contains(b, va))
  {
  }

  /** `addMap` with the check it evidently intends: the new region must not
      overlap any existing one. */
  function AddMapDisjoint(table: seq<Region>, r: Region): (t: Option<seq<Region>>)
    ensures t.Some? <==> forall k :: 0 <= k < |table| ==> Disjoint(table[k], r)
    ensures t.Some? ==> t.value == table + [r]
  {
    if forall k :: 0 <= k < |table| ==> Disjoint(table[k], r) then Some(table + [r]) else None
  }

  /** The corrected check keeps a table of disjoint regions disjoint. */
  lemma AddMapDisjointKeepsDisjoint(table: seq<Region>, r: Region)
    requires PairwiseDisjoint(table) && AddMapDisjoint(table, r).Some?
    ensures PairwiseDisjoint(AddMapDisjoint(table, r).value)
  {
    var t := table + [r];
    forall i, j | 0 <= i < j < |t|
      ensures Disjoint(t[i], t[j])
    {
      assert t[i] == table[i];
      if j == |table| {
        assert t[j] == r;
      } else {
        assert t[j] == table[j];
      }
    }
  }

  /** In a table of disjoint regions the first hit is the only one: the lookup
      does not depend on table order. */
  lemma {:induction false} LookupDisjointUnique(table: seq<Region>, va: nat, k: nat)
    requires PairwiseDisjoint(table) && k < |table| && Contains(table[k], va)
    ensures Lookup(table, va) == Some(Hit(table[k].device, PAddr(table[k], va)))
  {
    var h := Lookup(table, va);
    var m :| FirstHitAt(table, va, m) &&
             h.value == Hit(table[m].device, PAddr(table[m], va));
    if m < k {
      DisjointNoCommonAddress(table[m], table[k], va);
    }
  }

  /** Row k is the first one mapping `device`. */
  predicate FirstDeviceAt(table: seq<Region>, device: nat, k: int)
  {
    && 0 <= k < |table|
    && table[k].device == device
    && forall j :: 0 <= j < k ==> table[j].device != device
  }

  /** `removeMap(device)`: drop the first row mapping `device`; a device the
      table does not mention leaves it unchanged. */
  function RemoveMap(table: seq<Region>, device: nat): (t: seq<Region>)
    ensures (forall k :: 0 <= k < |table| ==> table[k].device != device) ==> t == table
  {
    if table == [] then []
    else if table[0].device == device then table[1..]
    else [table[0]] + RemoveMap(table[1..], device)
  }

  /** `removeMap` takes out exactly the first row mapping the device; the other
      rows keep their order. */
  lemma {:induction false} RemoveMapDropsFirst(table: seq<Region>, device: nat, k: nat)
    requires FirstDeviceAt(table, device, k)
    ensures RemoveMap(table, device) == table[..k] + table[k + 1..]
    decreases |table|
  {
    if k > 0 {
      assert FirstDeviceAt(table[1..], device, k - 1);
      RemoveMapDropsFirst(table[1..], device, k - 1);
      assert table[1..][..k - 1] == table[1..k];
      assert table[1..][k..] == table[k + 1..];
      assert [table[0]] + table[1..k] == table[..k];
    }
  }

  /** Mapping a device the table does not mention and removing it again gives
      the original table back. */
  lemma AddThenRemove(table: seq<Region>, r: Region)
    requires forall k :: 0 <= k < |table| ==> table[k].device != r.device
    requires AddMap(table, r).Some?
    ensures RemoveMap(AddMap(table, r).value, r.device) == table
  {
    var t := AddMap(table, r).value;
    assert t == table + [r];
    assert forall j :: 0 <= j < |table| ==> t[j].device != r.device;
    RemoveMapDropsFirst(t, r.device, |table|);
    assert t[..|table|] + t[|table| + 1..] == table;
  }

  /** A region whose window would run past 2^64 has its end wrapped to or
      below its start, so no address finds it: with `vbegin` = 2^64 - 16 and
      `size` 32, `findDevice(2^64 - 8)` misses although the address lies in
      the unwrapped window. */
  lemma WrappingRegionUnreachable(r: Region, va: nat)
    requires r.vbegin < UINT64_RANGE <= r.vbegin + r.size && r.size <= UINT64_RANGE
    ensures !Contains(r, va)
    ensures Lookup([r], va).None?
  {
    assert VEnd(r) == r.vbegin + r.size - UINT64_RANGE;
  }

  /** As written, a new region that encloses an existing one passes both
      endpoint tests, and the table then holds two overlapping regions. */
  lemma AddMapAcceptsEnclosing()
    ensures var table := [Region(1, 10, 0, 5)];
            var r := Region(2, 0, 100, 100);
            AddMap(table, r).Some? && !Disjoint(table[0], r) && !PairwiseDisjoint(AddMap(table, r).value)
  {
    var table := [Region(1, 10, 0, 5)];
    var r := Region(2, 0, 100, 100);
    assert !Contains(table[0], r.vbegin) && !Contains(table[0], VEnd(r));
    var t := AddMap(table, r).value;
    assert t[0] == table[0] && t[1] == r;
  }

  /** As written, a new region ending exactly where an existing one starts is
      refused although the two share no address. */
  lemma AddMapRejectsAdjacent()
    ensures var table := [Region(1, 10, 0, 5)];
            var r := Region(2, 0, 100, 10);
            AddMap(table, r).None? && Disjoint(table[0], r) && AddMapDisjoint(table, r).Some?
  {
    var table := [Region(1, 10, 0, 5)];
    var r := Region(2, 0, 100, 10);
    assert Contains(table[0], VEnd(r));
  }
}

=== FILE: nor_flash.dfy ===
/**
 * Decision logic shared by the two SPI-NOR drivers (`DSST26`, `DIS25`): the
 * first-match JEDEC-ID table lookup, the split of a program request into page
 * program commands of at most 256 bytes, and the big-endian framing of an
 * opcode with a 3- or 4-byte address. A command is an opcode applied to a
 * span of device addresses; the SPI transport itself is not modelled.
 */
module NorFlash {
  import opened Common

  /** Most bytes one page-program command carries (`maxSizeOfOneTime`). */
  const PAGE_PROGRAM_MAX: nat := 256

  /** One erase or program command: an opcode over [addr, addr + len). */
  datatype Command = Command(opcode: bv8, addr: nat, len: nat)

  /** The commands cover [addr, addr + size) back to back, in ascending order,
      none of them empty. */
  predicate Tiles(cmds: seq<Command>, addr: nat, size: nat)
    decreases |cmds|
  {
    if cmds == [] then size == 0
    else
      && cmds[0].addr == addr
      && 0 < cmds[0].len <= size
      && Tiles(cmds[1..], addr + cmds[0].len, size - cmds[0].len)
  }

  /** A tiling stays inside its range and its commands do not overlap: each one
      ends where or before the next one begins. */
  lemma {:induction false} TilesInside(cmds: seq<Command>, addr: nat, size: nat)
    requires Tiles(cmds, addr, size)
    ensures forall k :: 0 <= k < |cmds| ==> addr <= cmds[k].addr && cmds[k].addr + cmds[k].len <= addr + size
    ensures forall j, k :: 0 <= j < k < |cmds| ==> cmds[j].addr + cmds[j].len <= cmds[k].addr
    decreases |cmds|
  {
    if cmds != [] {
      var rest := cmds[1..];
      TilesInside(rest, addr + cmds[0].len, size - cmds[0].len);
      assert forall k :: 1 <= k < |cmds| ==> cmds[k] == rest[k - 1];
    }
  }

  /** Every address of the range lies in one of the commands of a tiling. */
  lemma {:induction false} TilesCover(cmds: seq<Command>, addr: nat, size: nat, x: nat)
    requires Tiles(cmds, addr, size) && addr <= x < addr + size
    ensures exists k :: 0 <= k < |cmds| && cmds[k].addr <= x < cmds[k].addr + cmds[k].len
    decreases |cmds|
  {
    if x >= addr + cmds[0].len {
      TilesCover(cmds[1..], addr + cmds[0].len, size - cmds[0].len, x);
      var k :| 0 <= k < |cmds[1..]| && cmds[1..][k].addr <= x < cmds[1..][k].addr + cmds[1..][k].len;
      assert cmds[k + 1] == cmds[1..][k];
    } else {
      assert cmds[0].addr <= x < cmds[0].addr + cmds[0].len;
    }
  }

  /** The sum of the command lengths. */
  function TotalLength(cmds: seq<Command>): nat
  {
    if cmds == [] then 0 else cmds[0].len + TotalLength(cmds[1..])
  }

  /** A tiling's lengths add up to the size of the range it covers. */
  lemma {:induction false} TilesTotal(cmds: seq<Command>, addr: nat, size: nat)
    requires Tiles(cmds, addr, size)
    ensures TotalLength(cmds) == size
    decreases |cmds|
  {
    if cmds != [] {
      TilesTotal(cmds[1..], addr + cmds[0].len, size - cmds[0].len);
    }
  }

  /** `program`'s loop: page-program commands of `min(256, remaining)` bytes,
      starting at `addr` and advancing by the amount sent, until nothing is left.
      Only the last command may be shorter than 256 bytes; 256-byte page
      boundaries of the device play no part. */
  function ProgramChunks(opcode: bv8, addr: nat, size: nat): (cmds: seq<Command>)
    ensures Tiles(cmds, addr, size)
    ensures forall k :: 0 <= k < |cmds| ==> cmds[k].opcode == opcode && cmds[k].len <= PAGE_PROGRAM_MAX
    ensures forall k :: 0 <= k < |cmds| - 1 ==> cmds[k].len == PAGE_PROGRAM_MAX
    decreases size
  {
    if size == 0 then []
    else
      var n := if size > PAGE_PROGRAM_MAX then PAGE_PROGRAM_MAX else size;
      var rest := ProgramChunks(opcode, addr + n, size - n);
      assert ([Command(opcode, addr, n)] + rest)[1..] == rest;
      [Command(opcode, addr, n)] + rest
  }

  /** The data bytes a command list carries, each command taking its share of
      `data` in order. */
  function Payloads(cmds: seq<Command>, data: seq<bv8>): (ps: seq<seq<bv8>>)
    requires TotalLength(cmds) <= |data|
    ensures |ps| == |cmds|
    ensures forall k :: 0 <= k < |cmds| ==> |ps[k]| == cmds[k].len
    decreases |cmds|
  {
    if cmds == [] then []
    else
      var rest := Payloads(cmds[1..], data[cmds[0].len..]);
      assert forall k :: 1 <= k < |cmds| ==> cmds[k] == cmds[1..][k - 1];
      [data[..cmds[0].len]] + rest
  }

  /** Concatenation of a list of byte strings. */
  function Concat(ps: seq<seq<bv8>>): seq<bv8>
  {
    if ps == [] then [] else ps[0] + Concat(ps[1..])
  }

  /** Round trip of the chunking: the page programs, put back together, send
      exactly the data that was asked for, and no payload exceeds 256 bytes. */
  lemma {:induction false} ProgramSendsAllData(opcode: bv8, addr: nat, data: seq<bv8>)
    ensures TotalLength(ProgramChunks(opcode, addr, |data|)) == |data|
    ensures Concat(Payloads(ProgramChunks(opcode, addr, |data|), data)) == data
    decreases |data|
  {
    hide Tiles, TotalLength;
    var cmds := ProgramChunks(opcode, addr, |data|);
    TilesTotal(cmds, addr, |data|);
    if |data| > 0 {
      var n := if |data| > PAGE_PROGRAM_MAX then PAGE_PROGRAM_MAX else |data|;
      var rest := data[n..];
      ProgramSendsAllData(opcode, addr + n, rest);
      assert cmds[1..] == ProgramChunks(opcode, addr + n, |rest|);
      var ps := Payloads(cmds, data);
      assert ps[1..] == Payloads(ProgramChunks(opcode, addr + n, |rest|), rest);
      assert data[..n] + rest == data;
    }
  }

  /** Address width of a command frame. */
  datatype AddressWidth = ThreeBytes | FourBytes

  /** The addresses a frame of this width can name: the low 24 or 32 bits. */
  function AddressMask(w: AddressWidth): bv64
  {
    match w
    case ThreeBytes => 0xFF_FFFF
    case FourBytes => 0xFFFF_FFFF
  }

  /** `DoCommand`'s header: the opcode, then the address most significant byte
      first (bits 23..0 for the SST26, bits 31..0 for the IS25). */
  function Frame(opcode: bv8, address: bv64, w: AddressWidth): (f: seq<bv8>)
    ensures |f| == (if w.ThreeBytes? then 4 else 5) && f[0] == opcode
    ensures FrameAddress(f, w) == address & AddressMask(w)
  {
    match w
    case ThreeBytes =>
      [opcode,
       ((address >> 16) & 0xFF) as bv8,
       ((address >> 8) & 0xFF) as bv8,
       (address & 0xFF) as bv8]
    case FourBytes =>
      [opcode,
       ((address >> 24) & 0xFF) as bv8,
       ((address >> 16) & 0xFF) as bv8,
       ((address >> 8) & 0xFF) as bv8,
       (address & 0xFF) as bv8]
  }

  /** The address a device reads back out of a frame header. */
  function FrameAddress(f: seq<bv8>, w: AddressWidth): (a: bv64)
    requires |f| == (if w.ThreeBytes? then 4 else 5)
    ensures a <= AddressMask(w)
  {
    match w
    case ThreeBytes => (f[1] as bv64 << 16) | (f[2] as bv64 << 8) | f[3] as bv64
    case FourBytes => (f[1] as bv64 << 24) | (f[2] as bv64 << 16) | (f[3] as bv64 << 8) | f[4] as bv64
  }

  /** An address within the frame's width reaches the device unchanged. */
  lemma FrameExact(opcode: bv8, address: bv64, w: AddressWidth)
    requires address <= AddressMask(w)
    ensures FrameAddress(Frame(opcode, address, w), w) == address
  {
    assert address & AddressMask(w) == address;
  }

  /** Index of the first table row equal to `id`, or None when no row is. */
  function FindId(table: seq<seq<bv8>>, id: seq<bv8>): (r: Option<nat>)
    ensures r.None? <==> id !in table
    ensures r.Some? ==> r.value < |table| && table[r.value] == id &&
                        forall j :: 0 <= j < r.value ==> table[j] != id
  {
    if table == [] then None
    else if table[0] == id then Some(0)
    else
      match FindId(table[1..], id)
      case None => None
      case Some(i) =>
        assert forall j :: 1 <= j < i + 1 ==> table[j] == table[1..][j - 1];
        Some(i + 1)
  }
}

=== FILE: null_block_device.dfy ===
/**
 * `DNullOutputBlockDevice`: a block device that accepts every program and
 * forgets it, refuses every read, and claims the largest 32-bit size.
 */
module NullBlockDevice {

  /** `UINT32_MAX`, the size the stub device reports. */
  const UINT32_MAX: nat := 0xFFFF_FFFF

  /** The stub has no state; a value of this type stands for the device. */
  datatype NullDevice = NullDevice

  /** `init` and `deinit` succeed. */
  function Init(d: NullDevice): (r: int)
    ensures r == 0
  {
    0
  }

  function Deinit(d: NullDevice): (r: int)
    ensures r == 0
  {
    0
  }

  /** `read(dst, address, size)`: fails with -1 and leaves the destination
      buffer as it was, whatever the range. */
  function Read(d: NullDevice, dst: seq<bv8>, address: nat, size: nat): (r: (int, seq<bv8>))
    ensures r == (-1, dst)
  {
    (-1, dst)
  }

  /** `program(src, address, size)`: reports success and keeps nothing. */
  function Program(d: NullDevice, src: seq<bv8>, address: nat): (r: (int, NullDevice))
    ensures r.0 == 0 && r.1 == d
  {
    (0, d)
  }

  /** `get_read_size`, `get_program_size` and `size`: reads and programs go
      byte by byte, and the device size, the largest 32-bit value, is a
      multiple of both. */
  function ReadSize(d: NullDevice): (n: nat)
    ensures n == 1
  {
    1
  }

  function ProgramSize(d: NullDevice): (n: nat)
    ensures n == 1 && n % ReadSize(d) == 0
  {
    1
  }

  function Size(d: NullDevice): (n: nat)
    ensures n % ProgramSize(d) == 0 && n % ReadSize(d) == 0
    ensures n == UINT32_MAX
  {
    UINT32_MAX
  }

  /** Whatever is programmed, a later read of the same range still fails and
      hands back the caller's buffer untouched: nothing written can be read
      back. The sizes satisfy the block-device rule that the program size is a
      multiple of the read size and both divide the device size. */
  lemma ProgramIsForgotten(d: NullDevice, src: seq<bv8>, address: nat, dst: seq<bv8>)
    ensures Program(d, src, address).0 == 0
    ensures Read(Program(d, src, address).1, dst, address, |src|) == (-1, dst)
    ensures ProgramSize(d) % ReadSize(d) == 0 && Size(d) % ProgramSize(d) == 0
  {
  }
}

=== FILE: object_storage.dfy ===
/**
 * `DObjectStorage`: a registry of objects by name over `std::map`, so names
 * are unique, a name is bound by its first `put`, and `walk` visits the
 * entries in ascending name order. Objects are pointers, `NULL` being 0.
 */
module ObjectStorage {

  type Key = seq<char>

  /** The null pointer `get` returns for an unknown name. */
  const NULL: nat := 0

  datatype Storage = Storage(m: map<Key, nat>)

  function Empty(): (s: Storage)
    ensures |s.m| == 0
  {
    Storage(map[])
  }

  /** `put`: `std::map::insert`, which leaves an existing binding alone. */
  function Put(s: Storage, name: Key, obj: nat): (r: Storage)
    ensures r.m.Keys == s.m.Keys + {name}
    ensures name in s.m ==> r.m[name] == s.m[name]
    ensures name !in s.m ==> r.m[name] == obj
    ensures forall k :: k in s.m && k != name ==> r.m[k] == s.m[k]
  {
    if name in s.m then s else Storage(s.m[name := obj])
  }

  /** `has`: whether the name is bound, that is whether a `put` of it
      would leave the set of names as it is. */
  function Has(s: Storage, name: Key): (h: bool)
    ensures h <==> Put(s, name, NULL).m.Keys == s.m.Keys
  {
    name in s.m
  }

  /** `get`: the bound object, or `NULL`. */
  function Get(s: Storage, name: Key): (p: nat)
    ensures Has(s, name) ==> p == s.m[name]
    ensures !Has(s, name) ==> p == NULL
  {
    if name in s.m then s.m[name] else NULL
  }

  /** `remove`: unbinds the name if bound. */
  function Remove(s: Storage, name: Key): (r: Storage)
    ensures r.m.Keys == s.m.Keys - {name}
    ensures forall k :: k in r.m ==> r.m[k] == s.m[k]
  {
    if name !in s.m then s else Storage(s.m - {name})
  }

  /** The first `put` of a name wins; removing it makes room for a new one. */
  lemma PutProperties(s: Storage, name: Key, a: nat, b: nat)
    ensures Has(Put(s, name, a), name)
    ensures Get(Put(Put(s, name, a), name, b), name) == Get(Put(s, name, a), name)
    ensures !Has(s, name) ==> Get(Put(s, name, a), name) == a
    ensures Get(Put(Remove(Put(s, name, a), name), name, b), name) == b
    ensures !Has(Remove(s, name), name)
    ensures !Has(s, name) ==> Remove(Put(s, name, a), name) == s
  {
    if !Has(s, name) {
      assert Remove(Put(s, name, a), name).m == s.m;
    }
  }

  // ---------------------------------------------------------------------------
  // Name order

  /** `std::string`'s `<`: lexicographic, a proper prefix first. Characters
      compare by code, as `char_traits<char>` compares them, as unsigned. */
  predicate Less(a: Key, b: Key)
  {
    if a == [] then b != []
    else b != [] && (a[0] < b[0] || (a[0] == b[0] && Less(a[1..], b[1..])))
  }

  lemma {:induction false} LessIrreflexive(a: Key)
    ensures !Less(a, a)
  {
    if a != [] {
      LessIrreflexive(a[1..]);
    }
  }

  lemma {:induction false} LessTransitive(a: Key, b: Key, c: Key)
    requires Less(a, b) && Less(b, c)
    ensures Less(a, c)
  {
    if a != [] && a[0] == b[0] && b[0] == c[0] {
      LessTransitive(a[1..], b[1..], c[1..]);
    }
  }

  lemma {:induction false} LessTotal(a: Key, b: Key)
    requires a != b
    ensures Less(a, b) || Less(b, a)
  {
    if a != [] && b != [] && a[0] == b[0] {
      assert a == [a[0]] + a[1..] && b == [b[0]] + b[1..];
      LessTotal(a[1..], b[1..]);
    }
  }

  /** `k` is the least name of `names`. */
  predicate IsLeast(k: Key, names: set<Key>)
  {
    k in names && forall j :: j in names && j != k ==> Less(k, j)
  }

  /** Every non-empty finite set of names has a least one. */
  lemma {:induction false} LeastExists(names: set<Key>)
    requires names != {}
    ensures exists k :: IsLeast(k, names)
    decreases |names|
  {
    hide Less;
    var x :| x in names;
    var rest := names - {x};
    if rest == {} {
      assert names == {x};
      assert IsLeast(x, names);
    } else {
      LeastExists(rest);
      var m :| IsLeast(m, rest);
      if Less(x, m) {
        forall j | j in names && j != x
          ensures Less(x, j)
        {
          if j != m {
            LessTransitive(x, m, j);
          }
        }
        assert IsLeast(x, names);
      } else {
        LessTotal(x, m);
        assert IsLeast(m, names);
      }
    }
  }

  /** The names of a list of entries. */
  function Names(entries: seq<(Key, nat)>): set<Key>
  {
    if entries == [] then {} else Names(entries[..|entries| - 1]) + {entries[|entries| - 1].0}
  }

  /** `walk`: the entries, once each, in ascending name order. The callback
      is replaced by the list of calls it receives. */
  method Walk(s: Storage) returns (entries: seq<(Key, nat)>)
    ensures |entries| == |s.m|
    ensures Names(entries) == s.m.Keys
    ensures forall i :: 0 <= i < |entries| ==> entries[i].0 in s.m && entries[i].1 == s.m[entries[i].0]
    ensures forall i, j :: 0 <= i < j < |entries| ==> Less(entries[i].0, entries[j].0)
  {
    var remaining := s.m.Keys;
    entries := [];
    while remaining != {}
      invariant WalkInvariant(s, entries, remaining)
      decreases |remaining|
    {
      LeastExists(remaining);
      var k :| IsLeast(k, remaining);
      WalkStep(s, entries, remaining, k);
      entries := entries + [(k, s.m[k])];
      remaining := remaining - {k};
    }
  }

  /** What `walk` has done with `remaining` names still to visit: the
      entries so far are the other names, bound as in the map, ascending, and
      all below the names still to come. */
  predicate WalkInvariant(s: Storage, entries: seq<(Key, nat)>, remaining: set<Key>)
  {
    && remaining <= s.m.Keys
    && Names(entries) == s.m.Keys - remaining
    && |entries| + |remaining| == |s.m.Keys|
    && (forall i :: 0 <= i < |entries| ==> entries[i].0 in s.m && entries[i].1 == s.m[entries[i].0])
    && (forall i, j :: 0 <= i < j < |entries| ==> Less(entries[i].0, entries[j].0))
    && (forall i, k :: 0 <= i < |entries| && k in remaining ==> Less(entries[i].0, k))
  }

  /** Visiting the least remaining name keeps the invariant. */
  lemma WalkStep(s: Storage, entries: seq<(Key, nat)>, remaining: set<Key>, k: Key)
    requires WalkInvariant(s, entries, remaining) && IsLeast(k, remaining)
    ensures WalkInvariant(s, entries + [(k, s.m[k])], remaining - {k})
  {
    hide Less;
    var next := entries + [(k, s.m[k])];
    assert next[..|next| - 1] == entries;
  }
}

=== FILE: ref_count.dfy ===
/**
 * `DRef`: an intrusive reference count with a tag and an owned name. The
 * object deletes itself when a release brings the count to zero, and its
 * destructor insists the count is zero. The count is a 32-bit `int`.
 */
module RefCount {
  import opened Common
  import opened Arith

  /** The tag a new object carries, `D_INVALID_TAG`. */
  const INVALID_TAG: int := -1

  /** An owned name: the buffer it was copied into and its characters. */
  datatype Name = Name(buffer: nat, text: seq<char>)

  datatype Ref = Ref(tag: int, useCount: int, name: Option<Name>)

  /** The state of an object: alive, or deleted by its last release. */
  datatype Life = Alive(obj: Ref) | Deleted

  /** The constructor: invalid tag, no references, no name. */
  function NewRef(): (r: Ref)
    ensures r.tag == INVALID_TAG && r.useCount == 0 && r.name.None?
  {
    Ref(INVALID_TAG, 0, None)
  }

  /** `retain`: one more reference. */
  function Retain(r: Ref): (s: Ref)
    ensures s.tag == r.tag && s.name == r.name
    ensures INT32_MIN <= r.useCount < -INT32_MIN - 1 ==> s.useCount == r.useCount + 1
  {
    r.(useCount := Int32(r.useCount + 1))
  }

  /** `release`: one reference fewer; the release that brings the count to
      zero deletes the object. */
  function Release(r: Ref): (l: Life)
    ensures INT32_MIN < r.useCount <= -INT32_MIN ==> (l.Deleted? <==> r.useCount == 1)
    ensures l.Alive? ==> l.obj == r.(useCount := l.obj.useCount) && l.obj.useCount != 0
    ensures INT32_MIN < r.useCount <= -INT32_MIN && l.Alive? ==> l.obj.useCount == r.useCount - 1
  {
    var c := Int32(r.useCount - 1);
    if c == 0 then Destroy(r.(useCount := c)) else Alive(r.(useCount := c))
  }

  /** The destructor: it asserts that no reference is left. */
  function Destroy(r: Ref): (l: Life)
    requires r.useCount == 0
    ensures l.Deleted?
  {
    Deleted
  }

  /** `k` retains in a row. */
  function RetainN(r: Ref, k: nat): Ref
  {
    if k == 0 then r else Retain(RetainN(r, k - 1))
  }

  /** `k` releases in a row, stopping at deletion. */
  function ReleaseN(l: Life, k: nat): Life
  {
    if k == 0 then l
    else match ReleaseN(l, k - 1)
      case Deleted => Deleted
      case Alive(r) => Release(r)
  }

  lemma {:induction false} RetainCounts(r: Ref, k: nat)
    requires 0 <= r.useCount && r.useCount + k < -INT32_MIN
    ensures RetainN(r, k) == r.(useCount := r.useCount + k)
  {
    if k > 0 {
      RetainCounts(r, k - 1);
    }
  }

  lemma {:induction false} ReleaseCounts(r: Ref, n: nat, j: nat)
    requires r.useCount == n && n < -INT32_MIN && j < n
    ensures ReleaseN(Alive(r), j) == Alive(r.(useCount := n - j))
  {
    if j > 0 {
      ReleaseCounts(r, n, j - 1);
    }
  }

  /** Balanced use: a new object retained `k` times survives the first
      `k - 1` releases and is deleted by the `k`-th. */
  lemma Balanced(k: nat)
    requires 0 < k < -INT32_MIN
    ensures var r := RetainN(NewRef(), k);
            && r == NewRef().(useCount := k)
            && (forall j :: 0 <= j < k ==> ReleaseN(Alive(r), j) == Alive(NewRef().(useCount := k - j)))
            && ReleaseN(Alive(r), k) == Deleted
  {
    var r := RetainN(NewRef(), k);
    RetainCounts(NewRef(), k);
    forall j | 0 <= j < k
      ensures ReleaseN(Alive(r), j) == Alive(NewRef().(useCount := k - j))
    {
      ReleaseCounts(r, k, j);
    }
    ReleaseCounts(r, k, k - 1);
  }

  /** A release without a matching retain takes a new object's count to -1
      and does not delete it. */
  lemma UnmatchedRelease()
    ensures Release(NewRef()) == Alive(NewRef().(useCount := -1))
  {
  }

  /** `set_name(name)`, with `newBuffer` the buffer a new copy would be
      allocated in: the same name (the same pointer or equal text, null
      included) changes nothing; null clears the name; anything else is
      copied into a new buffer. */
  function SetName(r: Ref, name: Option<seq<char>>, newBuffer: nat): (s: Ref)
    ensures s.tag == r.tag && s.useCount == r.useCount
    ensures s.name.None? <==> name.None?
    ensures name.Some? ==> s.name.value.text == name.value
    ensures SameName(r.name, name) ==> s == r
    ensures !SameName(r.name, name) && name.Some? ==> s.name.value.buffer == newBuffer
  {
    if SameName(r.name, name) then r
    else if name.None? then r.(name := None)
    else r.(name := Some(Name(newBuffer, name.value)))
  }

  predicate SameName(current: Option<Name>, name: Option<seq<char>>)
  {
    match current
    case None => name.None?
    case Some(n) => name.Some? && n.text == name.value
  }

  /** Setting a name twice is setting it once: the second call keeps the
      buffer of the first. */
  lemma SetNameIdempotent(r: Ref, name: Option<seq<char>>, buffer1: nat, buffer2: nat)
    ensures SetName(SetName(r, name, buffer1), name, buffer2) == SetName(r, name, buffer1)
  {
  }
}

=== FILE: replace.dfy ===
/**
 * `DBlockDeviceUtils::replace`: overwrite `size` bytes at an arbitrary address
 * of a device that can only erase whole, aligned erase blocks. The first block
 * is read, erased, patched and programmed back in full; each later block is
 * erased and programmed from the caller's data, and only a full later block is
 * read back first. Any failing device call ends the operation with its status.
 */
module BlockDeviceUtils {
  import opened FlashMemory
  import opened Arith

  /** Start of the erase block holding `addr`. */
  function BlockStart(addr: nat, eraseSize: nat): (b: nat)
    requires eraseSize > 0
    ensures b <= addr < b + eraseSize && b % eraseSize == 0
  {
    DivModUnique(addr / eraseSize * eraseSize, eraseSize, addr / eraseSize, 0);
    addr / eraseSize * eraseSize
  }

  /** End of the last erase block a range ending (exclusively) at `x` touches. */
  function BlockEnd(x: nat, eraseSize: nat): nat
    requires eraseSize > 0
  {
    (x + eraseSize - 1) / eraseSize * eraseSize
  }

  /** `BlockEnd(x)` is the first aligned address at or above `x`. */
  lemma {:induction false} BlockEndBounds(x: nat, eraseSize: nat)
    requires eraseSize > 0
    ensures BlockEnd(x, eraseSize) % eraseSize == 0
    ensures x <= BlockEnd(x, eraseSize) < x + eraseSize
  {
    var e := eraseSize;
    var y := x + e - 1;
    assert y == y / e * e + y % e;
    DivModUnique(y / e * e, e, y / e, 0);
  }

  /** A trace is shaped as `replace` issues it: every call stays inside the
      touched blocks [lo, hi), erases cover whole aligned blocks, and a program
      directly follows the erase of the block it writes. */
  predicate WellShaped(calls: seq<Call>, lo: nat, hi: nat, eraseSize: nat)
    requires eraseSize > 0
  {
    && (forall k :: 0 <= k < |calls| ==> Inside(calls[k], lo, hi))
    && (forall k :: 0 <= k < |calls| && calls[k].EraseCall? ==>
          calls[k].addr % eraseSize == 0 && calls[k].len == eraseSize)
    && (forall k :: 0 <= k < |calls| && calls[k].ProgramCall? ==>
          0 < k && calls[k - 1] == EraseCall(calls[k].addr, eraseSize))
  }

  /** Appending a call that keeps the shape keeps the trace well shaped. */
  lemma WellShapedSnoc(calls: seq<Call>, c: Call, lo: nat, hi: nat, eraseSize: nat)
    requires eraseSize > 0 && WellShaped(calls, lo, hi, eraseSize) && Inside(c, lo, hi)
    requires c.EraseCall? ==> c.addr % eraseSize == 0 && c.len == eraseSize
    requires c.ProgramCall? ==> |calls| > 0 && calls[|calls| - 1] == EraseCall(c.addr, eraseSize)
    ensures WellShaped(calls + [c], lo, hi, eraseSize)
  {
    var cs := calls + [c];
    forall k | 0 <= k < |cs| && cs[k].ProgramCall?
      ensures 0 < k && cs[k - 1] == EraseCall(cs[k].addr, eraseSize)
    {
      if k < |calls| {
        assert cs[k] == calls[k] && cs[k - 1] == calls[k - 1];
      }
    }
  }

  /** Erase the aligned block at `a`, then program `data` at its start. On
      success the block holds `data` followed by erased bytes; on failure
      nothing outside the block has changed. */
  method EraseProgram(dev: seq<bv8>, status: seq<int>, mem: seq<bv8>, calls: seq<Call>,
                      a: nat, eraseSize: nat, data: seq<bv8>, lo: nat, hi: nat)
    returns (st: int, mem': seq<bv8>, calls': seq<Call>)
    requires eraseSize > 0 && a % eraseSize == 0 && |data| <= eraseSize
    requires lo <= a && a + eraseSize <= hi <= |dev|
    requires Succeeded(dev, status, calls, mem) && WellShaped(calls, lo, hi, eraseSize)
    ensures WellShaped(calls', lo, hi, eraseSize)
    ensures |calls'| > |calls| && calls'[..|calls|] == calls
    ensures st == 0 ==> calls' == calls + [EraseCall(a, eraseSize), ProgramCall(a, data)]
    ensures st == 0 ==> Succeeded(dev, status, calls', mem')
    ensures st == 0 ==> forall i :: 0 <= i < |mem| ==>
              mem'[i] == (if a <= i < a + |data| then data[i - a]
                          else if a <= i < a + eraseSize then ERASED
                          else mem[i])
    ensures st != 0 ==> FailedLast(dev, status, calls', mem', st)
    ensures st != 0 ==> forall i :: 0 <= i < |mem| && !(a <= i < a + eraseSize) ==> mem'[i] == mem[i]
  {
    WellShapedSnoc(calls, EraseCall(a, eraseSize), lo, hi, eraseSize);
    st, mem', calls' := Issue(dev, status, mem, calls, EraseCall(a, eraseSize));
    if st != 0 {
      return;
    }
    WellShapedSnoc(calls', ProgramCall(a, data), lo, hi, eraseSize);
    var erased := calls';
    st, mem', calls' := Issue(dev, status, mem', calls', ProgramCall(a, data));
    assert calls'[..|calls|] == erased[..|calls|];
    if st == 0 {
      ProgramAfterErase(mem, a, eraseSize, data);
    }
  }

  /** One block of `replace`: optionally read the block, then erase it and
      program `data` at its start. */
  method RewriteBlock(dev: seq<bv8>, status: seq<int>, mem: seq<bv8>, calls: seq<Call>,
                      a: nat, eraseSize: nat, data: seq<bv8>, readFirst: bool, lo: nat, hi: nat)
    returns (st: int, mem': seq<bv8>, calls': seq<Call>)
    requires eraseSize > 0 && a % eraseSize == 0 && |data| <= eraseSize
    requires lo <= a && a + eraseSize <= hi <= |dev|
    requires Succeeded(dev, status, calls, mem) && WellShaped(calls, lo, hi, eraseSize)
    ensures WellShaped(calls', lo, hi, eraseSize)
    ensures |calls'| > |calls| && calls'[..|calls|] == calls
    ensures readFirst ==> calls'[|calls|] == ReadCall(a, eraseSize)
    ensures st == 0 ==>
              calls' == calls + (if readFirst then [ReadCall(a, eraseSize)] else [])
                              + [EraseCall(a, eraseSize), ProgramCall(a, data)]
    ensures st == 0 ==> Succeeded(dev, status, calls', mem')
    ensures st == 0 ==> forall i :: 0 <= i < |mem| ==>
              mem'[i] == (if a <= i < a + |data| then data[i - a]
                          else if a <= i < a + eraseSize then ERASED
                          else mem[i])
    ensures st != 0 ==> FailedLast(dev, status, calls', mem', st)
    ensures st != 0 ==> forall i :: 0 <= i < |mem| && !(a <= i < a + eraseSize) ==> mem'[i] == mem[i]
  {
    if !readFirst {
      st, mem', calls' := EraseProgram(dev, status, mem, calls, a, eraseSize, data, lo, hi);
      return;
    }
    WellShapedSnoc(calls, ReadCall(a, eraseSize), lo, hi, eraseSize);
    var read;
    st, mem', read := Issue(dev, status, mem, calls, ReadCall(a, eraseSize));
    if st != 0 {
      return st, mem', read;
    }
    st, mem', calls' := EraseProgram(dev, status, mem', read, a, eraseSize, data, lo, hi);
    assert calls'[..|calls|] == read[..|calls|];
  }

  /** The first block of `replace`: the read returns the block's bytes, which
      are patched with the head of `src` and programmed back whole after the
      erase. `toWrite` is how much of `src` the first block takes. */
  method FirstBlock(dev: seq<bv8>, status: seq<int>, src: seq<bv8>, addr: nat, size: nat,
                    eraseSize: nat, lo: nat, hi: nat)
    returns (result: int, mem: seq<bv8>, calls: seq<Call>, toWrite: nat)
    requires eraseSize > 0 && 0 < size <= |src|
    requires lo % eraseSize == 0 && lo <= addr < lo + eraseSize && lo + eraseSize <= hi <= |dev|
    ensures toWrite == if addr - lo + size <= eraseSize then size else eraseSize - (addr - lo)
    ensures |calls| > 0 && calls[0] == ReadCall(lo, eraseSize)
    ensures WellShaped(calls, lo, hi, eraseSize)
    ensures result == 0 ==> Succeeded(dev, status, calls, mem)
    ensures result != 0 ==> FailedLast(dev, status, calls, mem, result)
    ensures forall i :: 0 <= i < |dev| && !(lo <= i < lo + eraseSize) ==> mem[i] == dev[i]
    ensures result == 0 ==> forall i :: lo <= i < addr ==> mem[i] == dev[i]
    ensures result == 0 ==> forall i :: addr <= i < addr + toWrite ==> mem[i] == src[i - addr]
    ensures result == 0 ==> forall i :: addr + toWrite <= i < lo + eraseSize ==> mem[i] == dev[i]
  {
    hide Effect, Erase, Program;
    var e := eraseSize;
    var offset := addr - lo;
    toWrite := if size + offset <= e then size else e - offset;
    var buffer := Patch(dev[lo..lo + e], offset, src[..toWrite]);
    result, mem, calls := RewriteBlock(dev, status, dev, [], lo, e, buffer, true, lo, hi);
  }

  /** The block read back, with `piece` copied over it from `offset` on. */
  function Patch(block: seq<bv8>, offset: nat, piece: seq<bv8>): (r: seq<bv8>)
    requires offset + |piece| <= |block|
    ensures |r| == |block|
    ensures forall j :: 0 <= j < |r| ==> r[j] == if offset <= j < offset + |piece| then piece[j - offset] else block[j]
  {
    block[..offset] + piece + block[offset + |piece|..]
  }

  /** After one later block is rewritten with `data`, made of the next
      `|chunk|` bytes of `src` followed by bytes the block already held, the
      loop's facts about the device hold one block further on. */
  lemma BlockFacts(dev: seq<bv8>, src: seq<bv8>, mem: seq<bv8>, mem': seq<bv8>,
                   addr: nat, lo: nat, hi: nat, a: nat, eraseSize: nat, chunk: seq<bv8>, data: seq<bv8>)
    requires |mem| == |mem'| == |dev| && lo < a && addr <= a && a + eraseSize <= hi <= |dev|
    requires |chunk| <= |data| <= eraseSize && a - addr + |chunk| <= |src|
    requires chunk == src[a - addr..a - addr + |chunk|] && data[..|chunk|] == chunk
    requires forall j :: |chunk| <= j < |data| ==> data[j] == mem[a + j]
    requires forall i :: 0 <= i < |mem| ==>
               mem'[i] == (if a <= i < a + |data| then data[i - a]
                           else if a <= i < a + eraseSize then ERASED
                           else mem[i])
    requires forall i :: 0 <= i < |dev| && !(lo <= i < hi) ==> mem[i] == dev[i]
    requires forall i :: lo <= i < addr ==> mem[i] == dev[i]
    requires forall i :: addr <= i < a ==> mem[i] == src[i - addr]
    requires forall i :: a <= i < hi ==> mem[i] == dev[i]
    ensures forall i :: 0 <= i < |dev| && !(lo <= i < hi) ==> mem'[i] == dev[i]
    ensures forall i :: lo <= i < addr ==> mem'[i] == dev[i]
    ensures forall i :: addr <= i < a + |chunk| ==> mem'[i] == src[i - addr]
    ensures forall i :: a + |chunk| <= i < a + |data| ==> mem'[i] == dev[i]
    ensures forall i :: a + |data| <= i < a + eraseSize ==> mem'[i] == ERASED
    ensures forall i :: a + eraseSize <= i < hi ==> mem'[i] == dev[i]
  {
    forall i | a <= i < a + |chunk|
      ensures mem'[i] == src[i - addr]
    {
      assert data[i - a] == chunk[i - a];
    }
  }

  /** The loop of `replace` over the blocks after the first: `a` is the next
      erase-aligned block, `p` how much of `src` is already in place, and the
      first `p` bytes at `addr` already hold it. As written, a full block is read
      back before being overwritten and a final partial block is not, so the
      rest of that block is left erased; with `preserveTail` a partial block is
      read back and its bytes past the range are programmed again. */
  method LaterBlocks(dev: seq<bv8>, status: seq<int>, src: seq<bv8>, addr: nat, size: nat,
                     eraseSize: nat, lo: nat, hi: nat, mem0: seq<bv8>, calls0: seq<Call>, a0: nat, p0: nat,
                     preserveTail: bool)
    returns (result: int, mem: seq<bv8>, calls: seq<Call>)
    requires eraseSize > 0 && size <= |src| && hi <= |dev|
    requires hi % eraseSize == 0 && addr + size <= hi < addr + size + eraseSize
    requires a0 % eraseSize == 0 && lo < a0 && a0 == addr + p0 && p0 < size
    requires |calls0| > 0 && calls0[0] == ReadCall(lo, eraseSize)
    requires Succeeded(dev, status, calls0, mem0) && WellShaped(calls0, lo, hi, eraseSize)
    requires forall i :: 0 <= i < |dev| && !(lo <= i < hi) ==> mem0[i] == dev[i]
    requires forall i :: lo <= i < addr ==> mem0[i] == dev[i]
    requires forall i :: addr <= i < a0 ==> mem0[i] == src[i - addr]
    requires forall i :: a0 <= i < hi ==> mem0[i] == dev[i]
    ensures |calls| > 0 && calls[0] == ReadCall(lo, eraseSize)
    ensures WellShaped(calls, lo, hi, eraseSize)
    ensures result == 0 ==> Succeeded(dev, status, calls, mem)
    ensures result != 0 ==> FailedLast(dev, status, calls, mem, result)
    ensures forall i :: 0 <= i < |dev| && !(lo <= i < hi) ==> mem[i] == dev[i]
    ensures result == 0 ==> forall i :: lo <= i < addr ==> mem[i] == dev[i]
    ensures result == 0 ==> forall i :: addr <= i < addr + size ==> mem[i] == src[i - addr]
    ensures result == 0 ==> forall i :: addr + size <= i < hi ==> mem[i] == if preserveTail then dev[i] else ERASED
  {
    hide ApplyAll, Effect, Erase, Program, WellShaped;
    var e := eraseSize;
    mem, calls := mem0, calls0;
    var remaining := size - p0;
    var a, p := a0, p0;
    while true
      invariant a % e == 0 && lo < a && a == addr + p && p + remaining == size
      invariant 0 < remaining
      invariant |calls| > 0 && calls[0] == ReadCall(lo, e)
      invariant Succeeded(dev, status, calls, mem) && WellShaped(calls, lo, hi, e)
      invariant forall i :: 0 <= i < |dev| && !(lo <= i < hi) ==> mem[i] == dev[i]
      invariant forall i :: lo <= i < addr ==> mem[i] == dev[i]
      invariant forall i :: addr <= i < a ==> mem[i] == src[i - addr]
      invariant forall i :: a <= i < hi ==> mem[i] == dev[i]
      decreases remaining
    {
      AlignedGap(a, hi, e);
      var st, mem', calls', toWrite := NextBlock(dev, status, src, addr, e, lo, hi, mem, calls, a, p, remaining, preserveTail);
      if st != 0 {
        return st, mem', calls';
      }
      mem, calls := mem', calls';
      if remaining <= toWrite {
        AlignedNext(a, e);
        AlignedGap(a + e, hi, e);
        return 0, mem, calls;
      }
      remaining := remaining - toWrite;
      AlignedNext(a, e);
      a := a + toWrite;
      p := p + toWrite;
    }
  }

  /** One round of the loop of `replace`: the block at `a` is rewritten with
      the next bytes of `src` (and, with `preserveTail`, the bytes the block
      already held after them). `toWrite` is how many bytes of `src` it took. */
  method NextBlock(dev: seq<bv8>, status: seq<int>, src: seq<bv8>, addr: nat,
                   e: nat, lo: nat, hi: nat, mem: seq<bv8>, calls: seq<Call>, a: nat, p: nat, remaining: nat,
                   preserveTail: bool)
    returns (st: int, mem': seq<bv8>, calls': seq<Call>, toWrite: nat)
    requires e > 0 && hi <= |dev| && a % e == 0 && lo < a && a + e <= hi
    requires a == addr + p && 0 < remaining && p + remaining <= |src|
    requires |calls| > 0 && calls[0] == ReadCall(lo, e)
    requires Succeeded(dev, status, calls, mem) && WellShaped(calls, lo, hi, e)
    requires forall i :: 0 <= i < |dev| && !(lo <= i < hi) ==> mem[i] == dev[i]
    requires forall i :: lo <= i < addr ==> mem[i] == dev[i]
    requires forall i :: addr <= i < a ==> mem[i] == src[i - addr]
    requires forall i :: a <= i < hi ==> mem[i] == dev[i]
    ensures toWrite == if e > remaining then remaining else e
    ensures |calls'| > 0 && calls'[0] == ReadCall(lo, e)
    ensures WellShaped(calls', lo, hi, e)
    ensures st == 0 ==> Succeeded(dev, status, calls', mem')
    ensures st != 0 ==> FailedLast(dev, status, calls', mem', st)
    ensures forall i :: 0 <= i < |dev| && !(lo <= i < hi) ==> mem'[i] == dev[i]
    ensures st == 0 ==> forall i :: lo <= i < addr ==> mem'[i] == dev[i]
    ensures st == 0 ==> forall i :: addr <= i < a + toWrite ==> mem'[i] == src[i - addr]
    ensures st == 0 ==> forall i :: a + toWrite <= i < a + e ==> mem'[i] == if preserveTail then dev[i] else ERASED
    ensures st == 0 ==> forall i :: a + e <= i < hi ==> mem'[i] == dev[i]
  {
    hide ApplyAll, Effect, Erase, Program, WellShaped;
    toWrite := if e > remaining then remaining else e;
    var chunk := src[p..p + toWrite];
    var data := chunk;
    var readFirst := e <= toWrite;
    if preserveTail {
      // The block is read back only when the data does not cover it.
      readFirst := toWrite < e;
      data := chunk + mem[a + toWrite..a + e];
      assert forall j :: |chunk| <= j < |data| ==> data[j] == mem[a + j];
    }
    assert data[..|chunk|] == chunk;
    st, mem', calls' := RewriteBlock(dev, status, mem, calls, a, e, data, readFirst, lo, hi);
    assert calls'[0] == calls[0];
    if st == 0 {
      assert |mem'| == |mem| == |dev|;
      BlockFacts(dev, src, mem, mem', addr, lo, hi, a, e, chunk, data);
    }
  }

  /** `replace` for a non-empty range, with the touched blocks [lo, hi) given. */
  method ReplaceBlocks(dev: seq<bv8>, eraseSize: nat, src: seq<bv8>, addr: nat, size: nat, status: seq<int>,
                       lo: nat, hi: nat, preserveTail: bool)
    returns (result: int, mem: seq<bv8>, calls: seq<Call>)
    requires eraseSize > 0 && 0 < size <= |src|
    requires lo % eraseSize == 0 && lo <= addr < lo + eraseSize
    requires hi % eraseSize == 0 && addr + size <= hi < addr + size + eraseSize && hi <= |dev|
    ensures |calls| > 0 && calls[0] == ReadCall(lo, eraseSize)
    ensures WellShaped(calls, lo, hi, eraseSize)
    ensures result == 0 ==> Succeeded(dev, status, calls, mem)
    ensures result != 0 ==> FailedLast(dev, status, calls, mem, result)
    ensures forall i :: 0 <= i < |dev| && !(lo <= i < hi) ==> mem[i] == dev[i]
    ensures result == 0 ==> forall i :: lo <= i < addr ==> mem[i] == dev[i]
    ensures result == 0 ==> forall i :: addr <= i < addr + size ==> mem[i] == src[i - addr]
    ensures result == 0 && (preserveTail || addr - lo + size <= eraseSize) ==>
              forall i :: addr + size <= i < hi ==> mem[i] == dev[i]
    ensures result == 0 && !preserveTail && addr - lo + size > eraseSize ==>
              forall i :: addr + size <= i < hi ==> mem[i] == ERASED
  {
    var e := eraseSize;
    AlignedGap(lo, hi, e);
    var toWrite;
    result, mem, calls, toWrite := FirstBlock(dev, status, src, addr, size, e, lo, hi);
    if result != 0 || size <= toWrite {
      if result == 0 {
        AlignedNext(lo, e);
        AlignedGap(lo + e, hi, e);
      }
      return;
    }
    AlignedNext(lo, e);
    result, mem, calls := LaterBlocks(dev, status, src, addr, size, e, lo, hi, mem, calls, lo + e, toWrite, preserveTail);
  }

  /** `DBlockDeviceUtils::replace(bd, src, addr, size)` as written, on a device
      holding `dev` whose `get_erase_size()` is `eraseSize`. Returns the status,
      the device afterwards and the calls issued. Bytes before the range in its
      first block survive; when the range spans several blocks, the bytes after
      it in its last block are left erased. */
  method Replace(dev: seq<bv8>, eraseSize: nat, src: seq<bv8>, addr: nat, size: nat, status: seq<int>)
    returns (result: int, mem: seq<bv8>, calls: seq<Call>)
    requires eraseSize > 0
    requires size <= |src|
    requires size > 0 ==> BlockEnd(addr + size, eraseSize) <= |dev|
    ensures |mem| == |dev|
    ensures size == 0 ==> result == 0 && calls == [] && mem == dev
    ensures size > 0 ==> |calls| > 0 && calls[0] == ReadCall(BlockStart(addr, eraseSize), eraseSize)
    ensures WellShaped(calls, BlockStart(addr, eraseSize), BlockEnd(addr + size, eraseSize), eraseSize)
    ensures result == 0 <==> AllOk(status, |calls|)
    ensures result == 0 ==> Succeeded(dev, status, calls, mem)
    ensures result != 0 ==> FailedLast(dev, status, calls, mem, result)
    ensures forall i :: 0 <= i < |dev| && !(BlockStart(addr, eraseSize) <= i < BlockEnd(addr + size, eraseSize))
              ==> mem[i] == dev[i]
    ensures size > 0 ==> addr + size <= BlockEnd(addr + size, eraseSize) <= |mem|
    ensures result == 0 && size > 0 ==> mem[addr..addr + size] == src[..size]
    ensures result == 0 && size > 0 ==> forall i :: BlockStart(addr, eraseSize) <= i < addr ==> mem[i] == dev[i]
    ensures result == 0 && size > 0 && addr % eraseSize + size <= eraseSize ==>
              forall i :: addr + size <= i < BlockEnd(addr + size, eraseSize) ==> mem[i] == dev[i]
    ensures result == 0 && addr % eraseSize + size > eraseSize ==>
              forall i :: addr + size <= i < BlockEnd(addr + size, eraseSize) ==> mem[i] == ERASED
  {
    if size == 0 {
      return 0, dev, [];
    }
    var e := eraseSize;
    var lo := BlockStart(addr, e);
    var hi := BlockEnd(addr + size, e);
    assert addr == addr / e * e + addr % e;
    assert addr % e == addr - lo;
    BlockEndBounds(addr + size, e);
    result, mem, calls := ReplaceBlocks(dev, e, src, addr, size, status, lo, hi, false);
    if result == 0 {
      assert mem[addr..addr + size] == src[..size];
    }
  }

  /** `replace` with the read-back condition of the later blocks the other way
      round: a final partial block is read back and restored, so on success
      every byte outside [addr, addr + size) keeps its value. */
  method ReplacePreserving(dev: seq<bv8>, eraseSize: nat, src: seq<bv8>, addr: nat, size: nat, status: seq<int>)
    returns (result: int, mem: seq<bv8>, calls: seq<Call>)
    requires eraseSize > 0
    requires size <= |src|
    requires size > 0 ==> BlockEnd(addr + size, eraseSize) <= |dev|
    ensures |mem| == |dev|
    ensures size == 0 ==> result == 0 && calls == [] && mem == dev
    ensures size > 0 ==> |calls| > 0 && calls[0] == ReadCall(BlockStart(addr, eraseSize), eraseSize)
    ensures WellShaped(calls, BlockStart(addr, eraseSize), BlockEnd(addr + size, eraseSize), eraseSize)
    ensures result == 0 <==> AllOk(status, |calls|)
    ensures result == 0 ==> Succeeded(dev, status, calls, mem)
    ensures result != 0 ==> FailedLast(dev, status, calls, mem, result)
    ensures forall i :: 0 <= i < |dev| && !(BlockStart(addr, eraseSize) <= i < BlockEnd(addr + size, eraseSize))
              ==> mem[i] == dev[i]
    ensures result == 0 && size > 0 ==> addr + size <= |mem| && mem[addr..addr + size] == src[..size]
    ensures result == 0 ==> forall i :: 0 <= i < |dev| && !(addr <= i < addr + size) ==> mem[i] == dev[i]
  {
    if size == 0 {
      return 0, dev, [];
    }
    var e := eraseSize;
    var lo := BlockStart(addr, e);
    var hi := BlockEnd(addr + size, e);
    BlockEndBounds(addr + size, e);
    result, mem, calls := ReplaceBlocks(dev, e, src, addr, size, status, lo, hi, true);
    if result == 0 {
      assert mem[addr..addr + size] == src[..size];
    }
  }

  /** Replacing 4 bytes at address 2 of a zeroed 8-byte device with 4-byte
      erase blocks: with every call succeeding, `replace` as written leaves
      bytes 6 and 7 at 0xFF although the range ends at byte 6. */
  method ReplaceErasesTailExample() returns (result: int, before: bv8, after: bv8)
    ensures result == 0 && before == 0 && after == ERASED
  {
    var dev: seq<bv8> := [0, 0, 0, 0, 0, 0, 0, 0];
    var mem, calls;
    assert BlockEnd(2 + 4, 4) == 8;
    assert 2 % 4 == 2;
    result, mem, calls := Replace(dev, 4, [1, 1, 1, 1], 2, 4, []);
    assert AllOk([], |calls|);
    before, after := dev[6], mem[6];
  }
}

=== FILE: rtti.dfy ===
/**
 * `DRTTI`: a hand-rolled run-time type record per class, linked to the
 * record of its base class, and the checked downcasts built on it. Records
 * are numbered; a class's base is a class declared before it, so every
 * chain of base links ends at a root.
 */
module Rtti {
  import opened Common

  /** The records of a program: `bases[i]` is the base of record `i`, `None`
      for a root (`DRTTI(classname)`), `Some(b)` for a derived class
      (`DRTTI(classname, basertti)`). */
  datatype Registry = Registry(bases: seq<Option<nat>>)
  {
    predicate Valid()
    {
      forall i :: 0 <= i < |bases| && bases[i].Some? ==> bases[i].value < i
    }

    predicate Has(x: nat) { x < |bases| }
  }

  /** `is_exactly`: the very same record. */
  predicate IsExactly(x: nat, rtti: nat) { x == rtti }

  /** `derives_from`, as a definition: the record itself or, through its
      base, one of its ancestors. */
  predicate DerivesFrom(reg: Registry, x: nat, rtti: nat)
    requires reg.Valid() && reg.Has(x)
    decreases x
  {
    x == rtti || (reg.bases[x].Some? && DerivesFrom(reg, reg.bases[x].value, rtti))
  }

  /** The chain of records from `x` up to its root. */
  function Chain(reg: Registry, x: nat): (c: seq<nat>)
    requires reg.Valid() && reg.Has(x)
    ensures |c| >= 1 && c[0] == x
    ensures forall i :: 0 <= i < |c| ==> reg.Has(c[i])
    ensures forall i :: 0 <= i < |c| - 1 ==> reg.Has(c[i]) && reg.bases[c[i]] == Some(c[i + 1])
    ensures reg.Has(c[|c| - 1]) && reg.bases[c[|c| - 1]].None?
    decreases x
  {
    match reg.bases[x]
    case None => [x]
    case Some(b) => [x] + Chain(reg, b)
  }

  /** `derives_from(rtti)` holds exactly for the records on the chain. */
  lemma {:induction false} DerivesFromChain(reg: Registry, x: nat, rtti: nat)
    requires reg.Valid() && reg.Has(x)
    ensures DerivesFrom(reg, x, rtti) <==> rtti in Chain(reg, x)
    decreases x
  {
    if reg.bases[x].Some? {
      DerivesFromChain(reg, reg.bases[x].value, rtti);
    }
  }

  /** The loop of `derives_from`: follow the base links from `x` until the
      record is found or the chain ends. */
  method DerivesFromLoop(reg: Registry, x: nat, rtti: nat) returns (found: bool)
    requires reg.Valid() && reg.Has(x)
    ensures found <==> DerivesFrom(reg, x, rtti)
  {
    var compare: Option<nat> := Some(x);
    while compare.Some?
      invariant compare.Some? ==> reg.Has(compare.value)
      invariant DerivesFrom(reg, x, rtti) <==> compare.Some? && DerivesFrom(reg, compare.value, rtti)
      decreases if compare.Some? then compare.value + 1 else 0
    {
      if compare.value == rtti {
        return true;
      }
      compare := reg.bases[compare.value];
    }
    return false;
  }

  /** `is_exactly` implies `derives_from`, which is reflexive. */
  lemma ExactlyDerives(reg: Registry, x: nat, rtti: nat)
    requires reg.Valid() && reg.Has(x) && IsExactly(x, rtti)
    ensures DerivesFrom(reg, x, rtti)
  {
  }

  /** `derives_from` is transitive. */
  lemma {:induction false} DerivesFromTransitive(reg: Registry, x: nat, y: nat, z: nat)
    requires reg.Valid() && reg.Has(x) && reg.Has(y)
    requires DerivesFrom(reg, x, y) && DerivesFrom(reg, y, z)
    ensures DerivesFrom(reg, x, z)
    decreases x
  {
    if x != y {
      DerivesFromTransitive(reg, reg.bases[x].value, y, z);
    }
  }

  /** An ancestor is declared no later than its descendant, so two records
      deriving from each other are the same record. */
  lemma {:induction false} DerivesFromOrder(reg: Registry, x: nat, rtti: nat)
    requires reg.Valid() && reg.Has(x) && DerivesFrom(reg, x, rtti)
    ensures rtti <= x
    decreases x
  {
    if x != rtti {
      DerivesFromOrder(reg, reg.bases[x].value, rtti);
    }
  }

  lemma DerivesFromAntisymmetric(reg: Registry, x: nat, y: nat)
    requires reg.Valid() && reg.Has(x) && reg.Has(y)
    requires DerivesFrom(reg, x, y) && DerivesFrom(reg, y, x)
    ensures x == y
  {
    DerivesFromOrder(reg, x, y);
    DerivesFromOrder(reg, y, x);
  }

  /** An object: its address and the record of its dynamic class. */
  datatype Obj = Obj(addr: nat, rtti: nat)

  /** `d_rtti_cast<T*>(x)`: null stays null; an object is returned unchanged
      when its class derives from `T`, and null otherwise. */
  function RttiCast(reg: Registry, x: Option<Obj>, t: nat): (r: Option<Obj>)
    requires reg.Valid() && (x.Some? ==> reg.Has(x.value.rtti))
    ensures r.Some? ==> r == x
    ensures r.Some? <==> x.Some? && t in Chain(reg, x.value.rtti)
  {
    if x.Some? then DerivesFromChain(reg, x.value.rtti, t); Cast(reg, x.value, t)
    else None
  }

  function Cast(reg: Registry, o: Obj, t: nat): (r: Option<Obj>)
    requires reg.Valid() && reg.Has(o.rtti)
    ensures r.Some? ==> r == Some(o)
    ensures r.Some? <==> t in Chain(reg, o.rtti)
  {
    DerivesFromChain(reg, o.rtti, t);
    if DerivesFrom(reg, o.rtti, t) then Some(o) else None
  }

  /** A cast to the object's own class, or to any class above a class it
      was successfully cast to, succeeds; casting twice is casting once. */
  lemma CastProperties(reg: Registry, o: Obj, t: nat, u: nat)
    requires reg.Valid() && reg.Has(o.rtti) && reg.Has(t)
    ensures RttiCast(reg, Some(o), o.rtti) == Some(o)
    ensures RttiCast(reg, Some(o), t).Some? && DerivesFrom(reg, t, u) ==> RttiCast(reg, Some(o), u) == Some(o)
    ensures RttiCast(reg, RttiCast(reg, Some(o), t), t) == RttiCast(reg, Some(o), t)
  {
    if DerivesFrom(reg, o.rtti, t) && DerivesFrom(reg, t, u) {
      DerivesFromTransitive(reg, o.rtti, t, u);
    }
  }

  /** `d_strict_rtti_cast<T*>(x)`: the cast, asserted to succeed. */
  function StrictRttiCast(reg: Registry, x: Option<Obj>, t: nat): (r: Obj)
    requires reg.Valid() && x.Some? && reg.Has(x.value.rtti)
    requires DerivesFrom(reg, x.value.rtti, t)
    ensures Some(r) == x
  {
    Cast(reg, x.value, t).value
  }
}

=== FILE: sst26.dfy ===
/**
 * Decision logic of the `DSST26` SPI-NOR driver (SST26VF016/032/064): JEDEC-ID
 * recognition in `init`, the erase-granularity map of `GetBlockEraseSize`,
 * the block/sector choice of `erase`, reads framed with a 3-byte address, and
 * the size getters. Addresses and sizes are `bd_addr_t`/`bd_size_t`
 * (unsigned 64-bit); the one place where wrap-around matters, the subtraction
 * from the device size, is written out.
 */
module Sst26 {
  import opened Common
  import opened NorFlash
  import opened Arith

  const CMD_READ: bv8 := 0x03
  const CMD_RDSR: bv8 := 0x05
  const CMD_JEDEC_ID: bv8 := 0x9F
  const CMD_WREN: bv8 := 0x06
  const CMD_WRDI: bv8 := 0x04
  const CMD_SE: bv8 := 0x20
  const CMD_BE: bv8 := 0xD8
  const CMD_PP: bv8 := 0x02
  const CMD_ULBPR: bv8 := 0x98

  /** Status-register bits: an operation is in progress; writes are enabled. */
  const SR_BUSY: bv8 := 0x01
  const SR_WEL: bv8 := 0x02

  const ERASE_4K: nat := 4 * 1024
  const ERASE_8K: nat := 8 * 1024
  const ERASE_32K: nat := 32 * 1024
  const ERASE_64K: nat := 64 * 1024

  /** Capacities as the header defines them (END - BEGIN). */
  const SIZE_016: nat := 0x2000000
  const SIZE_032: nat := 0x4000000
  const SIZE_064: nat := 0x8000000

  datatype DeviceType = VF016 | VF032 | VF064 | Unknown

  /** The recognised JEDEC IDs, in the order of the device-type enumeration. */
  const IDS: seq<seq<bv8>> := [[0xBF, 0x26, 0x01], [0xBF, 0x26, 0x02], [0xBF, 0x26, 0x43]]
  const TYPES: seq<DeviceType> := [VF016, VF032, VF064]

  /** The capacity `init` stores for a recognised type, as written. */
  function CapacityAsWritten(t: DeviceType): (c: nat)
    ensures c == 0 <==> t == Unknown
    ensures t != Unknown ==> c > 0x100_0000
  {
    match t
    case VF016 => SIZE_016
    case VF032 => SIZE_032
    case VF064 => SIZE_064
    case Unknown => 0
  }

  /** The capacity the header's comments and the part names state: 16, 32 and
      64 Mbit, i.e. 2, 4 and 8 MB. */
  function Capacity(t: DeviceType): (c: nat)
    ensures c == 0 <==> t == Unknown
    ensures c <= 0x100_0000 && c % ERASE_64K == 0
    ensures t != Unknown ==> CapacityAsWritten(t) == 16 * c
  {
    match t
    case VF016 => 0x20_0000
    case VF032 => 0x40_0000
    case VF064 => 0x80_0000
    case Unknown => 0
  }

  /** Driver state: `m_memorySize` and `m_deviceType`. */
  datatype Driver = Driver(memorySize: nat, deviceType: DeviceType)

  /** State after construction. */
  const UNINITIALISED: Driver := Driver(0, Unknown)

  /** Result of `init`: its return value, the new state and the opcodes it
      sends (status polling left aside). */
  datatype InitOutcome = InitOutcome(ret: int, driver: Driver, opcodes: seq<bv8>)

  /** `init` as written: read the JEDEC ID; an unknown ID returns `false` (0)
      and changes nothing; a known one records its type and capacity, lifts
      the global block protection and returns `true` (1). */
  function Init(d: Driver, id: seq<bv8>): (o: InitOutcome)
    ensures o.ret == 1 <==> id in IDS
    ensures o.ret == 0 <==> id !in IDS
    ensures id !in IDS ==> o.driver == d && o.opcodes == [CMD_JEDEC_ID]
    ensures forall i :: 0 <= i < |IDS| && IDS[i] == id ==>
              o.driver == Driver(CapacityAsWritten(TYPES[i]), TYPES[i]) &&
              o.opcodes == [CMD_JEDEC_ID, CMD_WREN, CMD_ULBPR]
  {
    match FindId(IDS, id)
    case None => InitOutcome(0, d, [CMD_JEDEC_ID])
    case Some(i) =>
      var t := TYPES[i];
      InitOutcome(1, Driver(CapacityAsWritten(t), t), [CMD_JEDEC_ID, CMD_WREN, CMD_ULBPR])
  }

  /** `init` returns 0 for an unknown chip, which is `BD_ERROR_OK` to a caller
      following the block-device convention, while the driver stays unusable. */
  lemma InitUnknownLooksLikeSuccess()
    ensures var o := Init(UNINITIALISED, [0x00, 0x00, 0x00]);
            o.ret == BD_ERROR_OK && o.driver.memorySize == 0
  {
  }

  /** `init` with the result codes of the block-device interface, as the IS25
      driver returns them: `BD_ERROR_OK` exactly when the chip is recognised,
      else `BD_ERROR_DEVICE_ERROR`. */
  function InitChecked(d: Driver, id: seq<bv8>): (o: InitOutcome)
    ensures o.ret == BD_ERROR_OK <==> id in IDS
    ensures o.ret == BD_ERROR_OK ==> o.driver.memorySize > 0
    ensures o.ret != BD_ERROR_OK ==> o.ret == BD_ERROR_DEVICE_ERROR && o.driver == d
    ensures o.driver == Init(d, id).driver
  {
    var o := Init(d, id);
    o.(ret := if o.ret == 1 then BD_ERROR_OK else BD_ERROR_DEVICE_ERROR)
  }

  /** `deinit`: write-disable, return 0. */
  function Deinit(d: Driver): (r: (int, seq<bv8>))
    ensures r.0 == 0 && r.1 == [CMD_WRDI]
  {
    (0, [CMD_WRDI])
  }

  /** `get_read_size`, `get_program_size`, `get_erase_size` and `size`: the
      geometry (1, 1 and 4K) is reported only once `init` has recorded a
      capacity, all 0 before, and each size is a multiple of the one before
      it. */
  function ReadSize(d: Driver): (n: nat)
    ensures n == 0 <==> d.memorySize == 0
  {
    if d.memorySize == 0 then 0 else 1
  }

  function ProgramSize(d: Driver): (n: nat)
    ensures n == 0 <==> d.memorySize == 0
    ensures n > 0 ==> n % ReadSize(d) == 0
  {
    if d.memorySize == 0 then 0 else 1
  }

  function EraseSize(d: Driver): (n: nat)
    ensures n == 0 <==> d.memorySize == 0
    ensures n > 0 ==> n % ProgramSize(d) == 0 && ERASE_64K % n == 0
  {
    if d.memorySize == 0 then 0 else ERASE_4K
  }

  function Size(d: Driver): (n: nat)
    ensures n == 0 <==> ReadSize(d) == 0
  {
    d.memorySize
  }

  /** The getters report the geometry exactly when `init` recognised the chip,
      and `size` is then the capacity `init` recorded for it. */
  lemma GettersFollowInit(id: seq<bv8>)
    ensures var d := Init(UNINITIALISED, id).driver;
            (id in IDS ==> ReadSize(d) == 1 && ProgramSize(d) == 1 && EraseSize(d) == ERASE_4K && d.memorySize > 0) &&
            (id !in IDS ==> ReadSize(d) == 0 && ProgramSize(d) == 0 && EraseSize(d) == 0 && d.memorySize == 0)
    ensures var d := Init(UNINITIALISED, id).driver;
            (id in IDS ==> FindId(IDS, id).Some? && Size(d) == CapacityAsWritten(TYPES[FindId(IDS, id).value])) &&
            (id !in IDS ==> Size(d) == 0)
  {
    var o := Init(UNINITIALISED, id);
    if id in IDS {
      var i := FindId(IDS, id).value;
      assert o.driver == Driver(CapacityAsWritten(TYPES[i]), TYPES[i]);
    }
  }

  /** `a - b` on `bd_size_t`: wraps around below zero. */
  function SubU64(a: nat, b: nat): nat
    requires a < UINT64_RANGE
  {
    if a >= b then a - b else U64(a - b)
  }

  /** `x_is_uwithin(x, begin, end)`: x lies in [begin, end). */
  predicate IsWithin(x: nat, begin: nat, end: nat)
  {
    begin <= x < end
  }

  /** `GetBlockEraseSize`: the block size of the memory organisation at `addr`.
      8K blocks fill the first and last 32K, a 32K block follows the first and
      precedes the last of those, and 64K blocks fill the middle. */
  function GetBlockEraseSize(addr: nat, memSize: nat): (bs: nat)
    requires addr < memSize < UINT64_RANGE
    ensures bs == ERASE_8K || bs == ERASE_32K || bs == ERASE_64K
  {
    if addr < 32 * 1024 then 8 * 1024
    else if addr < 64 * 1024 then 32 * 1024
    else if IsWithin(addr, SubU64(memSize, 64 * 1024), SubU64(memSize, 32 * 1024)) then 32 * 1024
    else if IsWithin(addr, SubU64(memSize, 32 * 1024), memSize) then 8 * 1024
    else 64 * 1024
  }

  /** On a device whose size is a whole number of 64K blocks, the block map is
      consistent: every address of the aligned block holding `addr` gets the
      same block size, and that block lies inside the device. So a block erase
      at an aligned address erases exactly one block of the map. */
  lemma BlockSizeUniform(addr: nat, memSize: nat, x: nat)
    requires addr < memSize < UINT64_RANGE && memSize % ERASE_64K == 0
    requires var bs := GetBlockEraseSize(addr, memSize);
             addr % bs == 0 && addr <= x < addr + bs
    ensures x < memSize && GetBlockEraseSize(x, memSize) == GetBlockEraseSize(addr, memSize)
  {
    var bs := GetBlockEraseSize(addr, memSize);
    AlignedGap(0, memSize, ERASE_64K);
    var top32, top8 := memSize - ERASE_64K, memSize - ERASE_32K;
    ZoneBoundaries(memSize);
    if addr < 32 * 1024 {
      SameZone(addr, x, 0, 32 * 1024, ERASE_8K);
    } else if addr < 64 * 1024 {
      SameZone(addr, x, 32 * 1024, 64 * 1024, ERASE_32K);
    } else if top32 <= addr < top8 {
      SameZone(addr, x, top32, top8, ERASE_32K);
    } else if top8 <= addr {
      SameZone(addr, x, top8, memSize, ERASE_8K);
    } else {
      SameZone(addr, x, 64 * 1024, top32, ERASE_64K);
    }
  }

  /** The zone boundaries near the top of a device of whole 64K blocks are
      aligned to the block sizes of the zones they delimit. */
  lemma ZoneBoundaries(memSize: nat)
    requires memSize >= ERASE_64K && memSize % ERASE_64K == 0
    ensures (memSize - ERASE_64K) % ERASE_64K == 0 && (memSize - ERASE_64K) % ERASE_32K == 0
    ensures (memSize - ERASE_32K) % ERASE_32K == 0 && (memSize - ERASE_32K) % ERASE_8K == 0
    ensures memSize % ERASE_8K == 0
  {
    var q := memSize / ERASE_64K;
    assert memSize == q * ERASE_64K;
    DivModUnique(memSize - ERASE_64K, ERASE_64K, q - 1, 0);
    DivModUnique(memSize - ERASE_64K, ERASE_32K, 2 * (q - 1), 0);
    DivModUnique(memSize - ERASE_32K, ERASE_32K, 2 * q - 1, 0);
    DivModUnique(memSize - ERASE_32K, ERASE_8K, 8 * q - 4, 0);
    DivModUnique(memSize, ERASE_8K, 8 * q, 0);
  }

  /** An aligned block that starts inside a zone whose bounds are aligned to
      the block size stays inside the zone. */
  lemma SameZone(addr: nat, x: nat, lo: nat, hi: nat, e: nat)
    requires e > 0 && lo <= addr < hi && hi % e == 0 && addr % e == 0 && addr <= x < addr + e
    ensures lo <= x < hi
  {
    AlignedGap(addr, hi, e);
  }

  /** One step of `erase`'s loop at `addr` with `remaining` bytes still to
      erase: a block erase when the rest of the request covers the block there
      and the address is aligned to it, otherwise a 4K sector erase. On a
      4K-aligned request the step is aligned to its own size and never
      overshoots. */
  function EraseStep(addr: nat, remaining: nat, memSize: nat): (c: Command)
    requires addr < memSize < UINT64_RANGE
    ensures c.addr == addr
    ensures c.opcode == CMD_BE || c == Command(CMD_SE, addr, ERASE_4K)
    ensures c.opcode == CMD_BE <==>
              remaining >= GetBlockEraseSize(addr, memSize) && addr % GetBlockEraseSize(addr, memSize) == 0
    ensures c.opcode == CMD_BE ==> c.len == GetBlockEraseSize(addr, memSize)
    ensures addr % ERASE_4K == 0 && remaining % ERASE_4K == 0 && remaining > 0 ==>
              0 < c.len <= remaining && c.len % ERASE_4K == 0 && addr % c.len == 0
  {
    var bs := GetBlockEraseSize(addr, memSize);
    if remaining >= bs && addr % bs == 0 then Command(CMD_BE, addr, bs)
    else Command(CMD_SE, addr, ERASE_4K)
  }

  /** The command is the step `erase` takes at its address when the request
      ends at `end`. */
  predicate ChosenAt(c: Command, end: nat, memSize: nat)
  {
    && c.addr < end <= memSize < UINT64_RANGE
    && c.addr % ERASE_4K == 0 && (end - c.addr) % ERASE_4K == 0
    && c == EraseStep(c.addr, end - c.addr, memSize)
  }

  /** Every command of the list is the step chosen at its address. */
  predicate AllChosen(cmds: seq<Command>, end: nat, memSize: nat)
    decreases |cmds|
  {
    cmds == [] || (ChosenAt(cmds[0], end, memSize) && AllChosen(cmds[1..], end, memSize))
  }

  /** Every command of an all-chosen list is chosen. */
  lemma {:induction false} AllChosenAt(cmds: seq<Command>, end: nat, memSize: nat, k: nat)
    requires AllChosen(cmds, end, memSize) && k < |cmds|
    ensures ChosenAt(cmds[k], end, memSize)
    decreases k
  {
    if k > 0 {
      AllChosenAt(cmds[1..], end, memSize, k - 1);
    }
  }

  /** A step of a 4K-aligned request is the one chosen there, and what it
      leaves is again a 4K-aligned request. */
  lemma StepAdvances(address: nat, size: nat, memSize: nat)
    requires address % ERASE_4K == 0 && size % ERASE_4K == 0 && size > 0
    requires address + size <= memSize < UINT64_RANGE
    ensures var c := EraseStep(address, size, memSize);
            && 0 < c.len <= size
            && (address + c.len) % ERASE_4K == 0 && (size - c.len) % ERASE_4K == 0
            && ChosenAt(c, address + size, memSize)
  {
    var c := EraseStep(address, size, memSize);
    AlignedSumDiff(address, c.len, ERASE_4K);
    AlignedSumDiff(size, c.len, ERASE_4K);
    hide EraseStep, GetBlockEraseSize;
  }

  /** `erase`'s loop: steps until nothing is left. Termination rests on the
      request being 4K-aligned, which the block-device interface checks. */
  function ErasePlan(address: nat, size: nat, memSize: nat): (cmds: seq<Command>)
    requires address % ERASE_4K == 0 && size % ERASE_4K == 0
    requires address + size <= memSize < UINT64_RANGE
    ensures Tiles(cmds, address, size)
    ensures AllChosen(cmds, address + size, memSize)
    decreases size
  {
    if size == 0 then []
    else
      var step := EraseStep(address, size, memSize);
      StepAdvances(address, size, memSize);
      var rest := ErasePlan(address + step.len, size - step.len, memSize);
      var cmds := [step] + rest;
      assert cmds[1..] == rest;
      cmds
  }

  /** Every command of an erase plan is aligned to its own size and erases
      exactly the block the memory map has there (or a 4K sector of it). */
  lemma ErasePlanAligned(address: nat, size: nat, memSize: nat)
    requires address % ERASE_4K == 0 && size % ERASE_4K == 0
    requires address + size <= memSize < UINT64_RANGE
    ensures var cmds := ErasePlan(address, size, memSize);
            forall k :: 0 <= k < |cmds| ==>
              cmds[k].len > 0 && cmds[k].addr % cmds[k].len == 0 && cmds[k].len % ERASE_4K == 0 &&
              (cmds[k].opcode == CMD_BE ==> cmds[k].addr < memSize && cmds[k].len == GetBlockEraseSize(cmds[k].addr, memSize))
  {
    var cmds := ErasePlan(address, size, memSize);
    forall k | 0 <= k < |cmds|
      ensures cmds[k].len > 0 && cmds[k].addr % cmds[k].len == 0 && cmds[k].len % ERASE_4K == 0
      ensures cmds[k].opcode == CMD_BE ==> cmds[k].addr < memSize && cmds[k].len == GetBlockEraseSize(cmds[k].addr, memSize)
    {
      AllChosenAt(cmds, address + size, memSize, k);
      ChosenFacts(cmds[k], address + size, memSize);
    }
  }

  /** A chosen step is aligned to its own size, a whole number of 4K sectors,
      and a block erase covers exactly the block the map has there. */
  lemma ChosenFacts(c: Command, end: nat, memSize: nat)
    requires ChosenAt(c, end, memSize)
    ensures c.len > 0 && c.addr % c.len == 0 && c.len % ERASE_4K == 0
    ensures c.opcode == CMD_BE ==> c.addr < memSize && c.len == GetBlockEraseSize(c.addr, memSize)
  {
    var r := end - c.addr;
    var step := EraseStep(c.addr, r, memSize);
    assert c == step && r > 0 && r % ERASE_4K == 0;
  }

  /** As written, the VF016's capacity is 32 MiB, so its top 8K/32K zones are
      placed 30 MiB too high: at 0x1F8000, the chip's last 8K block, the driver
      assumes a 64K block, and a 64K request at 0x1F0000 becomes one block
      erase although the chip has a 32K block and four 8K blocks there. */
  lemma TopZonesMisplaced()
    ensures GetBlockEraseSize(0x1F8000, CapacityAsWritten(VF016)) == ERASE_64K
    ensures GetBlockEraseSize(0x1F8000, Capacity(VF016)) == ERASE_8K
    ensures EraseStep(0x1F0000, ERASE_64K, CapacityAsWritten(VF016)) == Command(CMD_BE, 0x1F0000, ERASE_64K)
    ensures EraseStep(0x1F0000, ERASE_64K, Capacity(VF016)) == Command(CMD_BE, 0x1F0000, ERASE_32K)
  {
    assert SubU64(CapacityAsWritten(VF016), ERASE_64K) == 0x1FF_0000;
    assert SubU64(CapacityAsWritten(VF016), ERASE_32K) == 0x1FF_8000;
    assert SubU64(Capacity(VF016), ERASE_64K) == 0x1F_0000;
    assert SubU64(Capacity(VF016), ERASE_32K) == 0x1F_8000;
  }

  /** As written, the capacities exceed what a 3-byte address can name:
      address 0x1000000 passes the range check yet is sent as address 0. The
      stated capacities stay within 24 bits, where `FrameExact` applies. */
  lemma CapacityExceedsAddressFrame()
    ensures 0x100_0000 < CapacityAsWritten(VF016)
    ensures Frame(CMD_READ, 0x100_0000, ThreeBytes) == Frame(CMD_READ, 0, ThreeBytes)
  {
  }

  /** `read`: one READ command framed with the address, clocking out the
      requested bytes; always returns 0. */
  function Read(d: Driver, mem: seq<bv8>, address: nat, size: nat): (r: (int, seq<bv8>, seq<bv8>))
    requires |mem| == d.memorySize && address + size <= d.memorySize < UINT64_RANGE
    ensures r.0 == 0 && r.1 == Frame(CMD_READ, address as bv64, ThreeBytes) && |r.2| == size
    ensures forall i :: 0 <= i < size ==> r.2[i] == mem[address + i]
  {
    (0, Frame(CMD_READ, address as bv64, ThreeBytes), mem[address..address + size])
  }

  /** `program`: page-program commands of at most 256 bytes, back to back
      from `address`, each preceded by a write enable and followed by a busy
      wait (not modelled); the payloads put together are exactly `data`. */
  function Program(d: Driver, address: nat, data: seq<bv8>): (r: (int, seq<Command>))
    requires address + |data| <= d.memorySize && d.memorySize < UINT64_RANGE
    ensures r.0 == 0
    ensures Tiles(r.1, address, |data|)
    ensures forall k :: 0 <= k < |r.1| ==> r.1[k].opcode == CMD_PP && r.1[k].len <= PAGE_PROGRAM_MAX
    ensures TotalLength(r.1) == |data| && Concat(Payloads(r.1, data)) == data
  {
    ProgramSendsAllData(CMD_PP, address, data);
    (0, ProgramChunks(CMD_PP, address, |data|))
  }
}

=== FILE: stream_utils.dfy ===
/**
 * `DStreamUtils::equal` and `DStreamUtils::copy` over the modelled streams.
 * Both loop until a stream says it is done, which a null stream never does,
 * so each takes a `fuel` bound on its iterations and answers None when the
 * bound runs out.
 */
module StreamUtils {
  import opened Common
  import opened Streams

  /** `equal(s1, s2)`: `getc` from both in lockstep; true when both reach EOF
      together, false at the first difference (a one-sided EOF included). */
  function Equal(s1: Stream, s2: Stream, fuel: nat): (r: Option<bool>)
    requires s1.Valid() && s2.Valid()
    ensures r == Some(true) ==> GetC(s1).c == GetC(s2).c
    decreases fuel
  {
    if fuel == 0 then None
    else
      var g1 := GetC(s1);
      var g2 := GetC(s2);
      if g1.c == EOF && g2.c == EOF then Some(true)
      else if g1.c != g2.c then Some(false)
      else Equal(g1.stream, g2.stream, fuel - 1)
  }

  /** The order of the two streams does not matter. */
  lemma {:induction false} EqualSymmetric(s1: Stream, s2: Stream, fuel: nat)
    requires s1.Valid() && s2.Valid()
    ensures Equal(s1, s2, fuel) == Equal(s2, s1, fuel)
    decreases fuel
  {
    if fuel > 0 {
      var g1, g2 := GetC(s1), GetC(s2);
      if !(g1.c == EOF && g2.c == EOF) && g1.c == g2.c {
        EqualSymmetric(g1.stream, g2.stream, fuel - 1);
      }
    }
  }

  /** One round of `equal` on two memory input streams: at the end of either
      it decides whether both ended; otherwise a byte difference decides false
      and equal bytes move both streams on. */
  lemma EqualMemInStep(m1: MemIn, m2: MemIn, fuel: nat)
    requires m1.Valid() && m2.Valid() && fuel > 0
    ensures m1.pos == |m1.src| || m2.pos == |m2.src| ==>
              Equal(Input(m1), Input(m2), fuel) == Some(m1.pos == |m1.src| && m2.pos == |m2.src|)
    ensures m1.pos < |m1.src| && m2.pos < |m2.src| ==>
              Equal(Input(m1), Input(m2), fuel) ==
                if m1.src[m1.pos] != m2.src[m2.pos] then Some(false)
                else Equal(Input(m1.(pos := m1.pos + 1)), Input(m2.(pos := m2.pos + 1)), fuel - 1)
  {
    GetCMemIn(m1);
    GetCMemIn(m2);
  }

  /** Two memory input streams compare equal exactly when their remaining bytes
      are the same, given more iterations than the shorter remainder. */
  lemma {:induction false} EqualMemIn(m1: MemIn, m2: MemIn, fuel: nat)
    requires m1.Valid() && m2.Valid()
    requires fuel > |m1.src| - m1.pos || fuel > |m2.src| - m2.pos
    ensures Equal(Input(m1), Input(m2), fuel) == Some(m1.src[m1.pos..] == m2.src[m2.pos..])
    decreases fuel
  {
    hide Equal;
    EqualMemInStep(m1, m2, fuel);
    var r1, r2 := m1.src[m1.pos..], m2.src[m2.pos..];
    if m1.pos == |m1.src| || m2.pos == |m2.src| {
      assert r1 == [] <==> m1.pos == |m1.src|;
      assert r2 == [] <==> m2.pos == |m2.src|;
    } else {
      var n1, n2 := m1.(pos := m1.pos + 1), m2.(pos := m2.pos + 1);
      RestSplits(m1);
      RestSplits(m2);
      ConsEqual(m1.src[m1.pos], m1.src[m1.pos + 1..], m2.src[m2.pos], m2.src[m2.pos + 1..]);
      if m1.src[m1.pos] == m2.src[m2.pos] {
        EqualMemIn(n1, n2, fuel - 1);
      }
    }
  }

  /** Two non-empty sequences are equal when their heads and their tails are. */
  lemma ConsEqual(x: bv8, xs: seq<bv8>, y: bv8, ys: seq<bv8>)
    ensures [x] + xs == [y] + ys <==> x == y && xs == ys
  {
    if [x] + xs == [y] + ys {
      assert ([x] + xs)[0] == x && ([y] + ys)[0] == y;
      assert ([x] + xs)[1..] == xs && ([y] + ys)[1..] == ys;
    }
  }

  /** The unread bytes of a stream that is not at its end: the next byte, then
      the unread bytes after it. */
  lemma RestSplits(m: MemIn)
    requires m.pos < |m.src|
    ensures m.src[m.pos..] == [m.src[m.pos]] + m.src[m.pos + 1..]
    ensures m.src[m.pos..][0] == m.src[m.pos]
  {
  }

  /** Two null streams never reach EOF, so `equal` on them never returns. */
  lemma {:induction false} EqualNullNeverEnds(a: NullStream, b: NullStream, fuel: nat)
    ensures Equal(Null(a), Null(b), fuel) == None
    decreases fuel
  {
    if fuel > 0 {
      EqualNullNeverEnds(a.(totalRead := a.totalRead + 1), b.(totalRead := b.totalRead + 1), fuel - 1);
    }
  }

  /** Size of `copy`'s stack buffer. */
  const COPY_BUFFER_SIZE: nat := 512

  /** What `copy` returns and leaves behind, with the buffer's final contents. */
  datatype Copied = Copied(ret: int, dst: Stream, src: Stream, buffer: seq<bv8>)

  /** `copy(dst, src)` as written: read up to 512 bytes into the buffer; stop
      with 0 when the read returns 0 and with its result when that is negative;
      otherwise write the WHOLE 512-byte buffer (what was read, then whatever
      the buffer held before: `buffer` is its initial, uninitialised, content),
      answering -ENOSPC when the write takes nothing and passing on a negative
      result. */
  function Copy(dst: Stream, src: Stream, buffer: seq<bv8>, fuel: nat): (r: Option<Copied>)
    requires dst.Valid() && src.Valid() && |buffer| == COPY_BUFFER_SIZE
    ensures r.Some? ==> r.value.ret <= 0 && r.value.dst.Valid() && r.value.src.Valid()
    decreases fuel
  {
    if fuel == 0 then None
    else
      var rd := Read(src, COPY_BUFFER_SIZE);
      if rd.ret == 0 then Some(Copied(0, dst, rd.stream, buffer))
      else if rd.ret < 0 then Some(Copied(rd.ret, dst, rd.stream, buffer))
      else
        var buf := rd.bytes + buffer[rd.ret..];
        var wr := Write(dst, buf);
        if wr.0 == 0 then Some(Copied(-ENOSPC, wr.1, rd.stream, buf))
        else if wr.0 < 0 then Some(Copied(wr.0, wr.1, rd.stream, buf))
        else Copy(wr.1, rd.stream, buf, fuel - 1)
  }

  /** Copying fewer than 512 bytes from a memory input stream into a memory
      output stream with room for 512 succeeds, yet moves the output by 512 and
      fills it after the copied bytes with the buffer's earlier content. */
  lemma CopyWritesWholeBuffer(m: MemIn, o: MemOut, buffer: seq<bv8>, fuel: nat)
    requires m.Valid() && o.Valid() && |buffer| == COPY_BUFFER_SIZE && fuel >= 2
    requires 0 < |m.src| - m.pos < COPY_BUFFER_SIZE && o.pos + COPY_BUFFER_SIZE <= |o.dst|
    ensures var r := Copy(Output(o), Input(m), buffer, fuel);
            var n := |m.src| - m.pos;
            && r.Some? && r.value.ret == 0 && r.value.dst.Output?
            && r.value.dst.mo.pos == o.pos + COPY_BUFFER_SIZE
            && r.value.dst.mo.dst[o.pos..o.pos + n] == m.src[m.pos..]
            && r.value.dst.mo.dst[o.pos + n..o.pos + COPY_BUFFER_SIZE] == buffer[n..]
  {
    var n := |m.src| - m.pos;
    var rd := Read(Input(m), COPY_BUFFER_SIZE);
    assert rd.ret == n && rd.bytes == m.src[m.pos..];
    var buf := rd.bytes + buffer[n..];
    var wr := MemOutWrite(o, buf);
    assert buf[..COPY_BUFFER_SIZE] == buf;
    assert wr.1.dst[o.pos..o.pos + n] == buf[..n] == m.src[m.pos..];
    assert wr.1.dst[o.pos + n..o.pos + COPY_BUFFER_SIZE] == buf[n..] == buffer[n..];
    var rd2 := Read(rd.stream, COPY_BUFFER_SIZE);
    assert rd2.ret == 0;
  }

  /** `copy`'s error paths: a source that cannot be read passes its error on
      with nothing written, and a full memory destination turns the first
      chunk into -ENOSPC. */
  lemma CopyErrors(dst: Stream, src: Stream, m: MemIn, o: MemOut, buffer: seq<bv8>, fuel: nat)
    requires dst.Valid() && src.Valid() && m.Valid() && o.Valid()
    requires |buffer| == COPY_BUFFER_SIZE && fuel > 0
    ensures src.Plain? ==> Copy(dst, src, buffer, fuel) == Some(Copied(-ENOSYS, dst, src, buffer))
    ensures src.Output? ==> Copy(dst, src, buffer, fuel) == Some(Copied(-EACCES, dst, src, buffer))
    ensures m.pos < |m.src| && o.pos == |o.dst| ==>
              var r := Copy(Output(o), Input(m), buffer, fuel);
              r.Some? && r.value.ret == -ENOSPC && r.value.dst == Output(o)
  {
    if m.pos < |m.src| && o.pos == |o.dst| {
      var rd := Read(Input(m), COPY_BUFFER_SIZE);
      var buf := rd.bytes + buffer[rd.ret..];
      var wr := MemOutWrite(o, buf);
      assert wr.1.dst == o.dst;
    }
  }

  /** `copy` with the write limited to the bytes just read: the evident
      intent, and what a byte-exact copy needs. */
  function CopyExact(dst: Stream, src: Stream, fuel: nat): (r: Option<(int, Stream, Stream)>)
    requires dst.Valid() && src.Valid()
    ensures r.Some? ==> r.value.0 <= 0 && r.value.1.Valid() && r.value.2.Valid()
    decreases fuel
  {
    if fuel == 0 then None
    else
      var rd := Read(src, COPY_BUFFER_SIZE);
      if rd.ret == 0 then Some((0, dst, rd.stream))
      else if rd.ret < 0 then Some((rd.ret, dst, rd.stream))
      else
        var wr := Write(dst, rd.bytes);
        if wr.0 == 0 then Some((-ENOSPC, wr.1, rd.stream))
        else if wr.0 < 0 then Some((wr.0, wr.1, rd.stream))
        else CopyExact(wr.1, rd.stream, fuel - 1)
  }

  /** `d` with the bytes from `p` on replaced by `a`. */
  function Splice(d: seq<bv8>, p: nat, a: seq<bv8>): (r: seq<bv8>)
    requires p + |a| <= |d|
    ensures |r| == |d|
  {
    d[..p] + a + d[p + |a|..]
  }

  /** Splicing in nothing changes nothing. */
  lemma SpliceNothing(d: seq<bv8>, p: nat)
    requires p <= |d|
    ensures Splice(d, p, d[p..p]) == d
  {
  }

  /** Splicing `a` and then `b` right after it is splicing `a + b`. */
  lemma SpliceTwice(d: seq<bv8>, p: nat, a: seq<bv8>, b: seq<bv8>)
    requires p + |a| + |b| <= |d|
    ensures Splice(Splice(d, p, a), p + |a|, b) == Splice(d, p, a + b)
  {
    var l, r := Splice(Splice(d, p, a), p + |a|, b), Splice(d, p, a + b);
    assert |l| == |r|;
    forall i | 0 <= i < |l|
      ensures l[i] == r[i]
    {
      if p <= i < p + |a| {
        assert (a + b)[i - p] == a[i - p];
      } else if p + |a| <= i < p + |a| + |b| {
        assert (a + b)[i - p] == b[i - p - |a|];
      }
    }
  }

  /** Rounds a copy of n more bytes needs besides the final empty read. */
  function Chunks(n: nat): nat
  {
    (n + COPY_BUFFER_SIZE - 1) / COPY_BUFFER_SIZE
  }

  /** Copying one buffer's worth, or the whole rest when it is shorter, leaves
      one round fewer. */
  lemma ChunksLeft(n: nat)
    requires n > 0
    ensures n < COPY_BUFFER_SIZE ==> Chunks(0) == 0 && Chunks(n) == 1
    ensures n >= COPY_BUFFER_SIZE ==> Chunks(n - COPY_BUFFER_SIZE) == Chunks(n) - 1
  {
  }

  /** One round of the corrected copy between memory streams with room: a
      non-empty read is written in full and the copy carries on from there;
      an empty one ends it with 0. */
  lemma CopyExactStep(m: MemIn, o: MemOut, fuel: nat)
    requires m.Valid() && o.Valid() && fuel > 0
    requires o.pos + (|m.src| - m.pos) <= |o.dst|
    ensures var k := if |m.src| - m.pos < COPY_BUFFER_SIZE then |m.src| - m.pos else COPY_BUFFER_SIZE;
            && (k == 0 ==> CopyExact(Output(o), Input(m), fuel) == Some((0, Output(o), Input(m))))
            && (k > 0 ==>
                  CopyExact(Output(o), Input(m), fuel) ==
                  CopyExact(Output(MemOut(Splice(o.dst, o.pos, m.src[m.pos..m.pos + k]), o.pos + k)),
                            Input(m.(pos := m.pos + k)), fuel - 1))
  {
    hide Read, Write;
    var k := if |m.src| - m.pos < COPY_BUFFER_SIZE then |m.src| - m.pos else COPY_BUFFER_SIZE;
    ReadInput(m, COPY_BUFFER_SIZE);
    if k > 0 {
      WriteOutputFits(o, m.src[m.pos..m.pos + k]);
    }
  }

  /** Reading a memory input stream through the dispatch. */
  lemma ReadInput(m: MemIn, n: nat)
    requires m.Valid()
    ensures var k := if |m.src| - m.pos < n then |m.src| - m.pos else n;
            Read(Input(m), n) == ReadResult(k, Input(m.(pos := m.pos + k)), m.src[m.pos..m.pos + k])
  {
  }

  /** Writing bytes that fit to a memory output stream through the dispatch. */
  lemma WriteOutputFits(o: MemOut, data: seq<bv8>)
    requires o.Valid() && o.pos + |data| <= |o.dst|
    ensures Write(Output(o), data) == (|data|, Output(MemOut(Splice(o.dst, o.pos, data), o.pos + |data|)))
  {
    var wr := MemOutWrite(o, data);
    assert data[..|data|] == data;
    assert wr.1.dst == Splice(o.dst, o.pos, data);
  }

  /** Copying the next k bytes and then the rest after them is copying the
      whole rest. */
  lemma ChunkThenRest(m: MemIn, o: MemOut, k: nat)
    requires m.Valid() && o.Valid() && m.pos + k <= |m.src| && o.pos + (|m.src| - m.pos) <= |o.dst|
    ensures var o1 := MemOut(Splice(o.dst, o.pos, m.src[m.pos..m.pos + k]), o.pos + k);
            var m1 := m.(pos := m.pos + k);
            && o1.pos + (|m1.src| - m1.pos) == o.pos + (|m.src| - m.pos)
            && Splice(o1.dst, o1.pos, m1.src[m1.pos..]) == Splice(o.dst, o.pos, m.src[m.pos..])
  {
    var chunk, rest1 := m.src[m.pos..m.pos + k], m.src[m.pos + k..];
    assert m.src[m.pos..] == chunk + rest1;
    SpliceTwice(o.dst, o.pos, chunk, rest1);
    hide Splice;
  }

  /** The result the corrected copy reaches from `m` into `o`: the rest of
      the input stored at the output's position, both streams moved past it. */
  function CopiedRest(m: MemIn, o: MemOut): Option<(int, Stream, Stream)>
    requires m.Valid() && o.pos + (|m.src| - m.pos) <= |o.dst|
  {
    var rest := m.src[m.pos..];
    Some((0, Output(MemOut(Splice(o.dst, o.pos, rest), o.pos + |rest|)), Input(m.(pos := |m.src|))))
  }

  /** The corrected copy from a memory input stream into a memory output
      stream with room for the rest of the input stores exactly that rest at
      the output's position, leaves every other byte alone, and moves both
      streams to the end of what was copied. */
  lemma {:induction false} CopyExactMemory(m: MemIn, o: MemOut, fuel: nat)
    requires m.Valid() && o.Valid()
    requires o.pos + (|m.src| - m.pos) <= |o.dst|
    requires fuel > Chunks(|m.src| - m.pos)
    ensures var rest := m.src[m.pos..];
            CopyExact(Output(o), Input(m), fuel) ==
              Some((0, Output(MemOut(Splice(o.dst, o.pos, rest), o.pos + |rest|)), Input(m.(pos := |m.src|))))
    decreases fuel
  {
    hide CopyExact, Splice, Chunks;
    var k := if |m.src| - m.pos < COPY_BUFFER_SIZE then |m.src| - m.pos else COPY_BUFFER_SIZE;
    if k == 0 {
      CopyNothing(m, o, fuel);
    } else {
      ChunksLeft(|m.src| - m.pos);
      var m1, o1 := m.(pos := m.pos + k), MemOut(Splice(o.dst, o.pos, m.src[m.pos..m.pos + k]), o.pos + k);
      ChunkThenRest(m, o, k);
      CopyExactMemory(m1, o1, fuel - 1);
      CopyChunk(m, o, fuel, k);
    }
  }

  /** The base case of `CopyExactMemory`: with the input at its end the copy
      stops at once and changes nothing. */
  lemma CopyNothing(m: MemIn, o: MemOut, fuel: nat)
    requires m.Valid() && o.Valid() && fuel > 0 && m.pos == |m.src|
    ensures CopyExact(Output(o), Input(m), fuel) == CopiedRest(m, o)
  {
    CopyExactStep(m, o, fuel);
    SpliceNothing(o.dst, o.pos);
    assert m.src[m.pos..] == o.dst[o.pos..o.pos];
    assert m.(pos := |m.src|) == m;
  }

  /** The inductive step of `CopyExactMemory`: a first chunk of `k > 0`
      bytes, followed by a copy of the rest that reaches its result. */
  lemma CopyChunk(m: MemIn, o: MemOut, fuel: nat, k: nat)
    requires m.Valid() && o.Valid() && fuel > 0
    requires o.pos + (|m.src| - m.pos) <= |o.dst|
    requires k > 0 && k == if |m.src| - m.pos < COPY_BUFFER_SIZE then |m.src| - m.pos else COPY_BUFFER_SIZE
    requires var m1, o1 := m.(pos := m.pos + k), MemOut(Splice(o.dst, o.pos, m.src[m.pos..m.pos + k]), o.pos + k);
             o1.Valid() && o1.pos + (|m1.src| - m1.pos) == o.pos + (|m.src| - m.pos) &&
             CopyExact(Output(o1), Input(m1), fuel - 1) == CopiedRest(m1, o1) &&
             Splice(o1.dst, o1.pos, m1.src[m1.pos..]) == Splice(o.dst, o.pos, m.src[m.pos..])
    ensures CopyExact(Output(o), Input(m), fuel) == CopiedRest(m, o)
  {
    hide CopyExact, Splice, CopiedRest;
    var m1, o1 := m.(pos := m.pos + k), MemOut(Splice(o.dst, o.pos, m.src[m.pos..m.pos + k]), o.pos + k);
    SameRest(m, o, m1, o1);
    CopyExactStep(m, o, fuel);
  }

  /** Two copies that end with the same output bytes at the same position,
      from the same input, reach the same result. */
  lemma SameRest(m: MemIn, o: MemOut, m1: MemIn, o1: MemOut)
    requires m.Valid() && m1.Valid() && m1.src == m.src && |o1.dst| == |o.dst|
    requires o.pos + (|m.src| - m.pos) <= |o.dst|
    requires o1.pos + (|m1.src| - m1.pos) == o.pos + (|m.src| - m.pos)
    requires Splice(o1.dst, o1.pos, m1.src[m1.pos..]) == Splice(o.dst, o.pos, m.src[m.pos..])
    ensures CopiedRest(m1, o1) == CopiedRest(m, o)
  {
    hide Splice;
  }
}

=== FILE: streams.dfy ===
/**
 * The byte streams of the library: `DMemoryInputStream` over a caller's byte
 * array, `DMemoryOutputStream` into one, the bottomless `DNullStream`, and the
 * `DStream` base whose `read` and `write` are unsupported. `Stream` dispatches
 * `read`/`write` over these kinds, and `GetC`/`PutC` are `DStream::getc/putc`
 * built on top of that dispatch.
 */
module Streams {
  import opened Common
  import opened Arith

  /** `min(n, size - pos)`: what a memory stream transfers for a request of n. */
  function Clamp(pos: nat, size: nat, n: nat): (k: nat)
    requires pos <= size
    ensures k <= n && pos + k <= size
    ensures k == n || pos + k == size
  {
    if pos + n <= size then n else size - pos
  }

  // ---------------------------------------------------------------------------
  // DMemoryInputStream

  /** A memory input stream: the attached bytes (`m_src`, `m_size`) and the
      position. */
  datatype MemIn = MemIn(src: seq<bv8>, pos: nat)
  {
    predicate Valid() { pos <= |src| }
  }

  /** The constructor and `attach`: the new bytes, position 0. */
  function Attach(src: seq<bv8>): (s: MemIn)
    ensures s.Valid() && s.src == src && s.pos == 0
  {
    MemIn(src, 0)
  }

  /** `size()`: the length of the attached bytes, which bounds the position
      and is where a seek to the end by 0 lands. */
  function MemInSize(s: MemIn): (n: nat)
    ensures s.Valid() ==> s.pos <= n && MemInSeek(s, 0, SEEK_END).0 == n
  {
    |s.src|
  }

  /** What a `read` returns and leaves behind. */
  datatype ReadResult<S> = ReadResult(ret: int, stream: S, bytes: seq<bv8>)

  /** `read(dst, n)`: copies `min(n, size - pos)` bytes from the position and
      advances past them; at the end it copies nothing and returns 0. */
  function MemInRead(s: MemIn, n: nat): (r: ReadResult<MemIn>)
    requires s.Valid()
    ensures r.stream.Valid() && r.stream.src == s.src
    ensures 0 <= r.ret <= n && r.ret == |r.bytes| && r.stream.pos == s.pos + r.ret
    ensures r.ret == n || r.stream.pos == |s.src|
    ensures r.bytes == s.src[s.pos..s.pos + r.ret]
  {
    var k := Clamp(s.pos, |s.src|, n);
    ReadResult(k, s.(pos := s.pos + k), s.src[s.pos..s.pos + k])
  }

  /** Reading n1 bytes and then n2 more hands out the same bytes, and leaves the
      same stream, as one read of n1 + n2. */
  lemma MemInReadsConcat(s: MemIn, n1: nat, n2: nat)
    requires s.Valid()
    ensures var r1 := MemInRead(s, n1);
            var r2 := MemInRead(r1.stream, n2);
            var r := MemInRead(s, n1 + n2);
            r1.bytes + r2.bytes == r.bytes && r2.stream == r.stream && r1.ret + r2.ret == r.ret
  {
    var r1 := MemInRead(s, n1);
    var r2 := MemInRead(r1.stream, n2);
    assert s.src[s.pos..s.pos + r1.ret] + s.src[s.pos + r1.ret..s.pos + r1.ret + r2.ret]
        == s.src[s.pos..s.pos + r1.ret + r2.ret];
  }

  /** `write` on an input stream: -EACCES, nothing changes. */
  function MemInWrite(s: MemIn, data: seq<bv8>): (r: (int, MemIn))
    ensures r.0 == -EACCES && r.1 == s
  {
    (-EACCES, s)
  }

  /** `seek`: -1 for an unknown whence, -ERANGE for a target outside
      [0, size] with the position kept, otherwise the new position. */
  function MemInSeek(s: MemIn, offset: int, whence: int): (r: (int, MemIn))
    requires s.Valid()
    ensures r.1.Valid() && r.1.src == s.src
    ensures r.0 < 0 ==> r.1 == s
    ensures r.0 >= 0 ==> r.1.pos == r.0
    ensures r.0 == SeekReturn(Seek(s.pos, |s.src|, offset, whence))
  {
    match Seek(s.pos, |s.src|, offset, whence)
    case Moved(p) => (p, s.(pos := p))
    case o => (SeekReturn(o), s)
  }

  // ---------------------------------------------------------------------------
  // DMemoryOutputStream

  /** A memory output stream: the destination array (`m_dst`, `m_size`) and the
      position. */
  datatype MemOut = MemOut(dst: seq<bv8>, pos: nat)
  {
    predicate Valid() { pos <= |dst| }
  }

  /** The constructor and `attach`: the new array, position 0. */
  function AttachOut(dst: seq<bv8>): (s: MemOut)
    ensures s.Valid() && s.dst == dst && s.pos == 0
  {
    MemOut(dst, 0)
  }

  /** `size()`: the length of the attached array, which bounds the position
      and is where a seek to the end by 0 lands. */
  function MemOutSize(s: MemOut): (n: nat)
    ensures s.Valid() ==> s.pos <= n && MemOutSeek(s, 0, SEEK_END).0 == n
  {
    |s.dst|
  }

  /** `write(src, n)`: copies `min(n, size - pos)` bytes of `data` to the
      position and advances past them; the rest of the array is untouched. */
  function MemOutWrite(s: MemOut, data: seq<bv8>): (r: (int, MemOut))
    requires s.Valid()
    ensures r.1.Valid() && |r.1.dst| == |s.dst|
    ensures 0 <= r.0 <= |data| && r.1.pos == s.pos + r.0
    ensures r.0 == |data| || r.1.pos == |s.dst|
    ensures r.1.dst[s.pos..s.pos + r.0] == data[..r.0]
    ensures forall i :: 0 <= i < |s.dst| && !(s.pos <= i < s.pos + r.0) ==> r.1.dst[i] == s.dst[i]
  {
    var k := Clamp(s.pos, |s.dst|, |data|);
    var d := s.dst[..s.pos] + data[..k] + s.dst[s.pos + k..];
    assert d[s.pos..s.pos + k] == data[..k];
    (k, MemOut(d, s.pos + k))
  }

  /** A write is read back: an input stream attached to the written array and
      moved to the old position reads exactly the bytes the write accepted. */
  lemma MemOutWriteReadBack(s: MemOut, data: seq<bv8>)
    requires s.Valid()
    ensures var (k, s') := MemOutWrite(s, data);
            MemInRead(MemIn(s'.dst, s.pos), k).bytes == data[..k]
  {
  }

  /** Two writes in a row store their data back to back. */
  lemma MemOutWritesAppend(s: MemOut, a: seq<bv8>, b: seq<bv8>)
    requires s.Valid() && s.pos + |a| + |b| <= |s.dst|
    ensures var (k1, s1) := MemOutWrite(s, a);
            var (k2, s2) := MemOutWrite(s1, b);
            k1 == |a| && k2 == |b| && s2.pos == s.pos + |a| + |b| &&
            s2.dst[s.pos..s2.pos] == a + b
  {
    var (k1, s1) := MemOutWrite(s, a);
    var (k2, s2) := MemOutWrite(s1, b);
    assert a[..k1] == a && b[..k2] == b;
    assert s2.dst[s.pos..s1.pos] == s1.dst[s.pos..s1.pos];
    assert s2.dst[s.pos..s2.pos] == s2.dst[s.pos..s1.pos] + s2.dst[s1.pos..s2.pos];
  }

  /** `read` on an output stream: -EACCES. */
  function MemOutRead(s: MemOut, n: nat): (r: ReadResult<MemOut>)
    ensures r.ret == -EACCES && r.stream == s && r.bytes == []
  {
    ReadResult(-EACCES, s, [])
  }

  /** `seek`: the same rules as the input stream's. */
  function MemOutSeek(s: MemOut, offset: int, whence: int): (r: (int, MemOut))
    requires s.Valid()
    ensures r.1.Valid() && r.1.dst == s.dst
    ensures r.0 < 0 ==> r.1 == s
    ensures r.0 >= 0 ==> r.1.pos == r.0
    ensures r.0 == MemInSeek(MemIn(s.dst, s.pos), offset, whence).0
  {
    match Seek(s.pos, |s.dst|, offset, whence)
    case Moved(p) => (p, s.(pos := p))
    case o => (SeekReturn(o), s)
  }

  // ---------------------------------------------------------------------------
  // DNullStream

  /** The null stream's two counters (`m_totalWrite`, `m_totalRead`). */
  datatype NullStream = NullStream(totalWrite: nat, totalRead: nat)

  /** The constructor: both counters 0. */
  function NewNullStream(): (s: NullStream)
    ensures s.totalWrite == 0 && s.totalRead == 0
  {
    NullStream(0, 0)
  }

  /** `read(dst, n)`: n zero bytes, always all of them, counted. */
  function NullRead(s: NullStream, n: nat): (r: ReadResult<NullStream>)
    ensures r.ret == n && |r.bytes| == n && forall i :: 0 <= i < n ==> r.bytes[i] == 0
    ensures r.stream == s.(totalRead := s.totalRead + n)
  {
    ReadResult(n, s.(totalRead := s.totalRead + n), seq(n, _ => 0))
  }

  /** `write(src, n)`: accepts all n bytes and counts them. */
  function NullWrite(s: NullStream, data: seq<bv8>): (r: (int, NullStream))
    ensures r.0 == |data| && r.1 == s.(totalWrite := s.totalWrite + |data|)
  {
    (|data|, s.(totalWrite := s.totalWrite + |data|))
  }

  /** `seek` of the null stream: never fails, whatever the offset and whence,
      and lands where `tell` reports. */
  function NullSeek(s: NullStream, offset: int, whence: int): (r: int)
    ensures r >= 0 && r == NullTell(s)
  {
    0
  }

  /** `size` of the null stream: it holds nothing. */
  function NullSize(s: NullStream): (r: int)
    ensures r == 0
  {
    0
  }

  /** `tell` of the null stream: always at the end of its empty content. */
  function NullTell(s: NullStream): (r: int)
    ensures r == NullSize(s)
  {
    0
  }

  /** `close`: succeeds for every stream kind modelled here. */
  function Close(s: Stream): (r: int)
    ensures r == 0
  {
    0
  }

  /** After any reads and writes the counters hold the totals requested: a
      sequence of operations on a fresh null stream counts exactly the bytes
      asked for, and position queries report 0 throughout. */
  lemma {:induction false} NullCountsTotals(ops: seq<NullOp>)
    ensures var s := NullRun(NewNullStream(), ops);
            s.totalRead == ReadTotal(ops) && s.totalWrite == WriteTotal(ops) &&
            NullTell(s) == 0 && NullSize(s) == 0
    decreases |ops|
  {
    if ops != [] {
      NullCountsTotals(ops[..|ops| - 1]);
    }
  }

  /** An operation on a null stream: a read of n or a write of some bytes. */
  datatype NullOp = ReadOp(n: nat) | WriteOp(data: seq<bv8>)

  /** The null stream after performing `ops` in order. */
  function NullRun(s: NullStream, ops: seq<NullOp>): NullStream
    decreases |ops|
  {
    if ops == [] then s
    else
      var prev := NullRun(s, ops[..|ops| - 1]);
      match ops[|ops| - 1]
      case ReadOp(n) => NullRead(prev, n).stream
      case WriteOp(d) => NullWrite(prev, d).1
  }

  /** Bytes requested by the reads, and offered by the writes, among `ops`. */
  function ReadTotal(ops: seq<NullOp>): nat
    decreases |ops|
  {
    if ops == [] then 0
    else ReadTotal(ops[..|ops| - 1]) + (if ops[|ops| - 1].ReadOp? then ops[|ops| - 1].n else 0)
  }

  function WriteTotal(ops: seq<NullOp>): nat
    decreases |ops|
  {
    if ops == [] then 0
    else WriteTotal(ops[..|ops| - 1]) + (if ops[|ops| - 1].WriteOp? then |ops[|ops| - 1].data| else 0)
  }

  // ---------------------------------------------------------------------------
  // DStream and dispatch

  /** A stream of one of the modelled kinds; `Plain` is a bare `DStream`, whose
      `read` and `write` are the unsupported defaults. */
  datatype Stream =
    | Input(mi: MemIn)
    | Output(mo: MemOut)
    | Null(ns: NullStream)
    | Plain
  {
    predicate Valid()
    {
      match this
      case Input(m) => m.Valid()
      case Output(m) => m.Valid()
      case _ => true
    }
  }

  /** `read(buffer, n)` of whichever kind `s` is. On success the result counts
      the bytes delivered; a negative result delivers none. */
  function Read(s: Stream, n: nat): (r: ReadResult<Stream>)
    requires s.Valid()
    ensures r.stream.Valid()
    ensures r.ret <= n
    ensures r.ret >= 0 ==> |r.bytes| == r.ret
    ensures r.ret < 0 ==> r.bytes == [] && r.stream == s
    ensures s.Plain? ==> r.ret == -ENOSYS
  {
    match s
    case Input(m) =>
      var q := MemInRead(m, n);
      ReadResult(q.ret, Input(q.stream), q.bytes)
    case Output(m) =>
      var q := MemOutRead(m, n);
      ReadResult(q.ret, Output(q.stream), q.bytes)
    case Null(m) =>
      var q := NullRead(m, n);
      ReadResult(q.ret, Null(q.stream), q.bytes)
    case Plain => ReadResult(-ENOSYS, Plain, [])
  }

  /** `write(buffer, |data|)` of whichever kind `s` is. */
  function Write(s: Stream, data: seq<bv8>): (r: (int, Stream))
    requires s.Valid()
    ensures r.1.Valid()
    ensures r.0 <= |data|
    ensures r.0 < 0 ==> r.1 == s
    ensures s.Plain? ==> r.0 == -ENOSYS
  {
    match s
    case Input(m) => var q := MemInWrite(m, data); (q.0, Input(q.1))
    case Output(m) => var q := MemOutWrite(m, data); (q.0, Output(q.1))
    case Null(m) => var q := NullWrite(m, data); (q.0, Null(q.1))
    case Plain => (-ENOSYS, Plain)
  }

  /** What `getc`/`putc` return and leave behind. */
  datatype CharResult = CharResult(c: int, stream: Stream)

  /** `getc`: a one-byte read; the byte (0..255) when the read returned 1,
      otherwise EOF. */
  function GetC(s: Stream): (r: CharResult)
    requires s.Valid()
    ensures r.stream.Valid()
    ensures r.c == EOF || 0 <= r.c < 256
  {
    var q := Read(s, 1);
    if q.ret == 1 then CharResult(q.bytes[0] as int, q.stream) else CharResult(EOF, q.stream)
  }

  /** `getc` on a memory input stream hands out the byte at the position and
      moves past it, and gives EOF exactly at the end. */
  lemma GetCMemIn(m: MemIn)
    requires m.Valid()
    ensures m.pos < |m.src| ==> GetC(Input(m)) == CharResult(m.src[m.pos] as int, Input(m.(pos := m.pos + 1)))
    ensures m.pos == |m.src| <==> GetC(Input(m)).c == EOF
  {
  }

  /** The byte an `int` becomes when stored in a `uint8_t`: its value modulo 256. */
  function LowByte(c: int): (b: bv8)
    ensures b as int == c % 256
  {
    ByteOfSmall(c % 256);
    (c % 256) as bv8
  }

  /** `putc(c)`: writes the low byte of c; returns c itself (not the byte) when
      the write took one byte, otherwise EOF. */
  function PutC(s: Stream, c: int): (r: CharResult)
    requires s.Valid()
    ensures r.stream.Valid()
    ensures Write(s, [LowByte(c)]).0 == 1 ==> r.c == c
    ensures Write(s, [LowByte(c)]).0 != 1 ==> r.c == EOF
    ensures r.stream == Write(s, [LowByte(c)]).1
  {
    var q := Write(s, [LowByte(c)]);
    CharResult(if q.0 == 1 then c else EOF, q.1)
  }

  /** A character put into a memory output stream with room comes back from
      `getc` on the array at the same position as its low byte; `putc` itself
      returned the character unchanged, which differs from the stored byte for
      values outside 0..255. */
  lemma PutCGetCRoundTrip(m: MemOut, c: int)
    requires m.Valid() && m.pos < |m.dst|
    ensures PutC(Output(m), c).c == c
    ensures var s' := PutC(Output(m), c).stream;
            s'.Output? && GetC(Input(MemIn(s'.mo.dst, m.pos))).c == c % 256
  {
    var w := MemOutWrite(m, [LowByte(c)]);
    assert w.1.dst[m.pos] == LowByte(c);
  }

  /** `putc` of a full memory output stream fails with EOF and changes nothing. */
  lemma PutCFull(m: MemOut, c: int)
    requires m.Valid() && m.pos == |m.dst|
    ensures PutC(Output(m), c) == CharResult(EOF, Output(m))
  {
    var w := MemOutWrite(m, [LowByte(c)]);
    assert w.1.dst == m.dst;
  }
}
